=== FILE: README.md ===
# Clinical NER and entity-linking pipeline: a Dafny model of its core

This project models the deterministic core of a pipeline for Spanish clinical
named-entity recognition (NER) and entity linking (EL). The pipeline covers the
DisTEMIST, DrugTEMIST, SympTEMIST, MedProcNER and CANTEMIST corpora. It then
proves properties of the model. The modelled parts are:

- **the NER scoring engine** (`NerScoring`, `eval-libs/ner/utils.py`):
  - per document, gold annotations greedily consume the first remaining
    prediction with the same set of field values;
  - it counts true positives (TP), false positives (FP) and false negatives
    (FN), and micro-averages precision, recall and F1;
  - it counts near misses with the two-threshold offset test;
  - it builds the false-negative text frequency table and the rounded mean
    start offset.
- **prediction post-processing** (`NerPredict`, `scripts/ner/pipeline/ner_predict.py`):
  - label selection by corpus name and the filtering and shifting of raw
    token results;
  - the merging of sub-word tokens, BIO reassembly, the span filter against
    example spans, and the final sort.
- **the NER augmentation script's pure parts** (`AugmentNer`): the CoNLL
  sentence reader and writer, span re-basing, entity extraction and the
  `B-NFERMEDAD` tag fix.
- **the EL augmentation script** (`AugmentEl`):
  - the `code||a||b` pair file reader and writer;
  - order-preserving deduplication;
  - synonym replacement and the augmentation loop. The word-embedding model
    and the random index draw are parameters.
- **MultiCardioNER dataset assembly** (`MultiCardioner`):
  - CoNLL parsing;
  - the priority merges of parallel label streams;
  - example cutting at `'.'`, index-driven selection and `'.'` insertion;
  - per-dataset label filtering;
  - the empty-line rules of the two CoNLL writers.
- **SapBERT data preparation** (`SapbertParse`): the training-pair,
  test-file and dictionary builders, over sequences of lines.
- **SapBERT evaluation helpers** (`SapbertEval`): composite-code matching,
  the batch partition of the validation loss, and the accuracy ratio.
- **the CoNLL example generator** (`ConllLoader`) shared by the four dataset
  loading scripts. The `_generate_examples` method is textually the same in
  scripts/ner/conll-parse/multicardioner-parse/loading_scripts/combined-train-distemist-dev-ner.py
  (lines 87-114), .../loading_scripts/distemist-ner.py (lines 80-107),
  .../loading_scripts/drugtemist-ner.py (lines 80-107) and
  scripts/ner/conll-parse/symptemist-parse/symptemist_loading_script.py
  (lines 83-110). It is modelled once, and the table cites the first copy.

Shared modules:

- `Wrappers`: `Option` and `Result`. A raised exception is a `Failure`.
- `PyStr`: Python string semantics (`strip`, `split`, `join`, `lower`, `int`,
  `str`, slicing, reading a file as lines).
- `Seqs`: deduplication, subsequences, `list.remove`, flattening.
- `Sorting`: a stable insertion sort equivalent to Python's `sorted`.
- `CodeMaps`: insertion-ordered dictionaries from a code to a list.

Python dictionaries are modelled as association sequences in insertion order.
Files are modelled as the sequence of lines Python's line iteration yields.
Scores are exact `real`s.

## Model

| member | source | states |
|---|---|---|
| NerScoring.MatchIsEquivalence | eval-libs/ner/utils.py:79 | Annotations match when their sets of field values are equal. Matching is reflexive, symmetric and transitive, and does not depend on the order of fields. |
| NerScoring.InsideThresholdCases | eval-libs/ner/utils.py:10-16 | A near miss has exactly one boundary off by less than 20, or both boundaries off and each by less than 5. An identical span is never a near miss. |
| NerScoring.InsideThresholdSymmetricMonotone | eval-libs/ner/utils.py:10-16 | Swapping gold and prediction does not change the verdict. Larger thresholds accept every pair smaller ones accept. |
| NerScoring.FirstMatch | eval-libs/ner/utils.py:76-80 | The scan stops at the first prediction whose field set equals the gold annotation's. Nothing earlier matches. None means no prediction matches. |
| NerScoring.MatchDocumentFacts | eval-libs/ner/utils.py:71-97 | Per document: TP+FN = number of gold annotations and TP+FP = number of predictions. TP and FP together are a permutation of the predictions. FN is drawn from the gold annotations. No FN matches any FP, so the greedy pass leaves no available match behind. |
| NerScoring.ConsumesMatchedPrediction | eval-libs/ner/utils.py:80-84 | `remove` deletes exactly the prediction the scan stopped at, so a consumed prediction cannot be matched again. |
| NerScoring.MatchDocumentWithoutPredictions | eval-libs/ner/utils.py:67-72 | A gold document with no prediction group is scored against []. All its annotations are FN, TP and FP are empty, and no near miss is counted. |
| NerScoring.MissingPredictionsScoreZero | eval-libs/ner/utils.py:67-72 | Such a document scores P = R = F = 0 and has FN = its annotation count. |
| NerScoring.ThresholdsOnlyAffectNearMisses | eval-libs/ner/utils.py:74-90 | Over the matching loop, the thresholds change only the near-miss count, and larger thresholds never count fewer. |
| NerScoring.MatchDocumentIgnoresThresholds | eval-libs/ner/utils.py:74-90 | TP, FP and FN of a document do not depend on the near-miss thresholds. |
| NerScoring.RatioBounds | eval-libs/ner/utils.py:99-106 | A count over a larger count lies in [0,1]. It is 0 exactly when the count is 0 (including a zero denominator) and 1 when the two are equal and positive. |
| NerScoring.FScoreClosedForm | eval-libs/ner/utils.py:99-110 | With at least one TP, F1 = 2TP / (2TP + FP + FN). |
| NerScoring.FScoreBetween | eval-libs/ner/utils.py:107-110 | For positive precision and recall, F1 lies between them. |
| NerScoring.ScoreFacts | eval-libs/ner/utils.py:99-110 | P, R and F lie in [0,1]. F is 0 exactly when TP = 0, and then P = R = 0. A perfect document scores 1, 1, 1. |
| NerScoring.MetricsOf | eval-libs/ner/utils.py:121-132 | The overall scores from summed counts are bounded in [0,1], zero iff TP = 0, and equal to the closed form otherwise. |
| NerScoring.RoundHalfEven | eval-libs/ner/utils.py:35 | Python `round` of an exact quotient: within half a unit, and even on a tie. |
| NerScoring.RoundHalfEvenUnique | eval-libs/ner/utils.py:35 | Those two properties determine the rounded value uniquely. |
| NerScoring.AverageStart | eval-libs/ner/utils.py:31-36 | 0 for no data. Otherwise the result is within half a unit of the mean start offset. |
| NerScoring.AverageStartConstant | eval-libs/ner/utils.py:31-36 | When every start offset is s, the average start is s. |
| NerScoring.BumpFacts | eval-libs/ner/utils.py:21-25 | Incrementing a text's count keeps keys distinct. It appends an unseen text at the end, adds exactly one to the total, and changes only that text's count. |
| NerScoring.TallyFacts | eval-libs/ner/utils.py:19-25 | The tally lists each text once in first-seen order with its number of occurrences. The counts sum to the number of rows. |
| NerScoring.FirstOccurrencesRanked | eval-libs/ner/utils.py:19-25 | The tally's keys appear in increasing order of first occurrence. |
| NerScoring.WordFrequencyFacts | eval-libs/ner/utils.py:19-28 | `word_frequency` is a permutation of the tally whose counts sum to the row count. Counts are non-increasing, and equal counts keep first-seen order. |
| NerScoring.Put | eval-libs/ner/utils.py:52-57 | Assigning a document to a filename overwrites it in place or appends a new key. Every other key keeps its document. |
| NerScoring.IndexDocsFacts | eval-libs/ner/utils.py:52-57 | The document index has one key per distinct filename in first-seen order, mapped to the last document with that filename. |
| NerScoring.TotalsBalance | eval-libs/ner/utils.py:71-116 | Summed over the corpus, TP+FN = total gold annotations and TP+FP = total predictions. |
| NerScoring.CalculateFScoreWith | eval-libs/ner/utils.py:39-152 | The report's TP, FP and FN counts are the sums of the per-document matching results, taken over the gold document ids in first-seen order, each against the last prediction group with its id (or none). TP+FN = gold total and TP+FP = prediction total, and the entity lists have those counts. The overall scores are the metrics of the summed counts. There is one per-document score per gold id, the metrics of that document's counts. `fn_almost_tp` is the sum of the per-document near-miss counts. The overall scores lie in [0,1]. The TP, FP and FN entity lists are the concatenations of the per-document lists. `fn_freq` is the word frequency of the FN list. The start-offset averages are those of all predictions (TP then FP) and of the FN list. The per-document TP list pairs each gold id whose document has a true positive with that document's TP entities; the FP and FN lists pair every gold id with its document's lists. |
| NerScoring.IndexEntry | eval-libs/ner/utils.py:52-57 | The i-th indexed gold document is the last gold group with the i-th first-seen id, and the prediction looked up for that id is the last prediction group with it. |
| NerScoring.MatchAllIsDocResults | eval-libs/ner/utils.py:63-72 | Matching over the indexed documents is the per-gold-id matching of each id's gold group against its prediction group. |
| NerScoring.NearMissTotalIsSum | eval-libs/ner/utils.py:74-78 | The total near-miss count is the sum of the per-document near-miss counts. |
| NerScoring.MatchFromNearMissBound | eval-libs/ner/utils.py:74-90 | Matching the remaining gold annotations adds at most one near miss per pair of a remaining gold annotation and a remaining prediction. |
| NerScoring.NearMissesAtMostPairs | eval-libs/ner/utils.py:74-90 | A document has at most |gold| × |predictions| near misses. |
| NerScoring.ReportIgnoresThresholds | eval-libs/ner/utils.py:76-79 | Changing the near-miss thresholds changes `fn_almost_tp` and nothing else in the report. |
| NerScoring.MatchAllCongruent | eval-libs/ner/utils.py:63-72 | Only the prediction groups of gold filenames influence the counts. |
| NerScoring.UnmatchedPredictionGroupIgnored | eval-libs/ner/utils.py:63-72 | Adding a prediction group whose filename has no gold group leaves the whole report unchanged. |
| NerPredict.GetLabels | scripts/ner/pipeline/ner_predict.py:19-32 | Succeeds iff the lower-cased argument contains one of the four corpus names, and raises otherwise. The first name found, in the order distemist, drugtemist, cantemist, symptemist, decides the pair: ENFERMEDAD, FARMACO, MORFOLOGIA_NEOPLASIA or SINTOMA respectively. |
| NerPredict.GetLabelsPair | scripts/ner/pipeline/ner_predict.py:19-32 | Every returned label list is the B-/I- pair of one entity type. |
| NerPredict.KeepLabelled | scripts/ner/pipeline/ner_predict.py:38-40 | Keeps exactly the results whose entity is a wanted label, in input order (a subsequence). |
| NerPredict.ProcessPredictions | scripts/ner/pipeline/ner_predict.py:36-47 | One output per kept result. The word is the text between the pre-shift offsets, the shift moves start and end together (length preserved), and the filename is set. |
| NerPredict.MergeFromFacts | scripts/ner/pipeline/ner_predict.py:96-114 | The merge loop keeps the first record's start, file and label. It ends at the last row's end, concatenates all words without separators, and leaves no two consecutive records mergeable. |
| NerPredict.CombineSplitEntities | scripts/ner/pipeline/ner_predict.py:89-119 | Fails only on empty input. Cut the rows before every row that does not continue its predecessor (same filename, start equal to the previous end). The k-th output record is then the k-th chain's first row, with the end of the chain's last row and the concatenation of the chain's words. The output is never longer than the input and has no two consecutive mergeable records. |
| NerPredict.ChainsPartition | scripts/ner/pipeline/ner_predict.py:97-113 | The chains of a row list concatenate back to the rows. Every chain is non-empty, each row inside a chain continues its predecessor, and the last row of a chain is never continued by the first row of the next. |
| NerPredict.MergeFromChains | scripts/ner/pipeline/ner_predict.py:97-113 | From an open record that has absorbed rows lo..i, the rest of the loop emits that record extended to the end of its chain, then one merged record per later chain. |
| NerPredict.MergeSplitChains | scripts/ner/pipeline/ner_predict.py:96-116 | Started on the first row, the merge loop emits exactly one merged record per chain, in order. |
| NerPredict.CombineSplitCountsBreaks | scripts/ner/pipeline/ner_predict.py:96-114 | The number of records is one plus the number of rows that do not continue their predecessor (other file, or a gap). |
| NerPredict.BioFromFacts | scripts/ner/pipeline/ner_predict.py:56-84 | From any loop state, the loop fails iff no entity is open and some I- entry precedes every B- entry. Otherwise it emits the open entity and then one entity per B- entry, each starting at its B- entry's start. |
| NerPredict.CombineBioFacts | scripts/ner/pipeline/ner_predict.py:51-84 | `combine_BIO_entities` fails iff an I- entry comes before any B- entry. Otherwise it emits exactly one entity per B- entry, in order. Each entity covers the B- entry and the entries up to the next B- entry: its start is the B- entry's start; its end, label (prefix cut) and file are those of the run's last B-/I- entry; its text is the run's tagged words, joined directly where one starts at the previous one's end and by a space otherwise, then stripped. |
| NerPredict.CombineBioRuns | scripts/ner/pipeline/ner_predict.py:51-84 | A successful merge returns exactly the run-based entity list: one entity per B- entry and the B-/I- entries after it. |
| NerPredict.RunsFromB | scripts/ner/pipeline/ner_predict.py:56-84 | From a B- entry on, the loop emits the open entity (if any) followed by the run-based entities from that B- entry. |
| NerPredict.RunAbsorbed | scripts/ner/pipeline/ner_predict.py:67-80 | Entries after a B- entry up to the next B- entry only grow the open entity, which then holds the run's end, text, label and file. |
| NerPredict.OrphanIShift | scripts/ner/pipeline/ner_predict.py:56-74 | An untagged entry at the front neither creates nor removes an orphan I- entry. |
| NerPredict.BioIgnoresUntagged | scripts/ner/pipeline/ner_predict.py:56-74 | Entries with neither a B- nor an I- prefix take no part: removing them leaves the result unchanged. |
| NerPredict.CountInsidePositive | scripts/ner/pipeline/ner_predict.py:205-208 | A result is appended at least once iff some example span of its file strictly contains it. |
| NerPredict.FilterBySpans | scripts/ner/pipeline/ner_predict.py:201-209 | Succeeds iff every result's file (minus `.txt`) has example spans. The kept results are exactly those strictly inside some span of their file. |
| NerPredict.FilterBySpansCopies | scripts/ner/pipeline/ner_predict.py:201-209 | The filter's output lists the results in their order, each repeated once per example span of its file that strictly contains it. |
| NerPredict.KeyLessIsStrictWeak | scripts/ner/pipeline/ner_predict.py:212 | The (filename, start) key order is a strict weak order. |
| NerPredict.SortResults | scripts/ner/pipeline/ner_predict.py:212 | The sorted list is a permutation of the input, ordered by (filename, start). |
| NerPredict.SortResultsStable | scripts/ner/pipeline/ner_predict.py:212 | Results with equal keys keep their input order, as Python's stable sort promises. |
| NerPredict.PostProcess | scripts/ner/pipeline/ner_predict.py:198-212 | The merges run in `main`'s order (`combine_split_entities`, then `combine_BIO_entities`), then the optional span filter, then the sort. The output is sorted, and an empty result list fails in `combine_split_entities`. |
| AugmentNer.Sentences | scripts/data-aug/augment/ner/augment_ner_data.py:67-80 | No sentence is empty. Read in order, the sentences hold exactly the non-blank lines' tokens, so a final sentence without a closing blank line is kept. |
| AugmentNer.LineReadsBack | scripts/data-aug/augment/ner/augment_ner_data.py:73-86 | A written token line reads back as the same fields when the fields carry no tab, newline or edge whitespace. |
| AugmentNer.SaveLoadRoundTrip | scripts/data-aug/augment/ner/augment_ner_data.py:67-88 | `load_data` inverts `save_data` for non-empty sentences of clean fields. |
| AugmentNer.ParseShowSpan | scripts/data-aug/augment/ner/augment_ner_data.py:104-110 | A written `start_end` span parses back to the same two integers. |
| AugmentNer.ParseWriteToken | scripts/data-aug/augment/ner/augment_ner_data.py:104-111 | A re-based token unpacks back into the same word, offsets, filename and tag. |
| AugmentNer.FixTokensShift | scripts/data-aug/augment/ner/augment_ner_data.py:100-112 | Each token moves back by the accumulated slack of the tokens before it. Its new end is new start + length of its word. Word, file and tag are unchanged and the token count is kept. |
| AugmentNer.FixTokensFirstAndConsistent | scripts/data-aug/augment/ner/augment_ner_data.py:100-112 | The offset restarts per sentence, so the first token keeps its start. A sentence whose spans already match their words is unchanged. |
| AugmentNer.FixSentence | scripts/data-aug/augment/ner/augment_ner_data.py:100-112 | Fails iff some token does not unpack into word, file, span and tag. Otherwise the token count is kept. |
| AugmentNer.FixSentenceReadsBack | scripts/data-aug/augment/ner/augment_ner_data.py:100-112 | The rewritten sentence unpacks to the re-based tokens of the original. |
| AugmentNer.FixEach | scripts/data-aug/augment/ner/augment_ner_data.py:98-113 | `fix_spans` fails iff some sentence does not unpack. Otherwise it fixes every sentence and keeps their number and order. |
| AugmentNer.FixSpansReadBack | scripts/data-aug/augment/ner/augment_ner_data.py:98-113 | Over the augmented dictionary, each output sentence unpacks to the re-based tokens of the corresponding input sentence. |
| AugmentNer.GetEntitiesFromSentence | scripts/data-aug/augment/ner/augment_ner_data.py:189-211 | Succeeds iff every row has four fields. The result is then exactly the run-based entity list: one entity per B- token or I- token after an untagged token, holding its word and the words of the I- tokens right after it. Its index is the position of the B- token that closes it, else its own position when a B- token opened it after an untagged token, else -1. Hence the words, in order, are exactly the B-/I- tokens' words, and no entity is empty. |
| AugmentNer.ExtractFromClosed | scripts/data-aug/augment/ner/augment_ner_data.py:193-211 | With no entity open, the loop appends the run-based entities from the current token on. |
| AugmentNer.ExtractFromOpen | scripts/data-aug/augment/ner/augment_ner_data.py:193-211 | With an entity open over a B-/I- run so far, the loop closes it at the run's end with the run's words and index and then appends the run-based entities after it. |
| AugmentNer.ClosingBReportsItsIndex | scripts/data-aug/augment/ner/augment_ner_data.py:196-200 | When a B- token closes an open entity, the closed entity carries the new token's index, and the new entity later carries -1. |
| AugmentNer.FixBnfermedadBug | scripts/data-aug/augment/ner/augment_ner_data.py:230-235 | Fails iff some token has no tag field. Otherwise only tags equal to `B-NFERMEDAD` change, to `I-ENFERMEDAD`, and every other field and token is unchanged. |
| AugmentNer.FixBnfermedadIdempotent | scripts/data-aug/augment/ner/augment_ner_data.py:230-235 | Applying the tag fix twice equals applying it once. |
| Seqs.DedupFacts | scripts/data-aug/augment/el/augment_el_data.py:59-66 | `remove_duplicates_and_preserve_order` returns a duplicate-free subsequence of its input with the same elements, and is idempotent. |
| Seqs.DedupIsFirstOccurrences | scripts/data-aug/augment/el/augment_el_data.py:59-66 | Deduplication keeps exactly the first occurrences, in order. |
| AugmentEl.GroupKeys | scripts/data-aug/augment/el/augment_el_data.py:36-42 | The loaded dictionary has one key per code, in first-seen order. |
| AugmentEl.GroupGet | scripts/data-aug/augment/el/augment_el_data.py:36-42 | Each code's list is entity1 then entity2 of each of its lines, in file order. |
| AugmentEl.LoadData | scripts/data-aug/augment/el/augment_el_data.py:33-44 | Succeeds iff every stripped line splits on `\|\|` into exactly three parts. The keys are the codes in first-seen order, and each code's list is the deduplicated list of its entities. |
| AugmentEl.PairsOf | scripts/data-aug/augment/el/augment_el_data.py:49-52 | A code with n entities yields (n-1) + (n-2) + … + 0 rows (`PairsOffset(n, n)`), all of that code and its entities. |
| AugmentEl.PairsOfCount | scripts/data-aug/augment/el/augment_el_data.py:49-52 | A code with n entities yields n(n-1)/2 rows. |
| AugmentEl.PairsOffsetClosed | scripts/data-aug/augment/el/augment_el_data.py:49-51 | The entities before the i-th write i(2n-i-1)/2 rows. |
| AugmentEl.PairsOfOrder | scripts/data-aug/augment/el/augment_el_data.py:49-52 | The rows are written i-major: the pair (ei, ej), i < j, is row `PairsOffset(n, i) + (j - i - 1)`, after the n-1, n-2, … rows of the entities before ei. |
| AugmentEl.PairsOfExact | scripts/data-aug/augment/el/augment_el_data.py:49-52 | The rows are exactly (ei, ej) with i < j. |
| AugmentEl.SaveDataReadsBack | scripts/data-aug/augment/el/augment_el_data.py:33-52 | The written file's lines all parse back to the written rows. |
| AugmentEl.SaveLoadRoundTrip | scripts/data-aug/augment/el/augment_el_data.py:33-52 | Loading the saved file gives back the dictionary restricted to codes with at least two entities, for duplicate-free lists of clean strings. |
| AugmentEl.StructureTable | scripts/data-aug/augment/el/augment_el_data.py:11-17 | There is a structure-word list exactly for es, en, fr, it and pt. Any other language raises a KeyError. |
| AugmentEl.SimilarWords | scripts/data-aug/augment/el/augment_el_data.py:76-81 | The similar words are exactly the top-5 neighbours whose similarity exceeds the threshold. |
| AugmentEl.Candidates | scripts/data-aug/augment/el/augment_el_data.py:95-101 | The indices the random draw can accept are exactly the not-yet-replaced positions of non-structure words. |
| AugmentEl.ReplaceIn | scripts/data-aug/augment/el/augment_el_data.py:84-106 | If every not-yet-replaced word is a structure word, the result is [] with no index recorded. Otherwise exactly one fresh non-structure index is appended, and the output is the duplicate-free list of substitutions. An unknown language fails whenever a word is still available. |
| AugmentEl.Substitutions | scripts/data-aug/augment/el/augment_el_data.py:102-106 | The new entities are exactly the entity with the drawn word replaced by each similar word, without duplicates. |
| AugmentEl.EveryCandidateReachable | scripts/data-aug/augment/el/augment_el_data.py:95-101 | Every candidate index is chosen by some outcome of the random draw. |
| AugmentEl.AddNew | scripts/data-aug/augment/el/augment_el_data.py:119-123 | New entities are appended after the existing ones, skipping those already present. The log grows by one line per addition, and distinctness is kept. |
| AugmentEl.RoundLimit | scripts/data-aug/augment/el/augment_el_data.py:116-118 | An entity gets at most min(augment_factor, number of words) rounds, and at least one when the factor is positive. |
| AugmentEl.Rounds | scripts/data-aug/augment/el/augment_el_data.py:116-123 | The rounds of one entity only extend the code's list, keeping it duplicate-free and logging one line per addition. Every appended entity is the entity's words with one word swapped for one of its similar words, and the log line beside it is `code: entity -> new`. With an unknown language the rounds fail iff a round runs while a word is still available. Nothing is dropped: the list's elements afterwards are exactly its elements before plus every replacement the rounds returned (`RoundsNews`), since each one not already present is appended. |
| AugmentEl.Entities | scripts/data-aug/augment/el/augment_el_data.py:113-123 | The loop over a code's entities only extends its list. Every appended entity is a variant of one of the code's entities (one word swapped for a similar word), and its log line names that entity and the variant. With an unknown language it fails iff a round runs for an entity with a word. The list's elements afterwards are exactly its elements before plus every replacement of every entity's rounds (`EntitiesNews`). |
| AugmentEl.RoundsReplaced | scripts/data-aug/augment/el/augment_el_data.py:116-120 | The replaced-index list only grows and stays duplicate-free. It gains at most one index per round, each a position of the entity's words. |
| AugmentEl.AugmentDataWith | scripts/data-aug/augment/el/augment_el_data.py:109-125 | Keeps the codes in order and each code's original entities as a prefix. A duplicate-free list stays duplicate-free, and the log has one line per added entity. The log is, code by code and in order, the lines of the entities appended to that code. Each line sits beside its entity, which is a variant of one of the code's original entities, and names that entity and the variant. Completeness: each code's output holds exactly its original entities and every replacement its rounds returned (`AddsAll` against `AllNews`). |
| AugmentEl.LogsVariantsIn | scripts/data-aug/augment/el/augment_el_data.py:109-125 | Every entity added to any code is a variant of one of that code's original entities, and the log holds the line `code: entity -> variant` for it. |
| AugmentEl.AugmentData | scripts/data-aug/augment/el/augment_el_data.py:109-125 | With one of the five tabled languages the call succeeds. The augmented dictionary and the log keep the per-code variant relation above, and each code's output holds exactly its original entities and every replacement its rounds returned. |
| AugmentEl.AllNewsAt | scripts/data-aug/augment/el/augment_el_data.py:111-123 | The replacements listed for the k-th code are those of the loop over that code's own entities. |
| AugmentEl.AugmentDataFails | scripts/data-aug/augment/el/augment_el_data.py:109-125 | With an unknown language, augmentation fails iff the factor is positive and some entity has a word. |
| AugmentEl.EnAsWrittenMissesWith | scripts/data-aug/augment/el/augment_el_data.py:13 | As written, the English list contains `whichwith` and neither `which` nor `with`. |
| AugmentEl.EnHasWith | scripts/data-aug/augment/el/augment_el_data.py:13 | The corrected English list has `which` and `with` in place of `whichwith`. |
| AugmentEl.WithReplacedAsWritten | scripts/data-aug/augment/el/augment_el_data.py:84-106 | With the list as written, the entity `with` gets its only word replaced by synonyms. |
| AugmentEl.WithKeptCorrected | scripts/data-aug/augment/el/augment_el_data.py:84-106 | With the corrected list, `with` is a structure word and yields no new entity. |
| MultiCardioner.ParseConllFile | scripts/ner/conll-parse/multicardioner-parse/multicardioner_to_conll_parse.py:323-332 | Succeeds iff every line other than `\n` has exactly four tab fields. The result is those lines' tuples in order, with the label's `\n` stripped. |
| MultiCardioner.TokLineReads | scripts/ner/conll-parse/multicardioner-parse/multicardioner_to_conll_parse.py:327-331 | A written tuple line reads back as the same tuple. |
| MultiCardioner.WriteParseRoundTrip | scripts/ner/conll-parse/multicardioner-parse/multicardioner_to_conll_parse.py:323-332 | Parsing a written file gives back the tuples, wherever the empty lines were placed, for tuples whose fields hold no tab, `\n` or `\r`. |
| MultiCardioner.WriteFileRoundTrip | scripts/ner/conll-parse/multicardioner-parse/multicardioner_to_conll_parse.py:492-498 | `parse_conll_file` inverts `write_files` for tuples whose fields hold no tab, `\n` or `\r`. |
| MultiCardioner.AlignedBlanks | scripts/ner/conll-parse/multicardioner-parse/multicardioner_to_conll_parse.py:514-530 | A per-dataset file with the combined file's words gets its empty lines at exactly the combined file's positions. |
| MultiCardioner.TrainLabel | scripts/ner/conll-parse/multicardioner-parse/multicardioner_to_conll_parse.py:343-362 | Priority is drugtemist, then distemist, then the non-O one of symptemist and medprocner. When both of those are non-O, the result is one of the two. The label is O iff all four are O. |
| MultiCardioner.CombineTraining | scripts/ner/conll-parse/multicardioner-parse/multicardioner_to_conll_parse.py:339-364 | The output length is the shortest input's. Word, file and span come from distemist, and the label is the merged label. |
| MultiCardioner.EitherChoice | scripts/ner/conll-parse/multicardioner-parse/multicardioner_to_conll_parse.py:355-357 | Both outcomes of the random choice are possible. |
| MultiCardioner.DevLabel | scripts/ner/conll-parse/multicardioner-parse/multicardioner_to_conll_parse.py:377-381 | drugtemist's label if not O, else distemist's. The result is O iff both are O. |
| MultiCardioner.CombineValidation | scripts/ner/conll-parse/multicardioner-parse/multicardioner_to_conll_parse.py:371-385 | The output length is min of the two inputs. Word, file and span come from distemist, and the label is the merged label. |
| MultiCardioner.DotEnd | scripts/ner/conll-parse/multicardioner-parse/multicardioner_to_conll_parse.py:395-403 | The position just after the last `'.'`: no `'.'` follows it. |
| MultiCardioner.GetExamples | scripts/ner/conll-parse/multicardioner-parse/multicardioner_to_conll_parse.py:395-403 | Every example ends with its only `'.'`. Their concatenation is the input up to and including the last `'.'`, so trailing tuples are dropped. |
| MultiCardioner.PyIndex | scripts/ner/conll-parse/multicardioner-parse/multicardioner_to_conll_parse.py:431-434 | Python list indexing: defined iff -n <= i < n. A negative index counts from the end. |
| MultiCardioner.Select | scripts/ner/conll-parse/multicardioner-parse/multicardioner_to_conll_parse.py:431-434 | Succeeds iff every index is valid. The selected examples are those at the given indices, in index order. |
| MultiCardioner.OppositeValues | scripts/ner/conll-parse/multicardioner-parse/multicardioner_to_conll_parse.py:418-421 | Exactly the numbers below the threshold that are not in the list, in increasing order. |
| MultiCardioner.OppositeValuesDistinct | scripts/ner/conll-parse/multicardioner-parse/multicardioner_to_conll_parse.py:418-421 | The complement has no duplicates. |
| MultiCardioner.InsertFromFails | scripts/ner/conll-parse/multicardioner-parse/multicardioner_to_conll_parse.py:443-452 | The insertion loop fails iff some file boundary falls on a line whose span has no integer end. |
| MultiCardioner.InsertFromExpands | scripts/ner/conll-parse/multicardioner-parse/multicardioner_to_conll_parse.py:443-452 | From any position, the insertion loop appends exactly the expansions of the remaining lines: each line, plus its `'.'` line where one is missing. |
| MultiCardioner.InsertDots | scripts/ner/conll-parse/multicardioner-parse/multicardioner_to_conll_parse.py:443-467 | Fails iff a boundary line's span has no integer end. Otherwise the output is each input line in order, followed, where it is not a `'.'` and the next line belongs to another file, by a `'.'` line of the same file labelled O whose span is `e_e+1` for the line's end `e`. Afterwards every line followed by a line of another file is a `'.'`. |
| MultiCardioner.InsertDotsIdempotent | scripts/ner/conll-parse/multicardioner-parse/multicardioner_to_conll_parse.py:443-452 | Inserting the missing `'.'` twice changes nothing more. |
| MultiCardioner.Relabel | scripts/ner/conll-parse/multicardioner-parse/multicardioner_to_conll_parse.py:458-461 | SINTOMA and PROCEDIMIENTO B-/I- labels become O and nothing else changes. |
| MultiCardioner.Split8020 | scripts/ner/conll-parse/multicardioner-parse/multicardioner_to_conll_parse.py:391-467 | Succeeds iff every sampled index is a valid example index and every file boundary of the selected training and validation lines has a span with an integer end. The outputs are then exactly the dot-expanded training selection and the dot-expanded, relabelled validation selection. Both have no missing `'.'` at a file change, and the validation output carries no SINTOMA or PROCEDIMIENTO label. |
| MultiCardioner.Split8020Stable | scripts/ner/conll-parse/multicardioner-parse/multicardioner_to_conll_parse.py:391-467 | Running the `'.'` insertion again on either output changes nothing, and relabelling the validation output again changes nothing. |
| MultiCardioner.FilterLabels | scripts/ner/conll-parse/multicardioner-parse/multicardioner_to_conll_parse.py:474-488 | Same length, with word, file and span unchanged. A label is kept iff it is in the dataset's list, else it becomes O. |
| MultiCardioner.FilterLabelsIdempotent | scripts/ner/conll-parse/multicardioner-parse/multicardioner_to_conll_parse.py:474-488 | Filtering twice equals filtering once, and every foreign label is cleared. |
| MultiCardioner.FilteredFilesAligned | scripts/ner/conll-parse/multicardioner-parse/multicardioner_to_conll_parse.py:514-530 | The distemist and drugtemist files get empty lines at exactly the combined file's positions. |
| SapbertParse.GroupEntriesKeys | scripts/el/sapbert/symptemist-parse/sapbert_symptemist_parse.py:48-51 | The code groups appear in first-seen order. |
| SapbertParse.GroupEntriesGet | scripts/el/sapbert/symptemist-parse/sapbert_symptemist_parse.py:48-51 | Each code's group holds its entities in file order. |
| SapbertParse.BuildTrainingFile | scripts/el/sapbert/symptemist-parse/sapbert_symptemist_parse.py:25-66 | Succeeds iff every line has the code and entity fields. The simple file has one `code\|\|entity` line per non-header line, in order, keeping duplicates and NO_CODE. The groups hold each code's distinct entities, and the pair file is built from the groups. |
| SapbertParse.PairRowsFor | scripts/el/sapbert/symptemist-parse/sapbert_symptemist_parse.py:54-61 | The pair rows of a code are the pairs of its group. NO_CODE has none. |
| SapbertParse.PairsOfDistinct | scripts/el/sapbert/symptemist-parse/sapbert_symptemist_parse.py:54-61 | Each pair of a duplicate-free group joins two different members of the group. |
| SapbertParse.PairsOfCover | scripts/el/sapbert/symptemist-parse/sapbert_symptemist_parse.py:54-61 | Every two different members of a group appear together in some pair. |
| SapbertParse.TrainingPairs | scripts/el/sapbert/symptemist-parse/sapbert_symptemist_parse.py:48-61 | A code other than NO_CODE with n distinct entities yields exactly n(n-1)/2 pair lines. Each pair joins two different entities of that code, and every two different entities are paired. |
| SapbertParse.SampleSize | scripts/el/sapbert/symptemist-parse/sapbert_symptemist_parse.py:29-34 | `int(n*0.8)` is the largest k with 5k <= 4n. |
| SapbertParse.BuildTestFile | scripts/el/sapbert/symptemist-parse/sapbert_symptemist_parse.py:69-111 | Succeeds iff every line, the header included, has ten tab fields (the fields are unpacked before the header test). Each test row becomes one `code\|\|entity` line with the entity's case kept, and the code set is exactly the codes seen. |
| SapbertParse.ValidationLines | scripts/el/sapbert/symptemist-parse/sapbert_symptemist_parse.py:73-79 | The held-out lines are a subsequence of the file in which every line equal to a sampled one occurs 0 times and every other line occurs as often as in the file, so they are exactly the unsampled lines in file order. |
| SapbertParse.KeepTestLines | scripts/el/sapbert/symptemist-parse/sapbert_symptemist_parse.py:120-124 | The result is a subsequence of the lines in which a line whose code is a test code occurs as often as in the input and any other line not at all. |
| SapbertParse.DictionariesNotSpanish | scripts/el/sapbert/symptemist-parse/sapbert_symptemist_parse.py:114-124 | Succeeds iff every line splits into two pieces at `\|\|`. The complete file is the training lines. The only-test file is a subsequence of them holding every copy of each test-code line and no other line. |
| SapbertParse.DictionaryOfTrainingLines | scripts/el/sapbert/symptemist-parse/sapbert_symptemist_parse.py:114-124 | On lines written by the training step, the only-test file holds each entry's line as many times as the training file does when the entry's code is a test code, and otherwise not at all. |
| SapbertParse.DictionariesSpanish | scripts/el/sapbert/symptemist-parse/sapbert_symptemist_parse.py:127-154 | The gazetteer's entities, grouped by code, are appended to the complete file always, and to the only-test file iff their code is a test code. |
| SapbertParse.SpanishGazetteerLines | scripts/el/sapbert/symptemist-parse/sapbert_symptemist_parse.py:127-154 | As multisets, the complete file is the training lines plus one line per gazetteer row. The only-test file adds exactly the gazetteer rows of test codes. |
| SapbertParse.GroupedLinesPermute | scripts/el/sapbert/symptemist-parse/sapbert_symptemist_parse.py:133-143 | Grouping by code only reorders the lines. |
| SapbertParse.KeepCodesGroup | scripts/el/sapbert/symptemist-parse/sapbert_symptemist_parse.py:145-154 | Keeping the test codes' groups equals grouping only the test codes' rows. |
| SapbertParse.KeepCodesSubseq | scripts/el/sapbert/symptemist-parse/sapbert_symptemist_parse.py:145-154 | The test codes' grouped lines are a subsequence of all grouped lines. |
| SapbertParse.OnlyTestWithinComplete | scripts/el/sapbert/symptemist-parse/sapbert_symptemist_parse.py:157-172 | For either language, the only-test dictionary is a subsequence of the complete one. |
| SapbertParse.BuildDictionaryFiles | scripts/el/sapbert/symptemist-parse/sapbert_symptemist_parse.py:157-172 | Spanish uses the gazetteer builder and every other language the training-only one. |
| SapbertEval.CheckLabel | models/sapbert/evaluation/utils.py:60-66 | 1 iff the `\|`-separated parts of the two codes share an element, else 0. |
| SapbertEval.CheckLabelSymmetric | models/sapbert/evaluation/utils.py:60-66 | Swapping predicted and gold codes does not change the verdict. |
| SapbertEval.CheckLabelReflexive | models/sapbert/evaluation/utils.py:60-66 | Every code matches itself. |
| SapbertEval.CheckLabelOrderFree | models/sapbert/evaluation/utils.py:60-66 | The order and repetition of parts in a composite code do not matter. |
| SapbertEval.CheckLabelSingle | models/sapbert/evaluation/utils.py:60-66 | A single code matches a composite code iff it is one of its parts. |
| SapbertEval.NumBatches | models/sapbert/evaluation/utils.py:10 | Fails iff the batch size is 0. Otherwise it is the least k with n <= k·size, that is ceil(n / size). |
| SapbertEval.BatchFacts | models/sapbert/evaluation/utils.py:11-16 | Each batch is non-empty, within [0, n), and ends where the next begins. |
| SapbertEval.BatchesPartition | models/sapbert/evaluation/utils.py:10-16 | There are no batches iff n = 0. Otherwise the batches are non-empty and contiguous, starting at 0 and ending at n. |
| SapbertEval.BatchOf | models/sapbert/evaluation/utils.py:11-16 | Every item lies in exactly one batch, number x / size. |
| SapbertEval.LossBatch | models/sapbert/evaluation/utils.py:8-25 | Fails iff the batch size is 0 or there are no items (division by zero). Otherwise it is the mean of the per-batch losses. |
| SapbertEval.LossBatchConstant | models/sapbert/evaluation/utils.py:8-25 | When every batch has loss c, the result is c. |
| SapbertEval.Predict | models/sapbert/evaluation/utils.py:86-117 | Fails iff a retrieved candidate index is out of range. Otherwise there is one record per query, holding the query, its gold code, the retrieved candidate and `check_label` of the two. |
| SapbertEval.Accuracy | models/sapbert/evaluation/utils.py:119 | Fails iff there are no predictions. Otherwise it lies in [0,1], and multiplied by the number of predictions it is the number of correct ones. |
| SapbertEval.CorrectAll | models/sapbert/evaluation/utils.py:119 | All predictions are counted correct iff each is correct. |
| SapbertEval.AccuracyOne | models/sapbert/evaluation/utils.py:119 | Accuracy is 1 iff every prediction is correct. |
| SapbertEval.PerfectAccuracy | models/sapbert/evaluation/utils.py:86-119 | Accuracy is 1 iff every retrieved candidate's code matches its query's gold code. |
| ConllLoader.ReadLine | scripts/ner/conll-parse/multicardioner-parse/loading_scripts/combined-train-distemist-dev-ner.py:94-108 | A line is a separator iff it is `\n`, empty, or starts with `-DOCSTART-`. Otherwise its token and tag have no tab and the tag has no trailing whitespace. |
| ConllLoader.Examples | scripts/ner/conll-parse/multicardioner-parse/loading_scripts/combined-train-distemist-dev-ner.py:87-114 | There is always at least one example. guids are 0, 1, 2, … with id = str(guid). Tokens and tags have equal length, and every example but the last is non-empty. |
| ConllLoader.GenerateExamples | scripts/ner/conll-parse/multicardioner-parse/loading_scripts/combined-train-distemist-dev-ner.py:87-114 | The loop with its mutable state computes exactly the stream reference. |
| ConllLoader.ExamplesKeepTokens | scripts/ner/conll-parse/multicardioner-parse/loading_scripts/combined-train-distemist-dev-ner.py:104-108 | Read in order, the examples hold exactly the token lines' first fields and right-stripped last fields. |
| ConllLoader.LastExampleEmpty | scripts/ner/conll-parse/multicardioner-parse/loading_scripts/combined-train-distemist-dev-ner.py:109-114 | The last example is empty iff the file is empty or ends with a separator line. A file ending in a blank line therefore yields a trailing empty example. |
| ConllLoader.SeparatorRuns | scripts/ner/conll-parse/multicardioner-parse/loading_scripts/combined-train-distemist-dev-ner.py:94-103 | A run of separators acts as one, every separator kind acts alike, and leading separators add nothing. |
| ConllLoader.WrittenFileLoads | scripts/ner/conll-parse/multicardioner-parse/loading_scripts/combined-train-distemist-dev-ner.py:87-114 | Loading a written CoNLL file yields its words and labels in order, wherever the empty lines are, for tuples whose fields hold no tab, `\n` or `\r`, whose word is not a `-DOCSTART-` header and whose label has no trailing whitespace. |
| ConllLoader.WriteFileLoads | scripts/ner/conll-parse/multicardioner-parse/multicardioner_to_conll_parse.py:492-498 | Loading the file `write_files` produces yields exactly the tuples' words and labels, under the same conditions on the fields. |

## Left out

- Reading a file is modelled as splitting its text after each `\n`. Python's universal-newline translation of `\r` and `\r\n` is not modelled, so the write-then-read lemmas require fields without `\r`.
- File I/O is not modelled. Files are sequences of lines or a written string. Also left out: progress bars (`tqdm`), JSON and TSV report writing, `write_results` and `check_top_false_negative_presence_in_training_data` in eval-libs/ner/utils.py.
- `round(x, 4)` on the scores (eval-libs/ner/utils.py:112,134) is not modelled. Scores are exact reals.
- Floating-point precision, recall and F1 are not modelled. The model uses exact rational arithmetic. Likewise `average_start` (eval-libs/ner/utils.py:35) rounds a floating-point quotient; the model rounds the exact rational quotient, half to even as `round` does.
- `calculate_fscore` empties the caller's prediction lists as it goes (eval-libs/ner/utils.py:83-84,96-97). The model is pure over snapshots of the inputs.
- NerScoring.CalculateFScoreWith: keeps the per-document scores apart from the totals. In `calculate_fscore` they share one dict (eval-libs/ner/utils.py:112,134-135,145-146), so a document id `total`, `statistics`, `fn_freq` or `entities` has its score overwritten; the model does not reproduce that collision.
- NerScoring.CalculateFScoreWith: requires every document group to be non-empty. `calculate_fscore` reads `document[0][0]` of each group, and the CLI builds the groups with `groupby`, so they are never empty.
- The prediction deduplication of eval-libs/ner/evaluate.py is not modelled. Nor are the other CLIs and pandas loaders.
- Randomness is not modelled. Where the scripts draw at random, the model takes the outcome as a parameter and proves that every admissible outcome is reachable:
  - the symptemist/medprocner `random.choice` becomes a coin function;
  - the EL replacement index `randint` becomes a pick that chooses among the candidates;
  - the 80/20 `random.sample` and shuffles become given index lists.
- MultiCardioner.Split8020: takes the sampled example indices as input instead of drawing them, because `random.sample` is not modelled.
- The final `else: 'O'` of the training merge (multicardioner_to_conll_parse.py:361-362) cannot be reached. `TrainLabel` covers it through its "all four O" case.
- `int(n*0.8)` is modelled as the integer part of 4n/5. The floating-point product is not modelled.
- Python `set` iteration order (`list(set(...))` in `build_training_file`) is not modelled: the model fixes first-seen order as its choice of set order. The grouped and pair files' line order therefore follows that choice; the properties that hold for any order are the membership, count and pairing facts.
- `str.lower` is modelled for ASCII and Latin-1 letters only. `int()` accepts ASCII digits with an optional sign and surrounding whitespace; underscores and other Unicode digits are not modelled.
- The word-embedding model (`most_similar`) is a parameter that returns ranked neighbours with similarities. The SapBERT encoder, score matrix and candidate retrieval are a parameter mapping a query to a dictionary index. The multi-similarity loss and miner are a parameter giving each batch's loss. `hash(label)` and the torch tensors are not modelled.
- The `mean_centering` branch of `predict_and_evaluate` is not modelled. It is switched off by a constant.
- `build_el_test_file_reference_tsv` (pandas) is not modelled. Nor is the auxiliary-file existence check of `build_dictionary_files` (sapbert_symptemist_parse.py:161-165).
- `get_examples_filenames_and_spans_from_conll_file` reads a file directly. The span filter takes its result, the example spans per file, as an input.
- `augment_sentence`, `synonym_replacement` and `augment_data` of augment_ner_data.py (gensim, randomness) are not modelled. Nor is `parse_brat_dir` or the other brat-to-CoNLL and phrase scripts.
- The HuggingFace `datasets` builder plumbing (`_info`, `_split_generators`) is not modelled. Nor are the upload scripts, training scripts and checkpoint helpers.
- `initialize_pipeline` and the model inference in ner_predict.py are not modelled. The raw token results are an input.
- NerPredict.PostProcess: states only that the output is sorted and that empty input fails. The merges' and the filter's own contracts are stated on CombineSplitEntities, CombineBioFacts, CombineBioRuns, FilterBySpans and FilterBySpansCopies.

## Findings

| source | as written | input that shows it | evidently intended | confidence | as-written member | corrected member |
|---|---|---|---|---|---|---|
| scripts/data-aug/augment/el/augment_el_data.py:13 | `'which' 'with'` has no comma between the two literals. Python concatenates them into the single structure word `whichwith`, so neither `which` nor `with` is protected. | The English entity `with`: its only word is replaced by synonyms. | `which` and `with` are two separate structure words, and `with` is never replaced. | not executed | AugmentEl.WithReplacedAsWritten | AugmentEl.WithKeptCorrected |

=== FILE: augment_el.dfy ===
/** The entity-linking augmentation script: its `code||entity||entity`
    training-file reader and writer, order-preserving deduplication of
    each code's entities, and synonym replacement, with the embedding model
    and the random index choice as oracles. */
module AugmentEl {
  import opened Wrappers
  import opened PyStr
  import opened Seqs
  import opened CodeMaps

  // ------------------------------------------------------------- load_data

  /** One line of the training file: a code and two of its synonyms. */
  datatype Row = Row(code: string, e1: string, e2: string)

  /** `code, entity1, entity2 = line.strip().split('||')`: exactly three
      pieces, or the unpacking raises. */
  function ParseRow(line: string): Option<Row> {
    var parts := SplitOn(Strip(line), "||");
    if |parts| == 3 then Some(Row(parts[0], parts[1], parts[2])) else None
  }

  predicate AllParse(lines: seq<string>) {
    forall k :: 0 <= k < |lines| ==> ParseRow(lines[k]).Some?
  }

  function ParseRows(lines: seq<string>): (r: seq<Row>)
    requires AllParse(lines)
    ensures |r| == |lines|
  {
    seq(|lines|, k requires 0 <= k < |lines| => ParseRow(lines[k]).value)
  }

  function Codes(rows: seq<Row>): (r: seq<string>)
    ensures |r| == |rows|
    ensures forall k :: 0 <= k < |rows| ==> r[k] == rows[k].code
  {
    seq(|rows|, k requires 0 <= k < |rows| => rows[k].code)
  }

  /** Reference: the entities of the rows with code `c`, two per row, in
      file order. */
  function EntitiesFor(rows: seq<Row>, c: string): seq<string> {
    if |rows| == 0 then []
    else (if rows[0].code == c then [rows[0].e1, rows[0].e2] else []) + EntitiesFor(rows[1..], c)
  }

  lemma {:induction false} EntitiesForAppend(a: seq<Row>, b: seq<Row>, c: string)
    ensures EntitiesFor(a + b, c) == EntitiesFor(a, c) + EntitiesFor(b, c)
    decreases |a|
  {
    if |a| == 0 {
      assert a + b == b;
    } else {
      assert (a + b)[0] == a[0] && (a + b)[1..] == a[1..] + b;
      EntitiesForAppend(a[1..], b, c);
    }
  }

  lemma {:induction false} EntitiesForAbsent(rows: seq<Row>, c: string)
    requires c !in Codes(rows)
    ensures EntitiesFor(rows, c) == []
    decreases |rows|
  {
    if |rows| > 0 {
      assert Codes(rows)[0] == rows[0].code;
      assert forall k :: 0 <= k < |rows| - 1 ==> Codes(rows[1..])[k] == Codes(rows)[k + 1];
      EntitiesForAbsent(rows[1..], c);
    }
  }

  /** The first loop of `load_data`: the rows grouped by code, in order of
      first appearance. */
  function Group(rows: seq<Row>): CodeMap {
    if |rows| == 0 then []
    else
      var x := rows[|rows| - 1];
      Extend(Group(rows[..|rows| - 1]), x.code, [x.e1, x.e2])
  }

  lemma {:induction false} GroupKeys(rows: seq<Row>)
    ensures Keys(Group(rows)) == FirstOccurrences(Codes(rows))
    decreases |rows|
  {
    if |rows| > 0 {
      var p := rows[..|rows| - 1];
      var x := rows[|rows| - 1];
      assert Codes(rows)[..|rows| - 1] == Codes(p);
      GroupKeys(p);
      GetSome(Group(p), x.code);
      ExtendFacts(Group(p), x.code, [x.e1, x.e2]);
      assert x.code in Codes(p) <==> x.code in Keys(Group(p)) by {
        DedupIsFirstOccurrences(Codes(p));
        DedupFacts(Codes(p));
        assert Elems(Codes(p)) == Elems(Keys(Group(p)));
      }
    }
  }

  lemma {:induction false} GroupGet(rows: seq<Row>, c: string)
    ensures Get(Group(rows), c) == if c in Codes(rows) then Some(EntitiesFor(rows, c)) else None
    decreases |rows|
  {
    if |rows| > 0 {
      var p := rows[..|rows| - 1];
      var x := rows[|rows| - 1];
      var g := Group(p);
      LastSplit(rows);
      assert Group(rows) == Extend(g, x.code, [x.e1, x.e2]);
      GroupGet(p, c);
      ExtendFacts(g, x.code, [x.e1, x.e2]);
      assert Codes(rows) == Codes(p) + [x.code];
      EntitiesForAppend(p, [x], c);
      if c == x.code {
        assert EntitiesFor([x], c) == [x.e1, x.e2];
        if c !in Codes(p) {
          EntitiesForAbsent(p, c);
          assert GetOr(g, c) == [];
        } else {
          assert GetOr(g, c) == EntitiesFor(p, c);
        }
      } else {
        assert EntitiesFor([x], c) == [];
        assert EntitiesFor(rows, c) == EntitiesFor(p, c) + [];
        assert EntitiesFor(p, c) + [] == EntitiesFor(p, c);
        assert Get(Group(rows), c) == Get(g, c);
        assert c in Codes(rows) <==> c in Codes(p);
      }
    }
  }

  /** `load_data` over the lines of the file: it raises unless every line
      splits into exactly three pieces; otherwise the codes come in order of
      first appearance, each once, and each holds its entities from every
      one of its lines, first occurrences only, in file order. */
  function LoadData(lines: seq<string>): (r: Result<CodeMap>)
    ensures r.Success? <==> AllParse(lines)
    ensures r.Success? ==>
      var rows := ParseRows(lines);
      && Keys(r.value) == FirstOccurrences(Codes(rows))
      && Distinct(Keys(r.value))
      && forall c :: Get(r.value, c) == if c in Codes(rows) then Some(Dedup(EntitiesFor(rows, c))) else None
  {
    if !AllParse(lines) then Failure("ValueError: a line does not split into three pieces")
    else
      var rows := ParseRows(lines);
      GroupKeys(rows);
      forall c
        ensures Get(Group(rows), c) == if c in Codes(rows) then Some(EntitiesFor(rows, c)) else None
      {
        GroupGet(rows, c);
      }
      DedupIsFirstOccurrences(Codes(rows));
      DedupFacts(Codes(rows));
      Success(DedupValues(Group(rows)))
  }

  // ------------------------------------------------------------- save_data

  /** `f"{code}||{entity_a}||{entity_b}\n"` */
  function RowLine(r: Row): string {
    r.code + "||" + r.e1 + "||" + r.e2 + "\n"
  }

  /** The rows pairing `es[0]` with each later entity. */
  function FirstRows(code: string, x: string, ys: seq<string>): (r: seq<Row>)
    ensures |r| == |ys|
  {
    seq(|ys|, j requires 0 <= j < |ys| => Row(code, x, ys[j]))
  }

  /** Where the rows of the `i`-th entity start among `n` entities: the
      entities before it wrote `n-1`, `n-2`, … rows each. */
  function PairsOffset(n: nat, i: nat): nat
    requires i <= n
  {
    if i == 0 then 0 else PairsOffset(n, i - 1) + (n - i)
  }

  lemma {:induction false} PairsOffsetShift(n: nat, i: nat)
    requires 1 <= i <= n
    ensures PairsOffset(n, i) == (n - 1) + PairsOffset(n - 1, i - 1)
    decreases i
  {
    if i > 1 {
      PairsOffsetShift(n, i - 1);
    }
  }

  /** The rows `save_data` writes for one code: every entity with each
      later one, in list order, (n−1) + (n−2) + … + 0 of them. */
  function PairsOf(code: string, es: seq<string>): (r: seq<Row>)
    ensures |r| == PairsOffset(|es|, |es|)
    ensures forall k :: 0 <= k < |r| ==> r[k].code == code && r[k].e1 in es && r[k].e2 in es
  {
    if |es| == 0 then []
    else
      var rest := PairsOf(code, es[1..]);
      PairsOffsetShift(|es|, |es|);
      assert forall e :: e in es[1..] ==> e in es;
      FirstRows(code, es[0], es[1..]) + rest
  }

  /** The closed form of the offsets: the first `i` entities write
      i·(2n−i−1)/2 rows. */
  lemma {:induction false} PairsOffsetClosed(n: nat, i: nat)
    requires i <= n
    ensures 2 * PairsOffset(n, i) == i * (2 * n - i - 1)
    decreases i
  {
    if i > 0 {
      PairsOffsetClosed(n, i - 1);
      assert i * (2 * n - i - 1) == (i - 1) * (2 * n - (i - 1) - 1) + 2 * (n - i);
    }
  }

  /** A code with n entities writes n·(n−1)/2 rows. */
  lemma {:induction false} PairsOfCount(code: string, es: seq<string>)
    ensures 2 * |PairsOf(code, es)| == |es| * (|es| - 1)
  {
    PairsOffsetClosed(|es|, |es|);
  }

  /** Every row is a pair `(es[i], es[j])` with `i < j`, and every such pair
      is written. */
  lemma {:induction false} PairsOfComplete(code: string, es: seq<string>)
    ensures forall i, j :: 0 <= i < j < |es| ==> Row(code, es[i], es[j]) in PairsOf(code, es)
    decreases |es|
  {
    if |es| > 0 {
      var f := FirstRows(code, es[0], es[1..]);
      var rest := PairsOf(code, es[1..]);
      PairsOfComplete(code, es[1..]);
      assert PairsOf(code, es) == f + rest;
      forall i, j | 0 <= i < j < |es|
        ensures Row(code, es[i], es[j]) in f + rest
      {
        if i == 0 {
          assert f[j - 1] == Row(code, es[0], es[j]);
        } else {
          assert es[1..][i - 1] == es[i] && es[1..][j - 1] == es[j];
          assert Row(code, es[i], es[j]) in rest;
        }
      }
    }
  }

  lemma {:induction false} PairsOfSound(code: string, es: seq<string>)
    ensures forall row :: row in PairsOf(code, es) ==>
      exists i, j :: 0 <= i < j < |es| && row == Row(code, es[i], es[j])
    decreases |es|
  {
    if |es| > 0 {
      var f := FirstRows(code, es[0], es[1..]);
      var rest := PairsOf(code, es[1..]);
      PairsOfSound(code, es[1..]);
      assert PairsOf(code, es) == f + rest;
      forall row | row in f + rest
        ensures exists i, j :: 0 <= i < j < |es| && row == Row(code, es[i], es[j])
      {
        if row in f {
          var j :| 0 <= j < |f| && f[j] == row;
          assert row == Row(code, es[0], es[j + 1]);
        } else {
          var i, j :| 0 <= i < j < |es| - 1 && row == Row(code, es[1..][i], es[1..][j]);
          assert row == Row(code, es[i + 1], es[j + 1]);
        }
      }
    }
  }

  lemma PairsOfExact(code: string, es: seq<string>)
    ensures forall i, j :: 0 <= i < j < |es| ==> Row(code, es[i], es[j]) in PairsOf(code, es)
    ensures forall row :: row in PairsOf(code, es) ==>
      exists i, j :: 0 <= i < j < |es| && row == Row(code, es[i], es[j])
  {
    PairsOfComplete(code, es);
    PairsOfSound(code, es);
  }

  /** The order of the nested loops: the pair `(es[i], es[j])` is row
      `PairsOffset(|es|, i) + (j - i - 1)`, so rows run `i`-major and then by
      `j`. */
  lemma {:induction false} PairsOfOrder(code: string, es: seq<string>, i: nat, j: nat)
    requires i < j < |es|
    ensures PairsOffset(|es|, i) + (j - i - 1) < |PairsOf(code, es)|
    ensures PairsOf(code, es)[PairsOffset(|es|, i) + (j - i - 1)] == Row(code, es[i], es[j])
    decreases |es|
  {
    var f := FirstRows(code, es[0], es[1..]);
    var rest := PairsOf(code, es[1..]);
    assert PairsOf(code, es) == f + rest;
    if i > 0 {
      PairsOfOrder(code, es[1..], i - 1, j - 1);
      PairsOffsetShift(|es|, i);
      assert es[1..][i - 1] == es[i] && es[1..][j - 1] == es[j];
    }
  }

  function SaveRows(d: CodeMap): seq<Row> {
    if |d| == 0 then [] else PairsOf(d[0].0, d[0].1) + SaveRows(d[1..])
  }

  function SaveLines(d: CodeMap): seq<string> {
    var rows := SaveRows(d);
    seq(|rows|, k requires 0 <= k < |rows| => RowLine(rows[k]))
  }

  /** The contents of the training file `save_data` writes. */
  function SaveData(d: CodeMap): string {
    Concat(SaveLines(d))
  }

  // ------------------------------------------------------------ round trip

  /** A code or entity that survives the trip: no '|' (the separator), no
      line break, no surrounding whitespace. */
  predicate Clean(s: string) {
    '|' !in s && '\n' !in s && '\r' !in s && NoEdgeSpace(s)
  }

  predicate CleanRow(r: Row) {
    Clean(r.code) && Clean(r.e1) && Clean(r.e2)
  }

  predicate Saveable(d: CodeMap) {
    && Distinct(Keys(d))
    && forall k :: 0 <= k < |d| ==> Clean(d[k].0) && Distinct(d[k].1) && forall e :: e in d[k].1 ==> Clean(e)
  }

  /** Reference: the entries with at least two entities, the only ones that
      produce a line. */
  function Restrict(d: CodeMap): CodeMap {
    if |d| == 0 then []
    else (if |d[0].1| >= 2 then [d[0]] else []) + Restrict(d[1..])
  }

  lemma RowLineJoin(r: Row)
    ensures JoinOn([r.code, r.e1, r.e2], "||") == r.code + "||" + r.e1 + "||" + r.e2
  {
    assert [r.code, r.e1, r.e2][1..] == [r.e1, r.e2] && [r.e1, r.e2][1..] == [r.e2];
    assert JoinOn([r.e1, r.e2], "||") == r.e1 + "||" + r.e2;
  }

  lemma RowLineBody(r: Row)
    requires CleanRow(r)
    ensures NoEdgeSpace(r.code + "||" + r.e1 + "||" + r.e2)
    ensures '\n' !in r.code + "||" + r.e1 + "||" + r.e2
  {
    var body := r.code + "||" + r.e1 + "||" + r.e2;
    if |r.code| > 0 {
      assert body[0] == r.code[0];
    } else {
      assert body[0] == '|';
    }
    if |r.e2| > 0 {
      assert body[|body| - 1] == r.e2[|r.e2| - 1];
    } else {
      assert body[|body| - 1] == '|';
    }
  }

  lemma RowLineReadsBack(r: Row)
    requires CleanRow(r)
    ensures ParseRow(RowLine(r)) == Some(r)
    ensures IsLine(RowLine(r))
  {
    var body := r.code + "||" + r.e1 + "||" + r.e2;
    assert RowLine(r) == body + "\n";
    RowLineBody(r);
    StripLine(body);
    RowLineJoin(r);
    SplitOnJoinOn([r.code, r.e1, r.e2], "||");
  }

  predicate AllClean(rows: seq<Row>) {
    forall k :: 0 <= k < |rows| ==> CleanRow(rows[k])
  }

  lemma AllCleanAppend(a: seq<Row>, b: seq<Row>)
    requires AllClean(a) && AllClean(b)
    ensures AllClean(a + b)
  {
    forall k | 0 <= k < |a + b|
      ensures CleanRow((a + b)[k])
    {
      if k >= |a| {
        assert (a + b)[k] == b[k - |a|];
      }
    }
  }

  lemma SaveableTail(d: CodeMap)
    requires Saveable(d) && |d| > 0
    ensures Saveable(d[1..])
    ensures Clean(d[0].0) && forall e :: e in d[0].1 ==> Clean(e)
  {
    assert forall j :: 0 <= j < |d| - 1 ==> Keys(d[1..])[j] == Keys(d)[j + 1] && d[1..][j] == d[j + 1];
  }

  lemma PairsOfClean(code: string, es: seq<string>)
    requires Clean(code) && forall e :: e in es ==> Clean(e)
    ensures AllClean(PairsOf(code, es))
  {
  }

  lemma {:induction false} SaveRowsAllClean(d: CodeMap)
    requires Saveable(d)
    ensures AllClean(SaveRows(d))
    decreases |d|
  {
    if |d| > 0 {
      SaveableTail(d);
      SaveRowsAllClean(d[1..]);
      PairsOfClean(d[0].0, d[0].1);
      AllCleanAppend(PairsOf(d[0].0, d[0].1), SaveRows(d[1..]));
    }
  }

  lemma SaveRowsClean(d: CodeMap)
    requires Saveable(d)
    ensures forall k :: 0 <= k < |SaveRows(d)| ==> CleanRow(SaveRows(d)[k])
  {
    SaveRowsAllClean(d);
  }

  lemma SaveDataReadsBack(d: CodeMap)
    requires Saveable(d)
    ensures AllParse(ReadLines(SaveData(d)))
    ensures ParseRows(ReadLines(SaveData(d))) == SaveRows(d)
  {
    var rows := SaveRows(d);
    var lines := SaveLines(d);
    SaveRowsClean(d);
    forall k | 0 <= k < |rows|
      ensures ParseRow(lines[k]) == Some(rows[k]) && IsLine(lines[k])
    {
      RowLineReadsBack(rows[k]);
    }
    ReadLinesConcat(lines);
  }

  /** `all` elements of `a` are `c`. */
  lemma {:induction false} DedupFromConst(a: seq<string>, c: string, seen: set<string>)
    requires forall x :: x in a ==> x == c
    requires c !in seen
    ensures DedupFrom(a, seen) == if |a| > 0 then [c] else []
    decreases |a|
  {
    if |a| > 0 {
      assert a[0] in a;
      assert forall x :: x in a[1..] ==> x in a;
      DedupFromSeen(a[1..], seen + {c});
    }
  }

  lemma {:induction false} CodesAppend(a: seq<Row>, b: seq<Row>)
    ensures Codes(a + b) == Codes(a) + Codes(b)
  {
  }

  /** The codes of one code's rows: `c` once if it has two entities or
      more, nothing otherwise. */
  lemma {:induction false} PairsOfCodes(c: string, es: seq<string>, seen: set<string>)
    requires c !in seen
    ensures DedupFrom(Codes(PairsOf(c, es)), seen) == if |es| >= 2 then [c] else []
    ensures Elems(Codes(PairsOf(c, es))) == if |es| >= 2 then {c} else {}
  {
    var p := PairsOf(c, es);
    PairsOfSome(c, es);
    assert forall x :: x in Codes(p) ==> x == c;
    DedupFromConst(Codes(p), c, seen);
  }

  /** An entity list yields pairs exactly when it has two entities. */
  lemma PairsOfSome(c: string, es: seq<string>)
    ensures |PairsOf(c, es)| > 0 <==> |es| >= 2
  {
    if |es| >= 2 {
      PairsOffsetShift(|es|, |es|);
    }
  }

  lemma {:induction false} DistinctKeysTail(d: CodeMap, seen: set<string>)
    requires |d| > 0 && Distinct(Keys(d))
    requires forall k :: 0 <= k < |d| ==> d[k].0 !in seen
    ensures Distinct(Keys(d[1..]))
    ensures forall k :: 0 <= k < |d| - 1 ==> d[1..][k].0 !in seen + {d[0].0}
  {
    assert forall k :: 0 <= k < |d| - 1 ==> Keys(d[1..])[k] == Keys(d)[k + 1];
    assert forall k :: 1 <= k < |d| ==> Keys(d)[0] != Keys(d)[k];
  }

  lemma {:induction false} SaveRowsCodes(d: CodeMap, seen: set<string>)
    requires Distinct(Keys(d))
    requires forall k :: 0 <= k < |d| ==> d[k].0 !in seen
    ensures DedupFrom(Codes(SaveRows(d)), seen) == Keys(Restrict(d))
    decreases |d|
  {
    if |d| > 0 {
      var c := d[0].0;
      var p := PairsOf(c, d[0].1);
      var rest := SaveRows(d[1..]);
      CodesAppend(p, rest);
      DedupFromAppend(Codes(p), Codes(rest), seen);
      PairsOfCodes(c, d[0].1, seen);
      DistinctKeysTail(d, seen);
      var seen' := seen + Elems(Codes(p));
      assert forall k :: 0 <= k < |d| - 1 ==> d[1..][k].0 !in seen';
      SaveRowsCodes(d[1..], seen');
      var n := |d[0].1|;
      assert Keys(Restrict(d)) == (if n >= 2 then [c] else []) + Keys(Restrict(d[1..])) by {
        assert Restrict(d) == (if n >= 2 then [d[0]] else []) + Restrict(d[1..]);
        KeysAppend(if n >= 2 then [d[0]] else [], Restrict(d[1..]));
      }
    }
  }

  lemma {:induction false} KeysAppend(a: CodeMap, b: CodeMap)
    ensures Keys(a + b) == Keys(a) + Keys(b)
  {
  }

  lemma {:induction false} EntitiesForOthers(rows: seq<Row>, c: string)
    requires forall k :: 0 <= k < |rows| ==> rows[k].code != c
    ensures EntitiesFor(rows, c) == []
    decreases |rows|
  {
    if |rows| > 0 {
      EntitiesForOthers(rows[1..], c);
    }
  }

  lemma {:induction false} EntitiesForIn(rows: seq<Row>, c: string, es: seq<string>)
    requires forall k :: 0 <= k < |rows| ==> rows[k].e1 in es && rows[k].e2 in es
    ensures forall e :: e in EntitiesFor(rows, c) ==> e in es
    decreases |rows|
  {
    if |rows| > 0 {
      EntitiesForIn(rows[1..], c, es);
    }
  }

  /** The rows pairing `x` with each of `ys` deduplicate to `ys` once `x`
      has been seen. */
  lemma {:induction false} DedupFirstRows(code: string, x: string, ys: seq<string>, seen: set<string>)
    requires x in seen && Distinct(ys)
    requires forall y :: y in ys ==> y !in seen
    ensures DedupFrom(EntitiesFor(FirstRows(code, x, ys), code), seen) == ys
    decreases |ys|
  {
    if |ys| > 0 {
      var f := FirstRows(code, x, ys);
      var r := EntitiesFor(FirstRows(code, x, ys[1..]), code);
      assert f[1..] == FirstRows(code, x, ys[1..]);
      assert EntitiesFor(f, code) == [x] + ([ys[0]] + r);
      assert ys[0] in ys;
      assert Distinct(ys[1..]) && forall y :: y in ys[1..] ==> y !in seen + {ys[0]} by {
        assert forall j :: 0 <= j < |ys| - 1 ==> ys[1..][j] == ys[j + 1];
        assert forall y :: y in ys[1..] ==> y in ys && y != ys[0];
      }
      DedupFirstRows(code, x, ys[1..], seen + {ys[0]});
    }
  }

  /** The entities of the rows pairing `es[0]` with the later entities
      deduplicate to `es`. */
  lemma DedupFirst(code: string, es: seq<string>)
    requires Distinct(es) && |es| >= 2
    ensures Dedup(EntitiesFor(FirstRows(code, es[0], es[1..]), code)) == es
  {
    var x := es[0];
    var ys := es[1..];
    var fs := EntitiesFor(FirstRows(code, x, ys), code);
    assert forall j :: 0 <= j < |ys| ==> ys[j] == es[j + 1];
    assert Distinct(ys);
    assert forall y :: y in ys ==> y != x;
    DedupFirstRows(code, x, ys, {x});
    assert FirstRows(code, x, ys)[0] == Row(code, x, ys[0]);
    assert fs[0] == x;
    var none: set<string> := {};
    assert none + {x} == {x};
    assert DedupFrom(fs, {}) == [x] + DedupFrom(fs[1..], {x});
    assert DedupFrom(fs, {x}) == DedupFrom(fs[1..], {x});
    assert [x] + ys == es;
  }

  /** The entities a code's pair lines carry deduplicate back to its list. */
  lemma DedupPairs(code: string, es: seq<string>)
    requires Distinct(es) && |es| >= 2
    ensures Dedup(EntitiesFor(PairsOf(code, es), code)) == es
  {
    var f := FirstRows(code, es[0], es[1..]);
    var rest := PairsOf(code, es[1..]);
    assert PairsOf(code, es) == f + rest;
    EntitiesForAppend(f, rest, code);
    var fs := EntitiesFor(f, code);
    var rs := EntitiesFor(rest, code);
    DedupFirst(code, es);
    DedupFromAppend(fs, rs, {});
    EntitiesForIn(rest, code, es[1..]);
    assert forall y :: y in es[1..] ==> y in Elems(fs) by {
      DedupFacts(fs);
      assert forall y :: y in es ==> y in Elems(Dedup(fs));
      assert forall y :: y in es[1..] ==> y in es;
    }
    DedupFromSeen(rs, {} + Elems(fs));
  }

  lemma {:induction false} EntitiesForSave(d: CodeMap, k: nat)
    requires Distinct(Keys(d)) && k < |d|
    ensures EntitiesFor(SaveRows(d), d[k].0) == EntitiesFor(PairsOf(d[k].0, d[k].1), d[k].0)
    decreases k
  {
    var c := d[k].0;
    var p := PairsOf(d[0].0, d[0].1);
    var rest := SaveRows(d[1..]);
    EntitiesForAppend(p, rest, c);
    assert Distinct(Keys(d[1..])) by {
      assert forall j :: 0 <= j < |d| - 1 ==> Keys(d[1..])[j] == Keys(d)[j + 1];
    }
    if k == 0 {
      assert forall j :: 0 <= j < |d| - 1 ==> Keys(d[1..])[j] != c by {
        assert forall j :: 0 <= j < |d| - 1 ==> Keys(d[1..])[j] == Keys(d)[j + 1];
      }
      SaveRowsAbsent(d[1..], c);
    } else {
      assert Keys(d)[0] != Keys(d)[k];
      EntitiesForOthers(p, c);
      assert d[1..][k - 1] == d[k];
      EntitiesForSave(d[1..], k - 1);
    }
  }

  lemma {:induction false} SaveRowsAbsent(d: CodeMap, c: string)
    requires forall j :: 0 <= j < |d| ==> Keys(d)[j] != c
    ensures EntitiesFor(SaveRows(d), c) == []
    decreases |d|
  {
    if |d| > 0 {
      EntitiesForAppend(PairsOf(d[0].0, d[0].1), SaveRows(d[1..]), c);
      assert Keys(d)[0] == d[0].0;
      EntitiesForOthers(PairsOf(d[0].0, d[0].1), c);
      assert forall j :: 0 <= j < |d| - 1 ==> Keys(d[1..])[j] == Keys(d)[j + 1];
      SaveRowsAbsent(d[1..], c);
    }
  }

  lemma {:induction false} RestrictGet(d: CodeMap, c: string)
    requires Distinct(Keys(d))
    ensures Get(Restrict(d), c) == if c in Keys(d) && |Get(d, c).value| >= 2 then Get(d, c) else None
    decreases |d|
  {
    if |d| > 0 {
      assert Keys(d) == [d[0].0] + Keys(d[1..]);
      assert Distinct(Keys(d[1..])) by {
        assert forall j :: 0 <= j < |d| - 1 ==> Keys(d[1..])[j] == Keys(d)[j + 1];
      }
      RestrictGet(d[1..], c);
      if |d[0].1| >= 2 {
        assert Restrict(d) == [d[0]] + Restrict(d[1..]);
      } else {
        assert Restrict(d) == Restrict(d[1..]);
      }
      if d[0].0 == c {
        assert c !in Keys(d[1..]) by {
          assert forall j :: 0 <= j < |d| - 1 ==> Keys(d[1..])[j] == Keys(d)[j + 1] && Keys(d)[j + 1] != Keys(d)[0];
        }
      }
    }
  }

  /** Reading back what `save_data` wrote gives the dictionary restricted to
      the codes with at least two entities, for duplicate-free lists of
      clean codes and entities. */
  lemma SaveLoadRoundTrip(d: CodeMap)
    requires Saveable(d)
    ensures LoadData(ReadLines(SaveData(d))) == Success(Restrict(d))
  {
    SaveDataReadsBack(d);
    var rows := SaveRows(d);
    var m := LoadData(ReadLines(SaveData(d))).value;
    SaveRowsCodes(d, {});
    DedupIsFirstOccurrences(Codes(rows));
    DedupFacts(Codes(rows));
    assert Keys(m) == Keys(Restrict(d));
    forall c
      ensures Get(m, c) == Get(Restrict(d), c)
    {
      RestrictGet(d, c);
      assert c in Codes(rows) <==> c in Keys(Restrict(d)) by {
        assert Elems(Codes(rows)) == Elems(Keys(Restrict(d)));
      }
      if c in Keys(Restrict(d)) {
        var k :| 0 <= k < |d| && Keys(d)[k] == c;
        GetAt(d, k);
        EntitiesForSave(d, k);
        DedupPairs(c, d[k].1);
      }
    }
    MapExt(m, Restrict(d));
  }

  // ------------------------------------------------------- structure words

  const EsWords: set<string> := {"y", "en", "lo", "la", "el", "que", "con", "sin", "para", "por", "un", "una", "unos", "unas", "de", "a", "del", "al", "los", "las", "se", "me", "te", "le", "nos", "os", "les", "mi", "tu", "su"}

  /** The English set as `augment_el_data.py` writes it: two adjacent string literals
      with no comma between them concatenate, so the set holds "whichwith"
      and neither "which" nor "with". */
  const EnWordsAsWritten: set<string> := {"and", "in", "it", "the", "that", "whichwith", "without", "for", "by", "a", "an", "some", "of", "to", "the", "to", "the", "the", "the", "it", "me", "you", "him", "us", "you", "them", "my", "your", "his"}

  /** The English set with "which" and "with" as two words. */
  const EnWords: set<string> := {"and", "in", "it", "the", "that", "which", "with", "without", "for", "by", "a", "an", "some", "of", "to", "the", "to", "the", "the", "the", "it", "me", "you", "him", "us", "you", "them", "my", "your", "his"}

  const FrWords: set<string> := {"et", "en", "le", "la", "le", "que", "avec", "sans", "pour", "par", "un", "une", "des", "des", "de", "à", "du", "au", "les", "les", "se", "me", "te", "lui", "nous", "vous", "leur", "mon", "ton", "son"}

  const ItWords: set<string> := {"e", "in", "lo", "la", "il", "che", "con", "senza", "per", "da", "un", "una", "uni", "une", "di", "a", "del", "al", "i", "le", "si", "mi", "ti", "gli", "noi", "voi", "loro", "mio", "tuo", "suo"}

  const PtWords: set<string> := {"e", "em", "o", "a", "o", "que", "com", "sem", "para", "por", "um", "uma", "uns", "umas", "de", "a", "do", "ao", "os", "as", "se", "me", "te", "lhe", "nos", "vos", "lhes", "meu", "teu", "seu"}

  /** `structure_words[lang]` given the English set to use; any language
      other than the five is a missing key. */
  function StructureTable(lang: string, en: set<string>): (r: Option<set<string>>)
    ensures r.Some? <==> lang in {"es", "en", "fr", "it", "pt"}
  {
    if lang == "es" then Some(EsWords)
    else if lang == "en" then Some(en)
    else if lang == "fr" then Some(FrWords)
    else if lang == "it" then Some(ItWords)
    else if lang == "pt" then Some(PtWords)
    else None
  }

  function StructureWords(lang: string): Option<set<string>> {
    StructureTable(lang, EnWords)
  }

  function StructureWordsAsWritten(lang: string): Option<set<string>> {
    StructureTable(lang, EnWordsAsWritten)
  }

  // ------------------------------------------------------ similar words

  /** `get_similar_words`: of the (at most five) nearest neighbours the
      embedding model ranks for a word, the ones whose similarity exceeds
      the threshold, in rank order; an unknown word has no neighbours. */
  function SimilarWords(ranked: seq<(string, real)>, threshold: real): (r: seq<string>)
    ensures forall w :: w in r ==> exists k :: 0 <= k < |ranked| && k < 5 && ranked[k].0 == w && ranked[k].1 > threshold
    ensures forall k :: 0 <= k < |ranked| && k < 5 && ranked[k].1 > threshold ==> ranked[k].0 in r
  {
    var top := if |ranked| <= 5 then ranked else ranked[..5];
    assert forall k :: 0 <= k < |top| ==> top[k] == ranked[k] && k < 5;
    KeepAbove(top, threshold)
  }

  function KeepAbove(ranked: seq<(string, real)>, threshold: real): (r: seq<string>)
    ensures forall w :: w in r ==> exists k :: 0 <= k < |ranked| && ranked[k].0 == w && ranked[k].1 > threshold
    ensures forall k :: 0 <= k < |ranked| && ranked[k].1 > threshold ==> ranked[k].0 in r
  {
    if |ranked| == 0 then []
    else
      var rest := KeepAbove(ranked[1..], threshold);
      assert forall k :: 1 <= k < |ranked| ==> ranked[k] == ranked[1..][k - 1];
      (if ranked[0].1 > threshold then [ranked[0].0] else []) + rest
  }

  // --------------------------------------------------- synonym_replacement

  /** The word positions the random draw may settle on: not replaced yet
      and not a structure word, in increasing order. */
  function Candidates(words: seq<string>, prev: seq<nat>, sw: set<string>, i: nat): (r: seq<nat>)
    ensures forall c :: c in r ==> i <= c < |words| && c !in prev && words[c] !in sw
    ensures forall c :: i <= c < |words| && c !in prev && words[c] !in sw ==> c in r
    decreases |words| - i
  {
    if i >= |words| then []
    else (if i !in prev && words[i] !in sw then [i] else []) + Candidates(words, prev, sw, i + 1)
  }

  /** What one call returns: the new entities, and the list of replaced
      positions after the call appended to it. */
  datatype Replacement = Replacement(news: seq<string>, replaced: seq<nat>)

  /** The entity with the word at `idx` replaced by `w`, re-joined with
      single spaces. */
  function Substitute(words: seq<string>, idx: nat, w: string): string
    requires idx < |words|
  {
    JoinOn(words[idx := w], " ")
  }

  /** The body of `synonym_replacement` once `entity.split()` has given
      `words`, with the structure-word table, the random index draw (`pick`
      selects among the positions the loop may settle on) and the embedding
      model (`ranked`) as parameters.  The table is only consulted for a
      position not yet replaced, so an unknown language raises exactly when
      such a position exists. */
  function ReplaceIn(table: Option<set<string>>, words: seq<string>, prev: seq<nat>, pick: nat,
                     ranked: string -> seq<(string, real)>, threshold: real): (r: Result<Replacement>)
    ensures r.Failure? <==> table.None? && exists i :: 0 <= i < |words| && i !in prev
    ensures r.Success? && (table.None? || forall i :: 0 <= i < |words| && i !in prev ==> words[i] in table.value) ==>
      r.value == Replacement([], prev)
    ensures r.Success? && table.Some? && (exists i :: 0 <= i < |words| && i !in prev && words[i] !in table.value) ==>
      && |r.value.replaced| == |prev| + 1 && r.value.replaced[..|prev|] == prev
      && var idx := r.value.replaced[|prev|];
      && idx < |words| && idx !in prev && words[idx] !in table.value
      && Distinct(r.value.news)
      && (forall x :: x in r.value.news ==> exists w :: w in SimilarWords(ranked(words[idx]), threshold) && x == Substitute(words, idx, w))
      && (forall w :: w in SimilarWords(ranked(words[idx]), threshold) ==> Substitute(words, idx, w) in r.value.news)
  {
    if forall i :: 0 <= i < |words| ==> i in prev then Success(Replacement([], prev))
    else if table.None? then Failure("KeyError: unknown language")
    else
      var cands := Candidates(words, prev, table.value, 0);
      if |cands| == 0 then Success(Replacement([], prev))
      else
        var idx := cands[pick % |cands|];
        assert idx in cands;
        Success(Replacement(Substitutions(words, idx, SimilarWords(ranked(words[idx]), threshold)), prev + [idx]))
  }

  /** `words` re-joined once per similar word, each time with that word at
      `idx`, first occurrences only. */
  function Substitutions(words: seq<string>, idx: nat, sims: seq<string>): (r: seq<string>)
    requires idx < |words|
    ensures Distinct(r)
    ensures forall x :: x in r ==> exists w :: w in sims && x == Substitute(words, idx, w)
    ensures forall w :: w in sims ==> Substitute(words, idx, w) in r
  {
    var news := seq(|sims|, k requires 0 <= k < |sims| => Substitute(words, idx, sims[k]));
    DedupFacts(news);
    assert forall x :: x in news ==> exists k :: 0 <= k < |sims| && x == Substitute(words, idx, sims[k]);
    assert forall w :: w in sims ==> exists k :: 0 <= k < |sims| && sims[k] == w && news[k] == Substitute(words, idx, w);
    Dedup(news)
  }

  /** `synonym_replacement(args, model, entity, previously_replaced_word_idxs, distance_threshold)`,
      with the structure-word table as written. */
  function SynonymReplacement(lang: string, entity: string, prev: seq<nat>, pick: nat,
                              ranked: string -> seq<(string, real)>, threshold: real): Result<Replacement> {
    ReplaceIn(StructureWordsAsWritten(lang), SplitWs(entity), prev, pick, ranked, threshold)
  }

  /** The same with the English list corrected to hold `which` and `with`. */
  function SynonymReplacementCorrected(lang: string, entity: string, prev: seq<nat>, pick: nat,
                                       ranked: string -> seq<(string, real)>, threshold: real): Result<Replacement> {
    ReplaceIn(StructureWords(lang), SplitWs(entity), prev, pick, ranked, threshold)
  }

  /** Every position the random draw may settle on is reached by some draw. */
  lemma EveryCandidateReachable(table: set<string>, words: seq<string>, prev: seq<nat>, i: nat,
                                ranked: string -> seq<(string, real)>, threshold: real)
    requires i < |words| && i !in prev && words[i] !in table
    ensures exists pick: nat ::
      && ReplaceIn(Some(table), words, prev, pick, ranked, threshold).Success?
      && ReplaceIn(Some(table), words, prev, pick, ranked, threshold).value.replaced == prev + [i]
  {
    var cands := Candidates(words, prev, table, 0);
    assert i in cands;
    var j := IndexOf(cands, i);
    assert j % |cands| == j;
    ReplaceInPicked(table, words, prev, j, ranked, threshold);
    assert ReplaceIn(Some(table), words, prev, j, ranked, threshold).value.replaced == prev + [i];
  }

  /** With some candidate left, the round replaces the one `pick` selects. */
  lemma ReplaceInPicked(table: set<string>, words: seq<string>, prev: seq<nat>, pick: nat,
                        ranked: string -> seq<(string, real)>, threshold: real)
    requires |Candidates(words, prev, table, 0)| > 0
    ensures ReplaceIn(Some(table), words, prev, pick, ranked, threshold).Success?
    ensures ReplaceIn(Some(table), words, prev, pick, ranked, threshold).value.replaced
      == prev + [Candidates(words, prev, table, 0)[pick % |Candidates(words, prev, table, 0)|]]
  {
    var c := Candidates(words, prev, table, 0)[0];
    assert c in Candidates(words, prev, table, 0);
    assert c < |words| && c !in prev;
  }

  // ---------------------------------------------------------- augment_data

  /** The line `augment_data` logs for each entity it adds. */
  function AuxLine(code: string, entity: string, added: string): string {
    code + ": " + entity + " -> " + added + "\n"
  }

  /** The inner loop over new entities: those already in the list are
      skipped; each other one is appended and logged. */
  function AddNew(list: seq<string>, aux: seq<string>, code: string, entity: string, news: seq<string>): (r: (seq<string>, seq<string>))
    ensures |r.0| >= |list| && r.0[..|list|] == list
    ensures |r.1| >= |aux| && r.1[..|aux|] == aux && |r.1| - |aux| == |r.0| - |list|
    ensures Distinct(list) ==> Distinct(r.0)
    ensures Elems(r.0) == Elems(list) + Elems(news)
    ensures forall m :: |list| <= m < |r.0| ==>
      r.0[m] in news && r.1[m - |list| + |aux|] == AuxLine(code, entity, r.0[m])
    decreases |news|
  {
    if |news| == 0 then (list, aux)
    else if news[0] in list then
      assert Elems(news) == Elems(news[1..]) + {news[0]};
      AddNew(list, aux, code, entity, news[1..])
    else
      var line := AuxLine(code, entity, news[0]);
      var r := AddNew(list + [news[0]], aux + [line], code, entity, news[1..]);
      assert Elems(news) == Elems(news[1..]) + {news[0]};
      assert r.0[..|list|] == (list + [news[0]])[..|list|];
      assert r.1[..|aux|] == (aux + [line])[..|aux|];
      assert r.0[|list|] == (list + [news[0]])[|list|] == news[0];
      assert r.1[|aux|] == (aux + [line])[|aux|] == line;
      r
  }

  /** How many rounds the loop runs for one entity: `range(augment_factor)`
      stopped once the round number reaches the number of pieces of
      `entity.split(' ')`. */
  function RoundLimit(entity: string, factor: int): (r: nat)
    ensures factor <= 0 ==> r == 0
    ensures factor >= 1 ==> r >= 1 && r <= factor && r <= |SplitOn(entity, " ")|
  {
    if factor <= 0 then 0
    else if factor < |SplitOn(entity, " ")| then factor
    else |SplitOn(entity, " ")|
  }

  /** The state threaded through the loops of `augment_data` for one code. */
  datatype CodeState = CodeState(list: seq<string>, aux: seq<string>)

  /** `b` keeps `a` as its prefix, and adds no duplicate to it. */
  predicate Extends(a: seq<string>, b: seq<string>) {
    |b| >= |a| && b[..|a|] == a && (Distinct(a) ==> Distinct(b))
  }

  /** The augmented list extends the original one, and one log line was
      written per appended entity. */
  predicate Grows(st: CodeState, st2: CodeState) {
    && Extends(st.list, st2.list)
    && |st2.aux| >= |st.aux| && st2.aux[..|st.aux|] == st.aux
    && |st2.aux| - |st.aux| == |st2.list| - |st.list|
  }

  lemma GrowsTrans(a: CodeState, b: CodeState, c: CodeState)
    requires Grows(a, b) && Grows(b, c)
    ensures Grows(a, c)
  {
    assert c.list[..|a.list|] == c.list[..|b.list|][..|a.list|];
    assert c.aux[..|a.aux|] == c.aux[..|b.aux|][..|a.aux|];
  }

  /** `x` is the words re-joined with the word at one position replaced by
      a word the model ranks similar to it above the threshold. */
  predicate VariantOf(x: string, words: seq<string>, ranked: string -> seq<(string, real)>, threshold: real) {
    x in Variants(words, ranked, threshold)
  }

  /** All the strings `synonym_replacement` can return for `words`: one
      word swapped for one of its similar words. */
  function Variants(words: seq<string>, ranked: string -> seq<(string, real)>, threshold: real): set<string> {
    set idx: nat, w: string | idx < |words| && w in SimilarWords(ranked(words[idx]), threshold) :: Substitute(words, idx, w)
  }

  /** `st2` keeps `st`'s list and log as prefixes, with one log line per
      appended entity. */
  predicate Prefixed(st: CodeState, st2: CodeState) {
    && |st2.list| >= |st.list| && st2.list[..|st.list|] == st.list
    && |st2.aux| >= |st.aux| && st2.aux[..|st.aux|] == st.aux
    && |st2.aux| - |st.aux| == |st2.list| - |st.list|
  }

  lemma PrefixedTrans(a: CodeState, b: CodeState, c: CodeState)
    requires Prefixed(a, b) && Prefixed(b, c)
    ensures Prefixed(a, c)
  {
    assert c.list[..|a.list|] == c.list[..|b.list|][..|a.list|];
    assert c.aux[..|a.aux|] == c.aux[..|b.aux|][..|a.aux|];
  }

  /** `line` logs `x` as a variant of `entity`, whose words are `words`. */
  predicate VariantLine(code: string, entity: string, words: seq<string>, line: string, x: string,
                        ranked: string -> seq<(string, real)>, threshold: real) {
    line == AuxLine(code, entity, x) && VariantOf(x, words, ranked, threshold)
  }

  /** Each of `xs` is a variant of `words`, and the line beside it in
      `lines` records it against `entity`. */
  predicate AllVariantLines(code: string, entity: string, words: seq<string>, lines: seq<string>, xs: seq<string>,
                            ranked: string -> seq<(string, real)>, threshold: real) {
    && |lines| == |xs|
    && forall k :: 0 <= k < |xs| ==> VariantLine(code, entity, words, lines[k], xs[k], ranked, threshold)
  }

  lemma AllVariantLinesAppend(code: string, entity: string, words: seq<string>,
                              l1: seq<string>, x1: seq<string>, l2: seq<string>, x2: seq<string>,
                              ranked: string -> seq<(string, real)>, threshold: real)
    requires AllVariantLines(code, entity, words, l1, x1, ranked, threshold)
    requires AllVariantLines(code, entity, words, l2, x2, ranked, threshold)
    ensures AllVariantLines(code, entity, words, l1 + l2, x1 + x2, ranked, threshold)
  {
    forall k | 0 <= k < |x1 + x2|
      ensures VariantLine(code, entity, words, (l1 + l2)[k], (x1 + x2)[k], ranked, threshold)
    {
      if k < |x1| {
        assert (l1 + l2)[k] == l1[k] && (x1 + x2)[k] == x1[k];
      } else {
        assert (l1 + l2)[k] == l2[k - |x1|] && (x1 + x2)[k] == x2[k - |x1|];
      }
    }
  }

  /** Every entity appended from `st` to `st2` is a variant of `words`, and
      the log line written with it names `entity` and that variant. */
  predicate AppendsVariants(st: CodeState, st2: CodeState, code: string, entity: string, words: seq<string>,
                            ranked: string -> seq<(string, real)>, threshold: real) {
    && Prefixed(st, st2)
    && AllVariantLines(code, entity, words, st2.aux[|st.aux|..], st2.list[|st.list|..], ranked, threshold)
  }

  /** The part appended from `a` to `c` is the part appended from `a` to
      `b` followed by the part appended from `b` to `c`. */
  lemma AppendedSplit(a: CodeState, b: CodeState, c: CodeState)
    requires Prefixed(a, b) && Prefixed(b, c)
    ensures c.list[|a.list|..] == b.list[|a.list|..] + c.list[|b.list|..]
    ensures c.aux[|a.aux|..] == b.aux[|a.aux|..] + c.aux[|b.aux|..]
  {
    assert c.list == c.list[..|b.list|] + c.list[|b.list|..];
    assert c.aux == c.aux[..|b.aux|] + c.aux[|b.aux|..];
  }

  /** The new entities of one round are variants of the entity's words. */
  lemma ReplaceInVariants(table: Option<set<string>>, words: seq<string>, prev: seq<nat>, pick: nat,
                          ranked: string -> seq<(string, real)>, threshold: real)
    requires ReplaceIn(table, words, prev, pick, ranked, threshold).Success?
    ensures forall x :: x in ReplaceIn(table, words, prev, pick, ranked, threshold).value.news ==>
      VariantOf(x, words, ranked, threshold)
  {
    var rep := ReplaceIn(table, words, prev, pick, ranked, threshold).value;
    if table.Some? && exists i :: 0 <= i < |words| && i !in prev && words[i] !in table.value {
      var idx := rep.replaced[|prev|];
      forall x | x in rep.news
        ensures VariantOf(x, words, ranked, threshold)
      {
        var w :| w in SimilarWords(ranked(words[idx]), threshold) && x == Substitute(words, idx, w);
      }
    } else {
      assert rep.news == [];
    }
  }

  /** Appending the variants of one round. */
  lemma AddNewVariants(st: CodeState, code: string, entity: string, words: seq<string>, news: seq<string>,
                       ranked: string -> seq<(string, real)>, threshold: real)
    requires forall x :: x in news ==> VariantOf(x, words, ranked, threshold)
    ensures var added := AddNew(st.list, st.aux, code, entity, news);
      AppendsVariants(st, CodeState(added.0, added.1), code, entity, words, ranked, threshold)
  {
    var added := AddNew(st.list, st.aux, code, entity, news);
    AddNewLines(st, added, code, entity, words, news, ranked, threshold);
  }

  lemma AddNewLines(st: CodeState, added: (seq<string>, seq<string>), code: string, entity: string, words: seq<string>,
                    news: seq<string>, ranked: string -> seq<(string, real)>, threshold: real)
    requires forall x :: x in news ==> VariantOf(x, words, ranked, threshold)
    requires added == AddNew(st.list, st.aux, code, entity, news)
    ensures AllVariantLines(code, entity, words, added.1[|st.aux|..], added.0[|st.list|..], ranked, threshold)
  {
    var lines, xs := added.1[|st.aux|..], added.0[|st.list|..];
    forall k | 0 <= k < |xs|
      ensures VariantLine(code, entity, words, lines[k], xs[k], ranked, threshold)
    {
      var m := k + |st.list|;
      assert xs[k] == added.0[m] && lines[k] == added.1[m - |st.list| + |st.aux|];
      assert added.0[m] in news;
    }
  }

  lemma AppendsVariantsTrans(a: CodeState, b: CodeState, c: CodeState, code: string, entity: string, words: seq<string>,
                             ranked: string -> seq<(string, real)>, threshold: real)
    requires AppendsVariants(a, b, code, entity, words, ranked, threshold)
    requires AppendsVariants(b, c, code, entity, words, ranked, threshold)
    ensures AppendsVariants(a, c, code, entity, words, ranked, threshold)
  {
    PrefixedTrans(a, b, c);
    AppendedSplit(a, b, c);
    AllVariantLinesAppend(code, entity, words, b.aux[|a.aux|..], b.list[|a.list|..], c.aux[|b.aux|..], c.list[|b.list|..], ranked, threshold);
  }

  /** `line` logs `x` as a variant of one of the entities `es`. */
  predicate LoggedVariant(code: string, es: seq<string>, line: string, x: string,
                          ranked: string -> seq<(string, real)>, threshold: real) {
    line in VariantLines(code, es, x, ranked, threshold)
  }

  /** The log lines that record `x` as a variant of one of `es`. */
  function VariantLines(code: string, es: seq<string>, x: string,
                        ranked: string -> seq<(string, real)>, threshold: real): set<string> {
    set e | e in es && VariantOf(x, SplitWs(e), ranked, threshold) :: AuxLine(code, e, x)
  }

  /** Each of `xs` is a variant of one of `es`, and the line beside it
      in `lines` records it against that entity. */
  predicate AllLogged(code: string, es: seq<string>, lines: seq<string>, xs: seq<string>,
                      ranked: string -> seq<(string, real)>, threshold: real) {
    && |lines| == |xs|
    && forall k :: 0 <= k < |xs| ==> LoggedVariant(code, es, lines[k], xs[k], ranked, threshold)
  }

  lemma AllLoggedAppend(code: string, es: seq<string>, l1: seq<string>, x1: seq<string>, l2: seq<string>, x2: seq<string>,
                        ranked: string -> seq<(string, real)>, threshold: real)
    requires AllLogged(code, es, l1, x1, ranked, threshold) && AllLogged(code, es, l2, x2, ranked, threshold)
    ensures AllLogged(code, es, l1 + l2, x1 + x2, ranked, threshold)
  {
    forall k | 0 <= k < |x1 + x2|
      ensures LoggedVariant(code, es, (l1 + l2)[k], (x1 + x2)[k], ranked, threshold)
    {
      if k < |x1| {
        assert (l1 + l2)[k] == l1[k] && (x1 + x2)[k] == x1[k];
      } else {
        assert (l1 + l2)[k] == l2[k - |x1|] && (x1 + x2)[k] == x2[k - |x1|];
      }
    }
  }

  /** Every entity appended from `st` to `st2` is a variant of some entity
      of `es`, and the log line written with it names that entity and the
      variant. */
  predicate AppendsVariantsOf(st: CodeState, st2: CodeState, code: string, es: seq<string>,
                              ranked: string -> seq<(string, real)>, threshold: real) {
    && Prefixed(st, st2)
    && AllLogged(code, es, st2.aux[|st.aux|..], st2.list[|st.list|..], ranked, threshold)
  }

  lemma AppendsVariantsLift(st: CodeState, st2: CodeState, code: string, es: seq<string>, j: nat,
                            ranked: string -> seq<(string, real)>, threshold: real)
    requires j < |es| && AppendsVariants(st, st2, code, es[j], SplitWs(es[j]), ranked, threshold)
    ensures AppendsVariantsOf(st, st2, code, es, ranked, threshold)
  {
    var lines, xs := st2.aux[|st.aux|..], st2.list[|st.list|..];
    forall k | 0 <= k < |xs|
      ensures LoggedVariant(code, es, lines[k], xs[k], ranked, threshold)
    {
      LoggedOne(code, es, j, lines[k], xs[k], ranked, threshold);
    }
  }

  /** A line that logs `x` against `es[j]` logs it against `es`. */
  lemma LoggedOne(code: string, es: seq<string>, j: nat, line: string, x: string,
                  ranked: string -> seq<(string, real)>, threshold: real)
    requires j < |es| && VariantLine(code, es[j], SplitWs(es[j]), line, x, ranked, threshold)
    ensures LoggedVariant(code, es, line, x, ranked, threshold)
  {
    assert es[j] in es;
  }

  lemma AppendsVariantsOfTrans(a: CodeState, b: CodeState, c: CodeState, code: string, es: seq<string>,
                               ranked: string -> seq<(string, real)>, threshold: real)
    requires AppendsVariantsOf(a, b, code, es, ranked, threshold)
    requires AppendsVariantsOf(b, c, code, es, ranked, threshold)
    ensures AppendsVariantsOf(a, c, code, es, ranked, threshold)
  {
    PrefixedTrans(a, b, c);
    AppendedSplit(a, b, c);
    AllLoggedAppend(code, es, b.aux[|a.aux|..], b.list[|a.list|..], c.aux[|b.aux|..], c.list[|b.list|..], ranked, threshold);
  }

  /** The rounds of entity `j` followed by the later entities. */
  lemma EntityStep(st: CodeState, st2: CodeState, st3: CodeState, code: string, es: seq<string>, j: nat,
                   ranked: string -> seq<(string, real)>, threshold: real)
    requires j < |es| && Grows(st, st2) && Grows(st2, st3)
    requires AppendsVariants(st, st2, code, es[j], SplitWs(es[j]), ranked, threshold)
    requires AppendsVariantsOf(st2, st3, code, es, ranked, threshold)
    ensures Grows(st, st3) && AppendsVariantsOf(st, st3, code, es, ranked, threshold)
  {
    GrowsTrans(st, st2, st3);
    AppendsVariantsLift(st, st2, code, es, j, ranked, threshold);
    AppendsVariantsOfTrans(st, st2, st3, code, es, ranked, threshold);
  }

  /** Random draws, keyed by code, entity position and round. */
  type Picks = (string, nat, nat) -> nat

  /** Rounds `i` .. `limit - 1` for the entity at position `j`, whose words
      are `words`, with the replaced positions so far in `prev`. */
  function Rounds(table: Option<set<string>>, code: string, j: nat, entity: string, words: seq<string>,
                  limit: nat, i: nat, prev: seq<nat>, st: CodeState, picks: Picks,
                  ranked: string -> seq<(string, real)>, threshold: real): (r: Result<(CodeState, seq<nat>)>)
    ensures table.Some? ==> r.Success?
    ensures table.None? ==> (r.Failure? <==> i < limit && exists x :: 0 <= x < |words| && x !in prev)
    ensures r.Success? ==> Grows(st, r.value.0)
    ensures r.Success? ==> AppendsVariants(st, r.value.0, code, entity, words, ranked, threshold)
    ensures r.Success? ==>
      Elems(r.value.0.list) == Elems(st.list) + Elems(RoundsNews(table, code, j, words, limit, i, prev, picks, ranked, threshold))
    decreases limit - i
  {
    if i >= limit then
      assert st.list[..|st.list|] == st.list && st.aux[..|st.aux|] == st.aux;
      Success((st, prev))
    else
      var rep :- ReplaceIn(table, words, prev, picks(code, j, i), ranked, threshold);
      var added := AddNew(st.list, st.aux, code, entity, rep.news);
      var st1 := CodeState(added.0, added.1);
      var r := Rounds(table, code, j, entity, words, limit, i + 1, rep.replaced, st1, picks, ranked, threshold);
      if r.Success? then
        ReplaceInVariants(table, words, prev, picks(code, j, i), ranked, threshold);
        AddNewVariants(st, code, entity, words, rep.news, ranked, threshold);
        AppendsVariantsTrans(st, st1, r.value.0, code, entity, words, ranked, threshold);
        ElemsChain(st.list, st1.list, r.value.0.list, rep.news,
                   RoundsNews(table, code, j, words, limit, i + 1, rep.replaced, picks, ranked, threshold));
        r
      else r
  }

  /** Reference for the rounds of one entity: everything
      `synonym_replacement` returns, round after round, as the replaced
      positions accumulate.  It does not depend on the code's list. */
  function RoundsNews(table: Option<set<string>>, code: string, j: nat, words: seq<string>,
                      limit: nat, i: nat, prev: seq<nat>, picks: Picks,
                      ranked: string -> seq<(string, real)>, threshold: real): seq<string>
    decreases limit - i
  {
    if i >= limit then []
    else
      match ReplaceIn(table, words, prev, picks(code, j, i), ranked, threshold)
      case Failure(_) => []
      case Success(rep) => rep.news + RoundsNews(table, code, j, words, limit, i + 1, rep.replaced, picks, ranked, threshold)
  }

  /** Reference for the loop over a code's entities from position `j`: the
      round results of each entity in turn. */
  function EntitiesNews(table: Option<set<string>>, code: string, es: seq<string>, j: nat, factor: int,
                        picks: Picks, ranked: string -> seq<(string, real)>, threshold: real): seq<string>
    decreases |es| - j
  {
    if j >= |es| then []
    else
      RoundsNews(table, code, j, SplitWs(es[j]), RoundLimit(es[j], factor), 0, [], picks, ranked, threshold)
      + EntitiesNews(table, code, es, j + 1, factor, picks, ranked, threshold)
  }

  /** `prev2` extends `prev` by at most `rounds` new positions below `n`,
      with no position twice. */
  predicate ReplacedExtends(prev: seq<nat>, prev2: seq<nat>, rounds: nat, n: nat) {
    && |prev| <= |prev2| <= |prev| + rounds
    && prev2[..|prev|] == prev
    && Distinct(prev2)
    && forall k :: |prev| <= k < |prev2| ==> prev2[k] < n
  }

  lemma ExtendsTrans(a: seq<nat>, b: seq<nat>, c: seq<nat>, r1: nat, r2: nat, n: nat)
    requires ReplacedExtends(a, b, r1, n) && ReplacedExtends(b, c, r2, n)
    ensures ReplacedExtends(a, c, r1 + r2, n)
  {
    assert c[..|a|] == c[..|b|][..|a|];
    forall k | |a| <= k < |c|
      ensures c[k] < n
    {
      if k < |b| {
        assert c[k] == c[..|b|][k];
      }
    }
  }

  /** One round replaces at most one new position of the entity. */
  lemma ReplaceInExtends(table: Option<set<string>>, words: seq<string>, prev: seq<nat>, pick: nat,
                         ranked: string -> seq<(string, real)>, threshold: real)
    requires Distinct(prev)
    requires ReplaceIn(table, words, prev, pick, ranked, threshold).Success?
    ensures ReplacedExtends(prev, ReplaceIn(table, words, prev, pick, ranked, threshold).value.replaced, 1, |words|)
  {
    var rep := ReplaceIn(table, words, prev, pick, ranked, threshold).value;
    if table.Some? && exists i :: 0 <= i < |words| && i !in prev && words[i] !in table.value {
      var xs := rep.replaced;
      LastSplit(xs);
      DistinctSnoc(prev, xs[|prev|]);
    } else {
      assert rep.replaced == prev;
    }
  }

  /** The replaced positions after the rounds of one entity: no position
      twice, each a word of the entity, at most one per round. */
  lemma {:induction false} RoundsReplaced(table: Option<set<string>>, code: string, j: nat, entity: string, words: seq<string>,
                                          limit: nat, i: nat, prev: seq<nat>, st: CodeState, picks: Picks,
                                          ranked: string -> seq<(string, real)>, threshold: real)
    requires Distinct(prev)
    requires Rounds(table, code, j, entity, words, limit, i, prev, st, picks, ranked, threshold).Success?
    ensures ReplacedExtends(prev, Rounds(table, code, j, entity, words, limit, i, prev, st, picks, ranked, threshold).value.1,
                    if i < limit then limit - i else 0, |words|)
    decreases limit - i
  {
    if i < limit {
      var rep := ReplaceIn(table, words, prev, picks(code, j, i), ranked, threshold).value;
      var added := AddNew(st.list, st.aux, code, entity, rep.news);
      var st1 := CodeState(added.0, added.1);
      ReplaceInExtends(table, words, prev, picks(code, j, i), ranked, threshold);
      RoundsReplaced(table, code, j, entity, words, limit, i + 1, rep.replaced, st1, picks, ranked, threshold);
      var prev2 := Rounds(table, code, j, entity, words, limit, i + 1, rep.replaced, st1, picks, ranked, threshold).value.1;
      ExtendsTrans(prev, rep.replaced, prev2, 1, if i + 1 < limit then limit - (i + 1) else 0, |words|);
    } else {
      assert prev[..|prev|] == prev;
    }
  }

  /** The loop over the entities of one code, from position `j`. */
  function Entities(table: Option<set<string>>, code: string, es: seq<string>, j: nat, factor: int,
                    st: CodeState, picks: Picks,
                    ranked: string -> seq<(string, real)>, threshold: real): (r: Result<CodeState>)
    ensures table.Some? ==> r.Success?
    ensures table.None? ==> (r.Failure? <==> factor >= 1 && exists k :: j <= k < |es| && |SplitWs(es[k])| > 0)
    ensures r.Success? ==> Grows(st, r.value)
    ensures r.Success? ==> AppendsVariantsOf(st, r.value, code, es, ranked, threshold)
    ensures r.Success? ==> Elems(r.value.list) == Elems(st.list) + Elems(EntitiesNews(table, code, es, j, factor, picks, ranked, threshold))
    decreases |es| - j
  {
    if j >= |es| then
      assert st.list[..|st.list|] == st.list && st.aux[..|st.aux|] == st.aux;
      Success(st)
    else
      var words := SplitWs(es[j]);
      var limit := RoundLimit(es[j], factor);
      assert table.None? ==> (limit > 0 <==> factor >= 1);
      var none: seq<nat> := [];
      assert |words| > 0 ==> 0 < |words| && 0 !in none;
      var (st2, _) :- Rounds(table, code, j, es[j], words, limit, 0, none, st, picks, ranked, threshold);
      var r := Entities(table, code, es, j + 1, factor, st2, picks, ranked, threshold);
      if r.Success? then
        EntityStep(st, st2, r.value, code, es, j, ranked, threshold);
        ElemsChain(st.list, st2.list, r.value.list, RoundsNews(table, code, j, words, limit, 0, none, picks, ranked, threshold),
                   EntitiesNews(table, code, es, j + 1, factor, picks, ranked, threshold));
        r
      else r
  }

  /** Some entity of the dictionary has at least one word. */
  predicate AnyWords(data: CodeMap) {
    |data| > 0 && ((exists k :: 0 <= k < |data[0].1| && |SplitWs(data[0].1[k])| > 0) || AnyWords(data[1..]))
  }

  /** Total number of entities in a dictionary. */
  function Size(m: CodeMap): nat {
    if |m| == 0 then 0 else |m[0].1| + Size(m[1..])
  }

  /** Putting an extended first list in front of extended later ones
      extends every list of `data` and keeps its codes. */
  lemma {:induction false} ConsExtends(data: CodeMap, list: seq<string>, rest: CodeMap)
    requires |data| > 0 && Extends(data[0].1, list)
    requires Keys(rest) == Keys(data[1..])
    requires forall k :: 0 <= k < |data| - 1 ==> Extends(data[1..][k].1, rest[k].1)
    ensures Keys([(data[0].0, list)] + rest) == Keys(data)
    ensures forall k :: 0 <= k < |data| ==> Extends(data[k].1, ([(data[0].0, list)] + rest)[k].1)
  {
    var aug := [(data[0].0, list)] + rest;
    assert forall k :: 1 <= k < |data| ==> aug[k] == rest[k - 1] && data[k] == data[1..][k - 1];
  }

  /** The log is, code by code, the lines of the entities appended to that
      code's list: each appended entity is a variant of one of the code's
      original entities, logged against that entity. */
  predicate LogsVariants(data: CodeMap, out: CodeMap, log: seq<string>,
                         ranked: string -> seq<(string, real)>, threshold: real)
    decreases |data|
  {
    && |out| == |data|
    && if |data| == 0 then log == []
       else
         var added := |out[0].1| - |data[0].1|;
         && 0 <= added <= |log|
         && AppendsVariantsOf(CodeState(data[0].1, []), CodeState(out[0].1, log[..added]), data[0].0, data[0].1, ranked, threshold)
         && LogsVariants(data[1..], out[1..], log[added..], ranked, threshold)
  }

  /** `x` is a variant of one of `es`, and `log` holds the line naming that
      entity and `x`. */
  predicate VariantIn(code: string, es: seq<string>, x: string, log: seq<string>,
                      ranked: string -> seq<(string, real)>, threshold: real) {
    exists e :: e in es && VariantOf(x, SplitWs(e), ranked, threshold) && AuxLine(code, e, x) in log
  }

  /** Every entity appended to a code's list is a variant of one of that
      code's original entities, and the log holds its line. */
  lemma {:induction false} LogsVariantsIn(data: CodeMap, out: CodeMap, log: seq<string>,
                                          ranked: string -> seq<(string, real)>, threshold: real)
    requires LogsVariants(data, out, log, ranked, threshold)
    ensures forall k, m :: 0 <= k < |data| && |data[k].1| <= m < |out[k].1| ==>
      VariantIn(data[k].0, data[k].1, out[k].1[m], log, ranked, threshold)
    decreases |data|
  {
    if |data| > 0 {
      var added := |out[0].1| - |data[0].1|;
      LogsVariantsIn(data[1..], out[1..], log[added..], ranked, threshold);
      forall k, m | 0 <= k < |data| && |data[k].1| <= m < |out[k].1|
        ensures VariantIn(data[k].0, data[k].1, out[k].1[m], log, ranked, threshold)
      {
        if k == 0 {
          FirstCodeIn(data[0].0, data[0].1, out[0].1, log, added, m, ranked, threshold);
        } else {
          assert data[k] == data[1..][k - 1] && out[k] == out[1..][k - 1];
          LaterCodeIn(data[k].0, data[k].1, out[k].1[m], log, added, ranked, threshold);
        }
      }
    }
  }

  lemma FirstCodeIn(code: string, es: seq<string>, list: seq<string>, log: seq<string>, added: nat, m: nat,
                    ranked: string -> seq<(string, real)>, threshold: real)
    requires added <= |log| && |es| <= m < |list|
    requires AppendsVariantsOf(CodeState(es, []), CodeState(list, log[..added]), code, es, ranked, threshold)
    ensures VariantIn(code, es, list[m], log, ranked, threshold)
  {
    var line := log[..added][m - |es|];
    assert line == log[..added][0..][m - |es|] && list[m] == list[|es|..][m - |es|];
    assert LoggedVariant(code, es, line, list[m], ranked, threshold);
    var e :| e in es && VariantOf(list[m], SplitWs(e), ranked, threshold) && line == AuxLine(code, e, list[m]);
    assert line == log[m - |es|];
  }

  lemma LaterCodeIn(code: string, es: seq<string>, x: string, log: seq<string>, added: nat,
                    ranked: string -> seq<(string, real)>, threshold: real)
    requires added <= |log| && VariantIn(code, es, x, log[added..], ranked, threshold)
    ensures VariantIn(code, es, x, log, ranked, threshold)
  {
    var e :| e in es && VariantOf(x, SplitWs(e), ranked, threshold) && AuxLine(code, e, x) in log[added..];
  }

  /** `augment_data` with the structure-word table as a parameter: the
      augmented dictionary and the log lines.  Each code keeps its entities
      first and only appends entities not already in its list; one log line
      per added entity. */
  /** Reference for the whole run: `news(code, entities)` for every code,
      code by code; `augment_data` uses `CodeNews`. */
  function AllNews(data: CodeMap, news: (string, seq<string>) -> seq<string>): (r: seq<seq<string>>)
    ensures |r| == |data|
  {
    if |data| == 0 then [] else [news(data[0].0, data[0].1)] + AllNews(data[1..], news)
  }

  /** The round results of one code's loop over its entities. */
  function CodeNews(table: Option<set<string>>, factor: int, picks: Picks,
                    ranked: string -> seq<(string, real)>, threshold: real): (string, seq<string>) -> seq<string>
  {
    (code: string, es: seq<string>) => EntitiesNews(table, code, es, 0, factor, picks, ranked, threshold)
  }

  /** Position `k` of `AllNews` is the news of the `k`-th code. */
  lemma {:induction false} AllNewsAt(data: CodeMap, news: (string, seq<string>) -> seq<string>, k: nat)
    requires k < |data|
    ensures AllNews(data, news)[k] == news(data[k].0, data[k].1)
    decreases k
  {
    if k > 0 {
      AllNewsAt(data[1..], news, k - 1);
      assert data[1..][k - 1] == data[k];
    }
  }

  /** Completeness: each code's output list holds exactly its original
      entities and the news listed for it. */
  predicate AddsAll(data: CodeMap, out: CodeMap, news: seq<seq<string>>) {
    && |out| == |data| == |news|
    && forall k :: 0 <= k < |data| ==> Elems(out[k].1) == Elems(data[k].1) + Elems(news[k])
  }

  lemma AddsAllCons(data: CodeMap, out: CodeMap, news: seq<seq<string>>)
    requires |data| > 0 && |out| > 0 && |news| > 0
    requires Elems(out[0].1) == Elems(data[0].1) + Elems(news[0])
    requires AddsAll(data[1..], out[1..], news[1..])
    ensures AddsAll(data, out, news)
  {
    forall k | 1 <= k < |data|
      ensures Elems(out[k].1) == Elems(data[k].1) + Elems(news[k])
    {
      assert data[1..][k - 1] == data[k] && out[1..][k - 1] == out[k] && news[1..][k - 1] == news[k];
    }
  }

  function AugmentDataWith(table: Option<set<string>>, data: CodeMap, factor: int, picks: Picks,
                           ranked: string -> seq<(string, real)>, threshold: real): (r: Result<(CodeMap, seq<string>)>)
    ensures table.Some? ==> r.Success?
    ensures r.Success? ==>
      && Keys(r.value.0) == Keys(data)
      && (forall k :: 0 <= k < |data| ==> Extends(data[k].1, r.value.0[k].1))
      && |r.value.1| + Size(data) == Size(r.value.0)
    ensures r.Success? ==> LogsVariants(data, r.value.0, r.value.1, ranked, threshold)
    ensures r.Success? ==> AddsAll(data, r.value.0, AllNews(data, CodeNews(table, factor, picks, ranked, threshold)))
  {
    if |data| == 0 then Success(([], []))
    else
      var (code, es) := data[0];
      var st :- Entities(table, code, es, 0, factor, CodeState(es, []), picks, ranked, threshold);
      var (rest, aux) :- AugmentDataWith(table, data[1..], factor, picks, ranked, threshold);
      ConsExtends(data, st.list, rest);
      var out := [(code, st.list)] + rest;
      var log := st.aux + aux;
      assert out[1..] == rest && out[0].1 == st.list;
      assert log[..|st.aux|] == st.aux && log[|st.aux|..] == aux;
      var f := CodeNews(table, factor, picks, ranked, threshold);
      var news := AllNews(data, f);
      assert news[0] == EntitiesNews(table, code, es, 0, factor, picks, ranked, threshold);
      assert news[1..] == AllNews(data[1..], f);
      AddsAllCons(data, out, news);
      Success((out, log))
  }

  /** With a language missing from the table, the call raises exactly when
      it runs a round for an entity with at least one word. */
  lemma {:induction false} AugmentDataFails(data: CodeMap, factor: int, picks: Picks,
                                            ranked: string -> seq<(string, real)>, threshold: real)
    ensures AugmentDataWith(None, data, factor, picks, ranked, threshold).Failure? <==> factor >= 1 && AnyWords(data)
    decreases |data|
  {
    if |data| > 0 {
      AugmentDataFails(data[1..], factor, picks, ranked, threshold);
    }
  }

  /** `augment_data(args, model, data, augment_factor, distance_threshold)`,
      with the structure-word table as written. */
  function AugmentData(lang: string, data: CodeMap, factor: int, picks: Picks,
                       ranked: string -> seq<(string, real)>, threshold: real): (r: Result<(CodeMap, seq<string>)>)
    ensures lang in {"es", "en", "fr", "it", "pt"} ==> r.Success?
    ensures r.Success? ==> LogsVariants(data, r.value.0, r.value.1, ranked, threshold)
    ensures r.Success? ==> AddsAll(data, r.value.0, AllNews(data, CodeNews(StructureWordsAsWritten(lang), factor, picks, ranked, threshold)))
  {
    AugmentDataWith(StructureWordsAsWritten(lang), data, factor, picks, ranked, threshold)
  }

  /** The same with the English list corrected. */
  function AugmentDataCorrected(lang: string, data: CodeMap, factor: int, picks: Picks,
                                ranked: string -> seq<(string, real)>, threshold: real): Result<(CodeMap, seq<string>)> {
    AugmentDataWith(StructureWords(lang), data, factor, picks, ranked, threshold)
  }

  // --------------------------------------------------------------- finding

  lemma SplitWsOneWord(w: string)
    requires |w| > 0 && NoSpace(w)
    ensures SplitWs(w) == [w]
  {
    assert LStrip(w) == w;
    assert Word(w) == w;
    assert w[|w|..] == [];
    assert LStrip(w[|w|..]) == [];
  }

  /** The adjacent literals 'which' 'with' make one element. */
  lemma EnAsWrittenMissesWith()
    ensures "whichwith" in EnWordsAsWritten
    ensures "with" !in EnWordsAsWritten && "which" !in EnWordsAsWritten
  {
  }

  lemma EnHasWith()
    ensures "with" in EnWords && "which" in EnWords
    ensures EnWords == EnWordsAsWritten - {"whichwith"} + {"which", "with"}
  {
  }

  /** A single-word entity whose word is not a structure word has that
      word replaced, whatever the draw, by every neighbour above the
      threshold. */
  lemma SubstituteSingle(w: string, v: string)
    ensures Substitute([w], 0, v) == v
  {
    assert [w][0 := v] == [v];
  }

  lemma ReplacesContentWordAt(sw: set<string>, w: string, pick: nat, ranked: string -> seq<(string, real)>, threshold: real)
    requires w !in sw
    ensures ReplaceIn(Some(sw), [w], [], pick, ranked, threshold).Success?
    ensures ReplaceIn(Some(sw), [w], [], pick, ranked, threshold).value.replaced == [0]
  {
    var none: seq<nat> := [];
    assert 0 !in none && [w][0] !in sw;
    var rep := ReplaceIn(Some(sw), [w], none, pick, ranked, threshold).value;
    assert rep.replaced[0] == 0;
  }

  lemma ReplacesContentWord(sw: set<string>, w: string, pick: nat, ranked: string -> seq<(string, real)>, threshold: real)
    requires w !in sw
    ensures ReplaceIn(Some(sw), [w], [], pick, ranked, threshold).Success?
    ensures ReplaceIn(Some(sw), [w], [], pick, ranked, threshold).value.replaced == [0]
    ensures forall v :: v in SimilarWords(ranked(w), threshold) ==>
      v in ReplaceIn(Some(sw), [w], [], pick, ranked, threshold).value.news
  {
    ReplacesContentWordAt(sw, w, pick, ranked, threshold);
    forall v | v in SimilarWords(ranked(w), threshold)
      ensures v in ReplaceIn(Some(sw), [w], [], pick, ranked, threshold).value.news
    {
      SubstituteSingle(w, v);
    }
  }

  /** A single-word entity whose word is a structure word is left alone. */
  lemma KeepsStructureWord(sw: set<string>, w: string, pick: nat, ranked: string -> seq<(string, real)>, threshold: real)
    requires w in sw
    ensures ReplaceIn(Some(sw), [w], [], pick, ranked, threshold) == Success(Replacement([], []))
  {
    var words := [w];
    var none: seq<nat> := [];
    assert forall i :: 0 <= i < |words| && i !in none ==> words[i] in sw;
  }

  /** As written, English "with" is not a structure word: the single-word
      entity "with" has its word replaced. */
  lemma WithReplacedAsWritten(pick: nat, ranked: string -> seq<(string, real)>, threshold: real)
    ensures var r := SynonymReplacement("en", "with", [], pick, ranked, threshold);
      && r.Success? && r.value.replaced == [0]
      && forall v :: v in SimilarWords(ranked("with"), threshold) ==> v in r.value.news
  {
    SplitWsOneWord("with");
    EnAsWrittenMissesWith();
    assert StructureWordsAsWritten("en") == Some(EnWordsAsWritten);
    ReplacesContentWord(EnWordsAsWritten, "with", pick, ranked, threshold);
    assert ReplaceIn(StructureWordsAsWritten("en"), SplitWs("with"), [], pick, ranked, threshold)
        == ReplaceIn(Some(EnWordsAsWritten), ["with"], [], pick, ranked, threshold);
  }

  /** With the intended set, the same entity is left alone. */
  lemma WithKeptCorrected(pick: nat, ranked: string -> seq<(string, real)>, threshold: real)
    ensures SynonymReplacementCorrected("en", "with", [], pick, ranked, threshold) == Success(Replacement([], []))
  {
    SplitWsOneWord("with");
    EnHasWith();
    KeepsStructureWord(EnWords, "with", pick, ranked, threshold);
  }
}

=== FILE: augment_ner.dfy ===
/** The CoNLL sentence reader and writer of the NER augmentation script, and
    its pure passes over sentences: span re-basing after augmentation, BIO
    entity extraction, and the tag fix for the MultiCardioNER corpus. */
module AugmentNer {
  import opened Wrappers
  import opened PyStr
  import opened Seqs

  /** One token line split on tabs; after augmentation a token is
      `[word, filename, "start_end", tag]`. */
  type Fields = seq<string>
  type Sentence = seq<Fields>

  // ------------------------------------------------------------- load_data

  /** What the reading loop makes of one line: stripped, a non-blank line is
      a token split on tabs; a blank one (`None`) ends a sentence. */
  function TokenOf(line: string): Option<Fields> {
    var l := Strip(line);
    if l != "" then Some(SplitOn(l, "\t")) else None
  }

  function Classify(lines: seq<string>): (r: seq<Option<Fields>>)
    ensures |r| == |lines|
  {
    Map(TokenOf, lines)
  }

  /** The sentences closed so far and the one being read. */
  datatype LoadState = LoadState(done: seq<Sentence>, current: Sentence)

  /** One iteration of the reading loop: a blank line closes a non-empty
      sentence; any other line adds a token. */
  function LoadStep(st: LoadState, line: Option<Fields>): LoadState {
    match line
    case Some(tok) => st.(current := st.current + [tok])
    case None => if |st.current| > 0 then LoadState(st.done + [st.current], []) else st
  }

  function LoadFrom(st: LoadState, lines: seq<Option<Fields>>): LoadState
    decreases |lines|
  {
    if |lines| == 0 then st else LoadFrom(LoadStep(st, lines[0]), lines[1..])
  }

  /** Reference: the tokens present, in order. */
  function Present(lines: seq<Option<Fields>>): seq<Fields> {
    if |lines| == 0 then []
    else (if lines[0].Some? then [lines[0].value] else []) + Present(lines[1..])
  }

  predicate NoEmpty(ss: seq<Sentence>) {
    forall k :: 0 <= k < |ss| ==> |ss[k]| > 0
  }

  /** The tokens of one line, if any. */
  function Here(line: Option<Fields>): seq<Fields> {
    if line.Some? then [line.value] else []
  }

  lemma StepTokens(st: LoadState, line: Option<Fields>)
    ensures Flatten(LoadStep(st, line).done) + LoadStep(st, line).current
         == Flatten(st.done) + st.current + Here(line)
  {
    if line.None? && |st.current| > 0 {
      FlattenSnoc(st.done, st.current);
    }
  }

  lemma {:induction false} LoadFromTokens(st: LoadState, lines: seq<Option<Fields>>)
    ensures Flatten(LoadFrom(st, lines).done) + LoadFrom(st, lines).current
         == Flatten(st.done) + st.current + Present(lines)
    decreases |lines|
  {
    if |lines| > 0 {
      var st' := LoadStep(st, lines[0]);
      LoadFromTokens(st', lines[1..]);
      StepTokens(st, lines[0]);
      assert Present(lines) == Here(lines[0]) + Present(lines[1..]);
      assert Flatten(st.done) + st.current + Here(lines[0]) + Present(lines[1..])
          == Flatten(st.done) + st.current + Present(lines);
    } else {
      assert Present(lines) == [];
    }
  }

  lemma {:induction false} LoadFromNoEmpty(st: LoadState, lines: seq<Option<Fields>>)
    requires NoEmpty(st.done)
    ensures NoEmpty(LoadFrom(st, lines).done)
    decreases |lines|
  {
    if |lines| > 0 {
      LoadFromNoEmpty(LoadStep(st, lines[0]), lines[1..]);
    }
  }

  /** The grouping half of `load_data`: no sentence is empty, and read in
      order the sentences hold exactly the tokens present, so a last sentence
      without a closing blank line is kept. */
  function Sentences(cls: seq<Option<Fields>>): (r: seq<Sentence>)
    ensures NoEmpty(r)
    ensures Flatten(r) == Present(cls)
  {
    var st := LoadFrom(LoadState([], []), cls);
    LoadFromTokens(LoadState([], []), cls);
    LoadFromNoEmpty(LoadState([], []), cls);
    assert Flatten<Fields>([]) == [];
    if |st.current| > 0 then
      FlattenSnoc(st.done, st.current);
      st.done + [st.current]
    else
      assert Flatten(st.done) + st.current == Flatten(st.done);
      st.done
  }

  /** `load_data` over the lines of a file. */
  function LoadData(lines: seq<string>): seq<Sentence> {
    Sentences(Classify(lines))
  }

  // ------------------------------------------------------------- save_data

  function Line(tok: Fields): string {
    JoinOn(tok, "\t") + "\n"
  }

  function TokenLines(s: Sentence): (r: seq<string>)
    ensures |r| == |s|
  {
    if |s| == 0 then [] else [Line(s[0])] + TokenLines(s[1..])
  }

  /** `save_data`: one line per token and one blank line after each
      sentence. */
  function SaveLines(d: seq<Sentence>): (r: seq<string>)
    ensures |r| == |Flatten(d)| + |d|
  {
    if |d| == 0 then [] else TokenLines(d[0]) + ["\n"] + SaveLines(d[1..])
  }

  /** The contents of the file `save_data` writes. */
  function SaveData(d: seq<Sentence>): string {
    Concat(SaveLines(d))
  }

  /** A token that reads back as itself: its fields hold no tab and no line
      break (a '\r' would end the line under Python's universal newlines),
      and its line is neither blank nor padded with whitespace. */
  predicate WritableToken(tok: Fields) {
    && |tok| >= 1
    && (forall f :: f in tok ==> '\t' !in f && '\n' !in f && '\r' !in f)
    && JoinOn(tok, "\t") != ""
    && NoEdgeSpace(JoinOn(tok, "\t"))
  }

  predicate Writable(d: seq<Sentence>) {
    forall k :: 0 <= k < |d| ==> |d[k]| > 0 && forall j :: 0 <= j < |d[k]| ==> WritableToken(d[k][j])
  }

  lemma {:induction false} JoinNoChar(parts: seq<string>, sep: string, c: char)
    requires c !in sep
    requires forall p :: p in parts ==> c !in p
    ensures c !in JoinOn(parts, sep)
    decreases |parts|
  {
    if |parts| > 1 {
      assert parts[0] in parts;
      assert forall p :: p in parts[1..] ==> p in parts;
      JoinNoChar(parts[1..], sep, c);
    } else if |parts| == 1 {
      assert parts[0] in parts;
    }
  }

  /** A writable token's line is a single line that reads back as it. */
  lemma LineReadsBack(tok: Fields)
    requires WritableToken(tok)
    ensures TokenOf(Line(tok)) == Some(tok)
    ensures IsLine(Line(tok))
  {
    var body := JoinOn(tok, "\t");
    StripLine(body);
    SplitOnJoinOn(tok, "\t");
    JoinNoChar(tok, "\t", '\n');
    assert Line(tok)[..|Line(tok)| - 1] == body;
  }

  /** Each token as a present line. */
  function Somes(s: Sentence): (r: seq<Option<Fields>>)
    ensures |r| == |s|
  {
    if |s| == 0 then [] else [Some(s[0])] + Somes(s[1..])
  }

  /** Reference: how the written lines classify, a token per token and a
      blank after each sentence. */
  function Marks(d: seq<Sentence>): seq<Option<Fields>> {
    if |d| == 0 then []
    else Somes(d[0]) + [None] + Marks(d[1..])
  }

  lemma ClassifyAppend(a: seq<string>, b: seq<string>)
    ensures Classify(a + b) == Classify(a) + Classify(b)
  {
    MapAppend(TokenOf, a, b);
  }

  lemma BlankLine()
    ensures Classify(["\n"]) == [None]
    ensures IsLine("\n")
  {
    StripNewline();
    assert Classify(["\n"])[0] == TokenOf("\n") == None;
  }

  lemma {:induction false} TokenLinesClassify(s: Sentence)
    requires forall j :: 0 <= j < |s| ==> WritableToken(s[j])
    ensures Classify(TokenLines(s)) == Somes(s)
    decreases |s|
  {
    if |s| > 0 {
      assert forall j :: 0 <= j < |s| - 1 ==> s[1..][j] == s[j + 1];
      TokenLinesClassify(s[1..]);
      LineReadsBack(s[0]);
      var rest := TokenLines(s[1..]);
      assert ([Line(s[0])] + rest)[1..] == rest;
    }
  }

  lemma {:induction false} TokenLinesAreLines(s: Sentence)
    requires forall j :: 0 <= j < |s| ==> WritableToken(s[j])
    ensures AllLines(TokenLines(s))
    decreases |s|
  {
    if |s| > 0 {
      assert forall j :: 0 <= j < |s| - 1 ==> s[1..][j] == s[j + 1];
      TokenLinesAreLines(s[1..]);
      LineReadsBack(s[0]);
      AllLinesAppend([Line(s[0])], TokenLines(s[1..]));
    }
  }

  lemma {:induction false} SaveLinesClassify(d: seq<Sentence>)
    requires Writable(d)
    ensures Classify(SaveLines(d)) == Marks(d)
    decreases |d|
  {
    if |d| > 0 {
      var t := TokenLines(d[0]);
      var rest := SaveLines(d[1..]);
      assert Writable(d[1..]) by {
        assert forall k :: 0 <= k < |d| - 1 ==> d[1..][k] == d[k + 1];
      }
      SaveLinesClassify(d[1..]);
      TokenLinesClassify(d[0]);
      BlankLine();
      ClassifyAppend(t, ["\n"]);
      ClassifyAppend(t + ["\n"], rest);
    }
  }

  lemma {:induction false} SaveLinesAreLines(d: seq<Sentence>)
    requires Writable(d)
    ensures AllLines(SaveLines(d))
    decreases |d|
  {
    if |d| > 0 {
      assert Writable(d[1..]) by {
        assert forall k :: 0 <= k < |d| - 1 ==> d[1..][k] == d[k + 1];
      }
      SaveLinesAreLines(d[1..]);
      TokenLinesAreLines(d[0]);
      assert AllLines(["\n"]) by {
        assert IsLine("\n");
      }
      AllLinesAppend(TokenLines(d[0]), ["\n"]);
      AllLinesAppend(TokenLines(d[0]) + ["\n"], SaveLines(d[1..]));
    }
  }

  lemma {:induction false} LoadFromAppend(st: LoadState, a: seq<Option<Fields>>, b: seq<Option<Fields>>)
    ensures LoadFrom(st, a + b) == LoadFrom(LoadFrom(st, a), b)
    decreases |a|
  {
    if |a| == 0 {
      assert a + b == b;
    } else {
      assert (a + b)[1..] == a[1..] + b;
      LoadFromAppend(LoadStep(st, a[0]), a[1..], b);
    }
  }

  lemma {:induction false} LoadTokens(st: LoadState, s: Sentence)
    ensures LoadFrom(st, Somes(s)) == st.(current := st.current + s)
    decreases |s|
  {
    if |s| == 0 {
      assert st.current + s == st.current;
    } else {
      assert st.current + [s[0]] + s[1..] == st.current + s;
      LoadTokens(LoadStep(st, Some(s[0])), s[1..]);
    }
  }

  lemma {:induction false} LoadMarks(acc: seq<Sentence>, d: seq<Sentence>)
    requires NoEmpty(d)
    ensures LoadFrom(LoadState(acc, []), Marks(d)) == LoadState(acc + d, [])
    decreases |d|
  {
    if |d| == 0 {
      assert acc + d == acc;
    } else {
      var st := LoadState(acc, []);
      var ms := Somes(d[0]);
      assert Marks(d) == ms + ([None] + Marks(d[1..]));
      assert acc + [d[0]] + d[1..] == acc + d;
      assert NoEmpty(d[1..]) by {
        assert forall k :: 0 <= k < |d| - 1 ==> d[1..][k] == d[k + 1];
      }
      LoadTokens(st, d[0]);
      assert [] + d[0] == d[0];
      LoadFromAppend(st, ms, [None] + Marks(d[1..]));
      assert ([None] + Marks(d[1..]))[1..] == Marks(d[1..]);
      LoadMarks(acc + [d[0]], d[1..]);
    }
  }

  /** Reading back what `save_data` wrote gives the sentences back, for
      non-empty sentences of writable tokens. */
  lemma SaveLoadRoundTrip(d: seq<Sentence>)
    requires Writable(d)
    ensures LoadData(ReadLines(SaveData(d))) == d
  {
    SaveLinesClassify(d);
    SaveLinesAreLines(d);
    ReadLinesConcat(SaveLines(d));
    LoadMarks([], d);
    assert [] + d == d;
  }

  // ------------------------------------------------------------- fix_spans

  /** `map(int, span.split('_'))` unpacked into two names: exactly two
      pieces, each an integer literal; anything else raises. */
  function ParseSpan(span: string): Option<(int, int)> {
    var parts := SplitOn(span, "_");
    if |parts| != 2 then None
    else match (ParseInt(parts[0]), ParseInt(parts[1]))
      case (Some(s), Some(e)) => Some((s, e))
      case _ => None
  }

  /** `f'{start}_{end}'` */
  function ShowSpan(s: int, e: int): string {
    ShowInt(s) + "_" + ShowInt(e)
  }

  lemma ShowIntNoUnderscore(i: int)
    ensures '_' !in ShowInt(i)
  {
    var r := ShowInt(i);
    if i < 0 {
      var n := ShowNat(-i);
      assert r == "-" + n;
      assert forall k :: 0 <= k < |n| ==> IsDigit(n[k]);
      assert forall k :: 1 <= k < |r| ==> r[k] == n[k - 1];
    } else {
      assert forall k :: 0 <= k < |r| ==> IsDigit(r[k]);
    }
  }

  /** A written span parses back to its two offsets. */
  lemma ParseShowSpan(s: int, e: int)
    ensures ParseSpan(ShowSpan(s, e)) == Some((s, e))
  {
    var a, b := ShowInt(s), ShowInt(e);
    ShowIntNoUnderscore(s);
    ShowIntNoUnderscore(e);
    SplitOnPrefix(a, "_", b);
    SplitOnNoSep(b, "_");
    var parts := SplitOn(ShowSpan(s, e), "_");
    assert |parts| == 2 && parts[0] == a && parts[1] == b;
    ParseShowInt(s);
    ParseShowInt(e);
  }

  /** A token as `fix_spans` unpacks it. */
  datatype SpanToken = SpanToken(word: string, filename: string, start: int, end: int, tag: string)

  /** Unpacking `(word, filename, span, tag)` and the span: four fields and
      a parseable span, or the loop raises. */
  function ParseToken(row: Fields): Option<SpanToken> {
    if |row| != 4 then None
    else match ParseSpan(row[2])
      case None => None
      case Some((s, e)) => Some(SpanToken(row[0], row[1], s, e, row[3]))
  }

  function WriteToken(t: SpanToken): Fields {
    [t.word, t.filename, ShowSpan(t.start, t.end), t.tag]
  }

  /** A written token unpacks to itself. */
  lemma ParseWriteToken(t: SpanToken)
    ensures ParseToken(WriteToken(t)) == Some(t)
  {
    ParseShowSpan(t.start, t.end);
  }

  predicate Parses(sent: Sentence) {
    forall k :: 0 <= k < |sent| ==> ParseToken(sent[k]).Some?
  }

  function ParseTokens(sent: Sentence): seq<SpanToken>
    requires Parses(sent)
  {
    seq(|sent|, k requires 0 <= k < |sent| => ParseToken(sent[k]).value)
  }

  /** How much longer a token's span is than its word (an augmented word may
      be longer or shorter than the span it replaced). */
  function Slack(t: SpanToken): int {
    t.end - (t.start + |t.word|)
  }

  /** Reference: the total slack of the first `k` tokens, by which every
      later token has to move. */
  function Drift(ts: seq<SpanToken>, k: nat): int
    requires k <= |ts|
  {
    if k == 0 then 0 else Drift(ts, k - 1) + Slack(ts[k - 1])
  }

  /** The loop of `fix_spans` over the tokens of one sentence, `offset`
      being the drift accumulated so far. */
  function FixTokens(ts: seq<SpanToken>, offset: int): (r: seq<SpanToken>)
    ensures |r| == |ts|
  {
    if |ts| == 0 then []
    else
      var t := ts[0];
      var start := t.start - offset;
      var offset' := offset + (t.end - (t.start + |t.word|));
      var end := t.end - offset';
      [t.(start := start, end := end)] + FixTokens(ts[1..], offset')
  }

  lemma {:induction false} DriftTail(ts: seq<SpanToken>, k: nat)
    requires 1 <= k <= |ts|
    ensures Drift(ts, k) == Slack(ts[0]) + Drift(ts[1..], k - 1)
    decreases k
  {
    if k > 1 {
      DriftTail(ts, k - 1);
      assert ts[1..][k - 2] == ts[k - 1];
    }
  }

  /** Each token keeps its word, filename and tag and moves back by the
      drift before it, and its new span is exactly as long as its word. */
  lemma {:induction false} FixTokensShift(ts: seq<SpanToken>, offset: int)
    ensures forall k :: 0 <= k < |ts| ==>
      var start := ts[k].start - offset - Drift(ts, k);
      FixTokens(ts, offset)[k] == ts[k].(start := start, end := start + |ts[k].word|)
    decreases |ts|
  {
    if |ts| > 0 {
      var t := ts[0];
      var offset' := offset + Slack(t);
      var r := FixTokens(ts, offset);
      var rest := FixTokens(ts[1..], offset');
      assert r == [r[0]] + rest;
      FixTokensShift(ts[1..], offset');
      forall k | 1 <= k < |ts|
        ensures var start := ts[k].start - offset - Drift(ts, k);
          r[k] == ts[k].(start := start, end := start + |ts[k].word|)
      {
        DriftTail(ts, k);
        assert r[k] == rest[k - 1] && ts[k] == ts[1..][k - 1];
      }
    }
  }

  lemma {:induction false} DriftZero(ts: seq<SpanToken>, k: nat)
    requires k <= |ts|
    requires forall j :: 0 <= j < |ts| ==> Slack(ts[j]) == 0
    ensures Drift(ts, k) == 0
    decreases k
  {
    if k > 0 {
      DriftZero(ts, k - 1);
    }
  }

  /** One token of FixTokensShift, for callers that need a single index. */
  lemma FixTokenAt(ts: seq<SpanToken>, offset: int, k: nat)
    requires k < |ts|
    ensures FixTokens(ts, offset)[k].start == ts[k].start - offset - Drift(ts, k)
    ensures FixTokens(ts, offset)[k].end == FixTokens(ts, offset)[k].start + |ts[k].word|
    ensures FixTokens(ts, offset)[k] == ts[k].(start := FixTokens(ts, offset)[k].start, end := FixTokens(ts, offset)[k].end)
  {
    FixTokensShift(ts, offset);
  }

  lemma KeepsConsistent(ts: seq<SpanToken>)
    requires forall j :: 0 <= j < |ts| ==> Slack(ts[j]) == 0
    ensures FixTokens(ts, 0) == ts
  {
    var r := FixTokens(ts, 0);
    forall j | 0 <= j < |ts|
      ensures r[j] == ts[j]
    {
      FixTokenAt(ts, 0, j);
      DriftZero(ts, j);
      assert Slack(ts[j]) == 0;
    }
  }

  /** The offset restarts with every sentence, so its first token keeps its
      start; and when every span already matches its word, every span is
      kept. */
  lemma FixTokensFirstAndConsistent(ts: seq<SpanToken>)
    ensures |ts| > 0 ==> FixTokens(ts, 0)[0].start == ts[0].start
    ensures (forall j :: 0 <= j < |ts| ==> Slack(ts[j]) == 0) ==> FixTokens(ts, 0) == ts
  {
    if |ts| > 0 {
      FixTokenAt(ts, 0, 0);
    }
    if forall j :: 0 <= j < |ts| ==> Slack(ts[j]) == 0 {
      KeepsConsistent(ts);
    }
  }

  /** `fix_spans` on one sentence. */
  function FixSentence(sent: Sentence): (r: Result<Sentence>)
    ensures r.Success? <==> Parses(sent)
    ensures r.Success? ==> |r.value| == |sent|
  {
    if !Parses(sent) then Failure("ValueError: a token or its span does not unpack")
    else
      var fixed := FixTokens(ParseTokens(sent), 0);
      Success(seq(|fixed|, k requires 0 <= k < |fixed| => WriteToken(fixed[k])))
  }

  /** The tokens a fixed sentence is written with unpack to the fixed
      tokens. */
  lemma FixSentenceReadsBack(sent: Sentence)
    requires Parses(sent)
    ensures Parses(FixSentence(sent).value)
    ensures ParseTokens(FixSentence(sent).value) == FixTokens(ParseTokens(sent), 0)
  {
    var fixed := FixTokens(ParseTokens(sent), 0);
    var out := FixSentence(sent).value;
    forall j | 0 <= j < |out|
      ensures ParseToken(out[j]) == Some(fixed[j])
    {
      ParseWriteToken(fixed[j]);
    }
  }

  /** `fix_spans` over every sentence, in order. */
  function FixEach(sents: seq<Sentence>): (r: Result<seq<Sentence>>)
    ensures r.Success? <==> forall k :: 0 <= k < |sents| ==> Parses(sents[k])
    ensures r.Success? ==> |r.value| == |sents|
    ensures r.Success? ==> forall k :: 0 <= k < |sents| ==> r.value[k] == FixSentence(sents[k]).value
  {
    MapAll(FixSentence, sents)
  }

  /** `fix_spans(data)`, the groups being the values of the augmented
      dictionary in insertion order. */
  function FixSpans(groups: seq<seq<Sentence>>): Result<seq<Sentence>> {
    FixEach(Flatten(groups))
  }

  /** What `fix_spans` promises at the level of the file: it fails exactly
      when some token does not unpack (FixEach); otherwise it keeps the
      sentences, and each one's written tokens unpack to the fixed tokens of
      the original (see FixTokensShift for what fixing does to them). */
  lemma FixSpansReadBack(groups: seq<seq<Sentence>>, k: nat)
    requires FixSpans(groups).Success? && k < |Flatten(groups)|
    ensures Parses(FixSpans(groups).value[k])
    ensures ParseTokens(FixSpans(groups).value[k]) == FixTokens(ParseTokens(Flatten(groups)[k]), 0)
  {
    FixSentenceReadsBack(Flatten(groups)[k]);
  }

  // --------------------------------------------- get_entities_from_sentence

  predicate Rows4(sent: Sentence) {
    forall k :: 0 <= k < |sent| ==> |sent[k]| == 4
  }

  predicate IsB(row: Fields)
    requires |row| == 4
  {
    StartsWith(row[3], "B-")
  }

  predicate IsI(row: Fields)
    requires |row| == 4
  {
    StartsWith(row[3], "I-")
  }

  predicate Tagged(row: Fields)
    requires |row| == 4
  {
    IsB(row) || IsI(row)
  }

  /** An entity as `get_entities_from_sentence` collects it: its words, reported joined by
      single spaces, and the index reported with it. */
  datatype Entity = Entity(words: seq<string>, index: int)

  function Text(e: Entity): string {
    JoinOn(e.words, " ")
  }

  function WordsOf(es: seq<Entity>): seq<seq<string>> {
    seq(|es|, k requires 0 <= k < |es| => es[k].words)
  }

  /** The loop of `get_entities_from_sentence` from token `i`, with the
      entities found so far, the words of the open entity and its index. */
  function ExtractFrom(sent: Sentence, i: nat, ents: seq<Entity>, curr: seq<string>, idx: int): seq<Entity>
    requires Rows4(sent) && i <= |sent|
    decreases |sent| - i
  {
    if i == |sent| then
      if |curr| > 0 then ents + [Entity(curr, idx)] else ents
    else
      var row := sent[i];
      if IsB(row) then
        if |curr| > 0 then ExtractFrom(sent, i + 1, ents + [Entity(curr, i)], [row[0]], -1)
        else ExtractFrom(sent, i + 1, ents, [row[0]], i)
      else if IsI(row) then ExtractFrom(sent, i + 1, ents, curr + [row[0]], idx)
      else if |curr| > 0 then ExtractFrom(sent, i + 1, ents + [Entity(curr, idx)], [], -1)
      else ExtractFrom(sent, i + 1, ents, curr, idx)
  }

  /** Reference: the words of the B-/I- tokens from `i` on, in order. */
  function TaggedWords(sent: Sentence, i: nat): seq<string>
    requires Rows4(sent) && i <= |sent|
    decreases |sent| - i
  {
    if i == |sent| then []
    else (if Tagged(sent[i]) then [sent[i][0]] else []) + TaggedWords(sent, i + 1)
  }

  /** Reference: the number of tokens from `i` on that open an entity: every
      B- token, and every I- token not preceded by a B-/I- token
      (`prevTagged` says whether token `i - 1` was one). */
  function StartCount(sent: Sentence, i: nat, prevTagged: bool): nat
    requires Rows4(sent) && i <= |sent|
    decreases |sent| - i
  {
    if i == |sent| then 0
    else
      var row := sent[i];
      (if IsB(row) || (IsI(row) && !prevTagged) then 1 else 0) + StartCount(sent, i + 1, Tagged(row))
  }

  predicate NonEmptyWords(es: seq<Entity>) {
    forall k :: 0 <= k < |es| ==> |es[k].words| > 0
  }

  /** Every reported index is -1 or the position of a B- token. */
  predicate GoodIndices(sent: Sentence, es: seq<Entity>)
    requires Rows4(sent)
  {
    forall k :: 0 <= k < |es| ==> es[k].index == -1 || (0 <= es[k].index < |sent| && IsB(sent[es[k].index]))
  }

  lemma WordsOfSnoc(es: seq<Entity>, e: Entity)
    ensures Flatten(WordsOf(es + [e])) == Flatten(WordsOf(es)) + e.words
  {
    assert WordsOf(es + [e]) == WordsOf(es) + [e.words];
    FlattenAppend(WordsOf(es), [e.words]);
    assert Flatten([e.words]) == e.words + Flatten([]);
  }

  lemma {:induction false} ExtractFromWords(sent: Sentence, i: nat, ents: seq<Entity>, curr: seq<string>, idx: int)
    requires Rows4(sent) && i <= |sent|
    ensures Flatten(WordsOf(ExtractFrom(sent, i, ents, curr, idx))) == Flatten(WordsOf(ents)) + curr + TaggedWords(sent, i)
    decreases |sent| - i
  {
    var w := Flatten(WordsOf(ents));
    if i == |sent| {
      if |curr| > 0 {
        WordsOfSnoc(ents, Entity(curr, idx));
      }
    } else {
      var row := sent[i];
      var rest := TaggedWords(sent, i + 1);
      if IsB(row) {
        assert TaggedWords(sent, i) == [row[0]] + rest;
        if |curr| > 0 {
          WordsOfSnoc(ents, Entity(curr, i));
          ExtractFromWords(sent, i + 1, ents + [Entity(curr, i)], [row[0]], -1);
          AppendAssoc(w + curr, [row[0]], rest);
        } else {
          ExtractFromWords(sent, i + 1, ents, [row[0]], i);
          AppendAssoc(w, [row[0]], rest);
        }
      } else if IsI(row) {
        assert TaggedWords(sent, i) == [row[0]] + rest;
        ExtractFromWords(sent, i + 1, ents, curr + [row[0]], idx);
        AppendAssoc(w, curr, [row[0]]);
        AppendAssoc(w + curr, [row[0]], rest);
      } else {
        assert TaggedWords(sent, i) == rest;
        if |curr| > 0 {
          WordsOfSnoc(ents, Entity(curr, idx));
          ExtractFromWords(sent, i + 1, ents + [Entity(curr, idx)], [], -1);
        } else {
          ExtractFromWords(sent, i + 1, ents, curr, idx);
        }
      }
    }
  }

  lemma {:induction false} ExtractFromCount(sent: Sentence, i: nat, ents: seq<Entity>, curr: seq<string>, idx: int)
    requires Rows4(sent) && i <= |sent|
    ensures |ExtractFrom(sent, i, ents, curr, idx)| == |ents| + (if |curr| > 0 then 1 else 0) + StartCount(sent, i, |curr| > 0)
    decreases |sent| - i
  {
    if i < |sent| {
      var row := sent[i];
      if IsB(row) {
        if |curr| > 0 {
          ExtractFromCount(sent, i + 1, ents + [Entity(curr, i)], [row[0]], -1);
        } else {
          ExtractFromCount(sent, i + 1, ents, [row[0]], i);
        }
      } else if IsI(row) {
        ExtractFromCount(sent, i + 1, ents, curr + [row[0]], idx);
      } else if |curr| > 0 {
        ExtractFromCount(sent, i + 1, ents + [Entity(curr, idx)], [], -1);
      } else {
        ExtractFromCount(sent, i + 1, ents, curr, idx);
      }
    }
  }

  lemma {:induction false} ExtractFromShape(sent: Sentence, i: nat, ents: seq<Entity>, curr: seq<string>, idx: int)
    requires Rows4(sent) && i <= |sent|
    requires idx == -1 || (0 <= idx < |sent| && IsB(sent[idx]))
    requires NonEmptyWords(ents) && GoodIndices(sent, ents)
    ensures NonEmptyWords(ExtractFrom(sent, i, ents, curr, idx))
    ensures GoodIndices(sent, ExtractFrom(sent, i, ents, curr, idx))
    decreases |sent| - i
  {
    if i < |sent| {
      var row := sent[i];
      if IsB(row) {
        if |curr| > 0 {
          ExtractFromShape(sent, i + 1, ents + [Entity(curr, i)], [row[0]], -1);
        } else {
          ExtractFromShape(sent, i + 1, ents, [row[0]], i);
        }
      } else if IsI(row) {
        ExtractFromShape(sent, i + 1, ents, curr + [row[0]], idx);
      } else if |curr| > 0 {
        ExtractFromShape(sent, i + 1, ents + [Entity(curr, idx)], [], -1);
      } else {
        ExtractFromShape(sent, i + 1, ents, curr, idx);
      }
    }
  }

  // ------------------------------------------- run-based reference

  /** Token `i` opens an entity: a B- token, or an I- token that does not
      follow a B-/I- token. */
  predicate Opens(sent: Sentence, i: nat)
    requires Rows4(sent) && i < |sent|
  {
    IsB(sent[i]) || (IsI(sent[i]) && (i == 0 || !Tagged(sent[i - 1])))
  }

  /** The first position from `j` on that is not an I- token. */
  function RunEnd(sent: Sentence, j: nat): (e: nat)
    requires Rows4(sent) && j <= |sent|
    ensures j <= e <= |sent|
    ensures forall k :: j <= k < e ==> IsI(sent[k])
    ensures e < |sent| ==> !IsI(sent[e])
    decreases |sent| - j
  {
    if j == |sent| || !IsI(sent[j]) then j else RunEnd(sent, j + 1)
  }

  /** The words of tokens `lo` to `hi - 1`. */
  function RunWords(sent: Sentence, lo: nat, hi: nat): (ws: seq<string>)
    requires Rows4(sent) && lo <= hi <= |sent|
    ensures |ws| == hi - lo && forall k :: 0 <= k < hi - lo ==> ws[k] == sent[lo + k][0]
  {
    seq(hi - lo, k requires 0 <= k < hi - lo => sent[lo + k][0])
  }

  /** The index an entity carries while open: its B- token's position when
      that token opened it with nothing open before, else -1. */
  function OpenIndex(sent: Sentence, o: nat): int
    requires Rows4(sent) && o < |sent|
  {
    if IsB(sent[o]) && (o == 0 || !Tagged(sent[o - 1])) then o else -1
  }

  /** The index reported for the entity of tokens `o` to `e - 1`: the
      position of the B- token that closes it, if one does, else the index
      it carried while open. */
  function RunIndex(sent: Sentence, o: nat, e: nat): int
    requires Rows4(sent) && o < |sent| && e <= |sent|
  {
    if e < |sent| && IsB(sent[e]) then e else OpenIndex(sent, o)
  }

  /** Reference: from token `i` on, one entity per opening token, holding
      the words of that token and of the I- tokens right after it. */
  function EntitiesFrom(sent: Sentence, i: nat): seq<Entity>
    requires Rows4(sent) && i <= |sent|
    decreases |sent| - i
  {
    if i == |sent| then []
    else if Opens(sent, i) then
      var e := RunEnd(sent, i + 1);
      [Entity(RunWords(sent, i, e), RunIndex(sent, i, e))] + EntitiesFrom(sent, e)
    else EntitiesFrom(sent, i + 1)
  }

  /** With nothing open after an untagged token (or at the start), the loop
      appends the reference entities. */
  lemma {:induction false} ExtractFromClosed(sent: Sentence, i: nat, ents: seq<Entity>)
    requires Rows4(sent) && i <= |sent|
    requires i == 0 || !Tagged(sent[i - 1])
    ensures ExtractFrom(sent, i, ents, [], -1) == ents + EntitiesFrom(sent, i)
    decreases |sent| - i, 0
  {
    if i == |sent| {
      assert ents + [] == ents;
    } else {
      var row := sent[i];
      if IsB(row) || IsI(row) {
        assert RunWords(sent, i, i + 1) == [row[0]];
        assert [] + [row[0]] == [row[0]];
        ExtractFromOpen(sent, i, i + 1, ents);
        AppendAssoc(ents, [Entity(RunWords(sent, i, RunEnd(sent, i + 1)), RunIndex(sent, i, RunEnd(sent, i + 1)))], EntitiesFrom(sent, RunEnd(sent, i + 1)));
      } else {
        ExtractFromClosed(sent, i + 1, ents);
      }
    }
  }

  /** With the entity opened at `o` absorbing tokens up to `i`, the loop
      closes it at the end of its run and appends the reference entities
      after it. */
  lemma {:induction false} ExtractFromOpen(sent: Sentence, o: nat, i: nat, ents: seq<Entity>)
    requires Rows4(sent) && o < i <= |sent| && Opens(sent, o)
    requires forall k :: o < k < i ==> IsI(sent[k])
    ensures ExtractFrom(sent, i, ents, RunWords(sent, o, i), OpenIndex(sent, o))
         == ents + [Entity(RunWords(sent, o, RunEnd(sent, i)), RunIndex(sent, o, RunEnd(sent, i)))] + EntitiesFrom(sent, RunEnd(sent, i))
    decreases |sent| - i, 2
  {
    var curr := RunWords(sent, o, i);
    if i == |sent| {
      assert |curr| > 0 && RunEnd(sent, i) == i && RunIndex(sent, o, i) == OpenIndex(sent, o);
      assert EntitiesFrom(sent, i) == [];
      assert ents + [Entity(curr, OpenIndex(sent, o))] + [] == ents + [Entity(curr, OpenIndex(sent, o))];
    } else if IsB(sent[i]) {
      assert RunEnd(sent, i) == i && RunIndex(sent, o, i) == i;
      OpenMeetsB(sent, o, i, ents);
    } else if IsI(sent[i]) {
      assert RunEnd(sent, i) == RunEnd(sent, i + 1);
      assert ExtractFrom(sent, i, ents, curr, OpenIndex(sent, o))
          == ExtractFrom(sent, i + 1, ents, curr + [sent[i][0]], OpenIndex(sent, o));
      assert RunWords(sent, o, i + 1) == curr + [sent[i][0]];
      ExtractFromOpen(sent, o, i + 1, ents);
    } else {
      assert RunEnd(sent, i) == i && RunIndex(sent, o, i) == OpenIndex(sent, o);
      OpenMeetsO(sent, o, i, ents);
    }
  }

  /** A B- token closes the open entity with its own position as index and
      opens the next one. */
  lemma {:induction false} OpenMeetsB(sent: Sentence, o: nat, i: nat, ents: seq<Entity>)
    requires Rows4(sent) && o < i < |sent| && Opens(sent, o) && IsB(sent[i])
    requires forall k :: o < k < i ==> IsI(sent[k])
    ensures ExtractFrom(sent, i, ents, RunWords(sent, o, i), OpenIndex(sent, o))
         == ents + [Entity(RunWords(sent, o, i), i)] + EntitiesFrom(sent, i)
    decreases |sent| - i, 1
  {
    var curr := RunWords(sent, o, i);
    assert |curr| > 0;
    assert Tagged(sent[i - 1]);
    var ents' := ents + [Entity(curr, i)];
    assert ExtractFrom(sent, i, ents, curr, OpenIndex(sent, o)) == ExtractFrom(sent, i + 1, ents', [sent[i][0]], -1);
    assert RunWords(sent, i, i + 1) == [sent[i][0]];
    assert OpenIndex(sent, i) == -1;
    ExtractFromOpen(sent, i, i + 1, ents');
    var e := RunEnd(sent, i + 1);
    var head := [Entity(RunWords(sent, i, e), RunIndex(sent, i, e))];
    assert EntitiesFrom(sent, i) == head + EntitiesFrom(sent, e);
    AppendAssoc(ents', head, EntitiesFrom(sent, e));
  }

  /** An untagged token closes the open entity with the index it carried. */
  lemma {:induction false} OpenMeetsO(sent: Sentence, o: nat, i: nat, ents: seq<Entity>)
    requires Rows4(sent) && o < i < |sent| && Opens(sent, o) && !Tagged(sent[i])
    requires forall k :: o < k < i ==> IsI(sent[k])
    ensures ExtractFrom(sent, i, ents, RunWords(sent, o, i), OpenIndex(sent, o))
         == ents + [Entity(RunWords(sent, o, i), OpenIndex(sent, o))] + EntitiesFrom(sent, i)
    decreases |sent| - i, 1
  {
    var curr := RunWords(sent, o, i);
    assert |curr| > 0;
    var ents' := ents + [Entity(curr, OpenIndex(sent, o))];
    assert ExtractFrom(sent, i, ents, curr, OpenIndex(sent, o)) == ExtractFrom(sent, i + 1, ents', [], -1);
    ExtractFromClosed(sent, i + 1, ents');
    assert EntitiesFrom(sent, i) == EntitiesFrom(sent, i + 1);
  }

  /** `get_entities_from_sentence`: unpacking a token into four names raises
      unless it has four fields. The entities, read in order, partition the
      words of the B-/I- tokens (so other tokens belong to none); there is
      one per entity-opening token; and each index is -1 or the position of
      a B- token. */
  function GetEntitiesFromSentence(sent: Sentence): (r: Result<seq<Entity>>)
    ensures r.Success? <==> Rows4(sent)
    ensures r.Success? ==>
      && Flatten(WordsOf(r.value)) == TaggedWords(sent, 0)
      && NonEmptyWords(r.value)
      && |r.value| == StartCount(sent, 0, false)
      && GoodIndices(sent, r.value)
    ensures r.Success? ==> r.value == EntitiesFrom(sent, 0)
  {
    if !Rows4(sent) then Failure("ValueError: a token does not have four fields")
    else
      ExtractFromClosed(sent, 0, []);
      assert [] + EntitiesFrom(sent, 0) == EntitiesFrom(sent, 0);
      ExtractFromWords(sent, 0, [], [], -1);
      ExtractFromCount(sent, 0, [], [], -1);
      ExtractFromShape(sent, 0, [], [], -1);
      assert Flatten(WordsOf([])) == [];
      Success(ExtractFrom(sent, 0, [], [], -1))
  }

  /** The index quirk: a B- token that closes an open entity reports that
      entity with its own position, and the entity it opens carries -1. */
  lemma ClosingBReportsItsIndex()
    ensures GetEntitiesFromSentence([["a", "f", "0_1", "B-X"], ["b", "f", "2_3", "B-X"]])
         == Success([Entity(["a"], 1), Entity(["b"], -1)])
  {
    var sent: Sentence := [["a", "f", "0_1", "B-X"], ["b", "f", "2_3", "B-X"]];
    assert Rows4(sent);
    assert "B-X"[..2] == "B-";
    assert IsB(sent[0]) && IsB(sent[1]);
    assert ExtractFrom(sent, 0, [], [], -1) == ExtractFrom(sent, 1, [], ["a"], 0);
    assert ExtractFrom(sent, 1, [], ["a"], 0) == ExtractFrom(sent, 2, [Entity(["a"], 1)], ["b"], -1);
    assert ExtractFrom(sent, 2, [Entity(["a"], 1)], ["b"], -1) == [Entity(["a"], 1), Entity(["b"], -1)];
  }

  // ----------------------------------------------------- fix_bnfermedad_bug

  const BrokenTag := "B-NFERMEDAD"
  const FixedTag := "I-ENFERMEDAD"

  predicate HasTagField(data: seq<Sentence>) {
    forall i, j :: 0 <= i < |data| && 0 <= j < |data[i]| ==> |data[i][j]| >= 4
  }

  function FixRow(row: Fields): Fields
    requires |row| >= 4
  {
    if row[3] == BrokenTag then row[3 := FixedTag] else row
  }

  /** `fix_bnfermedad_bug`: reading the tag raises on a token with fewer
      than four fields; otherwise exactly the tags equal to 'B-NFERMEDAD'
      become 'I-ENFERMEDAD' and nothing else changes. */
  function FixBnfermedadBug(data: seq<Sentence>): (r: Result<seq<Sentence>>)
    ensures r.Success? <==> HasTagField(data)
    ensures r.Success? ==> |r.value| == |data| && forall i :: 0 <= i < |data| ==> |r.value[i]| == |data[i]|
    ensures r.Success? ==> forall i, j :: 0 <= i < |data| && 0 <= j < |data[i]| ==>
      var old_, new_ := data[i][j], r.value[i][j];
      && |new_| == |old_|
      && new_[3] != BrokenTag
      && (forall k :: 0 <= k < |old_| && k != 3 ==> new_[k] == old_[k])
      && (old_[3] != BrokenTag ==> new_ == old_)
      && (old_[3] == BrokenTag ==> new_[3] == FixedTag)
  {
    if !HasTagField(data) then Failure("IndexError: list index out of range")
    else Success(seq(|data|, i requires 0 <= i < |data| =>
      seq(|data[i]|, j requires 0 <= j < |data[i]| => FixRow(data[i][j]))))
  }

  /** Running the fix twice changes nothing more. */
  lemma FixBnfermedadIdempotent(data: seq<Sentence>)
    requires HasTagField(data)
    ensures FixBnfermedadBug(FixBnfermedadBug(data).value) == FixBnfermedadBug(data)
  {
    var once := FixBnfermedadBug(data).value;
    assert HasTagField(once);
    var twice := FixBnfermedadBug(once).value;
    assert |twice| == |once|;
    assert FixBnfermedadBug(once) == Success(twice);
    forall i | 0 <= i < |once|
      ensures twice[i] == once[i]
    {
      assert |twice[i]| == |once[i]|;
      forall j | 0 <= j < |once[i]|
        ensures twice[i][j] == once[i][j]
      {
        assert once[i][j][3] != BrokenTag;
      }
    }
    assert twice == once;
  }
}

=== FILE: codemap.dfy ===
/** Python dicts from codes to lists of entities, kept as association
    lists in insertion order, as the scripts iterate them. */
module CodeMaps {
  import opened Wrappers
  import opened Seqs

  /** A Python dict from codes to entity lists, in insertion order. */
  type CodeMap = seq<(string, seq<string>)>

  function Keys(m: CodeMap): (r: seq<string>)
    ensures |r| == |m|
    ensures forall k :: 0 <= k < |m| ==> r[k] == m[k].0
  {
    if |m| == 0 then [] else [m[0].0] + Keys(m[1..])
  }

  /** Dropping the first entry keeps the keys distinct and removes its key. */
  lemma KeysTail(m: CodeMap)
    requires |m| > 0 && Distinct(Keys(m))
    ensures Distinct(Keys(m[1..])) && m[0].0 !in Keys(m[1..])
  {
    DistinctTail(Keys(m));
    assert Keys(m)[1..] == Keys(m[1..]);
  }

  /** `d.get(c)`: the list stored under the first entry with key `c`. */
  function Get(m: CodeMap, c: string): (r: Option<seq<string>>)
    ensures r.Some? <==> c in Keys(m)
  {
    if |m| == 0 then None
    else if m[0].0 == c then Some(m[0].1)
    else
      assert Keys(m) == [m[0].0] + Keys(m[1..]);
      Get(m[1..], c)
  }

  function GetOr(m: CodeMap, c: string): (r: seq<string>)
    ensures c !in Keys(m) ==> r == []
  {
    match Get(m, c)
    case Some(es) => es
    case None => []
  }

  lemma {:induction false} GetAt(m: CodeMap, k: nat)
    requires k < |m| && Distinct(Keys(m))
    ensures Get(m, m[k].0) == Some(m[k].1)
    decreases k
  {
    if k > 0 {
      assert Keys(m)[0] != Keys(m)[k];
      assert Distinct(Keys(m[1..])) by {
        assert forall j :: 0 <= j < |m| - 1 ==> Keys(m[1..])[j] == Keys(m)[j + 1];
      }
      assert m[1..][k - 1] == m[k];
      GetAt(m[1..], k - 1);
    }
  }

  /** Two dictionaries with the same keys in the same order, no key twice,
      and the same value under every key are equal. */
  lemma MapExt(m1: CodeMap, m2: CodeMap)
    requires Distinct(Keys(m1)) && Keys(m1) == Keys(m2)
    requires forall c :: Get(m1, c) == Get(m2, c)
    ensures m1 == m2
  {
    forall k | 0 <= k < |m1|
      ensures m1[k] == m2[k]
    {
      GetAt(m1, k);
      GetAt(m2, k);
      assert m1[k].0 == Keys(m1)[k] == m2[k].0;
    }
  }

  /** `d[code].extend(es)` when `code` is present, `d[code] = es` when not. */
  function Extend(m: CodeMap, code: string, es: seq<string>): (r: CodeMap)
    ensures |r| == |m| + (if code in Keys(m) then 0 else 1)
  {
    if |m| == 0 then [(code, es)]
    else if m[0].0 == code then [(code, m[0].1 + es)] + m[1..]
    else [m[0]] + Extend(m[1..], code, es)
  }

  lemma {:induction false} ExtendFacts(m: CodeMap, code: string, es: seq<string>)
    ensures Keys(Extend(m, code, es)) == Keys(m) + (if code in Keys(m) then [] else [code])
    ensures forall c :: Get(Extend(m, code, es), c) == if c == code then Some(GetOr(m, c) + es) else Get(m, c)
    decreases |m|
  {
    var e := Extend(m, code, es);
    if |m| == 0 {
      assert [] + es == es;
    } else {
      assert Keys(m) == [m[0].0] + Keys(m[1..]);
      assert Keys(e) == [e[0].0] + Keys(e[1..]);
      if m[0].0 == code {
        assert e[1..] == m[1..];
        forall c
          ensures Get(e, c) == if c == code then Some(GetOr(m, c) + es) else Get(m, c)
        {
          if c != code {
            assert Get(e, c) == Get(m[1..], c);
          }
        }
      } else {
        ExtendFacts(m[1..], code, es);
        assert e[1..] == Extend(m[1..], code, es);
        forall c
          ensures Get(e, c) == if c == code then Some(GetOr(m, c) + es) else Get(m, c)
        {
          if c != m[0].0 {
            assert Get(e, c) == Get(Extend(m[1..], code, es), c);
            assert Get(m, c) == Get(m[1..], c);
          }
        }
      }
    }
  }

  lemma GetSome(m: CodeMap, c: string)
    ensures Get(m, c).Some? <==> c in Keys(m)
  {
  }

  /** Each entry's list deduplicated in place. */
  function DedupValues(m: CodeMap): (r: CodeMap)
    ensures Keys(r) == Keys(m)
    ensures forall c :: Get(r, c) == if c in Keys(m) then Some(Dedup(Get(m, c).value)) else None
  {
    if |m| == 0 then []
    else
      var rest := DedupValues(m[1..]);
      assert Keys(m) == [m[0].0] + Keys(m[1..]);
      [(m[0].0, Dedup(m[0].1))] + rest
  }
}

=== FILE: conll_loader.dfy ===
/** The `_generate_examples` generator shared by the DisTEMIST,
    DrugTEMIST, SympTEMIST and combined-training loading scripts: it turns
    the lines of a CoNLL file into numbered examples of tokens and NER tags.
    The four copies are identical, so they are modelled once. */
module ConllLoader {
  import opened PyStr
  import opened Seqs
  import MultiCardioner

  /** One example as the generator yields it: `guid` is the key and `id`
      its decimal string. */
  datatype Example = Example(guid: nat, id: string, tokens: seq<string>, nerTags: seq<string>)

  /** What one line is to the generator: a separator, or a token with its
      tag. */
  datatype Line = Sep | Item(token: string, tag: string)

  /** A document header, an empty string or a lone newline ends an
      example. */
  predicate IsSeparator(line: string) {
    StartsWith(line, "-DOCSTART-") || line == "" || line == "\n"
  }

  /** Any other line is split on tabs: the token is the first field and the
      tag the last one without its trailing whitespace. */
  function ReadLine(line: string): (r: Line)
    ensures r.Sep? <==> IsSeparator(line)
    ensures r.Item? ==> '\t' !in r.token && '\t' !in r.tag
    ensures r.Item? ==> |r.tag| == 0 || !IsSpace(r.tag[|r.tag| - 1])
  {
    if IsSeparator(line) then Sep
    else
      var splits := SplitOn(line, "\t");
      SplitOnCharPieces(line, '\t');
      assert splits[0] in splits && splits[|splits| - 1] in splits;
      Item(splits[0], RStrip(splits[|splits| - 1]))
  }

  function ReadAll(lines: seq<string>): (r: seq<Line>)
    ensures |r| == |lines|
  {
    seq(|lines|, k requires 0 <= k < |lines| => ReadLine(lines[k]))
  }

  // ------------------------------------------------------------ reference

  /** Reference, as a stream is read: the tokens and tags seen since the
      last separator. */
  function Pending(ls: seq<Line>): (p: (seq<string>, seq<string>))
    ensures |p.0| == |p.1|
    decreases |ls|
  {
    if |ls| == 0 then ([], [])
    else
      match ls[|ls| - 1]
      case Sep => ([], [])
      case Item(t, g) =>
        var p := Pending(ls[..|ls| - 1]);
        (p.0 + [t], p.1 + [g])
  }

  /** Reference: the blocks a separator has closed, leaving out those with
      no token. */
  function Closed(ls: seq<Line>): (bs: seq<(seq<string>, seq<string>)>)
    ensures forall k :: 0 <= k < |bs| ==> |bs[k].0| > 0 && |bs[k].0| == |bs[k].1|
    decreases |ls|
  {
    if |ls| == 0 then []
    else
      var init := ls[..|ls| - 1];
      match ls[|ls| - 1]
      case Item(_, _) => Closed(init)
      case Sep => Closed(init) + (if |Pending(init).0| > 0 then [Pending(init)] else [])
  }

  /** The blocks numbered from `from` on. */
  function Number(bs: seq<(seq<string>, seq<string>)>, from: nat): (r: seq<Example>)
    ensures |r| == |bs|
  {
    seq(|bs|, i requires 0 <= i < |bs| => Example(from + i, ShowNat(from + i), bs[i].0, bs[i].1))
  }

  /** Reference: every closed block, then whatever is pending at the end of
      the file, empty or not. */
  function Examples(lines: seq<string>): (r: seq<Example>)
    ensures |r| >= 1
    ensures forall i :: 0 <= i < |r| ==> r[i].guid == i && r[i].id == ShowNat(i)
    ensures forall i :: 0 <= i < |r| ==> |r[i].tokens| == |r[i].nerTags|
    ensures forall i :: 0 <= i < |r| - 1 ==> |r[i].tokens| > 0
  {
    var ls := ReadAll(lines);
    Number(Closed(ls) + [Pending(ls)], 0)
  }

  // ------------------------------------------------------------ generator

  /** `_generate_examples` over the lines the file yields: tokens and tags
      accumulate until a separator, which emits them as the next example
      only when there is at least one token; the last example is emitted
      unconditionally. */
  method GenerateExamples(lines: seq<string>) returns (r: seq<Example>)
    ensures r == Examples(lines)
  {
    var ls := ReadAll(lines);
    var guid: nat := 0;
    var tokens: seq<string> := [];
    var nerTags: seq<string> := [];
    r := [];
    for i := 0 to |ls|
      invariant r == Number(Closed(ls[..i]), 0)
      invariant guid == |r|
      invariant (tokens, nerTags) == Pending(ls[..i])
    {
      StepFacts(ls, i);
      match ls[i]
      case Sep =>
        if |tokens| > 0 {
          NumberSnoc(Closed(ls[..i]), (tokens, nerTags), 0);
          r := r + [Example(guid, ShowNat(guid), tokens, nerTags)];
          guid := guid + 1;
          tokens := [];
          nerTags := [];
        }
      case Item(t, g) =>
        tokens := tokens + [t];
        nerTags := nerTags + [g];
    }
    assert ls[..|ls|] == ls;
    NumberSnoc(Closed(ls), (tokens, nerTags), 0);
    r := r + [Example(guid, ShowNat(guid), tokens, nerTags)];
  }

  /** Reading one more line updates the closed blocks and the pending
      block as the generator's loop body does. */
  lemma StepFacts(ls: seq<Line>, i: nat)
    requires i < |ls|
    ensures ls[i].Sep? ==>
      && Pending(ls[..i + 1]) == ([], [])
      && Closed(ls[..i + 1]) == Closed(ls[..i]) + (if |Pending(ls[..i]).0| > 0 then [Pending(ls[..i])] else [])
    ensures ls[i].Item? ==>
      && Closed(ls[..i + 1]) == Closed(ls[..i])
      && Pending(ls[..i + 1]) == (Pending(ls[..i]).0 + [ls[i].token], Pending(ls[..i]).1 + [ls[i].tag])
  {
    assert ls[..i + 1][..i] == ls[..i];
  }

  lemma NumberSnoc(bs: seq<(seq<string>, seq<string>)>, b: (seq<string>, seq<string>), from: nat)
    ensures Number(bs + [b], from) == Number(bs, from) + [Example(from + |bs|, ShowNat(from + |bs|), b.0, b.1)]
  {
  }

  // ----------------------------------------------------------- properties

  /** The tokens and the tags of the token lines, in file order. */
  function ItemTokens(ls: seq<Line>): seq<string>
    decreases |ls|
  {
    if |ls| == 0 then []
    else ItemTokens(ls[..|ls| - 1]) + (if ls[|ls| - 1].Item? then [ls[|ls| - 1].token] else [])
  }

  function ItemTags(ls: seq<Line>): seq<string>
    decreases |ls|
  {
    if |ls| == 0 then []
    else ItemTags(ls[..|ls| - 1]) + (if ls[|ls| - 1].Item? then [ls[|ls| - 1].tag] else [])
  }

  function ExampleTokens(e: Example): seq<string> { e.tokens }
  function ExampleTags(e: Example): seq<string> { e.nerTags }
  function BlockTokens(b: (seq<string>, seq<string>)): seq<string> { b.0 }
  function BlockTags(b: (seq<string>, seq<string>)): seq<string> { b.1 }

  function TokensOf(ex: seq<Example>): (r: seq<seq<string>>) {
    Map(ExampleTokens, ex)
  }

  function TagsOf(ex: seq<Example>): (r: seq<seq<string>>) {
    Map(ExampleTags, ex)
  }

  /** Numbering keeps each block's tokens and tags. */
  lemma NumberKeeps(bs: seq<(seq<string>, seq<string>)>, from: nat)
    ensures TokensOf(Number(bs, from)) == Map(BlockTokens, bs)
    ensures TagsOf(Number(bs, from)) == Map(BlockTags, bs)
  {
  }

  lemma {:induction false} BlocksKeepTokens(ls: seq<Line>)
    ensures Flatten(Map(BlockTokens, Closed(ls))) + Pending(ls).0 == ItemTokens(ls)
    decreases |ls|
  {
    if |ls| > 0 {
      var init := ls[..|ls| - 1];
      BlocksKeepTokens(init);
      var c := Closed(init);
      var p := Pending(init);
      var f := Flatten(Map(BlockTokens, c));
      if ls[|ls| - 1].Sep? && |p.0| > 0 {
        MapSnoc(BlockTokens, c, p);
        FlattenSnoc(Map(BlockTokens, c), p.0);
        assert f + p.0 + [] == ItemTokens(init) + [];
      } else if ls[|ls| - 1].Sep? {
        assert p.0 == [] && f + [] == f;
        assert Closed(ls) == c + [] == c;
        assert f + p.0 + [] == ItemTokens(init) + [];
      } else {
        AppendAssoc(f, p.0, [ls[|ls| - 1].token]);
      }
    }
  }

  lemma {:induction false} BlocksKeepTags(ls: seq<Line>)
    ensures Flatten(Map(BlockTags, Closed(ls))) + Pending(ls).1 == ItemTags(ls)
    decreases |ls|
  {
    if |ls| > 0 {
      var init := ls[..|ls| - 1];
      BlocksKeepTags(init);
      var c := Closed(init);
      var p := Pending(init);
      var f := Flatten(Map(BlockTags, c));
      if ls[|ls| - 1].Sep? && |p.0| > 0 {
        MapSnoc(BlockTags, c, p);
        FlattenSnoc(Map(BlockTags, c), p.1);
        assert f + p.1 + [] == ItemTags(init) + [];
      } else if ls[|ls| - 1].Sep? {
        assert p.1 == [] && f + [] == f;
        assert Closed(ls) == c + [] == c;
        assert f + p.1 + [] == ItemTags(init) + [];
      } else {
        AppendAssoc(f, p.1, [ls[|ls| - 1].tag]);
      }
    }
  }

  /** No token and no tag is lost, duplicated or reordered: the examples,
      concatenated, give back the token lines of the file in order. */
  lemma ExamplesKeepTokens(lines: seq<string>)
    ensures Flatten(TokensOf(Examples(lines))) == ItemTokens(ReadAll(lines))
    ensures Flatten(TagsOf(Examples(lines))) == ItemTags(ReadAll(lines))
  {
    var ls := ReadAll(lines);
    var c := Closed(ls);
    var p := Pending(ls);
    BlocksKeepTokens(ls);
    BlocksKeepTags(ls);
    NumberKeeps(c + [p], 0);
    MapSnoc(BlockTokens, c, p);
    MapSnoc(BlockTags, c, p);
    FlattenSnoc(Map(BlockTokens, c), p.0);
    FlattenSnoc(Map(BlockTags, c), p.1);
  }

  lemma {:induction false} PendingEmpty(ls: seq<Line>)
    ensures |Pending(ls).0| == 0 <==> |ls| == 0 || ls[|ls| - 1].Sep?
  {
    if |ls| > 0 && ls[|ls| - 1].Item? {
      assert |Pending(ls).0| == |Pending(ls[..|ls| - 1]).0| + 1;
    }
  }

  /** The last example is empty exactly when the file is empty or its last
      line is a separator: a file ending in a blank line yields a trailing
      empty example. */
  lemma LastExampleEmpty(lines: seq<string>)
    ensures var ex := Examples(lines);
      |ex[|ex| - 1].tokens| == 0 <==> |lines| == 0 || IsSeparator(lines[|lines| - 1])
  {
    var ls := ReadAll(lines);
    PendingEmpty(ls);
    assert |lines| > 0 ==> ls[|ls| - 1] == ReadLine(lines[|lines| - 1]);
  }

  /** What has been read so far is all that matters for the rest of the
      file. */
  lemma {:induction false} StateDetermines(x: seq<Line>, y: seq<Line>, b: seq<Line>)
    requires Closed(x) == Closed(y) && Pending(x) == Pending(y)
    ensures Closed(x + b) == Closed(y + b) && Pending(x + b) == Pending(y + b)
    decreases |b|
  {
    if |b| == 0 {
      assert x + b == x && y + b == y;
    } else {
      var b' := b[..|b| - 1];
      StateDetermines(x, y, b');
      assert (x + b)[..|x + b| - 1] == x + b';
      assert (y + b)[..|y + b| - 1] == y + b';
      assert (x + b)[|x + b| - 1] == b[|b| - 1] == (y + b)[|y + b| - 1];
    }
  }

  lemma ReadAllAppend(a: seq<string>, b: seq<string>)
    ensures ReadAll(a + b) == ReadAll(a) + ReadAll(b)
  {
    assert forall k :: 0 <= k < |b| ==> (a + b)[|a| + k] == b[k];
  }

  /** A run of separators counts as one, and separators before the first
      token add nothing; a document header and a blank line have the same
      effect. */
  lemma SeparatorRuns(a: seq<string>, s1: string, s2: string, b: seq<string>)
    requires IsSeparator(s1) && IsSeparator(s2)
    ensures Examples(a + [s1, s2] + b) == Examples(a + [s1] + b)
    ensures Examples(a + [s1] + b) == Examples(a + ["\n"] + b)
    ensures Examples([s1] + b) == Examples(b)
  {
    var la := ReadAll(a);
    var lb := ReadAll(b);
    ReadAllAppend(a + [s1, s2], b);
    ReadAllAppend(a, [s1, s2]);
    ReadAllAppend(a + [s1], b);
    ReadAllAppend(a, [s1]);
    ReadAllAppend(a + ["\n"], b);
    ReadAllAppend(a, ["\n"]);
    ReadAllAppend([s1], b);
    assert ReadAll([s1, s2]) == [Sep, Sep];
    assert ReadAll([s1]) == [Sep] == ReadAll(["\n"]);
    var x := la + [Sep, Sep];
    var y := la + [Sep];
    assert x[..|x| - 1] == y;
    assert y[..|y| - 1] == la;
    StateDetermines(x, y, lb);
    assert ReadAll(a + [s1, s2] + b) == x + lb;
    assert ReadAll(a + [s1] + b) == y + lb == ReadAll(a + ["\n"] + b);
    var e: seq<Line> := [];
    assert [Sep][..0] == e;
    StateDetermines([Sep], e, lb);
    assert e + lb == lb;
  }

  // ------------------------------------------- files of the CoNLL writer

  /** A written tuple the generator reads back as it was: a word that is
      not a document header and a tag with no trailing whitespace. */
  predicate Loadable(t: MultiCardioner.Tok) {
    MultiCardioner.CleanTok(t) && !StartsWith(t.word, "-DOCSTART-")
    && (|t.tag| == 0 || !IsSpace(t.tag[|t.tag| - 1]))
  }

  /** A written tuple line is not a separator: it is longer than a
      newline, and it starts with the word, which is not a document
      header, followed by a tab. */
  lemma TokLineNotSeparator(t: MultiCardioner.Tok)
    requires Loadable(t)
    ensures !IsSeparator(MultiCardioner.TokLine(t))
  {
    var l := MultiCardioner.TokLine(t);
    assert |l| >= 4;
    assert l[..|t.word|] == t.word && l[|t.word|] == '\t';
  }

  /** Right-stripping the written label gives back the label. */
  lemma RStripLabel(tag: string)
    requires |tag| == 0 || !IsSpace(tag[|tag| - 1])
    ensures RStrip(tag + "\n") == tag
  {
    var s := tag + "\n";
    assert s[..|s| - 1] == tag;
  }

  lemma ReadTokLine(t: MultiCardioner.Tok)
    requires Loadable(t)
    ensures ReadLine(MultiCardioner.TokLine(t)) == Item(t.word, t.tag)
  {
    MultiCardioner.TokLineSplit(t);
    TokLineNotSeparator(t);
    RStripLabel(t.tag);
  }

  /** The generator's view of a file the writer produced. */
  function WrittenLines(ts: seq<MultiCardioner.Tok>, blank: seq<bool>): seq<Line>
    requires |blank| == |ts|
  {
    if |ts| == 0 then []
    else [Item(ts[0].word, ts[0].tag)] + (if blank[0] then [Sep] else []) + WrittenLines(ts[1..], blank[1..])
  }

  lemma {:induction false} ReadWritten(ts: seq<MultiCardioner.Tok>, blank: seq<bool>)
    requires |blank| == |ts| && forall i :: 0 <= i < |ts| ==> Loadable(ts[i])
    ensures ReadAll(MultiCardioner.FileLines(ts, blank)) == WrittenLines(ts, blank)
    decreases |ts|
  {
    if |ts| > 0 {
      ReadWritten(ts[1..], blank[1..]);
      ReadTokLine(ts[0]);
      var head := [MultiCardioner.TokLine(ts[0])] + (if blank[0] then ["\n"] else []);
      assert ReadAll(head) == [Item(ts[0].word, ts[0].tag)] + (if blank[0] then [Sep] else []);
      ReadAllAppend(head, MultiCardioner.FileLines(ts[1..], blank[1..]));
    }
  }

  lemma {:induction false} ItemsAppend(a: seq<Line>, b: seq<Line>)
    ensures ItemTokens(a + b) == ItemTokens(a) + ItemTokens(b)
    ensures ItemTags(a + b) == ItemTags(a) + ItemTags(b)
    decreases |b|
  {
    if |b| == 0 {
      assert a + b == a;
    } else {
      var b' := b[..|b| - 1];
      var l := b[|b| - 1];
      ItemsAppend(a, b');
      AppendInit(a, b);
      AppendAssoc(ItemTokens(a), ItemTokens(b'), if l.Item? then [l.token] else []);
      AppendAssoc(ItemTags(a), ItemTags(b'), if l.Item? then [l.tag] else []);
    }
  }

  function TokWord(t: MultiCardioner.Tok): string { t.word }
  function TokTag(t: MultiCardioner.Tok): string { t.tag }

  function Words(ts: seq<MultiCardioner.Tok>): (r: seq<string>) {
    Map(TokWord, ts)
  }

  function Tags(ts: seq<MultiCardioner.Tok>): (r: seq<string>) {
    Map(TokTag, ts)
  }

  /** The lines written for one tuple hold exactly its word and label. */
  lemma WrittenHead(t: MultiCardioner.Tok, blank: bool)
    ensures ItemTokens([Item(t.word, t.tag)] + (if blank then [Sep] else [])) == [t.word]
    ensures ItemTags([Item(t.word, t.tag)] + (if blank then [Sep] else [])) == [t.tag]
  {
    var head: seq<Line> := [Item(t.word, t.tag)];
    var e: seq<Line> := [];
    assert head[..0] == e;
    var mid: seq<Line> := if blank then [Sep] else [];
    assert ItemTokens(mid) == [] && ItemTags(mid) == [] by {
      if blank {
        assert mid[..0] == e;
      }
    }
    ItemsAppend(head, mid);
  }

  lemma {:induction false} WrittenItems(ts: seq<MultiCardioner.Tok>, blank: seq<bool>)
    requires |blank| == |ts|
    ensures ItemTokens(WrittenLines(ts, blank)) == Words(ts)
    ensures ItemTags(WrittenLines(ts, blank)) == Tags(ts)
    decreases |ts|
  {
    if |ts| > 0 {
      WrittenItems(ts[1..], blank[1..]);
      WrittenHead(ts[0], blank[0]);
      ItemsAppend([Item(ts[0].word, ts[0].tag)] + (if blank[0] then [Sep] else []), WrittenLines(ts[1..], blank[1..]));
    }
  }

  /** Loading a file written by the CoNLL writer gives back its words as
      tokens and its labels as NER tags, in order, wherever the writer put
      its blank lines. */
  lemma WrittenFileLoads(ts: seq<MultiCardioner.Tok>, blank: seq<bool>)
    requires |blank| == |ts| && forall i :: 0 <= i < |ts| ==> Loadable(ts[i])
    ensures var ex := Examples(ReadLines(Concat(MultiCardioner.FileLines(ts, blank))));
      Flatten(TokensOf(ex)) == Words(ts) && Flatten(TagsOf(ex)) == Tags(ts)
  {
    MultiCardioner.FileLinesClassify(ts, blank);
    ReadLinesConcat(MultiCardioner.FileLines(ts, blank));
    ReadWritten(ts, blank);
    WrittenItems(ts, blank);
    ExamplesKeepTokens(MultiCardioner.FileLines(ts, blank));
  }

  /** In particular for the files `write_files` produces. */
  lemma WriteFileLoads(ts: seq<MultiCardioner.Tok>)
    requires forall i :: 0 <= i < |ts| ==> Loadable(ts[i])
    ensures var ex := Examples(ReadLines(MultiCardioner.WriteFile(ts)));
      Flatten(TokensOf(ex)) == Words(ts) && Flatten(TagsOf(ex)) == Tags(ts)
  {
    WrittenFileLoads(ts, MultiCardioner.BlankFlags(ts));
  }
}

=== FILE: multicardioner.dfy ===
/** The helpers that assemble the MultiCardioNER CoNLL files: reading a
    CoNLL file into tuples, merging the parallel label streams of several
    datasets, cutting the merged stream into examples at '.', selecting
    examples by index, inserting the missing '.' at document changes,
    filtering labels per dataset, and the blank-line rules of the writers. */
module MultiCardioner {
  import opened Wrappers
  import opened PyStr
  import opened Seqs
  import AugmentNer

  /** One CoNLL line as the script handles it: `(word, filename, span, label)`, the label as `tag`. */
  datatype Tok = Tok(word: string, filename: string, span: string, tag: string)

  // ------------------------------------------------------ parse_conll_file

  /** What one line of the file is to the reader. */
  datatype LineKind = Blank | Token(t: Tok) | Bad

  /** A line equal to '\n' is skipped; any other must split into exactly
      four tab-separated fields, and the label loses its trailing '\n'. */
  function ClassifyLine(line: string): LineKind {
    if line == "\n" then Blank
    else
      var f := SplitOn(line, "\t");
      if |f| == 4 then Token(Tok(f[0], f[1], f[2], RStripChar(f[3], '\n'))) else Bad
  }

  function Classify(lines: seq<string>): (r: seq<LineKind>)
    ensures |r| == |lines|
  {
    seq(|lines|, k requires 0 <= k < |lines| => ClassifyLine(lines[k]))
  }

  /** Reference: the tuples of the token lines, in file order. */
  function TokensOf(ks: seq<LineKind>): seq<Tok> {
    if |ks| == 0 then []
    else (if ks[0].Token? then [ks[0].t] else []) + TokensOf(ks[1..])
  }

  /** The reading loop over classified lines, appending to `acc`. */
  function ParseKinds(ks: seq<LineKind>, acc: seq<Tok>): (r: Result<seq<Tok>>)
    ensures r.Success? <==> forall k :: 0 <= k < |ks| ==> !ks[k].Bad?
    ensures r.Success? ==> r.value == acc + TokensOf(ks)
    decreases |ks|
  {
    if |ks| == 0 then Success(acc)
    else
      assert forall k :: 1 <= k < |ks| ==> ks[1..][k - 1] == ks[k];
      match ks[0]
      case Blank =>
        AppendAssoc([], [], TokensOf(ks[1..]));
        ParseKinds(ks[1..], acc)
      case Bad => Failure("ValueError: a line does not have four tab-separated fields")
      case Token(t) =>
        AppendAssoc(acc, [t], TokensOf(ks[1..]));
        ParseKinds(ks[1..], acc + [t])
  }

  /** `parse_conll_file` over the lines the file yields: it raises on the
      first line that is neither '\n' nor four fields; otherwise it keeps
      one tuple per token line, in order. */
  function ParseConllFile(lines: seq<string>): (r: Result<seq<Tok>>)
    ensures r.Success? <==> forall k :: 0 <= k < |lines| ==> !ClassifyLine(lines[k]).Bad?
    ensures r.Success? ==> r.value == TokensOf(Classify(lines)) && |r.value| <= |lines|
  {
    var ks := Classify(lines);
    assert forall k :: 0 <= k < |lines| ==> ks[k] == ClassifyLine(lines[k]);
    TokensOfLength(ks);
    ParseKinds(ks, [])
  }

  lemma {:induction false} TokensOfLength(ks: seq<LineKind>)
    ensures |TokensOf(ks)| <= |ks|
    decreases |ks|
  {
    if |ks| > 0 {
      TokensOfLength(ks[1..]);
    }
  }

  // ---------------------------------------------------------------- writers

  /** `f'{word}\t{filename}\t{span}\t{final_label}\n'` */
  function TokLine(t: Tok): string {
    t.word + "\t" + t.filename + "\t" + t.span + "\t" + t.tag + "\n"
  }

  /** The lines of a written file: each tuple's line, followed by an empty
      line where `blank` says so. */
  function FileLines(ts: seq<Tok>, blank: seq<bool>): seq<string>
    requires |blank| == |ts|
  {
    if |ts| == 0 then []
    else [TokLine(ts[0])] + (if blank[0] then ["\n"] else []) + FileLines(ts[1..], blank[1..])
  }

  /** `write_files`: an empty line after a '.' unless it is the last tuple
      or the next label starts with 'I-'. */
  predicate BlankAfter(ts: seq<Tok>, i: nat) {
    i < |ts| - 1 && ts[i].word == "." && !StartsWith(ts[i + 1].tag, "I-")
  }

  function BlankFlags(ts: seq<Tok>): (r: seq<bool>)
    ensures |r| == |ts|
  {
    seq(|ts|, i requires 0 <= i < |ts| => BlankAfter(ts, i))
  }

  function WriteFile(ts: seq<Tok>): string {
    Concat(FileLines(ts, BlankFlags(ts)))
  }

  /** `write_files_correct_imperfect_entities`: the positions of the
      combined file where a '.' is followed by an 'I-' label, so that no
      empty line splits the entity. */
  predicate SkipAt(c: seq<Tok>, i: nat) {
    i < |c| - 1 && c[i].word == "." && StartsWith(c[i + 1].tag, "I-")
  }

  /** The empty lines of a per-dataset file: after a '.' unless it is the
      last tuple or a skipped position of the combined file. */
  function AlignedFlags(ts: seq<Tok>, c: seq<Tok>): (r: seq<bool>)
    ensures |r| == |ts|
  {
    seq(|ts|, i requires 0 <= i < |ts| => i < |ts| - 1 && ts[i].word == "." && !SkipAt(c, i))
  }

  /** The combined file is written with the rule of `write_files`; the
      per-dataset files get their empty lines from the combined file. */
  function WriteCorrected(c: seq<Tok>, others: seq<seq<Tok>>): (r: (string, seq<string>))
    ensures |r.1| == |others|
  {
    (WriteFile(c), seq(|others|, k requires 0 <= k < |others| => Concat(FileLines(others[k], AlignedFlags(others[k], c)))))
  }

  /** Files with the same words as the combined file get their empty lines
      at exactly the combined file's positions, whatever their labels. */
  lemma AlignedBlanks(ts: seq<Tok>, c: seq<Tok>)
    requires |ts| == |c| && forall i :: 0 <= i < |ts| ==> ts[i].word == c[i].word
    ensures AlignedFlags(ts, c) == BlankFlags(c)
    ensures WriteCorrected(c, [ts]).1 == [Concat(FileLines(ts, BlankFlags(c)))]
  {
  }

  /** A field the file format can carry: no tab and no line break (a '\r'
      would end the line under Python's universal newlines when read back). */
  predicate Clean(s: string) {
    '\t' !in s && '\n' !in s && '\r' !in s
  }

  predicate CleanTok(t: Tok) {
    Clean(t.word) && Clean(t.filename) && Clean(t.span) && Clean(t.tag)
  }

  lemma RStripOneNewline(s: string)
    requires '\n' !in s
    ensures RStripChar(s + "\n", '\n') == s
  {
    var t := s + "\n";
    var r := RStripChar(t, '\n');
    assert t[|s|] == '\n';
    if |s| > 0 {
      assert s[|s| - 1] in s;
      assert t[|s| - 1] != '\n';
    }
    // Only '\n' is stripped and `s` has none, so exactly the last
    // character goes.
    assert |r| == |s|;
    assert r == t[..|s|] == s;
  }

  /** A written tuple line splits back into its four fields. */
  lemma TokLineSplit(t: Tok)
    requires CleanTok(t)
    ensures SplitOn(TokLine(t), "\t") == [t.word, t.filename, t.span, t.tag + "\n"]
  {
    var parts := [t.word, t.filename, t.span, t.tag + "\n"];
    assert parts[1..] == [t.filename, t.span, t.tag + "\n"];
    assert parts[1..][1..] == [t.span, t.tag + "\n"];
    assert parts[1..][1..][1..] == [t.tag + "\n"];
    assert JoinOn(parts[1..][1..][1..], "\t") == t.tag + "\n";
    assert JoinOn(parts[1..][1..], "\t") == t.span + "\t" + (t.tag + "\n");
    assert JoinOn(parts[1..], "\t") == t.filename + "\t" + (t.span + "\t" + (t.tag + "\n"));
    assert JoinOn(parts, "\t") == TokLine(t);
    assert forall p :: p in parts ==> '\t' !in p;
    SplitOnJoinOn(parts, "\t");
  }

  lemma TokLineReads(t: Tok)
    requires CleanTok(t)
    ensures ClassifyLine(TokLine(t)) == Token(t)
    ensures IsLine(TokLine(t))
  {
    TokLineSplit(t);
    RStripOneNewline(t.tag);
    assert TokLine(t) != "\n" by {
      assert |TokLine(t)| >= 4;
    }
    var l := TokLine(t);
    assert l[..|l| - 1] == t.word + "\t" + t.filename + "\t" + t.span + "\t" + t.tag;
  }

  /** The classified lines of a written file, kept apart from the string
      functions. */
  function KindLines(ts: seq<Tok>, blank: seq<bool>): seq<LineKind>
    requires |blank| == |ts|
  {
    if |ts| == 0 then []
    else [Token(ts[0])] + (if blank[0] then [Blank] else []) + KindLines(ts[1..], blank[1..])
  }

  lemma {:induction false} ClassifyAppend(a: seq<string>, b: seq<string>)
    ensures Classify(a + b) == Classify(a) + Classify(b)
  {
  }

  lemma {:induction false} FileLinesClassify(ts: seq<Tok>, blank: seq<bool>)
    requires |blank| == |ts| && forall i :: 0 <= i < |ts| ==> CleanTok(ts[i])
    ensures Classify(FileLines(ts, blank)) == KindLines(ts, blank)
    ensures forall k :: 0 <= k < |FileLines(ts, blank)| ==> IsLine(FileLines(ts, blank)[k])
    decreases |ts|
  {
    if |ts| > 0 {
      var head := [TokLine(ts[0])] + (if blank[0] then ["\n"] else []);
      FileLinesClassify(ts[1..], blank[1..]);
      TokLineReads(ts[0]);
      assert Classify(head) == [Token(ts[0])] + (if blank[0] then [Blank] else []);
      ClassifyAppend(head, FileLines(ts[1..], blank[1..]));
      var rest := FileLines(ts[1..], blank[1..]);
      assert forall k :: 0 <= k < |head| + |rest| ==> IsLine((head + rest)[k]) by {
        assert IsLine("\n");
        assert forall k :: |head| <= k < |head| + |rest| ==> (head + rest)[k] == rest[k - |head|];
      }
    }
  }

  lemma {:induction false} KindLinesTokens(ts: seq<Tok>, blank: seq<bool>)
    requires |blank| == |ts|
    ensures TokensOf(KindLines(ts, blank)) == ts
    ensures forall k :: 0 <= k < |KindLines(ts, blank)| ==> !KindLines(ts, blank)[k].Bad?
    decreases |ts|
  {
    if |ts| > 0 {
      KindLinesTokens(ts[1..], blank[1..]);
      var rest := KindLines(ts[1..], blank[1..]);
      if blank[0] {
        assert KindLines(ts, blank) == [Token(ts[0])] + ([Blank] + rest);
        assert ([Blank] + rest)[1..] == rest;
      } else {
        assert KindLines(ts, blank) == [Token(ts[0])] + rest;
      }
    }
  }

  /** Reading back a written file gives the tuples back, wherever its empty
      lines are, for tuples whose fields hold no tab, '\n' or '\r'. */
  lemma WriteParseRoundTrip(ts: seq<Tok>, blank: seq<bool>)
    requires |blank| == |ts| && forall i :: 0 <= i < |ts| ==> CleanTok(ts[i])
    ensures ParseConllFile(ReadLines(Concat(FileLines(ts, blank)))) == Success(ts)
  {
    FileLinesClassify(ts, blank);
    ReadLinesConcat(FileLines(ts, blank));
    KindLinesTokens(ts, blank);
  }

  /** The same for `write_files`. */
  lemma WriteFileRoundTrip(ts: seq<Tok>)
    requires forall i :: 0 <= i < |ts| ==> CleanTok(ts[i])
    ensures ParseConllFile(ReadLines(WriteFile(ts))) == Success(ts)
  {
    WriteParseRoundTrip(ts, BlankFlags(ts));
  }

  // ------------------------------------------------- merging label streams

  /** The label of one training tuple: drugtemist's, else distemist's, else
      symptemist's or medprocner's (`heads` stands for the random choice
      when both are set), else 'O'. */
  function TrainLabel(drug: string, dis: string, sym: string, med: string, heads: bool): (r: string)
    ensures drug != "O" ==> r == drug
    ensures drug == "O" && dis != "O" ==> r == dis
    ensures drug == "O" && dis == "O" && sym != "O" && med != "O" ==> r in {sym, med}
    ensures drug == "O" && dis == "O" && (sym == "O" || med == "O") ==> r == (if sym == "O" then med else sym)
    ensures r == "O" <==> drug == "O" && dis == "O" && sym == "O" && med == "O"
  {
    if drug != "O" then drug
    else if dis != "O" then dis
    else if sym != "O" && med != "O" then (if heads then sym else med)
    else if sym == "O" then med
    else if med == "O" then sym
    else "O"
  }

  /** Random choices, one per position. */
  type Coins = nat -> bool

  function Min4(a: nat, b: nat, c: nat, d: nat): (r: nat)
    ensures r <= a && r <= b && r <= c && r <= d
    ensures r == a || r == b || r == c || r == d
  {
    var ab := if a < b then a else b;
    var cd := if c < d then c else d;
    if ab < cd then ab else cd
  }

  /** `build_combined_training_file_tuples`: the four streams zipped (so as
      long as the shortest), word, filename and span from distemist. */
  function CombineTraining(dis: seq<Tok>, drug: seq<Tok>, sym: seq<Tok>, med: seq<Tok>, coins: Coins): (r: seq<Tok>)
    ensures |r| == Min4(|dis|, |drug|, |sym|, |med|)
    ensures forall k :: 0 <= k < |r| ==>
      && r[k].word == dis[k].word && r[k].filename == dis[k].filename && r[k].span == dis[k].span
      && r[k].tag == TrainLabel(drug[k].tag, dis[k].tag, sym[k].tag, med[k].tag, coins(k))
  {
    var n := Min4(|dis|, |drug|, |sym|, |med|);
    seq(n, k requires 0 <= k < n =>
      Tok(dis[k].word, dis[k].filename, dis[k].span, TrainLabel(drug[k].tag, dis[k].tag, sym[k].tag, med[k].tag, coins(k))))
  }

  /** A position where both symptemist and medprocner are set can get
      either label. */
  lemma EitherChoice(dis: seq<Tok>, drug: seq<Tok>, sym: seq<Tok>, med: seq<Tok>, k: nat)
    requires k < |dis| && k < |drug| && k < |sym| && k < |med|
    requires drug[k].tag == "O" && dis[k].tag == "O" && sym[k].tag != "O" && med[k].tag != "O"
    ensures CombineTraining(dis, drug, sym, med, _ => true)[k].tag == sym[k].tag
    ensures CombineTraining(dis, drug, sym, med, _ => false)[k].tag == med[k].tag
  {
  }

  /** The label of one validation tuple: drugtemist's, else distemist's. */
  function DevLabel(drug: string, dis: string): (r: string)
    ensures r == "O" <==> drug == "O" && dis == "O"
    ensures r == drug || r == dis
    ensures drug != "O" ==> r == drug
  {
    if drug != "O" then drug else if dis != "O" then dis else "O"
  }

  /** `build_combined_validation_file_tuples` */
  function CombineValidation(dis: seq<Tok>, drug: seq<Tok>): (r: seq<Tok>)
    ensures |r| == (if |dis| < |drug| then |dis| else |drug|)
    ensures forall k :: 0 <= k < |r| ==>
      && r[k].word == dis[k].word && r[k].filename == dis[k].filename && r[k].span == dis[k].span
      && r[k].tag == DevLabel(drug[k].tag, dis[k].tag)
  {
    var n := if |dis| < |drug| then |dis| else |drug|;
    seq(n, k requires 0 <= k < n => Tok(dis[k].word, dis[k].filename, dis[k].span, DevLabel(drug[k].tag, dis[k].tag)))
  }

  // ---------------------------------------------------------- get_examples

  /** A complete example: non-empty, ending with the one '.' it holds. */
  predicate Example(g: seq<Tok>) {
    |g| > 0 && g[|g| - 1].word == "." && forall k :: 0 <= k < |g| - 1 ==> g[k].word != "."
  }

  /** The length of the prefix of `ts` up to and including its last '.'. */
  function DotEnd(ts: seq<Tok>): (d: nat)
    ensures d <= |ts|
    ensures d > 0 ==> ts[d - 1].word == "."
    ensures forall k :: d <= k < |ts| ==> ts[k].word != "."
  {
    if |ts| == 0 then 0
    else
      var d := DotEnd(ts[1..]);
      if d > 0 then d + 1 else if ts[0].word == "." then 1 else 0
  }

  /** The loop of `get_examples`: `cur` is the example being filled, `done`
      the completed ones; the unfinished last one is dropped. */
  function ExamplesFrom(ts: seq<Tok>, done: seq<seq<Tok>>, cur: seq<Tok>): seq<seq<Tok>>
    decreases |ts|
  {
    if |ts| == 0 then done
    else if ts[0].word == "." then ExamplesFrom(ts[1..], done + [cur + [ts[0]]], [])
    else ExamplesFrom(ts[1..], done, cur + [ts[0]])
  }

  lemma {:induction false} ExamplesFromShape(ts: seq<Tok>, done: seq<seq<Tok>>, cur: seq<Tok>)
    requires forall k :: 0 <= k < |done| ==> Example(done[k])
    requires forall k :: 0 <= k < |cur| ==> cur[k].word != "."
    ensures forall k :: 0 <= k < |ExamplesFrom(ts, done, cur)| ==> Example(ExamplesFrom(ts, done, cur)[k])
    decreases |ts|
  {
    if |ts| > 0 {
      if ts[0].word == "." {
        var g := cur + [ts[0]];
        assert Example(g);
        assert forall k :: 0 <= k < |done + [g]| ==> Example((done + [g])[k]) by {
          assert forall k :: 0 <= k < |done| ==> (done + [g])[k] == done[k];
        }
        ExamplesFromShape(ts[1..], done + [g], []);
        assert ExamplesFrom(ts, done, cur) == ExamplesFrom(ts[1..], done + [g], []);
      } else {
        assert forall k :: 0 <= k < |cur + [ts[0]]| ==> (cur + [ts[0]])[k].word != "." by {
          assert forall k :: 0 <= k < |cur| ==> (cur + [ts[0]])[k] == cur[k];
        }
        ExamplesFromShape(ts[1..], done, cur + [ts[0]]);
        assert ExamplesFrom(ts, done, cur) == ExamplesFrom(ts[1..], done, cur + [ts[0]]);
      }
    }
  }

  lemma {:induction false} ExamplesFromFlatten(ts: seq<Tok>, done: seq<seq<Tok>>, cur: seq<Tok>)
    ensures Flatten(ExamplesFrom(ts, done, cur)) == Flatten(done) + (if DotEnd(ts) == 0 then [] else cur + ts[..DotEnd(ts)])
    decreases |ts|
  {
    if |ts| > 0 {
      var d := DotEnd(ts[1..]);
      if ts[0].word == "." {
        var g := cur + [ts[0]];
        ExamplesFromFlatten(ts[1..], done + [g], []);
        FlattenSnoc(done, g);
        ConsPrefix(Flatten(done), cur, ts, d);
        if d == 0 {
          assert Flatten(done) + g + [] == Flatten(done) + (cur + ts[..1]);
        }
      } else {
        ExamplesFromFlatten(ts[1..], done, cur + [ts[0]]);
        ConsPrefix([], cur, ts, d);
      }
    }
  }

  /** `get_examples`: complete examples only, which together are the input
      up to its last '.'; the tuples after it are dropped. */
  function GetExamples(ts: seq<Tok>): (r: seq<seq<Tok>>)
    ensures forall k :: 0 <= k < |r| ==> Example(r[k])
    ensures Flatten(r) == ts[..DotEnd(ts)]
  {
    ExamplesFromShape(ts, [], []);
    ExamplesFromFlatten(ts, [], []);
    ExamplesFrom(ts, [], [])
  }

  // ------------------------------------------------------ index selection

  /** Python's `xs[i]` on a list of length `n`: negative indices count from
      the end, others out of range raise. */
  function PyIndex(n: nat, i: int): (r: Option<nat>)
    ensures r.Some? <==> -(n as int) <= i < n
    ensures r.Some? ==> r.value < n && (r.value == i || r.value == i + n)
  {
    if 0 <= i < n then Some(i) else if -(n as int) <= i < 0 then Some(n + i) else None
  }

  /** The selection loops: `selected.append(all_examples[idx])` per index. */
  function SelectFrom<T>(xs: seq<T>, idxs: seq<int>, acc: seq<T>): (r: Result<seq<T>>)
    ensures r.Success? <==> forall k :: 0 <= k < |idxs| ==> PyIndex(|xs|, idxs[k]).Some?
    ensures r.Success? ==>
      && |r.value| == |acc| + |idxs| && r.value[..|acc|] == acc
      && forall k :: 0 <= k < |idxs| ==> r.value[|acc| + k] == xs[PyIndex(|xs|, idxs[k]).value]
    decreases |idxs|
  {
    if |idxs| == 0 then Success(acc)
    else
      assert forall k :: 1 <= k < |idxs| ==> idxs[1..][k - 1] == idxs[k];
      match PyIndex(|xs|, idxs[0])
      case None => Failure("IndexError: list index out of range")
      case Some(i) =>
        var r := SelectFrom(xs, idxs[1..], acc + [xs[i]]);
        if r.Success? then
          assert r.value[..|acc|] == r.value[..|acc| + 1][..|acc|];
          r
        else r
  }

  function Select<T>(xs: seq<T>, idxs: seq<int>): (r: Result<seq<T>>)
    ensures r.Success? <==> forall k :: 0 <= k < |idxs| ==> PyIndex(|xs|, idxs[k]).Some?
    ensures r.Success? ==> |r.value| == |idxs| && forall k :: 0 <= k < |idxs| ==> r.value[k] == xs[PyIndex(|xs|, idxs[k]).value]
  {
    SelectFrom(xs, idxs, [])
  }

  /** `opposite_values` before its shuffle: the numbers below `threshold`
      not in the list, in increasing order. */
  function OppositeValues(orig: seq<int>, threshold: int): (r: seq<int>)
    ensures forall x :: x in r <==> 0 <= x < threshold && x !in orig
    ensures forall i, j :: 0 <= i < j < |r| ==> r[i] < r[j]
    decreases threshold
  {
    if threshold <= 0 then []
    else
      var p := OppositeValues(orig, threshold - 1);
      assert forall i :: 0 <= i < |p| ==> p[i] in p;
      p + (if threshold - 1 !in orig then [threshold - 1] else [])
  }

  lemma OppositeValuesDistinct(orig: seq<int>, threshold: int)
    ensures Distinct(OppositeValues(orig, threshold))
  {
  }

  // ----------------------------------------------------- '.' at doc changes

  /** The end offset of a span: `int(span.split('_')[1])`. */
  function SpanEnd(span: string): Option<int> {
    var parts := SplitOn(span, "_");
    if |parts| < 2 then None else ParseInt(parts[1])
  }

  /** Position `i` closes a document without a '.'. */
  predicate Boundary(ls: seq<Tok>, i: nat) {
    i < |ls| - 1 && ls[i].filename != ls[i + 1].filename && ls[i].word != "."
  }

  /** The '.' inserted after `t`, one character past its end. */
  function Dot(t: Tok, e: int): Tok {
    Tok(".", t.filename, AugmentNer.ShowSpan(e, e + 1), "O")
  }

  /** No document ends without a '.': every change of filename between
      neighbours comes right after a '.'. */
  predicate Closed(ls: seq<Tok>) {
    forall k :: 0 <= k < |ls| - 1 && ls[k].filename != ls[k + 1].filename ==> ls[k].word == "."
  }

  /** What the loop does at one position: keep the tuple, keep it and add
      a '.', or raise on a span whose end it cannot read. */
  datatype Step = Keep | Close(dot: Tok) | Broken

  function StepAt(ls: seq<Tok>, i: nat): (s: Step)
    requires i < |ls|
    ensures s.Keep? <==> !Boundary(ls, i)
    ensures s.Broken? <==> Boundary(ls, i) && SpanEnd(ls[i].span).None?
    ensures s.Close? ==> s.dot.word == "." && s.dot.tag == "O" && s.dot.filename == ls[i].filename
  {
    if !Boundary(ls, i) then Keep
    else
      match SpanEnd(ls[i].span)
      case None => Broken
      case Some(e) => Close(Dot(ls[i], e))
  }

  function Steps(ls: seq<Tok>): (r: seq<Step>)
    ensures |r| == |ls|
  {
    seq(|ls|, i requires 0 <= i < |ls| => StepAt(ls, i))
  }

  /** The facts about the steps the proofs need, kept apart from the span
      parsing. */
  predicate StepsOf(ls: seq<Tok>, steps: seq<Step>) {
    && |steps| == |ls|
    && forall k :: 0 <= k < |ls| ==>
      && (steps[k].Keep? <==> !Boundary(ls, k))
      && (steps[k].Close? ==> steps[k].dot.word == "." && steps[k].dot.tag == "O" && steps[k].dot.filename == ls[k].filename)
  }

  /** The insertion loop from position `i`, appending to `acc`. */
  function InsertFrom(ls: seq<Tok>, steps: seq<Step>, i: nat, acc: seq<Tok>): (r: Result<seq<Tok>>)
    requires |steps| == |ls| && i <= |ls|
    decreases |ls| - i
  {
    if i == |ls| then Success(acc)
    else
      match steps[i]
      case Keep => InsertFrom(ls, steps, i + 1, acc + [ls[i]])
      case Close(d) => InsertFrom(ls, steps, i + 1, acc + [ls[i], d])
      case Broken => Failure("ValueError or IndexError: malformed span")
  }

  /** The loop raises exactly when a later position is broken. */
  lemma {:induction false} InsertFromFails(ls: seq<Tok>, steps: seq<Step>, i: nat, acc: seq<Tok>)
    requires |steps| == |ls| && i <= |ls|
    ensures InsertFrom(ls, steps, i, acc).Failure? <==> exists j :: i <= j < |ls| && steps[j].Broken?
    decreases |ls| - i
  {
    if i < |ls| {
      match steps[i]
      case Keep => InsertFromFails(ls, steps, i + 1, acc + [ls[i]]);
      case Close(d) => InsertFromFails(ls, steps, i + 1, acc + [ls[i], d]);
      case Broken =>
    }
  }

  /** What the loop keeps: the output closes every document, holds the
      input in order, and adds nothing but '.' tuples labelled 'O'. */
  predicate Inserted(ls: seq<Tok>, out: seq<Tok>) {
    && Closed(out)
    && IsSubseq(ls, out)
    && forall k :: 0 <= k < |out| ==> out[k] in ls || (out[k].word == "." && out[k].tag == "O")
  }

  /** Appending a tuple to an output that is closed so far. */
  lemma ClosedSnoc(acc: seq<Tok>, x: Tok)
    requires Closed(acc)
    requires |acc| > 0 ==> acc[|acc| - 1].word == "." || acc[|acc| - 1].filename == x.filename
    ensures Closed(acc + [x])
  {
    var a := acc + [x];
    forall k | 0 <= k < |a| - 1 && a[k].filename != a[k + 1].filename
      ensures a[k].word == "."
    {
      if k < |acc| - 1 {
        assert a[k] == acc[k] && a[k + 1] == acc[k + 1];
      } else {
        assert a[k] == acc[|acc| - 1] && a[k + 1] == x;
      }
    }
  }

  /** The invariant of the insertion loop at position `i`. */
  predicate LoopInv(ls: seq<Tok>, i: nat, acc: seq<Tok>)
    requires i <= |ls|
  {
    && Closed(acc)
    && (|acc| > 0 && i < |ls| ==> acc[|acc| - 1].word == "." || acc[|acc| - 1].filename == ls[i].filename)
    && IsSubseq(ls[..i], acc)
    && forall k :: 0 <= k < |acc| ==> acc[k] in ls || (acc[k].word == "." && acc[k].tag == "O")
  }

  lemma LoopInvStep(ls: seq<Tok>, i: nat, acc: seq<Tok>, extra: seq<Tok>)
    requires i < |ls| && LoopInv(ls, i, acc)
    requires Closed(acc + [ls[i]] + extra)
    requires forall k :: 0 <= k < |extra| ==> extra[k].word == "." && extra[k].tag == "O"
    requires |extra| == 0 && i + 1 < |ls| ==> ls[i].word == "." || ls[i].filename == ls[i + 1].filename
    ensures LoopInv(ls, i + 1, acc + [ls[i]] + extra)
  {
    var t := ls[i];
    var acc1 := acc + [t];
    var a := acc1 + extra;
    assert ls[..i + 1] == ls[..i] + [t];
    SubseqSnoc(ls[..i], acc, t);
    SubseqAppendRight(ls[..i + 1], acc1, extra);
    forall k | 0 <= k < |a|
      ensures a[k] in ls || (a[k].word == "." && a[k].tag == "O")
    {
      if k < |acc| {
        assert a[k] == acc[k];
      } else if k == |acc| {
        assert a[k] == t;
      } else {
        assert a[k] == extra[k - |acc1|];
      }
    }
    if |extra| > 0 {
      assert a[|a| - 1] == extra[|extra| - 1];
    } else {
      assert a == acc1;
    }
  }

  lemma {:induction false} InsertFromFacts(ls: seq<Tok>, steps: seq<Step>, i: nat, acc: seq<Tok>)
    requires StepsOf(ls, steps) && i <= |ls| && LoopInv(ls, i, acc)
    ensures InsertFrom(ls, steps, i, acc).Success? ==> Inserted(ls, InsertFrom(ls, steps, i, acc).value)
    decreases |ls| - i
  {
    if i == |ls| {
      assert ls[..i] == ls;
    } else {
      var t := ls[i];
      ClosedSnoc(acc, t);
      match steps[i]
      case Keep =>
        assert acc + [t] + [] == acc + [t];
        LoopInvStep(ls, i, acc, []);
        InsertFromFacts(ls, steps, i + 1, acc + [t]);
      case Close(d) =>
        assert (acc + [t])[|acc + [t]| - 1] == t;
        ClosedSnoc(acc + [t], d);
        assert acc + [t, d] == acc + [t] + [d];
        LoopInvStep(ls, i, acc, [d]);
        InsertFromFacts(ls, steps, i + 1, acc + [t] + [d]);
      case Broken =>
    }
  }

  /** What position `j` contributes to the output: its tuple, followed by
      a '.' one character past its end when it closes a document without
      one. */
  function Expanded(ls: seq<Tok>, j: nat): seq<Tok>
    requires j < |ls|
  {
    if Boundary(ls, j) && SpanEnd(ls[j].span).Some? then [ls[j], Dot(ls[j], SpanEnd(ls[j].span).value)]
    else [ls[j]]
  }

  function Expansion(ls: seq<Tok>): (r: seq<seq<Tok>>)
    ensures |r| == |ls| && forall j :: 0 <= j < |ls| ==> r[j] == Expanded(ls, j)
  {
    seq(|ls|, j requires 0 <= j < |ls| => Expanded(ls, j))
  }

  /** From position `i` the loop appends the contributions of positions
      `i` onwards. */
  lemma {:induction false} InsertFromExpands(ls: seq<Tok>, i: nat, acc: seq<Tok>)
    requires i <= |ls|
    ensures InsertFrom(ls, Steps(ls), i, acc).Success? ==>
      InsertFrom(ls, Steps(ls), i, acc).value == acc + Flatten(Expansion(ls)[i..])
    decreases |ls| - i
  {
    var steps := Steps(ls);
    var xs := Expansion(ls)[i..];
    if i == |ls| {
      assert xs == [];
      assert acc + [] == acc;
    } else {
      assert steps[i] == StepAt(ls, i);
      assert xs[0] == Expanded(ls, i);
      assert xs[1..] == Expansion(ls)[i + 1..];
      match steps[i]
      case Keep =>
        InsertFromExpands(ls, i + 1, acc + [ls[i]]);
        AppendAssoc(acc, [ls[i]], Flatten(xs[1..]));
      case Close(d) =>
        InsertFromExpands(ls, i + 1, acc + [ls[i], d]);
        AppendAssoc(acc, [ls[i], d], Flatten(xs[1..]));
      case Broken =>
    }
  }

  /** The tuples of the selected examples with a '.' added wherever a
      document ends without one. */
  function InsertDots(ls: seq<Tok>): (r: Result<seq<Tok>>)
    ensures r.Failure? <==> exists j :: 0 <= j < |ls| && Boundary(ls, j) && SpanEnd(ls[j].span).None?
    ensures r.Success? ==> r.value == Flatten(Expansion(ls))
    ensures r.Success? ==> Inserted(ls, r.value)
  {
    var steps := Steps(ls);
    assert forall k :: 0 <= k < |ls| ==> steps[k] == StepAt(ls, k);
    assert ls[..0] == [];
    InsertFromFacts(ls, steps, 0, []);
    InsertFromFails(ls, steps, 0, []);
    InsertFromExpands(ls, 0, []);
    assert Expansion(ls)[0..] == Expansion(ls);
    assert [] + Flatten(Expansion(ls)) == Flatten(Expansion(ls));
    InsertFrom(ls, steps, 0, [])
  }

  /** Input that already closes every document is left as it is. */
  lemma {:induction false} InsertFromClosed(ls: seq<Tok>, steps: seq<Step>, i: nat)
    requires StepsOf(ls, steps) && i <= |ls| && Closed(ls)
    ensures InsertFrom(ls, steps, i, ls[..i]) == Success(ls)
    decreases |ls| - i
  {
    if i < |ls| {
      assert !Boundary(ls, i);
      assert steps[i].Keep?;
      assert ls[..i] + [ls[i]] == ls[..i + 1];
      InsertFromClosed(ls, steps, i + 1);
    } else {
      assert ls[..i] == ls;
    }
  }

  /** Inserting the missing '.' twice is the same as once. */
  lemma InsertDotsIdempotent(ls: seq<Tok>)
    requires InsertDots(ls).Success?
    ensures InsertDots(InsertDots(ls).value) == InsertDots(ls)
  {
    var once := InsertDots(ls).value;
    var steps := Steps(once);
    assert forall k :: 0 <= k < |once| ==> steps[k] == StepAt(once, k);
    InsertFromClosed(once, steps, 0);
    assert once[..0] == [];
  }

  /** Labels the validation file does not keep. */
  const DevDropped: seq<string> := ["B-SINTOMA", "I-SINTOMA", "B-PROCEDIMIENTO", "I-PROCEDIMIENTO"]

  /** The validation tuples with symptom and procedure labels set to 'O'. */
  function Relabel(ls: seq<Tok>): (r: seq<Tok>)
    ensures |r| == |ls|
    ensures forall k :: 0 <= k < |ls| ==> r[k].tag !in DevDropped
    ensures forall k :: 0 <= k < |ls| ==> r[k] == (if ls[k].tag in DevDropped then ls[k].(tag := "O") else ls[k])
  {
    seq(|ls|, k requires 0 <= k < |ls| => if ls[k].tag in DevDropped then ls[k].(tag := "O") else ls[k])
  }

  /** Every index of the list is a valid Python index into `n` items. */
  predicate ValidIndices(n: nat, idxs: seq<int>) {
    forall k :: 0 <= k < |idxs| ==> PyIndex(n, idxs[k]).Some?
  }

  /** Every document change in `ls` without a '.' falls on a tuple whose
      span end can be read. */
  predicate SpansReadable(ls: seq<Tok>) {
    forall j :: 0 <= j < |ls| && Boundary(ls, j) ==> SpanEnd(ls[j].span).Some?
  }

  /** `built_80_20_split_of_combined_dataset` with the example indices
      given: the training and validation examples are cut at '.', the two
      index lists select from their concatenation, and the selected tuples
      get their missing '.' (and, for validation, the relabelling). It
      fails iff an index is out of range or a document change without '.'
      falls on an unreadable span; the outputs are the selected examples'
      tuples, each followed by its '.' where one is missing. */
  function Split8020(train: seq<Tok>, dev: seq<Tok>, trainIdxs: seq<int>, devIdxs: seq<int>): (r: Result<(seq<Tok>, seq<Tok>)>)
    ensures var all := GetExamples(train) + GetExamples(dev);
      r.Success? <==>
        && ValidIndices(|all|, trainIdxs) && ValidIndices(|all|, devIdxs)
        && SpansReadable(Flatten(Select(all, trainIdxs).value))
        && SpansReadable(Relabel(Flatten(Select(all, devIdxs).value)))
    ensures var all := GetExamples(train) + GetExamples(dev);
      r.Success? ==>
        && r.value.0 == Flatten(Expansion(Flatten(Select(all, trainIdxs).value)))
        && r.value.1 == Flatten(Expansion(Relabel(Flatten(Select(all, devIdxs).value))))
    ensures r.Success? ==>
      && Closed(r.value.0) && Closed(r.value.1)
      && (forall k :: 0 <= k < |r.value.1| ==> r.value.1[k].tag !in DevDropped)
  {
    var all := GetExamples(train) + GetExamples(dev);
    var st :- Select(all, trainIdxs);
    var sd :- Select(all, devIdxs);
    var tl :- InsertDots(Flatten(st));
    var dl :- InsertDots(Relabel(Flatten(sd)));
    DevTagsKept(Flatten(sd));
    Success((tl, dl))
  }

  /** The outputs of the split are already complete: inserting the missing
      '.' again and relabelling the validation output change nothing. */
  lemma Split8020Stable(train: seq<Tok>, dev: seq<Tok>, trainIdxs: seq<int>, devIdxs: seq<int>)
    requires Split8020(train, dev, trainIdxs, devIdxs).Success?
    ensures var r := Split8020(train, dev, trainIdxs, devIdxs).value;
      && InsertDots(r.0) == Success(r.0)
      && InsertDots(r.1) == Success(r.1)
      && Relabel(r.1) == r.1
  {
    var all := GetExamples(train) + GetExamples(dev);
    var tl := Flatten(Select(all, trainIdxs).value);
    var dl := Relabel(Flatten(Select(all, devIdxs).value));
    InsertDotsIdempotent(tl);
    InsertDotsIdempotent(dl);
  }

  /** The development stream keeps none of the dropped labels, dots
      included. */
  lemma DevTagsKept(ts: seq<Tok>)
    requires InsertDots(Relabel(ts)).Success?
    ensures forall k :: 0 <= k < |InsertDots(Relabel(ts)).value| ==> InsertDots(Relabel(ts)).value[k].tag !in DevDropped
  {
    var rl := Relabel(ts);
    var dl := InsertDots(rl).value;
    assert "O" !in DevDropped;
    assert Inserted(rl, dl);
    forall k | 0 <= k < |dl|
      ensures dl[k].tag !in DevDropped
    {
      if dl[k] in rl {
        var j :| 0 <= j < |rl| && rl[j] == dl[k];
        assert rl[j].tag !in DevDropped;
      } else {
        assert dl[k].tag == "O";
      }
    }
  }

  // ---------------------------------------------- per-dataset label filter

  /** One dataset's copy: a tuple keeps its label when the dataset has it,
      else gets 'O'. */
  function FilterLabels(ts: seq<Tok>, labels: seq<string>): (r: seq<Tok>)
    ensures |r| == |ts|
    ensures forall k :: 0 <= k < |ts| ==>
      && r[k].word == ts[k].word && r[k].filename == ts[k].filename && r[k].span == ts[k].span
      && (r[k].tag in labels || r[k].tag == "O")
      && (ts[k].tag in labels ==> r[k] == ts[k])
  {
    seq(|ts|, k requires 0 <= k < |ts| => if ts[k].tag in labels then ts[k] else ts[k].(tag := "O"))
  }

  /** `build_distemist_and_drugtemist_training_and_validation_tuples` */
  function SplitByDataset(ts: seq<Tok>, disLabels: seq<string>, drugLabels: seq<string>): (seq<Tok>, seq<Tok>) {
    (FilterLabels(ts, disLabels), FilterLabels(ts, drugLabels))
  }

  /** Filtering again changes nothing, and a label outside the dataset's
      list is always cleared. */
  lemma FilterLabelsIdempotent(ts: seq<Tok>, labels: seq<string>)
    ensures FilterLabels(FilterLabels(ts, labels), labels) == FilterLabels(ts, labels)
    ensures forall k :: 0 <= k < |ts| && ts[k].tag !in labels ==> FilterLabels(ts, labels)[k].tag == "O"
  {
  }

  /** The filtered copies keep the words, so they get their empty lines
      where the combined file does. */
  lemma FilteredFilesAligned(c: seq<Tok>, disLabels: seq<string>, drugLabels: seq<string>)
    ensures AlignedFlags(FilterLabels(c, disLabels), c) == BlankFlags(c)
    ensures AlignedFlags(FilterLabels(c, drugLabels), c) == BlankFlags(c)
  {
    AlignedBlanks(FilterLabels(c, disLabels), c);
    AlignedBlanks(FilterLabels(c, drugLabels), c);
  }
}

=== FILE: ner_predict.dfy ===
/** Post-processing of token-classification output in
    `scripts/ner/pipeline/ner_predict.py`: label selection, filtering of the
    raw results, merging of entries split by the tokenizer, reassembly of
    BIO runs into entities, the example-span filter and the final order. */
module NerPredict {
  import opened Wrappers
  import opened PyStr
  import opened Seqs
  import Sorting

  /** One prediction record: the pipeline's `entity`, `start`, `end`, `word`
      keys plus the `filename` added by `process_predictions`; BIO
      reassembly emits records of the same shape. */
  datatype Token = Token(entity: string, start: int, end: int, word: string, filename: string)

  // ----------------------------------------------------------- get_labels

  /** `get_labels`: the B-/I- pair of the first dataset name found, case
      insensitively, in the order distemist, drugtemist, cantemist,
      symptemist; an exception when none is found. */
  const LabelPairs: seq<seq<string>> := [
    ["B-ENFERMEDAD", "I-ENFERMEDAD"], ["B-FARMACO", "I-FARMACO"],
    ["B-MORFOLOGIA_NEOPLASIA", "I-MORFOLOGIA_NEOPLASIA"], ["B-SINTOMA", "I-SINTOMA"]]

  function GetLabels(argument: string): (r: Result<seq<string>>)
    ensures r.Success? ==> r.value in LabelPairs
    ensures r.Success? <==>
      || Contains(Lower(argument), "distemist") || Contains(Lower(argument), "drugtemist")
      || Contains(Lower(argument), "cantemist") || Contains(Lower(argument), "symptemist")
    ensures Contains(Lower(argument), "distemist") ==> r == Success(["B-ENFERMEDAD", "I-ENFERMEDAD"])
    ensures !Contains(Lower(argument), "distemist") && Contains(Lower(argument), "drugtemist")
      ==> r == Success(["B-FARMACO", "I-FARMACO"])
    ensures !Contains(Lower(argument), "distemist") && !Contains(Lower(argument), "drugtemist")
      && Contains(Lower(argument), "cantemist")
      ==> r == Success(["B-MORFOLOGIA_NEOPLASIA", "I-MORFOLOGIA_NEOPLASIA"])
    ensures !Contains(Lower(argument), "distemist") && !Contains(Lower(argument), "drugtemist")
      && !Contains(Lower(argument), "cantemist") && Contains(Lower(argument), "symptemist")
      ==> r == Success(["B-SINTOMA", "I-SINTOMA"])
  {
    var a := Lower(argument);
    if Contains(a, "distemist") then
      Success(["B-ENFERMEDAD", "I-ENFERMEDAD"])
    else if Contains(a, "drugtemist") then
      Success(["B-FARMACO", "I-FARMACO"])
    else if Contains(a, "cantemist") then
      Success(["B-MORFOLOGIA_NEOPLASIA", "I-MORFOLOGIA_NEOPLASIA"])
    else if Contains(a, "symptemist") then
      Success(["B-SINTOMA", "I-SINTOMA"])
    else
      Failure("the dataset has to be one of distemist, drugtemist, cantemist or symptemist")
  }

  /** A B-/I- pair for one entity type. */
  predicate BIPair(v: seq<string>) {
    |v| == 2 && |v[0]| >= 2 && |v[1]| >= 2
    && v[0][..2] == "B-" && v[1][..2] == "I-" && v[0][2..] == v[1][2..]
  }

  lemma BIPairOf(b: string, i: string)
    requires |b| == |i| >= 2 && b[0] == 'B' && i[0] == 'I' && b[1] == '-' && i[1] == '-'
    requires forall k :: 2 <= k < |b| ==> b[k] == i[k]
    ensures BIPair([b, i])
  {
    assert b[..2] == "B-" && i[..2] == "I-";
    assert b[2..] == i[2..];
  }

  lemma LabelPairsAreBIPairs()
    ensures forall v :: v in LabelPairs ==> BIPair(v)
  {
    BIPairOf("B-ENFERMEDAD", "I-ENFERMEDAD");
    BIPairOf("B-FARMACO", "I-FARMACO");
    BIPairOf("B-MORFOLOGIA_NEOPLASIA", "I-MORFOLOGIA_NEOPLASIA");
    BIPairOf("B-SINTOMA", "I-SINTOMA");
  }

  /** Every label list returned is the B-/I- pair of one entity type. */
  lemma GetLabelsPair(argument: string)
    ensures GetLabels(argument).Success? ==> BIPair(GetLabels(argument).value)
  {
    LabelPairsAreBIPairs();
  }

  // -------------------------------------------------- process_predictions

  /** The raw results whose label is one of `labels`, in order. */
  function KeepLabelled(results: seq<Token>, labels: seq<string>): (r: seq<Token>)
    ensures forall t :: t in r <==> t in results && t.entity in labels
    ensures IsSubseq(r, results)
  {
    if |results| == 0 then []
    else
      var rest := KeepLabelled(results[1..], labels);
      assert forall t :: t in results <==> t == results[0] || t in results[1..];
      if results[0].entity in labels then
        [results[0]] + rest
      else
        SubseqExtend(rest, results);
        rest
  }

  /** One kept result: the covered text, the shifted offsets, the file. */
  function Annotate(t: Token, text: string, filename: string, shift: int): Token {
    Token(t.entity, t.start + shift, t.end + shift, Slice(text, t.start, t.end), filename)
  }

  /** `process_predictions`; a `start_span_inside_document` of None or 0 is
      falsy in `process_predictions`, and both are written `shift == 0` here. */
  function ProcessPredictions(results: seq<Token>, text: string, filename: string, labels: seq<string>, shift: int): (r: seq<Token>)
    ensures |r| == |KeepLabelled(results, labels)|
    ensures forall i :: 0 <= i < |r| ==>
      var k := KeepLabelled(results, labels)[i];
      && r[i].entity == k.entity && r[i].entity in labels
      && r[i].start == k.start + shift && r[i].end - r[i].start == k.end - k.start
      && r[i].word == Slice(text, k.start, k.end)
      && r[i].filename == filename
  {
    var kept := KeepLabelled(results, labels);
    seq(|kept|, i requires 0 <= i < |kept| => Annotate(kept[i], text, filename, shift))
  }

  // ----------------------------------------------- combine_split_entities

  /** The running record absorbs `row`: same file, and it ends where the row
      starts. */
  predicate Mergeable(cur: Token, row: Token) {
    cur.filename == row.filename && cur.end == row.start
  }

  function Words(ts: seq<Token>): string {
    if |ts| == 0 then "" else ts[0].word + Words(ts[1..])
  }

  /** The loop of `combine_split_entities` from the running record `cur`. */
  function MergeFrom(cur: Token, rest: seq<Token>): (out: seq<Token>)
    decreases |rest|
    ensures 1 <= |out| <= 1 + |rest|
    ensures out[0].start == cur.start && out[0].filename == cur.filename && out[0].entity == cur.entity
  {
    if |rest| == 0 then [cur]
    else if Mergeable(cur, rest[0]) then
      MergeFrom(cur.(end := rest[0].end, word := cur.word + rest[0].word), rest[1..])
    else
      [cur] + MergeFrom(rest[0], rest[1..])
  }

  lemma {:induction false} MergeFromWords(cur: Token, rest: seq<Token>)
    ensures Words(MergeFrom(cur, rest)) == cur.word + Words(rest)
    decreases |rest|
  {
    if |rest| > 0 {
      if Mergeable(cur, rest[0]) {
        MergeFromWords(cur.(end := rest[0].end, word := cur.word + rest[0].word), rest[1..]);
        AppendAssoc(cur.word, rest[0].word, Words(rest[1..]));
      } else {
        var tail := MergeFrom(rest[0], rest[1..]);
        MergeFromWords(rest[0], rest[1..]);
        assert Words([cur] + tail) == cur.word + Words(tail) by {
          ConsParts(cur, tail);
        }
      }
    }
  }

  lemma {:induction false} MergeFromEnd(cur: Token, rest: seq<Token>)
    ensures var out := MergeFrom(cur, rest);
      out[|out| - 1].end == if |rest| == 0 then cur.end else rest[|rest| - 1].end
    decreases |rest|
  {
    if |rest| > 0 {
      assert |rest| > 1 ==> rest[1..][|rest| - 2] == rest[|rest| - 1];
      if Mergeable(cur, rest[0]) {
        MergeFromEnd(cur.(end := rest[0].end, word := cur.word + rest[0].word), rest[1..]);
      } else {
        MergeFromEnd(rest[0], rest[1..]);
      }
    }
  }

  lemma {:induction false} MergeFromMaximal(cur: Token, rest: seq<Token>)
    ensures forall i :: 0 <= i < |MergeFrom(cur, rest)| - 1 ==>
      !Mergeable(MergeFrom(cur, rest)[i], MergeFrom(cur, rest)[i + 1])
    decreases |rest|
  {
    if |rest| > 0 {
      if Mergeable(cur, rest[0]) {
        var cur' := cur.(end := rest[0].end, word := cur.word + rest[0].word);
        MergeFromMaximal(cur', rest[1..]);
        assert MergeFrom(cur, rest) == MergeFrom(cur', rest[1..]);
      } else {
        var tail := MergeFrom(rest[0], rest[1..]);
        MergeFromMaximal(rest[0], rest[1..]);
        var out := [cur] + tail;
        assert MergeFrom(cur, rest) == out;
        forall i | 0 <= i < |out| - 1
          ensures !Mergeable(out[i], out[i + 1])
        {
          if i > 0 {
            assert out[i] == tail[i - 1] && out[i + 1] == tail[i];
          } else {
            assert out[0] == cur && out[1] == tail[0];
            assert tail[0].start == rest[0].start && tail[0].filename == rest[0].filename;
            assert !Mergeable(cur, rest[0]);
          }
        }
      }
    }
  }

  /** The loop of `combine_split_entities`: the first record keeps its
      start, file and label, the last ends where the last row ends, the
      words are concatenated without separator, and no two consecutive
      records of the output are mergeable. */
  lemma MergeFromFacts(cur: Token, rest: seq<Token>)
    ensures var out := MergeFrom(cur, rest);
      && out[0].start == cur.start && out[0].filename == cur.filename && out[0].entity == cur.entity
      && out[|out| - 1].end == (if |rest| == 0 then cur.end else rest[|rest| - 1].end)
      && Words(out) == cur.word + Words(rest)
      && forall i :: 0 <= i < |out| - 1 ==> !Mergeable(out[i], out[i + 1])
  {
    MergeFromWords(cur, rest);
    MergeFromEnd(cur, rest);
    MergeFromMaximal(cur, rest);
  }

  // -------------------------------------- chain reference for the merge

  /** Row `k` continues row `k - 1`. */
  predicate Continues(rows: seq<Token>, k: int) {
    0 < k < |rows| && Mergeable(rows[k - 1], rows[k])
  }

  /** The end of the chain holding row `j - 1`: the first position from `j`
      on whose row does not continue its predecessor, or |rows|. */
  function ChainEnd(rows: seq<Token>, j: nat): (e: nat)
    requires 0 < j <= |rows|
    ensures j <= e <= |rows|
    ensures forall k :: j <= k < e ==> Continues(rows, k)
    ensures e < |rows| ==> !Continues(rows, e)
    decreases |rows| - j
  {
    if j == |rows| || !Mergeable(rows[j - 1], rows[j]) then j else ChainEnd(rows, j + 1)
  }

  /** The rows from `i` on, cut wherever a row does not continue its
      predecessor (same file, starting where the predecessor ends). */
  function ChainsFrom(rows: seq<Token>, i: nat): (cs: seq<seq<Token>>)
    requires i <= |rows|
    ensures forall k :: 0 <= k < |cs| ==> |cs[k]| > 0
    decreases |rows| - i
  {
    if i == |rows| then []
    else
      var e := ChainEnd(rows, i + 1);
      [rows[i..e]] + ChainsFrom(rows, e)
  }

  /** Reference: the maximal chains of rows that continue one another. */
  function Chains(rows: seq<Token>): (cs: seq<seq<Token>>)
    ensures forall k :: 0 <= k < |cs| ==> |cs[k]| > 0
  {
    ChainsFrom(rows, 0)
  }

  /** A chain merged into one record: its first row, with the last row's
      end and the words of all its rows concatenated. */
  function MergeChain(c: seq<Token>): Token
    requires |c| > 0
  {
    c[0].(end := c[|c| - 1].end, word := Words(c))
  }

  /** Inside a chain every row continues its predecessor, and no chain's
      last row is continued by the next chain's first row. */
  predicate ChainsCut(cs: seq<seq<Token>>) {
    && (forall k :: 0 <= k < |cs| ==> |cs[k]| > 0)
    && (forall k, j :: 0 <= k < |cs| && 0 < j < |cs[k]| ==> Continues(cs[k], j))
    && (forall k :: 0 <= k < |cs| - 1 ==> !Mergeable(cs[k][|cs[k]| - 1], cs[k + 1][0]))
  }

  lemma {:induction false} ChainsFromFlatten(rows: seq<Token>, i: nat)
    requires i <= |rows|
    ensures Flatten(ChainsFrom(rows, i)) == rows[i..]
    decreases |rows| - i
  {
    if i < |rows| {
      var e := ChainEnd(rows, i + 1);
      var cs := ChainsFrom(rows, i);
      ChainsFromFlatten(rows, e);
      assert cs == [rows[i..e]] + ChainsFrom(rows, e);
      assert cs[1..] == ChainsFrom(rows, e);
      assert Flatten(cs) == rows[i..e] + rows[e..];
      assert rows[i..] == rows[i..e] + rows[e..];
    }
  }

  /** A non-empty run of chains starts with the row at `i`. */
  lemma ChainsFromHead(rows: seq<Token>, i: nat)
    requires i < |rows|
    ensures |ChainsFrom(rows, i)| > 0 && ChainsFrom(rows, i)[0] == rows[i..ChainEnd(rows, i + 1)]
    ensures ChainsFrom(rows, i)[0][0] == rows[i]
  {
  }

  lemma {:induction false} ChainsFromCut(rows: seq<Token>, i: nat)
    requires i <= |rows|
    ensures ChainsCut(ChainsFrom(rows, i))
    decreases |rows| - i
  {
    if i < |rows| {
      var e := ChainEnd(rows, i + 1);
      var c := rows[i..e];
      var tail := ChainsFrom(rows, e);
      ChainsFromCut(rows, e);
      assert ChainsFrom(rows, i) == [c] + tail;
      forall j | 0 < j < |c|
        ensures Continues(c, j)
      {
        assert Continues(rows, i + j);
        assert c[j - 1] == rows[i + j - 1] && c[j] == rows[i + j];
      }
      if e < |rows| {
        ChainsFromHead(rows, e);
        assert !Continues(rows, e);
        assert c[|c| - 1] == rows[e - 1];
        assert !Mergeable(c[|c| - 1], tail[0][0]);
      }
      ChainsCutCons(c, tail);
    }
  }

  lemma ChainsCutCons(c: seq<Token>, tail: seq<seq<Token>>)
    requires |c| > 0 && ChainsCut(tail)
    requires forall j :: 0 < j < |c| ==> Continues(c, j)
    requires |tail| > 0 ==> !Mergeable(c[|c| - 1], tail[0][0])
    ensures ChainsCut([c] + tail)
  {
    var cs := [c] + tail;
    assert forall k :: 0 < k < |cs| ==> cs[k] == tail[k - 1];
  }

  /** The chains partition the rows, and they are cut exactly where a row
      does not continue its predecessor. */
  lemma ChainsPartition(rows: seq<Token>)
    ensures Flatten(Chains(rows)) == rows
    ensures ChainsCut(Chains(rows))
  {
    ChainsFromFlatten(rows, 0);
    ChainsFromCut(rows, 0);
    assert rows[0..] == rows;
  }

  lemma {:induction false} WordsSnoc(ts: seq<Token>, t: Token)
    ensures Words(ts + [t]) == Words(ts) + t.word
    decreases |ts|
  {
    if |ts| == 0 {
      assert [] + [t] == [t];
      assert Words([t]) == t.word + Words([]);
    } else {
      assert (ts + [t])[1..] == ts[1..] + [t];
      WordsSnoc(ts[1..], t);
      AppendAssoc(ts[0].word, Words(ts[1..]), t.word);
    }
  }

  /** `out` is the chains `cs` merged one by one. */
  predicate MergesChains(out: seq<Token>, cs: seq<seq<Token>>) {
    && |out| == |cs|
    && forall k :: 0 <= k < |cs| ==> |cs[k]| > 0 && out[k] == MergeChain(cs[k])
  }

  lemma MergesChainsCons(x: Token, out: seq<Token>, c: seq<Token>, cs: seq<seq<Token>>)
    requires |c| > 0 && x == MergeChain(c) && MergesChains(out, cs)
    ensures MergesChains([x] + out, [c] + cs)
  {
    assert forall k :: 0 < k < |cs| + 1 ==> ([c] + cs)[k] == cs[k - 1] && ([x] + out)[k] == out[k - 1];
  }

  /** Absorbing a row that continues the chain extends the merged record to
      the chain one row longer. */
  lemma AbsorbRow(rows: seq<Token>, lo: nat, i: nat)
    requires lo <= i && i + 1 < |rows| && rows[lo].filename == rows[i].filename
    requires Mergeable(rows[i], rows[i + 1])
    ensures MergeFrom(MergeChain(rows[lo..i + 1]), rows[i + 1..]) == MergeFrom(MergeChain(rows[lo..i + 2]), rows[i + 2..])
  {
    var cur := MergeChain(rows[lo..i + 1]);
    var next := rows[i + 1];
    assert rows[lo..i + 1][i - lo] == rows[i];
    assert Mergeable(cur, next);
    assert rows[i + 1..][0] == next && rows[i + 1..][1..] == rows[i + 2..];
    assert rows[lo..i + 2] == rows[lo..i + 1] + [next];
    WordsSnoc(rows[lo..i + 1], next);
    assert cur.(end := next.end, word := cur.word + next.word) == MergeChain(rows[lo..i + 2]);
  }

  /** A row that does not continue the chain closes its merged record and
      starts a new one. */
  lemma CloseRow(rows: seq<Token>, lo: nat, i: nat)
    requires lo <= i && i + 1 < |rows| && rows[lo].filename == rows[i].filename
    requires !Mergeable(rows[i], rows[i + 1])
    ensures MergeFrom(MergeChain(rows[lo..i + 1]), rows[i + 1..])
         == [MergeChain(rows[lo..i + 1])] + MergeFrom(MergeChain(rows[i + 1..i + 2]), rows[i + 2..])
  {
    var cur := MergeChain(rows[lo..i + 1]);
    var next := rows[i + 1];
    assert rows[lo..i + 1][i - lo] == rows[i];
    assert !Mergeable(cur, next);
    assert rows[i + 1..][0] == next && rows[i + 1..][1..] == rows[i + 2..];
    assert rows[i + 1..i + 2] == [next];
    assert Words([next]) == next.word + Words([]);
    assert MergeChain(rows[i + 1..i + 2]) == next;
  }

  /** With the running record merged from rows `lo` to `i` of one file, the
      loop emits that chain's merge, completed to the chain's end, and then
      one merged record per later chain. */
  lemma {:induction false} MergeFromChains(rows: seq<Token>, lo: nat, i: nat)
    requires lo <= i < |rows| && rows[lo].filename == rows[i].filename
    ensures MergesChains(MergeFrom(MergeChain(rows[lo..i + 1]), rows[i + 1..]),
                         [rows[lo..ChainEnd(rows, i + 1)]] + ChainsFrom(rows, ChainEnd(rows, i + 1)))
    decreases |rows| - i
  {
    var e := ChainEnd(rows, i + 1);
    if i + 1 == |rows| {
      assert rows[i + 1..] == [];
      assert ChainsFrom(rows, e) == [];
      MergesChainsCons(MergeChain(rows[lo..i + 1]), [], rows[lo..i + 1], []);
    } else if Mergeable(rows[i], rows[i + 1]) {
      AbsorbRow(rows, lo, i);
      assert e == ChainEnd(rows, i + 2);
      MergeFromChains(rows, lo, i + 1);
    } else {
      CloseRow(rows, lo, i);
      assert e == i + 1;
      MergeFromChains(rows, i + 1, i + 1);
      ChainsFromHead(rows, i + 1);
      var e' := ChainEnd(rows, i + 2);
      assert ChainsFrom(rows, e) == [rows[i + 1..e']] + ChainsFrom(rows, e');
      MergesChainsCons(MergeChain(rows[lo..i + 1]), MergeFrom(MergeChain(rows[i + 1..i + 2]), rows[i + 2..]),
                       rows[lo..e], ChainsFrom(rows, e));
    }
  }

  /** From the first row, the loop merges each chain into one record. */
  lemma MergeSplitChains(rows: seq<Token>)
    requires |rows| > 0
    ensures MergesChains(MergeFrom(rows[0], rows[1..]), Chains(rows))
  {
    MergeFromChains(rows, 0, 0);
    assert Words([rows[0]]) == rows[0].word + Words([]);
    assert rows[0..1] == [rows[0]];
    assert MergeChain(rows[0..1]) == rows[0];
    ChainsFromHead(rows, 0);
    assert Chains(rows) == [rows[0..ChainEnd(rows, 1)]] + ChainsFrom(rows, ChainEnd(rows, 1));
  }

  /** `combine_split_entities`; an empty input has no `start` column and
      raises a KeyError. */
  function CombineSplitEntities(rows: seq<Token>): (r: Result<seq<Token>>)
    ensures r.Success? <==> |rows| > 0
    ensures r.Success? ==> 1 <= |r.value| <= |rows|
    ensures r.Success? ==> Words(r.value) == Words(rows)
    ensures r.Success? ==> forall i :: 0 <= i < |r.value| - 1 ==> !Mergeable(r.value[i], r.value[i + 1])
    ensures r.Success? ==>
      && |r.value| == |Chains(rows)|
      && forall k :: 0 <= k < |r.value| ==> r.value[k] == MergeChain(Chains(rows)[k])
  {
    if |rows| == 0 then Failure("KeyError: 'start'")
    else
      MergeFromFacts(rows[0], rows[1..]);
      MergeSplitChains(rows);
      Success(MergeFrom(rows[0], rows[1..]))
  }

  /** Where a new record starts: the row does not continue the previous row. */
  function Breaks(prev: Token, rows: seq<Token>): nat
    decreases |rows|
  {
    if |rows| == 0 then 0
    else (if Mergeable(prev, rows[0]) then 0 else 1) + Breaks(rows[0], rows[1..])
  }

  lemma {:induction false} MergeFromCountsBreaks(cur: Token, prev: Token, rest: seq<Token>)
    requires cur.filename == prev.filename && cur.end == prev.end
    ensures |MergeFrom(cur, rest)| == 1 + Breaks(prev, rest)
    decreases |rest|
  {
    if |rest| > 0 {
      if Mergeable(cur, rest[0]) {
        MergeFromCountsBreaks(cur.(end := rest[0].end, word := cur.word + rest[0].word), rest[0], rest[1..]);
      } else {
        MergeFromCountsBreaks(rest[0], rest[0], rest[1..]);
      }
    }
  }

  /** The merged record only ever compares against the previous row: the
      output has one record per row that does not continue its predecessor,
      plus the first. */
  lemma CombineSplitCountsBreaks(rows: seq<Token>)
    requires |rows| > 0
    ensures |CombineSplitEntities(rows).value| == 1 + Breaks(rows[0], rows[1..])
  {
    MergeFromCountsBreaks(rows[0], rows[0], rows[1..]);
  }

  // ------------------------------------------------- combine_BIO_entities

  predicate IsB(t: Token) {
    StartsWith(t.entity, "B-")
  }

  predicate IsI(t: Token) {
    StartsWith(t.entity, "I-")
  }

  /** The entity being built: where it started, its text so far, and the
      last entry absorbed (`current_entity`). */
  datatype Open = Open(start: int, text: string, last: Token)

  /** The record emitted for an open entity. */
  function Close(o: Open): Token {
    Token(Slice(o.last.entity, 2, |o.last.entity|), o.start, o.last.end, Strip(o.text), o.last.filename)
  }

  /** An I- entry joins directly when it starts where the last entry ended,
      else after one space. */
  function Extend(o: Open, t: Token): Open {
    Open(o.start, o.text + (if t.start == o.last.end then "" else " ") + t.word, t)
  }

  function Emit(o: Option<Open>): seq<Token> {
    match o
    case None => []
    case Some(x) => [Close(x)]
  }

  /** The loop of `combine_BIO_entities` with its state `cur`; an I- entry
      with no entity open fails (`current_entity` is None). */
  function BioFrom(ts: seq<Token>, cur: Option<Open>): Result<seq<Token>>
    decreases |ts|
  {
    if |ts| == 0 then Success(Emit(cur))
    else
      var t := ts[0];
      if IsB(t) then
        var rest := BioFrom(ts[1..], Some(Open(t.start, t.word, t)));
        if rest.Failure? then rest else Success(Emit(cur) + rest.value)
      else if IsI(t) then
        if cur.None? then Failure("TypeError: 'NoneType' object is not subscriptable")
        else BioFrom(ts[1..], Some(Extend(cur.value, t)))
      else BioFrom(ts[1..], cur)
  }

  function CombineBioEntities(ts: seq<Token>): Result<seq<Token>> {
    BioFrom(ts, None)
  }

  /** Some I- entry comes before every B- entry. */
  predicate OrphanI(ts: seq<Token>) {
    exists i :: 0 <= i < |ts| && IsI(ts[i]) && NoBBefore(ts, i)
  }

  predicate NoBBefore(ts: seq<Token>, i: int)
    requires 0 <= i <= |ts|
  {
    forall j :: 0 <= j < i ==> !IsB(ts[j])
  }

  /** The starts of the B- entries, in order. */
  function BStarts(ts: seq<Token>): seq<int> {
    if |ts| == 0 then []
    else (if IsB(ts[0]) then [ts[0].start] else []) + BStarts(ts[1..])
  }

  function Starts(ts: seq<Token>): (r: seq<int>)
    ensures |r| == |ts|
  {
    if |ts| == 0 then [] else [ts[0].start] + Starts(ts[1..])
  }

  lemma StartsAppend(a: seq<Token>, b: seq<Token>)
    ensures Starts(a + b) == Starts(a) + Starts(b)
  {
    if |a| > 0 {
      assert (a + b)[1..] == a[1..] + b;
      StartsAppend(a[1..], b);
    } else {
      assert a + b == b;
    }
  }

  lemma OrphanIShift(ts: seq<Token>)
    requires |ts| > 0 && !IsB(ts[0]) && !IsI(ts[0])
    ensures OrphanI(ts) <==> OrphanI(ts[1..])
  {
    if OrphanI(ts) {
      var i :| 0 <= i < |ts| && IsI(ts[i]) && NoBBefore(ts, i);
      assert i > 0;
      assert IsI(ts[1..][i - 1]);
      assert NoBBefore(ts[1..], i - 1) by {
        forall j | 0 <= j < i - 1
          ensures !IsB(ts[1..][j])
        {
          assert ts[1..][j] == ts[j + 1];
        }
      }
    }
    if OrphanI(ts[1..]) {
      var i :| 0 <= i < |ts[1..]| && IsI(ts[1..][i]) && NoBBefore(ts[1..], i);
      assert IsI(ts[i + 1]);
      assert NoBBefore(ts, i + 1) by {
        forall j | 0 <= j < i + 1
          ensures !IsB(ts[j])
        {
          if j > 0 {
            assert ts[j] == ts[1..][j - 1];
          }
        }
      }
    }
  }

  lemma BAndIExclusive(t: Token)
    ensures !(IsB(t) && IsI(t))
  {
  }

  /** The loop fails exactly when an I- entry precedes every B- entry;
      otherwise it emits one entity per B- entry (plus the open one), whose
      start is that entry's start. */
  lemma OrphanIHeadB(ts: seq<Token>)
    requires |ts| > 0 && IsB(ts[0])
    ensures !OrphanI(ts)
  {
    BAndIExclusive(ts[0]);
  }

  lemma {:induction false} BioFromFails(ts: seq<Token>, cur: Option<Open>)
    ensures BioFrom(ts, cur).Failure? <==> cur.None? && OrphanI(ts)
    decreases |ts|
  {
    if |ts| > 0 {
      var t := ts[0];
      BAndIExclusive(t);
      if IsB(t) {
        BioFromFails(ts[1..], Some(Open(t.start, t.word, t)));
        OrphanIHeadB(ts);
      } else if IsI(t) {
        if cur.Some? {
          BioFromFails(ts[1..], Some(Extend(cur.value, t)));
        } else {
          assert NoBBefore(ts, 0);
        }
      } else {
        BioFromFails(ts[1..], cur);
        OrphanIShift(ts);
      }
    }
  }

  /** What BioFromStarts promises for `ts` from state `cur`. */
  predicate StartsAgree(ts: seq<Token>, cur: Option<Open>) {
    BioFrom(ts, cur).Success? ==> Starts(BioFrom(ts, cur).value) == Starts(Emit(cur)) + BStarts(ts)
  }

  lemma BStartsStepB(ts: seq<Token>, cur: Option<Open>)
    requires |ts| > 0 && IsB(ts[0])
    requires StartsAgree(ts[1..], Some(Open(ts[0].start, ts[0].word, ts[0])))
    ensures StartsAgree(ts, cur)
  {
    var t := ts[0];
    var o := Open(t.start, t.word, t);
    if BioFrom(ts[1..], Some(o)).Success? {
      var rest := BioFrom(ts[1..], Some(o)).value;
      assert BioFrom(ts, cur).value == Emit(cur) + rest;
      StartsAppend(Emit(cur), rest);
      assert Starts(Emit(Some(o))) == [t.start];
      assert BStarts(ts) == [t.start] + BStarts(ts[1..]);
    }
  }

  lemma BStartsStepI(ts: seq<Token>, cur: Option<Open>)
    requires |ts| > 0 && IsI(ts[0]) && cur.Some?
    requires StartsAgree(ts[1..], Some(Extend(cur.value, ts[0])))
    ensures StartsAgree(ts, cur)
  {
    BAndIExclusive(ts[0]);
    assert Starts(Emit(Some(Extend(cur.value, ts[0])))) == Starts(Emit(cur));
    assert BStarts(ts) == BStarts(ts[1..]);
  }

  lemma BStartsStepOther(ts: seq<Token>, cur: Option<Open>)
    requires |ts| > 0 && !IsB(ts[0]) && !IsI(ts[0])
    requires StartsAgree(ts[1..], cur)
    ensures StartsAgree(ts, cur)
  {
    assert BStarts(ts) == BStarts(ts[1..]);
  }

  lemma {:induction false} BioFromStarts(ts: seq<Token>, cur: Option<Open>)
    ensures BioFrom(ts, cur).Success? ==>
      Starts(BioFrom(ts, cur).value) == Starts(Emit(cur)) + BStarts(ts)
    decreases |ts|
  {
    if |ts| == 0 {
      assert Emit(cur) + [] == Emit(cur);
    } else {
      var t := ts[0];
      if IsB(t) {
        BioFromStarts(ts[1..], Some(Open(t.start, t.word, t)));
        BStartsStepB(ts, cur);
      } else if IsI(t) {
        if cur.Some? {
          BioFromStarts(ts[1..], Some(Extend(cur.value, t)));
          BStartsStepI(ts, cur);
        }
      } else {
        BioFromStarts(ts[1..], cur);
        BStartsStepOther(ts, cur);
      }
    }
  }

  lemma BioFromFacts(ts: seq<Token>, cur: Option<Open>)
    ensures BioFrom(ts, cur).Failure? <==> cur.None? && OrphanI(ts)
    ensures BioFrom(ts, cur).Success? ==>
      Starts(BioFrom(ts, cur).value) == Starts(Emit(cur)) + BStarts(ts)
  {
    BioFromFails(ts, cur);
    BioFromStarts(ts, cur);
  }

  /** `combine_BIO_entities` fails iff an I- entry comes before any B-
      entry; on success it emits one entity per B- entry, in order, starting
      where that entry starts. */
  lemma CombineBioFacts(ts: seq<Token>)
    ensures CombineBioEntities(ts).Failure? <==> OrphanI(ts)
    ensures CombineBioEntities(ts).Success? ==>
      && Starts(CombineBioEntities(ts).value) == BStarts(ts)
      && |CombineBioEntities(ts).value| == |BStarts(ts)|
      && CombineBioEntities(ts).value == BioRuns(ts)
  {
    CombineBioRuns(ts);
    BioFromFacts(ts, None);
    var r := CombineBioEntities(ts);
    if r.Success? {
      assert Starts(Emit(None)) == [];
      assert [] + BStarts(ts) == BStarts(ts);
      assert Starts(r.value) == BStarts(ts);
      assert |Starts(r.value)| == |r.value|;
    }
  }

  // ---------------------------------- run-based reference for the BIO loop

  /** The first B- entry at or after `p`, or |ts| when there is none. */
  function NextB(ts: seq<Token>, p: nat): (q: nat)
    requires p <= |ts|
    ensures p <= q <= |ts|
    ensures q < |ts| ==> IsB(ts[q])
    ensures forall j :: p <= j < q ==> !IsB(ts[j])
    decreases |ts| - p
  {
    if p == |ts| || IsB(ts[p]) then p else NextB(ts, p + 1)
  }

  /** In the run `ts[lo..hi]` opened by a B- entry: the position of the
      last entry with a B- or I- prefix. */
  function LastTagged(ts: seq<Token>, lo: nat, hi: nat): (k: nat)
    requires lo < hi <= |ts|
    ensures lo <= k < hi
    decreases hi
  {
    if hi == lo + 1 then lo
    else if IsB(ts[hi - 1]) || IsI(ts[hi - 1]) then hi - 1
    else LastTagged(ts, lo, hi - 1)
  }

  /** The text of that run: the words of its tagged entries in order, each
      joined directly when it starts where the previous tagged entry ended,
      and after one space otherwise. */
  function RunText(ts: seq<Token>, lo: nat, hi: nat): string
    requires lo < hi <= |ts|
    decreases hi
  {
    if hi == lo + 1 then ts[lo].word
    else if IsB(ts[hi - 1]) || IsI(ts[hi - 1]) then
      RunText(ts, lo, hi - 1) + (if ts[hi - 1].start == ts[LastTagged(ts, lo, hi - 1)].end then "" else " ") + ts[hi - 1].word
    else RunText(ts, lo, hi - 1)
  }

  /** The entity a run stands for: the start of its B- entry; the end, the
      label with its two-character prefix cut, and the file of its last
      tagged entry; its text stripped. */
  function RunEntity(ts: seq<Token>, lo: nat, hi: nat): Token
    requires lo < hi <= |ts|
  {
    var last := ts[LastTagged(ts, lo, hi)];
    Token(Slice(last.entity, 2, |last.entity|), ts[lo].start, last.end, Strip(RunText(ts, lo, hi)), last.filename)
  }

  /** The entities of the runs from the B- entry at `b` on; each run reaches
      up to the next B- entry or the end. */
  function RunsFrom(ts: seq<Token>, b: nat): seq<Token>
    requires b < |ts|
    decreases |ts| - b
  {
    var nb := NextB(ts, b + 1);
    [RunEntity(ts, b, nb)] + (if nb < |ts| then RunsFrom(ts, nb) else [])
  }

  /** Reference: one entity per run opened by a B- entry, in order. */
  function BioRuns(ts: seq<Token>): seq<Token> {
    var b := NextB(ts, 0);
    if b < |ts| then RunsFrom(ts, b) else []
  }

  /** The loop state after absorbing the run `ts[lo..hi]`. */
  function OpenAt(ts: seq<Token>, lo: nat, hi: nat): Open
    requires lo < hi <= |ts|
  {
    Open(ts[lo].start, RunText(ts, lo, hi), ts[LastTagged(ts, lo, hi)])
  }

  /** Absorbing the entries of a run one by one reaches the run's state. */
  lemma {:induction false} RunAbsorbed(ts: seq<Token>, lo: nat, hi: nat)
    requires lo < hi <= |ts| && IsB(ts[lo])
    requires forall j :: lo < j < hi ==> !IsB(ts[j])
    ensures BioFrom(ts[lo + 1..], Some(Open(ts[lo].start, ts[lo].word, ts[lo])))
         == BioFrom(ts[hi..], Some(OpenAt(ts, lo, hi)))
    decreases hi
  {
    if hi == lo + 1 {
      assert OpenAt(ts, lo, hi) == Open(ts[lo].start, ts[lo].word, ts[lo]);
    } else {
      RunAbsorbed(ts, lo, hi - 1);
      AbsorbOne(ts, lo, hi);
    }
  }

  /** One more entry of the run moves the state from `OpenAt(lo, hi - 1)`
      to `OpenAt(lo, hi)`. */
  lemma AbsorbOne(ts: seq<Token>, lo: nat, hi: nat)
    requires lo + 1 < hi <= |ts| && !IsB(ts[hi - 1])
    ensures BioFrom(ts[hi - 1..], Some(OpenAt(ts, lo, hi - 1))) == BioFrom(ts[hi..], Some(OpenAt(ts, lo, hi)))
  {
    var t := ts[hi - 1];
    var o := OpenAt(ts, lo, hi - 1);
    assert ts[hi - 1..][1..] == ts[hi..];
    assert ts[hi - 1..][0] == t;
    if IsI(t) {
      assert LastTagged(ts, lo, hi) == hi - 1;
      assert Extend(o, t) == OpenAt(ts, lo, hi);
      assert BioFrom(ts[hi - 1..], Some(o)) == BioFrom(ts[hi..], Some(Extend(o, t)));
    } else {
      assert LastTagged(ts, lo, hi) == LastTagged(ts, lo, hi - 1);
      assert o == OpenAt(ts, lo, hi);
      assert BioFrom(ts[hi - 1..], Some(o)) == BioFrom(ts[hi..], Some(o));
    }
  }

  /** From a B- entry on, the loop emits the open entity and then one
      entity per run. */
  lemma {:induction false} RunsFromB(ts: seq<Token>, b: nat, cur: Option<Open>)
    requires b < |ts| && IsB(ts[b])
    ensures BioFrom(ts[b..], cur).Success? ==> BioFrom(ts[b..], cur).value == Emit(cur) + RunsFrom(ts, b)
    decreases |ts| - b
  {
    var nb := NextB(ts, b + 1);
    var o := OpenAt(ts, b, nb);
    var rest := BioFrom(ts[b + 1..], Some(Open(ts[b].start, ts[b].word, ts[b])));
    assert ts[b..][1..] == ts[b + 1..];
    assert ts[b..][0] == ts[b];
    assert BioFrom(ts[b..], cur) == if rest.Failure? then rest else Success(Emit(cur) + rest.value);
    RunAbsorbed(ts, b, nb);
    assert rest == BioFrom(ts[nb..], Some(o));
    assert Close(o) == RunEntity(ts, b, nb);
    if rest.Success? {
      if nb == |ts| {
        assert ts[nb..] == [];
        assert rest.value == [RunEntity(ts, b, nb)];
        assert RunsFrom(ts, b) == [RunEntity(ts, b, nb)];
      } else {
        RunsFromB(ts, nb, Some(o));
        assert rest.value == [RunEntity(ts, b, nb)] + RunsFrom(ts, nb);
        assert RunsFrom(ts, b) == [RunEntity(ts, b, nb)] + RunsFrom(ts, nb);
      }
    }
  }

  /** Before the first B- entry the loop only skips untagged entries. */
  lemma {:induction false} BioSkipsToB(ts: seq<Token>, p: nat)
    requires p <= |ts|
    ensures BioFrom(ts[p..], None).Success? ==>
      BioFrom(ts[p..], None) == (if NextB(ts, p) < |ts| then BioFrom(ts[NextB(ts, p)..], None) else Success([]))
    decreases |ts| - p
  {
    if p == |ts| {
      assert ts[p..] == [];
    } else if !IsB(ts[p]) {
      assert ts[p..][1..] == ts[p + 1..];
      assert ts[p..][0] == ts[p];
      if !IsI(ts[p]) {
        BioSkipsToB(ts, p + 1);
      }
    }
  }

  /** On success `combine_BIO_entities` returns exactly the run-based
      entities. */
  lemma {:induction false} CombineBioRuns(ts: seq<Token>)
    ensures CombineBioEntities(ts).Success? ==> CombineBioEntities(ts).value == BioRuns(ts)
  {
    BioRunsFromStart(ts, BioFrom(ts, None));
  }

  lemma {:induction false} BioRunsFromStart(ts: seq<Token>, r: Result<seq<Token>>)
    requires r == BioFrom(ts, None)
    ensures r.Success? ==> r.value == BioRuns(ts)
  {
    assert ts[0..] == ts;
    BioSkipsToB(ts, 0);
    var b := NextB(ts, 0);
    if r.Success? && b < |ts| {
      RunsFromB(ts, b, None);
      assert Emit(None) == [];
    }
  }

  /** Entries that are neither B- nor I- take no part. */
  function Tagged(ts: seq<Token>): seq<Token> {
    if |ts| == 0 then []
    else (if IsB(ts[0]) || IsI(ts[0]) then [ts[0]] else []) + Tagged(ts[1..])
  }

  lemma {:induction false} BioIgnoresUntagged(ts: seq<Token>, cur: Option<Open>)
    ensures BioFrom(Tagged(ts), cur) == BioFrom(ts, cur)
    decreases |ts|
  {
    if |ts| > 0 {
      var t := ts[0];
      if IsB(t) || IsI(t) {
        assert Tagged(ts) == [t] + Tagged(ts[1..]);
        assert ([t] + Tagged(ts[1..]))[1..] == Tagged(ts[1..]);
        if IsB(t) {
          BioIgnoresUntagged(ts[1..], Some(Open(t.start, t.word, t)));
        } else if cur.Some? {
          BioIgnoresUntagged(ts[1..], Some(Extend(cur.value, t)));
        }
      } else {
        assert Tagged(ts) == Tagged(ts[1..]);
        BioIgnoresUntagged(ts[1..], cur);
      }
    }
  }

  // ------------------------------------------------------ span filter

  /** One example of the development file: its start and end offsets. */
  datatype Span = Span(start: int, end: int)

  predicate StrictlyInside(t: Token, s: Span) {
    t.start > s.start && t.end < s.end
  }

  function CountInside(t: Token, spans: seq<Span>): nat {
    if |spans| == 0 then 0 else (if StrictlyInside(t, spans[0]) then 1 else 0) + CountInside(t, spans[1..])
  }

  lemma {:induction false} CountInsidePositive(t: Token, spans: seq<Span>)
    ensures CountInside(t, spans) > 0 <==> exists s :: s in spans && StrictlyInside(t, s)
    decreases |spans|
  {
    if |spans| > 0 {
      CountInsidePositive(t, spans[1..]);
      assert forall s :: s in spans <==> s == spans[0] || s in spans[1..];
    }
  }

  function Repeat(t: Token, n: nat): (r: seq<Token>)
    ensures |r| == n && forall x :: x in r ==> x == t
  {
    if n == 0 then [] else [t] + Repeat(t, n - 1)
  }

  /** The span filter of `main`: every result once per example of its file
      that strictly contains it; a file with no examples raises KeyError. */
  function FilterBySpans(results: seq<Token>, spans: map<string, seq<Span>>): (r: Result<seq<Token>>)
    ensures r.Success? <==> forall i :: 0 <= i < |results| ==> RemoveSuffix(results[i].filename, ".txt") in spans
    ensures r.Success? ==> forall t :: t in r.value <==>
      t in results && exists s :: s in spans[RemoveSuffix(t.filename, ".txt")] && StrictlyInside(t, s)
  {
    if |results| == 0 then Success([])
    else
      var t := results[0];
      var key := RemoveSuffix(t.filename, ".txt");
      if key !in spans then Failure("KeyError")
      else
        var rest := FilterBySpans(results[1..], spans);
        if rest.Failure? then
          assert !(forall i :: 1 <= i < |results| ==> RemoveSuffix(results[i].filename, ".txt") in spans) by {
            var j :| 0 <= j < |results[1..]| && RemoveSuffix(results[1..][j].filename, ".txt") !in spans;
            assert results[j + 1] == results[1..][j];
          }
          rest
        else
          CountInsidePositive(t, spans[key]);
          assert forall x :: x in results <==> x == t || x in results[1..];
          assert forall i :: 1 <= i < |results| ==> results[i] == results[1..][i - 1];
          Success(Repeat(t, CountInside(t, spans[key])) + rest.value)
  }

  /** How many times the filter appends `t`: once per example of its file
      that strictly contains it, none for a file without examples. */
  function Copies(t: Token, spans: map<string, seq<Span>>): nat {
    var key := RemoveSuffix(t.filename, ".txt");
    if key in spans then CountInside(t, spans[key]) else 0
  }

  /** The filter's output is each result repeated once per example span
      that strictly contains it, in the order of the results. */
  lemma {:induction false} FilterBySpansCopies(results: seq<Token>, spans: map<string, seq<Span>>)
    ensures FilterBySpans(results, spans).Success? ==>
      FilterBySpans(results, spans).value == Flatten(Map((t: Token) => Repeat(t, Copies(t, spans)), results))
    decreases |results|
  {
    if |results| > 0 && FilterBySpans(results, spans).Success? {
      FilterBySpansCopies(results[1..], spans);
    }
  }

  // ------------------------------------------------------------ ordering

  /** `key=lambda x: (x['filename'], x['start'])`: tuple order. */
  predicate KeyLess(a: Token, b: Token) {
    Sorting.StrLess(a.filename, b.filename) || (a.filename == b.filename && a.start < b.start)
  }

  lemma KeyLessIsStrictWeak()
    ensures Sorting.StrictWeakOrder(KeyLess)
  {
    forall a: Token
      ensures !KeyLess(a, a)
    {
      Sorting.StrLessIrreflexive(a.filename);
    }
    forall a: Token, b: Token, c: Token | KeyLess(a, b) && KeyLess(b, c)
      ensures KeyLess(a, c)
    {
      if Sorting.StrLess(a.filename, b.filename) && Sorting.StrLess(b.filename, c.filename) {
        Sorting.StrLessTransitive(a.filename, b.filename, c.filename);
      }
    }
    forall a: Token, b: Token, c: Token | KeyLess(a, b)
      ensures KeyLess(a, c) || KeyLess(c, b)
    {
      Sorting.StrLessTotal(a.filename, c.filename);
      Sorting.StrLessTotal(c.filename, b.filename);
      if Sorting.StrLess(a.filename, b.filename) {
        if Sorting.StrLess(c.filename, a.filename) {
          Sorting.StrLessTransitive(c.filename, a.filename, b.filename);
        } else if Sorting.StrLess(b.filename, c.filename) {
          Sorting.StrLessTransitive(a.filename, b.filename, c.filename);
        }
      }
    }
  }

  /** `sorted(all_results, key=...)`. */
  function SortResults(ts: seq<Token>): (r: seq<Token>)
    ensures multiset(r) == multiset(ts)
    ensures forall i, j :: 0 <= i < j < |r| ==> !KeyLess(r[j], r[i])
  {
    KeyLessIsStrictWeak();
    Sorting.SortBySorted(ts, KeyLess);
    Sorting.SortBy(ts, KeyLess)
  }

  /** Equal keys keep their input order. */
  lemma SortResultsStable(ts: seq<Token>, rank: Token -> int)
    requires forall i, j :: 0 <= i < j < |ts| ==> rank(ts[i]) < rank(ts[j])
    ensures Sorting.TiesByRank(SortResults(ts), KeyLess, rank)
  {
    KeyLessIsStrictWeak();
    Sorting.SortByStable(ts, KeyLess, rank);
  }

  // ------------------------------------------------------------- pipeline

  /** The post-processing of `main` (lines 198-212): merge split entries,
      reassemble BIO runs, filter by example spans when a development file
      was given, and sort. */
  function PostProcess(results: seq<Token>, spans: Option<map<string, seq<Span>>>): (r: Result<seq<Token>>)
    ensures r.Success? ==> forall i, j :: 0 <= i < j < |r.value| ==> !KeyLess(r.value[j], r.value[i])
    ensures |results| == 0 ==> r.Failure?
  {
    var merged :- CombineSplitEntities(results);
    var entities :- CombineBioEntities(merged);
    var kept :- match spans
      case None => Success(entities)
      case Some(m) => FilterBySpans(entities, m);
    Success(SortResults(kept))
  }
}

=== FILE: ner_scoring.dfy ===
/** The NER scoring engine of `eval-libs/ner/utils.py`: greedy exact matching
    of predicted against gold annotations per document, confusion counts,
    micro-averaged precision/recall/F1, the near-miss diagnostic, the
    frequency table of missed texts and the mean start offsets. */
module NerScoring {
  import opened Wrappers
  import opened Seqs
  import Sorting

  // ------------------------------------------------------------ data model

  /** A field value of an annotation row: an offset or a string. */
  datatype V = I(i: int) | S(s: string)

  /** One row `(filename, start_span, end_span, text, label[, code])`; the
      offsets are integers. */
  type Annotation = a: seq<V> | |a| >= 5 && a[1].I? && a[2].I?
    witness [S(""), I(0), I(0), S(""), S("")]

  /** The annotations of one document, in input order. */
  type Doc = seq<Annotation>

  function Start(a: Annotation): int { a[1].i }
  function End(a: Annotation): int { a[2].i }

  /** `set(gold) == set(pred)`: same field values, in any order and with any
      repetition. */
  predicate Match(a: Annotation, b: Annotation) {
    Elems(a) == Elems(b)
  }

  /** Match is an equivalence that ignores field order. */
  lemma MatchIsEquivalence(a: Annotation, b: Annotation, c: Annotation)
    ensures Match(a, a)
    ensures Match(a, b) <==> Match(b, a)
    ensures Match(a, b) && Match(b, c) ==> Match(a, c)
    ensures multiset(a) == multiset(c) ==> (Match(a, b) <==> Match(c, b))
  {
    if multiset(a) == multiset(c) {
      assert forall x :: x in a <==> x in multiset(a);
      assert forall x :: x in c <==> x in multiset(c);
    }
  }

  // ------------------------------------------------------------- near miss

  function Abs(x: int): nat {
    if x < 0 then -x else x
  }

  /** `inside_threshold` with both thresholds as parameters. */
  predicate InsideThresholdWith(t1: int, t2: int, goldStart: int, predStart: int, goldEnd: int, predEnd: int) {
    var ds := Abs(goldStart - predStart);
    var de := Abs(goldEnd - predEnd);
    || (((ds != 0) != (de != 0)) && ds < t1 && de < t1)
    || ((ds != 0) && (de != 0) && ds < t2 && de < t2)
  }

  /** `inside_threshold` with its default thresholds 20 and 5. */
  predicate InsideThreshold(goldStart: int, predStart: int, goldEnd: int, predEnd: int) {
    InsideThresholdWith(20, 5, goldStart, predStart, goldEnd, predEnd)
  }

  /** The near-miss cases: one boundary off by less than 20, or both off by
      less than 5; never the identical span. */
  lemma InsideThresholdCases(gs: int, ps: int, ge: int, pe: int)
    ensures InsideThreshold(gs, ps, ge, pe) <==>
      || (gs == ps && ge != pe && -20 < ge - pe < 20)
      || (gs != ps && ge == pe && -20 < gs - ps < 20)
      || (gs != ps && ge != pe && -5 < gs - ps < 5 && -5 < ge - pe < 5)
    ensures !InsideThreshold(gs, gs, ge, ge)
  {
  }

  /** Swapping gold and prediction does not change the verdict, and larger
      thresholds admit at least the same pairs. */
  lemma InsideThresholdSymmetricMonotone(t1: int, t2: int, u1: int, u2: int, gs: int, ps: int, ge: int, pe: int)
    requires t1 <= u1 && t2 <= u2
    ensures InsideThresholdWith(t1, t2, gs, ps, ge, pe) <==> InsideThresholdWith(t1, t2, ps, gs, pe, ge)
    ensures InsideThresholdWith(t1, t2, gs, ps, ge, pe) ==> InsideThresholdWith(u1, u2, gs, ps, ge, pe)
  {
  }

  // ------------------------------------------------- matching one document

  /** The position of the first prediction whose field set equals `g`'s. */
  function FirstMatch(g: Annotation, ps: seq<Annotation>): (r: Option<nat>)
    ensures r.Some? ==> r.value < |ps| && Match(g, ps[r.value])
    ensures r.Some? ==> forall j :: 0 <= j < r.value ==> !Match(g, ps[j])
    ensures r.None? ==> forall j :: 0 <= j < |ps| ==> !Match(g, ps[j])
  {
    if |ps| == 0 then None
    else if Match(g, ps[0]) then Some(0)
    else
      match FirstMatch(g, ps[1..])
      case None => None
      case Some(k) => Some(k + 1)
  }

  /** The predictions the inner loop visits for `g`: up to and including its
      match, or all of them. */
  function Scanned(g: Annotation, ps: seq<Annotation>): (r: seq<Annotation>)
    ensures |r| <= |ps|
  {
    match FirstMatch(g, ps)
    case None => ps
    case Some(k) => ps[..k + 1]
  }

  /** How many of `ps` are near misses of `g`. */
  function NearMisses(t1: int, t2: int, g: Annotation, ps: seq<Annotation>): (n: nat)
    ensures n <= |ps|
  {
    if |ps| == 0 then 0
    else
      (if InsideThresholdWith(t1, t2, Start(g), Start(ps[0]), End(g), End(ps[0])) then 1 else 0)
      + NearMisses(t1, t2, g, ps[1..])
  }

  /** The working lists of the loop: what is left of `gold_doc` and of
      `predicted_doc`, the matched predictions so far, and the near-miss
      counter. */
  datatype Progress = Progress(gold: seq<Annotation>, pred: seq<Annotation>, tp: seq<Annotation>, almost: nat)

  /** One iteration of the outer loop, for the gold annotation `g`. */
  function Step(t1: int, t2: int, g: Annotation, st: Progress): Progress
    requires g in st.gold
  {
    var almost := st.almost + NearMisses(t1, t2, g, Scanned(g, st.pred));
    match FirstMatch(g, st.pred)
    case None => st.(almost := almost)
    case Some(k) =>
      Progress(RemoveFirst(st.gold, g), RemoveFirst(st.pred, st.pred[k]), st.tp + [st.pred[k]], almost)
  }

  /** The outer loop over the snapshot `gold_doc[:]`; `golds` is the part of
      the snapshot not yet visited. */
  function MatchFrom(t1: int, t2: int, golds: seq<Annotation>, st: Progress): Progress
    requires multiset(golds) <= multiset(st.gold)
    decreases |golds|
  {
    if |golds| == 0 then st
    else
      assert golds == [golds[0]] + golds[1..];
      assert golds[0] in multiset(st.gold);
      MatchFrom(t1, t2, golds[1..], Step(t1, t2, golds[0], st))
  }

  /** The result of matching one document: the matched predictions, the
      remaining predictions (false positives) and the remaining gold
      annotations (false negatives). */
  datatype DocMatch = DocMatch(tp: seq<Annotation>, fp: seq<Annotation>, fn: seq<Annotation>)

  function RunDocument(t1: int, t2: int, gold: Doc, pred: Doc): Progress {
    MatchFrom(t1, t2, gold, Progress(gold, pred, [], 0))
  }

  function MatchDocumentWith(t1: int, t2: int, gold: Doc, pred: Doc): DocMatch {
    var st := RunDocument(t1, t2, gold, pred);
    DocMatch(st.tp, st.pred, st.gold)
  }

  /** The number of near-miss pairs the loop counts in one document. */
  function NearMissesInDocument(t1: int, t2: int, gold: Doc, pred: Doc): nat {
    RunDocument(t1, t2, gold, pred).almost
  }

  /** A copy of `ps` contains no annotation with the field set of `x`. */
  predicate NoMatchIn(x: Annotation, ps: seq<Annotation>) {
    forall p :: p in ps ==> !Match(x, p)
  }

  /** What the outer loop keeps true, relative to the document's original
      lists `gold0` and `pred0`. */
  ghost predicate Invariant(golds: seq<Annotation>, st: Progress, gold0: Doc, pred0: Doc) {
    && multiset(golds) <= multiset(st.gold)
    && multiset(st.gold) <= multiset(gold0)
    && |st.gold| + |st.tp| == |gold0|
    && multiset(st.pred) + multiset(st.tp) == multiset(pred0)
    // a gold copy already visited but still present found no match, and
    // the predictions only shrink afterwards
    && Residual(golds, st.gold, st.pred)
  }

  /** The residual part of the invariant. */
  ghost predicate Residual(golds: seq<Annotation>, gold: seq<Annotation>, pred: seq<Annotation>) {
    forall x :: multiset(golds)[x] < multiset(gold)[x] ==> NoMatchIn(x, pred)
  }

  lemma ResidualNoMatch(golds: seq<Annotation>, gold: seq<Annotation>, pred: seq<Annotation>, g: Annotation)
    requires |golds| > 0 && golds[0] == g
    requires Residual(golds, gold, pred)
    requires forall j :: 0 <= j < |pred| ==> !Match(g, pred[j])
    ensures Residual(golds[1..], gold, pred)
  {
    assert golds == [g] + golds[1..];
    assert multiset(golds) == multiset(golds[1..]) + multiset{g};
    forall x | multiset(golds[1..])[x] < multiset(gold)[x]
      ensures NoMatchIn(x, pred)
    {
      if x != g {
        assert multiset(golds)[x] == multiset(golds[1..])[x];
      } else {
        forall p | p in pred
          ensures !Match(x, p)
        {
          var j :| 0 <= j < |pred| && pred[j] == p;
        }
      }
    }
  }

  lemma ResidualMatch(golds: seq<Annotation>, gold: seq<Annotation>, pred: seq<Annotation>, gold': seq<Annotation>, pred': seq<Annotation>)
    requires |golds| > 0 && golds[0] in gold
    requires Residual(golds, gold, pred)
    requires multiset(gold') == multiset(gold) - multiset{golds[0]}
    requires multiset(pred') <= multiset(pred)
    ensures Residual(golds[1..], gold', pred')
  {
    var g := golds[0];
    assert golds == [g] + golds[1..];
    assert multiset(golds) == multiset(golds[1..]) + multiset{g};
    forall x | multiset(golds[1..])[x] < multiset(gold')[x]
      ensures NoMatchIn(x, pred')
    {
      assert multiset(golds)[x] < multiset(gold)[x];
      forall q | q in pred'
        ensures !Match(x, q)
      {
        assert q in multiset(pred');
        assert q in multiset(pred);
      }
    }
  }

  lemma StepNoMatch(t1: int, t2: int, golds: seq<Annotation>, st: Progress, gold0: Doc, pred0: Doc)
    requires |golds| > 0 && Invariant(golds, st, gold0, pred0)
    requires FirstMatch(golds[0], st.pred).None? && golds[0] in st.gold
    ensures Invariant(golds[1..], Step(t1, t2, golds[0], st), gold0, pred0)
  {
    var g := golds[0];
    assert golds == [g] + golds[1..];
    assert multiset(golds) == multiset(golds[1..]) + multiset{g};
    ResidualNoMatch(golds, st.gold, st.pred, g);
  }

  lemma StepMatch(t1: int, t2: int, golds: seq<Annotation>, st: Progress, gold0: Doc, pred0: Doc)
    requires |golds| > 0 && Invariant(golds, st, gold0, pred0)
    requires FirstMatch(golds[0], st.pred).Some? && golds[0] in st.gold
    ensures Invariant(golds[1..], Step(t1, t2, golds[0], st), gold0, pred0)
  {
    var g := golds[0];
    assert golds == [g] + golds[1..];
    assert multiset(golds) == multiset(golds[1..]) + multiset{g};
    assert g in multiset(st.gold);
    var st' := Step(t1, t2, g, st);
    var p := st.pred[FirstMatch(g, st.pred).value];
    assert p in multiset(st.pred);
    assert multiset(st'.gold) == multiset(st.gold) - multiset{g};
    assert multiset(st'.pred) == multiset(st.pred) - multiset{p};
    assert multiset(st'.tp) == multiset(st.tp) + multiset{p};
    ResidualMatch(golds, st.gold, st.pred, st'.gold, st'.pred);
  }

  lemma StepKeepsInvariant(t1: int, t2: int, golds: seq<Annotation>, st: Progress, gold0: Doc, pred0: Doc)
    requires |golds| > 0 && Invariant(golds, st, gold0, pred0)
    ensures golds[0] in st.gold
    ensures Invariant(golds[1..], Step(t1, t2, golds[0], st), gold0, pred0)
  {
    var g := golds[0];
    assert golds == [g] + golds[1..];
    assert multiset(golds) == multiset(golds[1..]) + multiset{g};
    assert g in multiset(st.gold);
    if FirstMatch(g, st.pred).None? {
      StepNoMatch(t1, t2, golds, st, gold0, pred0);
    } else {
      StepMatch(t1, t2, golds, st, gold0, pred0);
    }
  }

  lemma {:induction false} MatchFromKeepsInvariant(t1: int, t2: int, golds: seq<Annotation>, st: Progress, gold0: Doc, pred0: Doc)
    requires Invariant(golds, st, gold0, pred0)
    ensures Invariant([], MatchFrom(t1, t2, golds, st), gold0, pred0)
    decreases |golds|
  {
    if |golds| > 0 {
      StepKeepsInvariant(t1, t2, golds, st, gold0, pred0);
      MatchFromKeepsInvariant(t1, t2, golds[1..], Step(t1, t2, golds[0], st), gold0, pred0);
    }
  }

  /** Per document: TP + FN = |gold| and TP + FP = |pred|; every prediction
      is either consumed once or left as a false positive; false negatives
      are gold annotations; and no false negative has the field set of a
      false positive (the greedy pass leaves no match behind). */
  lemma MatchDocumentFacts(t1: int, t2: int, gold: Doc, pred: Doc)
    ensures var m := MatchDocumentWith(t1, t2, gold, pred);
      && |m.tp| + |m.fn| == |gold|
      && |m.tp| + |m.fp| == |pred|
      && multiset(m.fp) + multiset(m.tp) == multiset(pred)
      && multiset(m.fn) <= multiset(gold)
      && (forall g, p :: g in m.fn && p in m.fp ==> !Match(g, p))
  {
    var st := RunDocument(t1, t2, gold, pred);
    MatchFromKeepsInvariant(t1, t2, gold, Progress(gold, pred, [], 0), gold, pred);
    assert |multiset(st.pred)| + |multiset(st.tp)| == |multiset(pred)|;
    forall g, p | g in st.gold && p in st.pred
      ensures !Match(g, p)
    {
      assert multiset(st.gold)[g] > 0;
      assert NoMatchIn(g, st.pred);
    }
  }

  /** `predicted_doc.remove(prediction)` deletes exactly the prediction the
      scan stopped at, not an earlier equal one. */
  lemma ConsumesMatchedPrediction(g: Annotation, ps: seq<Annotation>)
    requires FirstMatch(g, ps).Some?
    ensures var k := FirstMatch(g, ps).value;
      RemoveFirst(ps, ps[k]) == ps[..k] + ps[k + 1..]
  {
    var k := FirstMatch(g, ps).value;
    forall j | 0 <= j < k
      ensures ps[j] != ps[k]
    {
      assert !Match(g, ps[j]);
    }
    assert forall j :: 0 <= j < k ==> ps[..k][j] == ps[j];
    RemoveFirstAt(ps, k);
  }

  /** A gold document without a prediction group is scored against []:
      nothing matched, nothing predicted, every gold annotation missed, and no
      near misses. */
  lemma {:induction false} NoPredictions(t1: int, t2: int, golds: seq<Annotation>, g0: seq<Annotation>)
    requires multiset(golds) <= multiset(g0)
    ensures MatchFrom(t1, t2, golds, Progress(g0, [], [], 0)) == Progress(g0, [], [], 0)
    decreases |golds|
  {
    if |golds| > 0 {
      assert golds == [golds[0]] + golds[1..];
      NoPredictions(t1, t2, golds[1..], g0);
    }
  }

  lemma MatchDocumentWithoutPredictions(t1: int, t2: int, gold: Doc)
    ensures MatchDocumentWith(t1, t2, gold, []) == DocMatch([], [], gold)
    ensures NearMissesInDocument(t1, t2, gold, []) == 0
  {
    NoPredictions(t1, t2, gold, gold);
  }

  /** The near-miss counter is a diagnostic only: the thresholds change
      neither which predictions are matched nor what is left over; larger
      thresholds never count fewer near misses. */
  lemma {:induction false} ThresholdsOnlyAffectNearMisses(t1: int, t2: int, u1: int, u2: int, golds: seq<Annotation>, st: Progress, su: Progress)
    requires multiset(golds) <= multiset(st.gold)
    requires st.(almost := 0) == su.(almost := 0)
    ensures var a := MatchFrom(t1, t2, golds, st);
      var b := MatchFrom(u1, u2, golds, su);
      a.(almost := 0) == b.(almost := 0)
    ensures t1 <= u1 && t2 <= u2 && st.almost <= su.almost ==>
      MatchFrom(t1, t2, golds, st).almost <= MatchFrom(u1, u2, golds, su).almost
    decreases |golds|
  {
    if |golds| > 0 {
      var g := golds[0];
      assert golds == [g] + golds[1..];
      assert g in multiset(st.gold);
      if t1 <= u1 && t2 <= u2 {
        NearMissesMonotone(t1, t2, u1, u2, g, Scanned(g, st.pred));
      }
      ThresholdsOnlyAffectNearMisses(t1, t2, u1, u2, golds[1..], Step(t1, t2, g, st), Step(u1, u2, g, su));
    }
  }

  lemma {:induction false} NearMissesMonotone(t1: int, t2: int, u1: int, u2: int, g: Annotation, ps: seq<Annotation>)
    requires t1 <= u1 && t2 <= u2
    ensures NearMisses(t1, t2, g, ps) <= NearMisses(u1, u2, g, ps)
    decreases |ps|
  {
    if |ps| > 0 {
      NearMissesMonotone(t1, t2, u1, u2, g, ps[1..]);
    }
  }

  lemma MatchDocumentIgnoresThresholds(t1: int, t2: int, u1: int, u2: int, gold: Doc, pred: Doc)
    ensures MatchDocumentWith(t1, t2, gold, pred) == MatchDocumentWith(u1, u2, gold, pred)
    ensures t1 <= u1 && t2 <= u2 ==> NearMissesInDocument(t1, t2, gold, pred) <= NearMissesInDocument(u1, u2, gold, pred)
  {
    var s := Progress(gold, pred, [], 0);
    ThresholdsOnlyAffectNearMisses(t1, t2, u1, u2, gold, s, s);
  }

  lemma MulMonotone(a: nat, b: nat, c: nat)
    requires b <= c
    ensures a * b <= a * c
  {
  }

  lemma MulSucc(a: int, p: int)
    ensures a * p + p == (a + 1) * p
  {
  }

  /** One visit adds at most one near miss per remaining prediction, never
      adds predictions, and removes at most the visited gold copy. */
  lemma StepNearMissBound(t1: int, t2: int, g: Annotation, st: Progress)
    requires g in st.gold
    ensures Step(t1, t2, g, st).almost <= st.almost + |st.pred|
    ensures |Step(t1, t2, g, st).pred| <= |st.pred|
    ensures multiset(st.gold) - multiset{g} <= multiset(Step(t1, t2, g, st).gold)
  {
    var st' := Step(t1, t2, g, st);
    if FirstMatch(g, st.pred).Some? {
      assert |multiset(st'.pred)| == |multiset(st.pred)| - 1;
    }
  }

  /** Each gold annotation visited adds at most one near miss per
      prediction it scans, and the predictions only shrink. */
  lemma {:induction false} MatchFromNearMissBound(t1: int, t2: int, golds: seq<Annotation>, st: Progress)
    requires multiset(golds) <= multiset(st.gold)
    ensures MatchFrom(t1, t2, golds, st).almost <= st.almost + |golds| * |st.pred|
    decreases |golds|
  {
    if |golds| > 0 {
      var g := golds[0];
      assert golds == [g] + golds[1..];
      assert g in multiset(st.gold);
      var st' := Step(t1, t2, g, st);
      StepNearMissBound(t1, t2, g, st);
      assert multiset(golds[1..]) == multiset(golds) - multiset{g};
      MatchFromNearMissBound(t1, t2, golds[1..], st');
      var n := |golds| - 1;
      MulMonotone(n, |st'.pred|, |st.pred|);
      MulSucc(n, |st.pred|);
      assert MatchFrom(t1, t2, golds, st) == MatchFrom(t1, t2, golds[1..], st');
    }
  }

  /** A document counts at most one near miss per (gold, prediction) pair. */
  lemma NearMissesAtMostPairs(t1: int, t2: int, gold: Doc, pred: Doc)
    ensures NearMissesInDocument(t1, t2, gold, pred) <= |gold| * |pred|
  {
    MatchFromNearMissBound(t1, t2, gold, Progress(gold, pred, [], 0));
  }

  // --------------------------------------------------------------- metrics

  /** `a / b`, or 0 on ZeroDivisionError. */
  function Ratio(n: nat, d: nat): real {
    if d == 0 then 0.0 else n as real / d as real
  }

  /** 0 when either score is 0, else their harmonic mean. */
  function FScore(p: real, r: real): real
    requires 0.0 <= p && 0.0 <= r
  {
    if p == 0.0 || r == 0.0 then 0.0 else 2.0 * p * r / (p + r)
  }

  datatype Metrics = Metrics(precision: real, recall: real, fscore: real)

  lemma RatioBounds(n: nat, d: nat)
    requires n <= d
    ensures 0.0 <= Ratio(n, d) <= 1.0
    ensures Ratio(n, d) == 0.0 <==> n == 0
    ensures n == d && d > 0 ==> Ratio(n, d) == 1.0
  {
    if d > 0 {
      assert n as real <= d as real;
    }
  }

  lemma DivBetween(x: real, s: real, lo: real, hi: real)
    requires s > 0.0 && lo * s <= x <= hi * s
    ensures lo <= x / s <= hi
  {
    var q := x / s;
    assert q * s == x;
  }

  /** The harmonic mean lies between the two scores. */
  lemma HarmonicBetween(p: real, r: real)
    requires 0.0 < p <= r
    ensures p <= 2.0 * p * r / (p + r) <= r
  {
    assert p * p <= p * r;
    assert p * r <= r * r;
    assert p * (p + r) <= 2.0 * p * r <= r * (p + r);
    DivBetween(2.0 * p * r, p + r, p, r);
  }

  lemma MulCancel(x: real, y: real, c: real)
    requires c > 0.0 && x * c == y * c
    ensures x == y
  {
  }

  /** 2·(t/a)·(t/b) / (t/a + t/b) = 2t / (a + b). */
  lemma HarmonicOfRatios(t: real, a: real, b: real)
    requires t > 0.0 && a > 0.0 && b > 0.0
    ensures 2.0 * (t / a) * (t / b) / (t / a + t / b) == 2.0 * t / (a + b)
  {
    var p := t / a;
    var r := t / b;
    var s := p + r;
    var x := 2.0 * p * r;
    var y := 2.0 * t / (a + b);
    assert p * a == t && r * b == t;
    assert s * (a * b) == t * (a + b) by {
      assert s * (a * b) == (p * a) * b + (r * b) * a;
    }
    assert x * (a * b) == 2.0 * t * t by {
      assert x * (a * b) == 2.0 * (p * a) * (r * b);
    }
    assert y * (a + b) == 2.0 * t;
    assert y * s * (a * b) == 2.0 * t * t by {
      assert y * s * (a * b) == y * (t * (a + b));
      assert y * (t * (a + b)) == (y * (a + b)) * t;
    }
    assert a * b > 0.0;
    MulCancel(y * s, x, a * b);
    assert s > 0.0;
    assert x / s == y;
  }

  /** With at least one true positive, F1 = 2TP / (2TP + FP + FN). */
  lemma FScoreClosedForm(tp: nat, fp: nat, fn: nat)
    requires tp > 0
    ensures FScore(Ratio(tp, tp + fp), Ratio(tp, tp + fn)) == (2 * tp) as real / (2 * tp + fp + fn) as real
  {
    var t := tp as real;
    var a := (tp + fp) as real;
    var b := (tp + fn) as real;
    assert Ratio(tp, tp + fp) == t / a && Ratio(tp, tp + fn) == t / b;
    RatioBounds(tp, tp + fp);
    RatioBounds(tp, tp + fn);
    HarmonicOfRatios(t, a, b);
    assert 2.0 * t == (2 * tp) as real && a + b == (2 * tp + fp + fn) as real;
  }

  /** For positive scores, F1 lies between precision and recall. */
  lemma FScoreBetween(p: real, r: real)
    requires 0.0 < p && 0.0 < r
    ensures p <= FScore(p, r) <= r || r <= FScore(p, r) <= p
  {
    if p <= r {
      HarmonicBetween(p, r);
    } else {
      HarmonicBetween(r, p);
      assert 2.0 * r * p == 2.0 * p * r;
      assert r + p == p + r;
    }
  }

  /** Every score lies in [0, 1]; F1 is 0 exactly when there is no true
      positive, and otherwise lies between precision and recall. */
  lemma ScoreFacts(tp: nat, fp: nat, fn: nat)
    ensures var p := Ratio(tp, tp + fp);
      var r := Ratio(tp, tp + fn);
      var f := FScore(p, r);
      && 0.0 <= p <= 1.0 && 0.0 <= r <= 1.0 && 0.0 <= f <= 1.0
      && (tp == 0 <==> f == 0.0)
      && (tp == 0 ==> p == 0.0 && r == 0.0)
      && (tp > 0 ==> (p <= f <= r || r <= f <= p))
      && (tp > 0 && fp == 0 && fn == 0 ==> p == 1.0 && r == 1.0 && f == 1.0)
  {
    var p := Ratio(tp, tp + fp);
    var r := Ratio(tp, tp + fn);
    RatioBounds(tp, tp + fp);
    RatioBounds(tp, tp + fn);
    if tp > 0 {
      FScoreBetween(p, r);
    }
  }

  /** Precision, recall and F1 of one set of counts. */
  function MetricsOf(tp: nat, fp: nat, fn: nat): (m: Metrics)
    ensures 0.0 <= m.precision <= 1.0 && 0.0 <= m.recall <= 1.0 && 0.0 <= m.fscore <= 1.0
    ensures m.fscore == 0.0 <==> tp == 0
    ensures tp == 0 ==> m == Metrics(0.0, 0.0, 0.0)
    ensures tp > 0 ==> m.fscore == (2 * tp) as real / (2 * tp + fp + fn) as real
    ensures tp > 0 && fp == 0 && fn == 0 ==> m == Metrics(1.0, 1.0, 1.0)
  {
    ScoreFacts(tp, fp, fn);
    if tp > 0 then
      FScoreClosedForm(tp, fp, fn);
      Metrics(Ratio(tp, tp + fp), Ratio(tp, tp + fn), FScore(Ratio(tp, tp + fp), Ratio(tp, tp + fn)))
    else
      Metrics(Ratio(tp, tp + fp), Ratio(tp, tp + fn), FScore(Ratio(tp, tp + fp), Ratio(tp, tp + fn)))
  }

  // ------------------------------------------------------------ statistics

  /** Python's `round(n / d)` on the exact quotient: the nearest integer,
      halves to even. */
  function RoundHalfEven(n: int, d: int): (k: int)
    requires d > 0
    ensures 2 * Abs(n - k * d) <= d
    ensures 2 * Abs(n - k * d) == d ==> k % 2 == 0
  {
    var q := n / d;
    var r := n % d;
    assert n == q * d + r;
    assert n - (q + 1) * d == r - d;
    if 2 * r < d then q
    else if 2 * r > d then q + 1
    else if q % 2 == 0 then q
    else q + 1
  }

  lemma MulAtLeast(m: int, d: int)
    requires m >= 1 && d > 0
    ensures m * d >= d
    ensures m >= 2 ==> m * d >= 2 * d
  {
    assert m * d == d + (m - 1) * d;
    assert (m - 1) * d >= 0;
    if m >= 2 {
      assert m * d == 2 * d + (m - 2) * d;
      assert (m - 2) * d >= 0;
    }
  }

  /** Two different integers are at least `d` apart once scaled by `d`. */
  lemma ScaledApart(n: int, d: int, k: int, j: int)
    requires d > 0 && k < j
    ensures (n - k * d) - (n - j * d) >= d
    ensures j - k >= 2 ==> (n - k * d) - (n - j * d) >= 2 * d
  {
    assert (n - k * d) - (n - j * d) == (j - k) * d;
    MulAtLeast(j - k, d);
  }

  /** The nearest-integer property determines the rounding uniquely. */
  lemma RoundHalfEvenUnique(n: int, d: int, k: int)
    requires d > 0
    requires 2 * Abs(n - k * d) <= d
    requires 2 * Abs(n - k * d) == d ==> k % 2 == 0
    ensures k == RoundHalfEven(n, d)
  {
    var j := RoundHalfEven(n, d);
    if k < j {
      ScaledApart(n, d, k, j);
    } else if j < k {
      ScaledApart(n, d, j, k);
    }
  }

  function SumStarts(data: seq<Annotation>): int {
    if |data| == 0 then 0 else Start(data[0]) + SumStarts(data[1..])
  }

  /** `average_start`: 0 for no data, else the rounded mean start offset. */
  function AverageStart(data: seq<Annotation>): (r: int)
    ensures |data| == 0 ==> r == 0
    ensures |data| > 0 ==> 2 * Abs(SumStarts(data) - r * |data|) <= |data|
  {
    if |data| == 0 then 0 else RoundHalfEven(SumStarts(data), |data|)
  }

  lemma {:induction false} SumStartsConstant(data: seq<Annotation>, s: int)
    requires forall i :: 0 <= i < |data| ==> Start(data[i]) == s
    ensures SumStarts(data) == s * |data|
    decreases |data|
  {
    if |data| > 0 {
      SumStartsConstant(data[1..], s);
    }
  }

  /** When every start offset is `s`, the average is `s`. */
  lemma AverageStartConstant(data: seq<Annotation>, s: int)
    requires |data| > 0
    requires forall i :: 0 <= i < |data| ==> Start(data[i]) == s
    ensures AverageStart(data) == s
  {
    SumStartsConstant(data, s);
    RoundHalfEvenUnique(SumStarts(data), |data|, s);
  }

  // ---------------------------------------------------- word frequency table

  /** `item[3]` of every row: the surface texts. */
  function Texts(data: seq<Annotation>): (r: seq<V>)
    ensures |r| == |data|
    ensures forall i :: 0 <= i < |data| ==> r[i] == data[i][3]
  {
    if |data| == 0 then [] else [data[0][3]] + Texts(data[1..])
  }

  type Entry = (V, nat)

  function KeysOf<K, X>(t: seq<(K, X)>): (r: seq<K>)
    ensures |r| == |t| && forall i :: 0 <= i < |t| ==> r[i] == t[i].0
  {
    if |t| == 0 then [] else [t[0].0] + KeysOf(t[1..])
  }

  function SumCounts<K>(t: seq<(K, nat)>): nat {
    if |t| == 0 then 0 else t[0].1 + SumCounts(t[1..])
  }

  /** `word_freq[word] += 1`, or a new entry with count 1 at the end. */
  function Bump<K(==)>(t: seq<(K, nat)>, w: K): (r: seq<(K, nat)>)
    ensures KeysOf(r) == if w in KeysOf(t) then KeysOf(t) else KeysOf(t) + [w]
  {
    if |t| == 0 then [(w, 1)]
    else
      assert KeysOf(t) == [t[0].0] + KeysOf(t[1..]);
      if t[0].0 == w then
        assert KeysOf([(w, t[0].1 + 1)] + t[1..]) == KeysOf(t);
        [(w, t[0].1 + 1)] + t[1..]
      else
        assert w in KeysOf(t) <==> w in KeysOf(t[1..]);
        [t[0]] + Bump(t[1..], w)
  }

  lemma {:induction false} BumpSum<K>(t: seq<(K, nat)>, w: K)
    ensures SumCounts(Bump(t, w)) == SumCounts(t) + 1
    decreases |t|
  {
    if |t| > 0 && t[0].0 != w {
      BumpSum(t[1..], w);
    }
  }

  lemma {:induction false} BumpCounts<K>(t: seq<(K, nat)>, w: K)
    requires Distinct(KeysOf(t))
    ensures forall i :: 0 <= i < |Bump(t, w)| ==>
      Bump(t, w)[i].1 == (if i < |t| then t[i].1 else 0) + (if Bump(t, w)[i].0 == w then 1 else 0)
    decreases |t|
  {
    if |t| > 0 {
      var ks := KeysOf(t);
      assert ks == [t[0].0] + KeysOf(t[1..]);
      DistinctTail(ks);
      var r := Bump(t, w);
      if t[0].0 == w {
        forall i | 1 <= i < |r|
          ensures r[i].0 != w
        {
          assert ks[i] == t[i].0;
        }
      } else {
        BumpCounts(t[1..], w);
        var r' := Bump(t[1..], w);
        assert r == [t[0]] + r';
        forall i | 1 <= i < |r|
          ensures r[i].1 == (if i < |t| then t[i].1 else 0) + (if r[i].0 == w then 1 else 0)
        {
          assert r[i] == r'[i - 1];
          if i < |t| {
            assert t[1..][i - 1] == t[i];
          }
        }
      }
    }
  }

  /** Incrementing a count keeps the keys distinct, appends an unseen text
      at the end, adds one to the total and changes only the text's count. */
  lemma BumpFacts<K>(t: seq<(K, nat)>, w: K)
    requires Distinct(KeysOf(t))
    ensures Distinct(KeysOf(Bump(t, w)))
    ensures KeysOf(Bump(t, w)) == if w in KeysOf(t) then KeysOf(t) else KeysOf(t) + [w]
    ensures SumCounts(Bump(t, w)) == SumCounts(t) + 1
    ensures forall i :: 0 <= i < |Bump(t, w)| ==>
      Bump(t, w)[i].1 == (if i < |t| then t[i].1 else 0) + (if Bump(t, w)[i].0 == w then 1 else 0)
  {
    BumpSum(t, w);
    BumpCounts(t, w);
    var ks := KeysOf(t);
    if w !in ks {
      DistinctSnoc(ks, w);
    }
  }

  /** The dictionary `word_freq` after the loop, in insertion order. */
  function Tally<K(==)>(ws: seq<K>): seq<(K, nat)> {
    if |ws| == 0 then [] else Bump(Tally(ws[..|ws| - 1]), ws[|ws| - 1])
  }

  function Occurrences<K(==)>(ws: seq<K>, w: K): nat {
    multiset(ws)[w]
  }

  lemma {:induction false} TallyKeys<K>(ws: seq<K>)
    ensures KeysOf(Tally(ws)) == FirstOccurrences(ws)
    ensures Distinct(KeysOf(Tally(ws)))
    decreases |ws|
  {
    if |ws| > 0 {
      var p := ws[..|ws| - 1];
      var w := ws[|ws| - 1];
      TallyKeys(p);
      LastSplit(ws);
      FirstOccurrencesSnoc(p, w);
      DedupIsFirstOccurrences(ws);
      DedupFacts(ws);
    }
  }

  lemma {:induction false} TallySum<K>(ws: seq<K>)
    ensures SumCounts(Tally(ws)) == |ws|
    decreases |ws|
  {
    if |ws| > 0 {
      TallySum(ws[..|ws| - 1]);
      BumpSum(Tally(ws[..|ws| - 1]), ws[|ws| - 1]);
    }
  }

  lemma OccurrencesSnoc<K>(p: seq<K>, w: K)
    ensures forall v :: Occurrences(p + [w], v) == Occurrences(p, v) + (if v == w then 1 else 0)
    ensures w !in p ==> Occurrences(p, w) == 0
  {
    assert multiset(p + [w]) == multiset(p) + multiset{w};
  }

  lemma TallyStep<K>(t: seq<(K, nat)>, p: seq<K>, w: K)
    requires KeysOf(t) == FirstOccurrences(p) && Distinct(KeysOf(t))
    requires forall i :: 0 <= i < |t| ==> t[i].1 == Occurrences(p, t[i].0)
    ensures forall i :: 0 <= i < |Bump(t, w)| ==> Bump(t, w)[i].1 == Occurrences(p + [w], Bump(t, w)[i].0)
  {
    var r := Bump(t, w);
    BumpCounts(t, w);
    FirstOccurrencesSnoc(p, w);
    OccurrencesSnoc(p, w);
    forall i | 0 <= i < |r|
      ensures r[i].1 == Occurrences(p + [w], r[i].0)
    {
      var k := r[i].0;
      assert KeysOf(r)[i] == k;
      if i < |t| {
        assert KeysOf(t)[i] == t[i].0;
        assert k == t[i].0;
        assert r[i].1 == Occurrences(p, k) + (if k == w then 1 else 0);
      } else {
        assert w !in KeysOf(t) && k == w;
        assert w !in p;
        assert r[i].1 == 1;
      }
    }
  }

  lemma {:induction false} TallyCounts<K>(ws: seq<K>)
    ensures forall i :: 0 <= i < |Tally(ws)| ==> Tally(ws)[i].1 == Occurrences(ws, Tally(ws)[i].0)
    decreases |ws|
  {
    if |ws| > 0 {
      var p := ws[..|ws| - 1];
      TallyCounts(p);
      TallyKeys(p);
      LastSplit(ws);
      TallyStep(Tally(p), p, ws[|ws| - 1]);
    }
  }

  /** The tally lists every text once, in first-seen order, with its number
      of occurrences; the counts add up to the number of texts. */
  lemma TallyFacts<K>(ws: seq<K>)
    ensures KeysOf(Tally(ws)) == FirstOccurrences(ws)
    ensures Distinct(KeysOf(Tally(ws)))
    ensures |Tally(ws)| == |FirstOccurrences(ws)|
    ensures forall i :: 0 <= i < |Tally(ws)| ==> Tally(ws)[i].1 == Occurrences(ws, Tally(ws)[i].0)
    ensures SumCounts(Tally(ws)) == |ws|
  {
    TallyKeys(ws);
    TallySum(ws);
    TallyCounts(ws);
  }

  /** `lambda item: item[1]` with `reverse=True`: larger counts first. */
  predicate ByCountDesc(a: Entry, b: Entry) {
    a.1 > b.1
  }

  /** `word_frequency`: the tally sorted by decreasing count, stably. */
  function WordFrequency(data: seq<Annotation>): seq<Entry> {
    Sorting.SortBy(Tally(Texts(data)), ByCountDesc)
  }

  /** Position of the first occurrence of `w` in `ws` (|ws| when absent). */
  function FirstIndex(ws: seq<V>, w: V): (k: nat)
    ensures k <= |ws|
    ensures k < |ws| ==> ws[k] == w
    ensures k < |ws| <==> w in ws
    ensures forall j :: 0 <= j < k ==> ws[j] != w
  {
    if |ws| == 0 then 0 else if ws[0] == w then 0 else 1 + FirstIndex(ws[1..], w)
  }

  lemma FirstIndexSnoc(p: seq<V>, x: V, w: V)
    requires w in p
    ensures FirstIndex(p + [x], w) == FirstIndex(p, w)
  {
    var k := FirstIndex(p, w);
    var k' := FirstIndex(p + [x], w);
    assert (p + [x])[k] == w;
    assert k' <= k;
    assert p[k'] == w;
  }

  /** First occurrences appear in increasing order of first position. */
  lemma {:induction false} FirstOccurrencesRanked(ws: seq<V>)
    ensures forall i, j :: 0 <= i < j < |FirstOccurrences(ws)| ==>
      FirstIndex(ws, FirstOccurrences(ws)[i]) < FirstIndex(ws, FirstOccurrences(ws)[j])
    ensures forall v :: v in FirstOccurrences(ws) ==> v in ws
    decreases |ws|
  {
    if |ws| > 0 {
      var p := ws[..|ws| - 1];
      var x := ws[|ws| - 1];
      LastSplit(ws);
      FirstOccurrencesRanked(p);
      var f := FirstOccurrences(p);
      var fo := FirstOccurrences(ws);
      forall v | v in f
        ensures FirstIndex(ws, v) == FirstIndex(p, v) < |p|
      {
        FirstIndexSnoc(p, x, v);
      }
      if x !in p {
        assert FirstIndex(ws, x) == |p|;
      }
      forall i, j | 0 <= i < j < |fo|
        ensures FirstIndex(ws, fo[i]) < FirstIndex(ws, fo[j])
      {
        assert fo[i] == f[i];
        if j < |f| {
          assert fo[j] == f[j];
          assert fo[i] in f && fo[j] in f;
        } else {
          assert fo[i] in f;
        }
      }
    }
  }

  lemma {:induction false} InsertKeepsSum(x: Entry, t: seq<Entry>)
    ensures SumCounts(Sorting.InsertBy(x, t, ByCountDesc)) == x.1 + SumCounts(t)
    decreases |t|
  {
    if |t| > 0 && !ByCountDesc(x, t[0]) {
      InsertKeepsSum(x, t[1..]);
    }
  }

  lemma {:induction false} SortKeepsSum(xs: seq<Entry>)
    ensures SumCounts(Sorting.SortBy(xs, ByCountDesc)) == SumCounts(xs)
    decreases |xs|
  {
    if |xs| > 0 {
      var p := xs[..|xs| - 1];
      SortKeepsSum(p);
      InsertKeepsSum(xs[|xs| - 1], Sorting.SortBy(p, ByCountDesc));
      LastSplit(xs);
      SumCountsAppend(p, [xs[|xs| - 1]]);
    }
  }

  lemma {:induction false} SumCountsAppend(a: seq<Entry>, b: seq<Entry>)
    ensures SumCounts(a + b) == SumCounts(a) + SumCounts(b)
    decreases |a|
  {
    if |a| == 0 {
      assert a + b == b;
    } else {
      assert (a + b)[1..] == a[1..] + b;
      SumCountsAppend(a[1..], b);
    }
  }

  lemma CountOrderIsStrictWeak()
    ensures Sorting.StrictWeakOrder(ByCountDesc)
  {
  }

  /** The frequency table of `word_frequency`: each text of the data once,
      with its number of occurrences; the counts sum to the number of rows;
      counts never increase along the table; equal counts keep first-seen
      order. */
  lemma WordFrequencyCounts(data: seq<Annotation>)
    ensures multiset(WordFrequency(data)) == multiset(Tally(Texts(data)))
    ensures SumCounts(WordFrequency(data)) == |data|
    ensures forall i, j :: 0 <= i < j < |WordFrequency(data)| ==> WordFrequency(data)[j].1 <= WordFrequency(data)[i].1
  {
    var ws := Texts(data);
    var t := Tally(ws);
    TallyFacts(ws);
    SortKeepsSum(t);
    CountOrderIsStrictWeak();
    Sorting.SortBySorted(t, ByCountDesc);
  }

  /** The tally lists its words in order of first occurrence. */
  lemma TallyRanked(ws: seq<V>)
    ensures forall i, j :: 0 <= i < j < |Tally(ws)| ==> FirstIndex(ws, Tally(ws)[i].0) < FirstIndex(ws, Tally(ws)[j].0)
  {
    var t := Tally(ws);
    TallyFacts(ws);
    FirstOccurrencesRanked(ws);
    forall i, j | 0 <= i < j < |t|
      ensures FirstIndex(ws, t[i].0) < FirstIndex(ws, t[j].0)
    {
      assert t[i].0 == FirstOccurrences(ws)[i] && t[j].0 == FirstOccurrences(ws)[j];
    }
  }

  lemma WordFrequencyTies(data: seq<Annotation>)
    ensures forall i, j :: 0 <= i < j < |WordFrequency(data)| && WordFrequency(data)[i].1 == WordFrequency(data)[j].1 ==>
      FirstIndex(Texts(data), WordFrequency(data)[i].0) < FirstIndex(Texts(data), WordFrequency(data)[j].0)
  {
    var ws := Texts(data);
    var t := Tally(ws);
    var wf := WordFrequency(data);
    CountOrderIsStrictWeak();
    TallyRanked(ws);
    var rank := (e: Entry) => FirstIndex(ws, e.0);
    assert forall i, j :: 0 <= i < j < |t| ==> rank(t[i]) < rank(t[j]);
    Sorting.SortByStable(t, ByCountDesc, rank);
    TiesFirstIndex(ws, wf, rank);
  }

  /** Ties ranked by first index: equal counts keep the words in order of
      first occurrence. */
  lemma TiesFirstIndex(ws: seq<V>, wf: seq<Entry>, rank: Entry -> int)
    requires forall e :: rank(e) == FirstIndex(ws, e.0)
    requires Sorting.TiesByRank(wf, ByCountDesc, rank)
    ensures forall i, j :: 0 <= i < j < |wf| && wf[i].1 == wf[j].1 ==> FirstIndex(ws, wf[i].0) < FirstIndex(ws, wf[j].0)
  {
    forall i, j | 0 <= i < j < |wf| && wf[i].1 == wf[j].1
      ensures FirstIndex(ws, wf[i].0) < FirstIndex(ws, wf[j].0)
    {
      assert !ByCountDesc(wf[i], wf[j]) && !ByCountDesc(wf[j], wf[i]);
      assert rank(wf[i]) < rank(wf[j]);
    }
  }

  lemma WordFrequencyFacts(data: seq<Annotation>)
    ensures var wf := WordFrequency(data);
      && multiset(wf) == multiset(Tally(Texts(data)))
      && SumCounts(wf) == |data|
      && (forall i, j :: 0 <= i < j < |wf| ==> wf[j].1 <= wf[i].1)
      && (forall i, j :: 0 <= i < j < |wf| && wf[i].1 == wf[j].1 ==>
            FirstIndex(Texts(data), wf[i].0) < FirstIndex(Texts(data), wf[j].0))
  {
    WordFrequencyCounts(data);
    WordFrequencyTies(data);
  }

  // ------------------------------------------------------ document indexes

  /** A dict from document id to its annotations, in insertion order. */
  type DocIndex = seq<(V, Doc)>

  predicate NonEmptyDocs(docs: seq<Doc>) {
    forall i :: 0 <= i < |docs| ==> |docs[i]| > 0
  }

  /** `document[0][0]`: the filename of the document's first row. */
  function DocId(d: Doc): V
    requires |d| > 0
  {
    d[0][0]
  }

  function Lookup(m: DocIndex, k: V): Option<Doc> {
    if |m| == 0 then None else if m[0].0 == k then Some(m[0].1) else Lookup(m[1..], k)
  }

  /** `files[k] = d`: overwrite in place, or append a new key. */
  function Put(m: DocIndex, k: V, d: Doc): (r: DocIndex)
    ensures KeysOf(r) == if k in KeysOf(m) then KeysOf(m) else KeysOf(m) + [k]
    ensures Lookup(r, k) == Some(d)
    ensures forall k' :: k' != k ==> Lookup(r, k') == Lookup(m, k')
  {
    if |m| == 0 then [(k, d)]
    else if m[0].0 == k then [(k, d)] + m[1..]
    else
      assert KeysOf(m) == [m[0].0] + KeysOf(m[1..]);
      [m[0]] + Put(m[1..], k, d)
  }

  /** The loops filling `gs_files` / `pred_files`. */
  function IndexDocs(docs: seq<Doc>): DocIndex
    requires NonEmptyDocs(docs)
  {
    if |docs| == 0 then []
    else
      var p := docs[..|docs| - 1];
      var d := docs[|docs| - 1];
      Put(IndexDocs(p), DocId(d), d)
  }

  function DocIds(docs: seq<Doc>): (r: seq<V>)
    requires NonEmptyDocs(docs)
    ensures |r| == |docs| && forall i :: 0 <= i < |docs| ==> r[i] == DocId(docs[i])
  {
    if |docs| == 0 then [] else [DocId(docs[0])] + DocIds(docs[1..])
  }

  /** Reference: the last document whose id is `k`. */
  function LastWithId(docs: seq<Doc>, k: V): Option<Doc>
    requires NonEmptyDocs(docs)
  {
    if |docs| == 0 then None
    else if DocId(docs[|docs| - 1]) == k then Some(docs[|docs| - 1])
    else LastWithId(docs[..|docs| - 1], k)
  }

  /** The index has one key per distinct id, in first-seen order, and maps it
      to the last document with that id. */
  lemma {:induction false} IndexKeysFirst(docs: seq<Doc>)
    requires NonEmptyDocs(docs)
    ensures KeysOf(IndexDocs(docs)) == FirstOccurrences(DocIds(docs))
    decreases |docs|
  {
    if |docs| > 0 {
      var p := docs[..|docs| - 1];
      var d := docs[|docs| - 1];
      var k := DocId(d);
      IndexKeysFirst(p);
      DocIdsSnoc(docs);
      FirstOccurrencesSnoc(DocIds(p), k);
      assert IndexDocs(docs) == Put(IndexDocs(p), k, d);
    }
  }

  lemma {:induction false} DocIdsSnoc(docs: seq<Doc>)
    requires NonEmptyDocs(docs) && |docs| > 0
    ensures DocIds(docs) == DocIds(docs[..|docs| - 1]) + [DocId(docs[|docs| - 1])]
  {
    var p := docs[..|docs| - 1];
    assert forall i :: 0 <= i < |p| ==> DocIds(p)[i] == DocId(docs[i]);
    SnocExt(DocIds(docs), DocIds(p), DocId(docs[|docs| - 1]));
  }

  lemma {:induction false} IndexLookupLast(docs: seq<Doc>)
    requires NonEmptyDocs(docs)
    ensures forall k :: Lookup(IndexDocs(docs), k) == LastWithId(docs, k)
    decreases |docs|
  {
    if |docs| > 0 {
      IndexLookupLast(docs[..|docs| - 1]);
    }
  }

  lemma IndexDocsFacts(docs: seq<Doc>)
    requires NonEmptyDocs(docs)
    ensures KeysOf(IndexDocs(docs)) == FirstOccurrences(DocIds(docs))
    ensures forall k :: Lookup(IndexDocs(docs), k) == LastWithId(docs, k)
  {
    IndexKeysFirst(docs);
    IndexLookupLast(docs);
  }

  /** The prediction list a gold document is scored against. */
  function PredFor(ps: DocIndex, k: V): Doc {
    match Lookup(ps, k)
    case None => []
    case Some(d) => d
  }

  // --------------------------------------------------------- whole corpus

  /** The per-document results, in the order of the gold index. */
  function MatchAll(t1: int, t2: int, gs: DocIndex, ps: DocIndex): (ms: seq<DocMatch>)
    ensures |ms| == |gs|
    ensures forall i :: 0 <= i < |gs| ==> ms[i] == MatchDocumentWith(t1, t2, gs[i].1, PredFor(ps, gs[i].0))
  {
    if |gs| == 0 then []
    else [MatchDocumentWith(t1, t2, gs[0].1, PredFor(ps, gs[0].0))] + MatchAll(t1, t2, gs[1..], ps)
  }

  function NearMissTotal(t1: int, t2: int, gs: DocIndex, ps: DocIndex): nat {
    if |gs| == 0 then 0
    else NearMissesInDocument(t1, t2, gs[0].1, PredFor(ps, gs[0].0)) + NearMissTotal(t1, t2, gs[1..], ps)
  }

  /** `total_ga`. */
  function GoldTotal(gs: DocIndex): nat {
    if |gs| == 0 then 0 else |gs[0].1| + GoldTotal(gs[1..])
  }

  /** `total_p`: only prediction groups of gold documents are counted. */
  function PredTotal(gs: DocIndex, ps: DocIndex): nat {
    if |gs| == 0 then 0 else |PredFor(ps, gs[0].0)| + PredTotal(gs[1..], ps)
  }

  function TpTotal(ms: seq<DocMatch>): nat {
    if |ms| == 0 then 0 else |ms[0].tp| + TpTotal(ms[1..])
  }

  function FpTotal(ms: seq<DocMatch>): nat {
    if |ms| == 0 then 0 else |ms[0].fp| + FpTotal(ms[1..])
  }

  function FnTotal(ms: seq<DocMatch>): nat {
    if |ms| == 0 then 0 else |ms[0].fn| + FnTotal(ms[1..])
  }

  /** Summed over the corpus: TP + FN = total gold, TP + FP = total
      predictions. */
  lemma {:induction false} TotalsBalance(t1: int, t2: int, gs: DocIndex, ps: DocIndex)
    ensures TpTotal(MatchAll(t1, t2, gs, ps)) + FnTotal(MatchAll(t1, t2, gs, ps)) == GoldTotal(gs)
    ensures TpTotal(MatchAll(t1, t2, gs, ps)) + FpTotal(MatchAll(t1, t2, gs, ps)) == PredTotal(gs, ps)
    decreases |gs|
  {
    if |gs| > 0 {
      MatchDocumentFacts(t1, t2, gs[0].1, PredFor(ps, gs[0].0));
      TotalsBalance(t1, t2, gs[1..], ps);
    }
  }

  function AllTp(ms: seq<DocMatch>): (r: seq<Annotation>)
    ensures |r| == TpTotal(ms)
  {
    if |ms| == 0 then [] else ms[0].tp + AllTp(ms[1..])
  }

  function AllFp(ms: seq<DocMatch>): (r: seq<Annotation>)
    ensures |r| == FpTotal(ms)
  {
    if |ms| == 0 then [] else ms[0].fp + AllFp(ms[1..])
  }

  function AllFn(ms: seq<DocMatch>): (r: seq<Annotation>)
    ensures |r| == FnTotal(ms)
  {
    if |ms| == 0 then [] else ms[0].fn + AllFn(ms[1..])
  }

  datatype Statistics = Statistics(
    totalGoldAnnotations: nat,
    totalPredictions: nat,
    truePositives: nat,
    falsePositives: nat,
    falseNegatives: nat,
    fnAlmostTp: nat,
    pAverageStartSpan: int,
    fnAverageStartSpan: int)

  /** The `scores` dictionary, field by field. */
  datatype Report = Report(
    perDocument: seq<(V, Metrics)>,
    total: Metrics,
    statistics: Statistics,
    fnFreq: seq<Entry>,
    tpEntities: seq<Annotation>,
    fpEntities: seq<Annotation>,
    fnEntities: seq<Annotation>,
    tpPerDocument: seq<(V, Doc)>,
    fpPerDocument: seq<(V, Doc)>,
    fnPerDocument: seq<(V, Doc)>)

  /** The scores of one document's counts. */
  function DocScore(m: DocMatch): Metrics {
    MetricsOf(|m.tp|, |m.fp|, |m.fn|)
  }

  function PerDocumentScores(gs: DocIndex, ms: seq<DocMatch>): (r: seq<(V, Metrics)>)
    requires |ms| == |gs|
    ensures |r| == |gs|
    ensures forall i :: 0 <= i < |gs| ==> r[i] == (gs[i].0, DocScore(ms[i]))
  {
    if |gs| == 0 then []
    else [(gs[0].0, MetricsOf(|ms[0].tp|, |ms[0].fp|, |ms[0].fn|))] + PerDocumentScores(gs[1..], ms[1..])
  }

  /** `tp_entities_per_doc` only gets a key on the document's first match:
      the documents with a true positive, each with its list, in order. */
  function TpPerDocument(ids: seq<V>, ms: seq<DocMatch>): (r: seq<(V, Doc)>)
    requires |ms| == |ids|
    ensures |r| <= |ids|
    ensures forall e :: e in r <==> exists i :: 0 <= i < |ids| && |ms[i].tp| > 0 && e == (ids[i], ms[i].tp)
  {
    if |ids| == 0 then []
    else
      var rest := TpPerDocument(ids[1..], ms[1..]);
      assert forall i :: 1 <= i < |ids| ==> ids[1..][i - 1] == ids[i] && ms[1..][i - 1] == ms[i];
      (if |ms[0].tp| > 0 then [(ids[0], ms[0].tp)] else []) + rest
  }

  /** `fp_entities_per_doc`: every document with its false positives. */
  function FpPerDocument(ids: seq<V>, ms: seq<DocMatch>): (r: seq<(V, Doc)>)
    requires |ms| == |ids|
    ensures |r| == |ids| && forall i :: 0 <= i < |ids| ==> r[i] == (ids[i], ms[i].fp)
  {
    seq(|ids|, i requires 0 <= i < |ids| => (ids[i], ms[i].fp))
  }

  /** `fn_entities_per_doc`: every document with its false negatives. */
  function FnPerDocument(ids: seq<V>, ms: seq<DocMatch>): (r: seq<(V, Doc)>)
    requires |ms| == |ids|
    ensures |r| == |ids| && forall i :: 0 <= i < |ids| ==> r[i] == (ids[i], ms[i].fn)
  {
    seq(|ids|, i requires 0 <= i < |ids| => (ids[i], ms[i].fn))
  }

  function Assemble(gs: DocIndex, ms: seq<DocMatch>, totalPred: nat, almost: nat): Report
    requires |ms| == |gs|
  {
    var tp := AllTp(ms);
    var fp := AllFp(ms);
    var fn := AllFn(ms);
    Report(
      PerDocumentScores(gs, ms),
      MetricsOf(|tp|, |fp|, |fn|),
      Statistics(GoldTotal(gs), totalPred, |tp|, |fp|, |fn|, almost, AverageStart(tp + fp), AverageStart(fn)),
      WordFrequency(fn),
      tp, fp, fn,
      TpPerDocument(KeysOf(gs), ms), FpPerDocument(KeysOf(gs), ms), FnPerDocument(KeysOf(gs), ms))
  }

  // ----------------------------------------- reference over the filenames

  /** The document a filename has in a list of groups: the last group with
      that filename, or [] when there is none. */
  function DocOf(docs: seq<Doc>, k: V): Doc
    requires NonEmptyDocs(docs)
  {
    match LastWithId(docs, k)
    case None => []
    case Some(d) => d
  }

  /** The gold filenames, in first-seen order. */
  function GoldIds(gold: seq<Doc>): seq<V>
    requires NonEmptyDocs(gold)
  {
    FirstOccurrences(DocIds(gold))
  }

  /** Reference: per gold filename in first-seen order, its last gold group
      matched against its last prediction group (or against none). */
  function DocResults(t1: int, t2: int, gold: seq<Doc>, pred: seq<Doc>): (ms: seq<DocMatch>)
    requires NonEmptyDocs(gold) && NonEmptyDocs(pred)
    ensures |ms| == |GoldIds(gold)|
    ensures forall i :: 0 <= i < |ms| ==>
      ms[i] == MatchDocumentWith(t1, t2, DocOf(gold, GoldIds(gold)[i]), DocOf(pred, GoldIds(gold)[i]))
  {
    Map((k: V) requires NonEmptyDocs(gold) && NonEmptyDocs(pred) => MatchDocumentWith(t1, t2, DocOf(gold, k), DocOf(pred, k)), GoldIds(gold))
  }

  /** Reference: the near-miss count of each gold filename's document. */
  function DocNearMisses(t1: int, t2: int, gold: seq<Doc>, pred: seq<Doc>): (ns: seq<int>)
    requires NonEmptyDocs(gold) && NonEmptyDocs(pred)
    ensures |ns| == |GoldIds(gold)|
    ensures forall i :: 0 <= i < |ns| ==>
      ns[i] == NearMissesInDocument(t1, t2, DocOf(gold, GoldIds(gold)[i]), DocOf(pred, GoldIds(gold)[i]))
  {
    Map((k: V) requires NonEmptyDocs(gold) && NonEmptyDocs(pred) => NearMissesInDocument(t1, t2, DocOf(gold, k), DocOf(pred, k)) as int, GoldIds(gold))
  }

  /** With distinct keys, looking up an entry's key finds that entry. */
  lemma {:induction false} LookupDistinct(m: DocIndex, i: nat)
    requires i < |m| && Distinct(KeysOf(m))
    ensures Lookup(m, m[i].0) == Some(m[i].1)
    decreases i
  {
    if i > 0 {
      assert KeysOf(m)[0] != KeysOf(m)[i];
      assert forall a :: 0 <= a < |m| - 1 ==> KeysOf(m[1..])[a] == KeysOf(m)[a + 1];
      LookupDistinct(m[1..], i - 1);
    }
  }

  /** Entry `i` of the gold index is the `i`-th gold filename with its last
      group, and the prediction index gives it its last prediction group. */
  lemma IndexEntry(gold: seq<Doc>, pred: seq<Doc>, i: nat)
    requires NonEmptyDocs(gold) && NonEmptyDocs(pred) && i < |IndexDocs(gold)|
    ensures |IndexDocs(gold)| == |GoldIds(gold)|
    ensures IndexDocs(gold)[i].0 == GoldIds(gold)[i]
    ensures IndexDocs(gold)[i].1 == DocOf(gold, GoldIds(gold)[i])
    ensures PredFor(IndexDocs(pred), GoldIds(gold)[i]) == DocOf(pred, GoldIds(gold)[i])
  {
    var gs := IndexDocs(gold);
    IndexDocsFacts(gold);
    IndexDocsFacts(pred);
    DedupFacts(DocIds(gold));
    DedupIsFirstOccurrences(DocIds(gold));
    assert |gs| == |KeysOf(gs)|;
    assert KeysOf(gs)[i] == gs[i].0;
    LookupDistinct(gs, i);
  }

  /** The corpus loop over the index computes the reference per filename. */
  lemma MatchAllIsDocResults(t1: int, t2: int, gold: seq<Doc>, pred: seq<Doc>)
    requires NonEmptyDocs(gold) && NonEmptyDocs(pred)
    ensures MatchAll(t1, t2, IndexDocs(gold), IndexDocs(pred)) == DocResults(t1, t2, gold, pred)
  {
    var gs := IndexDocs(gold);
    IndexDocsFacts(gold);
    assert |gs| == |KeysOf(gs)|;
    forall i | 0 <= i < |gs|
      ensures MatchAll(t1, t2, gs, IndexDocs(pred))[i] == DocResults(t1, t2, gold, pred)[i]
    {
      IndexEntry(gold, pred, i);
    }
  }

  /** The near-miss total is the sum of the per-document counts. */
  lemma {:induction false} NearMissTotalSum(t1: int, t2: int, gs: DocIndex, ps: DocIndex, ns: seq<int>)
    requires |ns| == |gs|
    requires forall i :: 0 <= i < |gs| ==> ns[i] == NearMissesInDocument(t1, t2, gs[i].1, PredFor(ps, gs[i].0))
    ensures NearMissTotal(t1, t2, gs, ps) == Sum(ns)
    decreases |gs|
  {
    if |gs| > 0 {
      NearMissTotalSum(t1, t2, gs[1..], ps, ns[1..]);
    }
  }

  lemma NearMissTotalIsSum(t1: int, t2: int, gold: seq<Doc>, pred: seq<Doc>)
    requires NonEmptyDocs(gold) && NonEmptyDocs(pred)
    ensures NearMissTotal(t1, t2, IndexDocs(gold), IndexDocs(pred)) == Sum(DocNearMisses(t1, t2, gold, pred))
  {
    var gs := IndexDocs(gold);
    var ns := DocNearMisses(t1, t2, gold, pred);
    IndexDocsFacts(gold);
    assert |gs| == |KeysOf(gs)|;
    forall i | 0 <= i < |gs|
      ensures ns[i] == NearMissesInDocument(t1, t2, gs[i].1, PredFor(IndexDocs(pred), gs[i].0))
    {
      IndexEntry(gold, pred, i);
    }
    NearMissTotalSum(t1, t2, gs, IndexDocs(pred), ns);
  }

  /** `calculate_fscore` with the near-miss thresholds as parameters. */
  function CalculateFScoreWith(t1: int, t2: int, gold: seq<Doc>, pred: seq<Doc>): (r: Report)
    requires NonEmptyDocs(gold) && NonEmptyDocs(pred)
    ensures r.statistics.truePositives + r.statistics.falseNegatives == r.statistics.totalGoldAnnotations
    ensures r.statistics.truePositives + r.statistics.falsePositives == r.statistics.totalPredictions
    ensures |r.tpEntities| == r.statistics.truePositives
    ensures |r.fpEntities| == r.statistics.falsePositives
    ensures |r.fnEntities| == r.statistics.falseNegatives
    ensures 0.0 <= r.total.precision <= 1.0 && 0.0 <= r.total.recall <= 1.0 && 0.0 <= r.total.fscore <= 1.0
    ensures r.statistics.truePositives == TpTotal(DocResults(t1, t2, gold, pred))
    ensures r.statistics.falsePositives == FpTotal(DocResults(t1, t2, gold, pred))
    ensures r.statistics.falseNegatives == FnTotal(DocResults(t1, t2, gold, pred))
    ensures r.total == MetricsOf(r.statistics.truePositives, r.statistics.falsePositives, r.statistics.falseNegatives)
    ensures |r.perDocument| == |GoldIds(gold)|
    ensures forall i :: 0 <= i < |r.perDocument| ==>
      r.perDocument[i] == (GoldIds(gold)[i], DocScore(DocResults(t1, t2, gold, pred)[i]))
    ensures r.statistics.fnAlmostTp == Sum(DocNearMisses(t1, t2, gold, pred))
    ensures r.tpEntities == AllTp(DocResults(t1, t2, gold, pred))
    ensures r.fpEntities == AllFp(DocResults(t1, t2, gold, pred))
    ensures r.fnEntities == AllFn(DocResults(t1, t2, gold, pred))
    ensures r.fnFreq == WordFrequency(r.fnEntities)
    ensures r.statistics.pAverageStartSpan == AverageStart(r.tpEntities + r.fpEntities)
    ensures r.statistics.fnAverageStartSpan == AverageStart(r.fnEntities)
    ensures r.tpPerDocument == TpPerDocument(GoldIds(gold), DocResults(t1, t2, gold, pred))
    ensures r.fpPerDocument == FpPerDocument(GoldIds(gold), DocResults(t1, t2, gold, pred))
    ensures r.fnPerDocument == FnPerDocument(GoldIds(gold), DocResults(t1, t2, gold, pred))
  {
    var gs := IndexDocs(gold);
    var ps := IndexDocs(pred);
    TotalsBalance(t1, t2, gs, ps);
    MatchAllIsDocResults(t1, t2, gold, pred);
    NearMissTotalIsSum(t1, t2, gold, pred);
    IndexDocsFacts(gold);
    assert |gs| == |KeysOf(gs)|;
    assert forall i :: 0 <= i < |gs| ==> gs[i].0 == GoldIds(gold)[i] by {
      forall i | 0 <= i < |gs|
        ensures gs[i].0 == GoldIds(gold)[i]
      {
        assert KeysOf(gs)[i] == gs[i].0;
      }
    }
    assert KeysOf(gs) == GoldIds(gold);
    Assemble(gs, MatchAll(t1, t2, gs, ps), PredTotal(gs, ps), NearMissTotal(t1, t2, gs, ps))
  }

  /** `calculate_fscore` as called: thresholds 20 and 5. */
  function CalculateFScore(gold: seq<Doc>, pred: seq<Doc>): Report
    requires NonEmptyDocs(gold) && NonEmptyDocs(pred)
  {
    CalculateFScoreWith(20, 5, gold, pred)
  }

  lemma {:induction false} MatchAllIgnoresThresholds(t1: int, t2: int, u1: int, u2: int, gs: DocIndex, ps: DocIndex)
    ensures MatchAll(t1, t2, gs, ps) == MatchAll(u1, u2, gs, ps)
    decreases |gs|
  {
    if |gs| > 0 {
      MatchDocumentIgnoresThresholds(t1, t2, u1, u2, gs[0].1, PredFor(ps, gs[0].0));
      MatchAllIgnoresThresholds(t1, t2, u1, u2, gs[1..], ps);
    }
  }

  /** The thresholds change `fn_almost_tp` and nothing else in the report. */
  lemma ReportIgnoresThresholds(t1: int, t2: int, u1: int, u2: int, gold: seq<Doc>, pred: seq<Doc>)
    requires NonEmptyDocs(gold) && NonEmptyDocs(pred)
    ensures var a := CalculateFScoreWith(t1, t2, gold, pred);
      var b := CalculateFScoreWith(u1, u2, gold, pred);
      a.(statistics := a.statistics.(fnAlmostTp := 0)) == b.(statistics := b.statistics.(fnAlmostTp := 0))
  {
    MatchAllIgnoresThresholds(t1, t2, u1, u2, IndexDocs(gold), IndexDocs(pred));
  }

  lemma {:induction false} MatchAllCongruent(t1: int, t2: int, gs: DocIndex, ps: DocIndex, qs: DocIndex)
    requires forall i :: 0 <= i < |gs| ==> PredFor(ps, gs[i].0) == PredFor(qs, gs[i].0)
    ensures MatchAll(t1, t2, gs, ps) == MatchAll(t1, t2, gs, qs)
    ensures PredTotal(gs, ps) == PredTotal(gs, qs)
    ensures NearMissTotal(t1, t2, gs, ps) == NearMissTotal(t1, t2, gs, qs)
    decreases |gs|
  {
    if |gs| > 0 {
      MatchAllCongruent(t1, t2, gs[1..], ps, qs);
    }
  }

  /** A prediction group whose filename has no gold group contributes to no
      count: adding it leaves the report unchanged. */
  /** Every key of the gold index is the filename of some gold document. */
  lemma IndexedIdIsGold(gold: seq<Doc>, k: V)
    requires NonEmptyDocs(gold) && k in KeysOf(IndexDocs(gold))
    ensures exists j :: 0 <= j < |gold| && DocId(gold[j]) == k
  {
    var ids := DocIds(gold);
    IndexKeysFirst(gold);
    FirstOccurrencesElems(ids);
    assert k in ids;
    var j :| 0 <= j < |ids| && ids[j] == k;
  }

  lemma UnmatchedPredictionGroupIgnored(t1: int, t2: int, gold: seq<Doc>, pred: seq<Doc>, d: Doc)
    requires NonEmptyDocs(gold) && NonEmptyDocs(pred) && |d| > 0
    requires forall i :: 0 <= i < |gold| ==> DocId(gold[i]) != DocId(d)
    ensures CalculateFScoreWith(t1, t2, gold, pred + [d]) == CalculateFScoreWith(t1, t2, gold, pred)
  {
    var gs := IndexDocs(gold);
    var ps := IndexDocs(pred);
    var pred' := pred + [d];
    assert pred'[..|pred'| - 1] == pred;
    var ps' := IndexDocs(pred');
    assert ps' == Put(ps, DocId(d), d);
    forall i | 0 <= i < |gs|
      ensures PredFor(ps', gs[i].0) == PredFor(ps, gs[i].0)
    {
      assert KeysOf(gs)[i] == gs[i].0;
      IndexedIdIsGold(gold, gs[i].0);
    }
    MatchAllCongruent(t1, t2, gs, ps', ps);
  }

  /** A gold document scored against no predictions gets P = R = F = 0. */
  lemma MissingPredictionsScoreZero(t1: int, t2: int, gold: Doc)
    ensures var m := MatchDocumentWith(t1, t2, gold, []);
      MetricsOf(|m.tp|, |m.fp|, |m.fn|) == Metrics(0.0, 0.0, 0.0)
      && |m.fn| == |gold|
  {
    MatchDocumentWithoutPredictions(t1, t2, gold);
  }
}

=== FILE: pystr.dfy ===
/** The Python `str` operations the modelled scripts rely on. A `string` is a
    sequence of Unicode scalar values, which matches Python's code points, so
    `|s|` is Python's `len(s)` and `<` on `char` is Python's code-point order. */
module PyStr {
  import opened Wrappers

  /** Python's `str.isspace` on a single character. */
  predicate IsSpace(c: char) {
    || c == ' '
    || ('\t' <= c <= '\r')
    || ('\U{1c}' <= c <= '\U{1f}')
    || c == '\U{85}' || c == '\U{a0}' || c == '\U{1680}'
    || ('\U{2000}' <= c <= '\U{200a}')
    || c == '\U{2028}' || c == '\U{2029}' || c == '\U{202f}' || c == '\U{205f}' || c == '\U{3000}'
  }

  /** `s` neither starts nor ends with whitespace. */
  predicate NoEdgeSpace(s: string) {
    |s| == 0 || (!IsSpace(s[0]) && !IsSpace(s[|s| - 1]))
  }

  /** `s.lstrip()`: the suffix left after removing leading whitespace. */
  function LStrip(s: string): (r: string)
    ensures |r| <= |s| && r == s[|s| - |r|..]
    ensures forall k :: 0 <= k < |s| - |r| ==> IsSpace(s[k])
    ensures |r| == 0 || !IsSpace(r[0])
  {
    if |s| > 0 && IsSpace(s[0]) then LStrip(s[1..]) else s
  }

  /** `s.rstrip()`: the prefix left after removing trailing whitespace. */
  function RStrip(s: string): (r: string)
    ensures |r| <= |s| && r == s[..|r|]
    ensures forall k :: |r| <= k < |s| ==> IsSpace(s[k])
    ensures |r| == 0 || !IsSpace(r[|r| - 1])
  {
    if |s| > 0 && IsSpace(s[|s| - 1]) then RStrip(s[..|s| - 1]) else s
  }

  /** `s.strip()` */
  function Strip(s: string): (r: string)
    ensures NoEdgeSpace(r)
    ensures |r| <= |s|
    ensures NoEdgeSpace(s) ==> r == s
  {
    LStrip(RStrip(s))
  }

  /** `s.rstrip(c)` for a one-character argument. */
  function RStripChar(s: string, c: char): (r: string)
    ensures |r| <= |s| && r == s[..|r|]
    ensures forall k :: |r| <= k < |s| ==> s[k] == c
    ensures |r| == 0 || r[|r| - 1] != c
  {
    if |s| > 0 && s[|s| - 1] == c then RStripChar(s[..|s| - 1], c) else s
  }

  /** A blank line strips to nothing. */
  lemma StripNewline()
    ensures Strip("\n") == ""
  {
    var nl := "\n";
    assert IsSpace(nl[0]) && nl[..0] == "";
    assert RStrip(nl) == RStrip("");
  }

  /** Stripping a line that ends in a newline and whose body has no edge
      whitespace gives back the body. */
  lemma StripLine(body: string)
    requires NoEdgeSpace(body)
    ensures Strip(body + "\n") == body
  {
    var s := body + "\n";
    assert s[..|s| - 1] == body;
    assert RStrip(s) == RStrip(body);
  }

  /** `sep.join(parts)` */
  function JoinOn(parts: seq<string>, sep: string): string {
    if |parts| == 0 then ""
    else if |parts| == 1 then parts[0]
    else parts[0] + sep + JoinOn(parts[1..], sep)
  }

  /** `s.split(sep)` for a non-empty separator: occurrences are found left to
      right without overlap; the result always has at least one piece and
      joining the pieces with `sep` gives `s` back. */
  function SplitOn(s: string, sep: string): (r: seq<string>)
    requires |sep| > 0
    ensures |r| >= 1
    ensures JoinOn(r, sep) == s
    decreases |s|
  {
    if |s| < |sep| then [s]
    else if s[..|sep|] == sep then
      var rest := SplitOn(s[|sep|..], sep);
      assert JoinOn([""] + rest, sep) == "" + sep + JoinOn(rest, sep);
      [""] + rest
    else
      var rest := SplitOn(s[1..], sep);
      var r := [[s[0]] + rest[0]] + rest[1..];
      assert |rest| > 1 ==> JoinOn(rest, sep) == rest[0] + sep + JoinOn(rest[1..], sep);
      assert |rest| > 1 ==> JoinOn(r, sep) == ([s[0]] + rest[0]) + sep + JoinOn(rest[1..], sep) by {
        if |rest| > 1 {
          assert r[1..] == rest[1..];
        }
      }
      r
  }

  lemma {:induction false} SplitOnPrefix(a: string, sep: string, rest: string)
    requires |sep| > 0 && sep[0] !in a
    ensures SplitOn(a + sep + rest, sep) == [a] + SplitOn(rest, sep)
    decreases |a|
  {
    var s := a + sep + rest;
    if |a| == 0 {
      assert s == sep + rest;
      assert s[..|sep|] == sep;
      assert s[|sep|..] == rest;
    } else {
      assert s[0] == a[0];
      assert s[..|sep|][0] != sep[0];
      assert s[1..] == a[1..] + sep + rest;
      SplitOnPrefix(a[1..], sep, rest);
      assert [s[0]] + a[1..] == a;
    }
  }

  lemma {:induction false} SplitOnNoSep(a: string, sep: string)
    requires |sep| > 0 && sep[0] !in a
    ensures SplitOn(a, sep) == [a]
    decreases |a|
  {
    if |a| >= |sep| {
      assert a[..|sep|][0] != sep[0];
      SplitOnNoSep(a[1..], sep);
      assert [a[0]] + a[1..] == a;
    }
  }

  /** Splitting a join gives back the parts when no part contains the first
      character of the separator. */
  lemma {:induction false} SplitOnJoinOn(parts: seq<string>, sep: string)
    requires |sep| > 0 && |parts| >= 1
    requires forall p :: p in parts ==> sep[0] !in p
    ensures SplitOn(JoinOn(parts, sep), sep) == parts
    decreases |parts|
  {
    if |parts| == 1 {
      SplitOnNoSep(parts[0], sep);
    } else {
      assert parts[0] in parts;
      SplitOnJoinOn(parts[1..], sep);
      SplitOnPrefix(parts[0], sep, JoinOn(parts[1..], sep));
      assert [parts[0]] + parts[1..] == parts;
    }
  }

  /** Splitting on a single character leaves that character in no piece. */
  lemma {:induction false} SplitOnCharPieces(s: string, d: char)
    ensures forall p :: p in SplitOn(s, [d]) ==> d !in p
    decreases |s|
  {
    if |s| >= 1 {
      if s[..1] == [d] {
        SplitOnCharPieces(s[1..], d);
      } else {
        SplitOnCharPieces(s[1..], d);
        var rest := SplitOn(s[1..], [d]);
        assert s[0] != d;
        assert d !in [s[0]] + rest[0] by { assert rest[0] in rest; }
        assert forall p :: p in rest[1..] ==> p in rest;
      }
    }
  }

  /** Longest prefix of `s` free of whitespace. */
  function Word(s: string): (w: string)
    ensures |w| <= |s| && w == s[..|w|]
    ensures forall k :: 0 <= k < |w| ==> !IsSpace(w[k])
    ensures |w| == |s| || IsSpace(s[|w|])
  {
    if |s| == 0 || IsSpace(s[0]) then "" else [s[0]] + Word(s[1..])
  }

  /** `s.split()` with no argument: maximal runs of non-whitespace. */
  function SplitWs(s: string): (r: seq<string>)
    decreases |s|
  {
    var t := LStrip(s);
    if |t| == 0 then []
    else
      var w := Word(t);
      assert |w| > 0 by { assert !IsSpace(t[0]); }
      var rest := SplitWs(t[|w|..]);
      [w] + rest
  }

  predicate NoSpace(s: string) {
    forall k :: 0 <= k < |s| ==> !IsSpace(s[k])
  }

  /** `c.lower()` for ASCII and Latin-1 upper-case letters; any other
      character is returned unchanged. */
  function LowerChar(c: char): char {
    if 'A' <= c <= 'Z' || ('\U{c0}' <= c <= '\U{de}' && c != '\U{d7}') then (c as int + 32) as char else c
  }

  /** `s.lower()` (see LowerChar for the characters covered). */
  function Lower(s: string): (r: string)
    ensures |r| == |s|
  {
    seq(|s|, k requires 0 <= k < |s| => LowerChar(s[k]))
  }

  predicate StartsWith(s: string, p: string) {
    |p| <= |s| && s[..|p|] == p
  }

  predicate EndsWith(s: string, p: string) {
    |p| <= |s| && s[|s| - |p|..] == p
  }

  /** Python's `p in s` on strings. */
  predicate Contains(s: string, p: string) {
    exists i :: 0 <= i <= |s| - |p| && OccursAt(s, p, i)
  }

  predicate OccursAt(s: string, p: string, i: int) {
    0 <= i && i + |p| <= |s| && s[i..i + |p|] == p
  }

  /** `s.removesuffix(p)` */
  function RemoveSuffix(s: string, p: string): (r: string)
    ensures EndsWith(s, p) ==> r + p == s
    ensures !EndsWith(s, p) ==> r == s
  {
    if EndsWith(s, p) then s[..|s| - |p|] else s
  }

  /** Python's normalisation of a slice bound against a length. */
  function ClampIndex(i: int, n: nat): (k: nat)
    ensures k <= n
    ensures 0 <= i <= n ==> k == i
  {
    if i < 0 then (if i + n < 0 then 0 else i + n) else if i > n then n else i
  }

  /** `s[i:j]` with Python's negative-index and clamping rules. */
  function Slice(s: string, i: int, j: int): (r: string)
    ensures 0 <= i <= j <= |s| ==> r == s[i..j]
    ensures |r| <= |s|
  {
    var a := ClampIndex(i, |s|);
    var b := ClampIndex(j, |s|);
    if a < b then s[a..b] else ""
  }

  // ---------------------------------------------------------------- integers

  predicate IsDigit(c: char) {
    '0' <= c <= '9'
  }

  predicate AllDigits(s: string) {
    forall k :: 0 <= k < |s| ==> IsDigit(s[k])
  }

  function DigitChar(d: nat): (c: char)
    requires d < 10
    ensures IsDigit(c) && c as int - '0' as int == d
  {
    ('0' as int + d) as char
  }

  /** Decimal value of a string of ASCII digits (most significant first). */
  function DigitsValue(s: string): nat
    requires AllDigits(s)
  {
    if |s| == 0 then 0 else 10 * DigitsValue(s[..|s| - 1]) + (s[|s| - 1] as int - '0' as int)
  }

  /** `str(n)` for a natural number. */
  function ShowNat(n: nat): (r: string)
    ensures |r| > 0 && AllDigits(r)
    ensures DigitsValue(r) == n
  {
    if n < 10 then [DigitChar(n)]
    else
      var r := ShowNat(n / 10) + [DigitChar(n % 10)];
      assert r[..|r| - 1] == ShowNat(n / 10);
      r
  }

  /** `str(i)` / `f'{i}'` for an integer. */
  function ShowInt(i: int): (r: string)
    ensures |r| > 0 && NoEdgeSpace(r)
  {
    if i < 0 then "-" + ShowNat(-i) else ShowNat(i)
  }

  /** `int(s)`: optional surrounding whitespace, an optional sign, then one
      or more ASCII digits; anything else raises ValueError (None here). */
  function ParseInt(s: string): Option<int> {
    var t := Strip(s);
    if |t| > 0 && (t[0] == '-' || t[0] == '+') then
      var d := t[1..];
      if |d| > 0 && AllDigits(d) then
        var v: int := DigitsValue(d);
        Some(if t[0] == '-' then -v else v)
      else None
    else if |t| > 0 && AllDigits(t) then Some(DigitsValue(t))
    else None
  }

  /** `int(str(i)) == i` */
  lemma ParseShowInt(i: int)
    ensures ParseInt(ShowInt(i)) == Some(i)
  {
    var r := ShowInt(i);
    assert Strip(r) == r;
    if i < 0 {
      assert r[1..] == ShowNat(-i);
    } else {
      assert IsDigit(r[0]);
    }
  }

  // ------------------------------------------------------------------- lines

  /** Writing a list of strings to a file, one after the other. */
  function Concat(ls: seq<string>): string {
    if |ls| == 0 then "" else ls[0] + Concat(ls[1..])
  }

  /** One newline-terminated line with no other newline in it. */
  predicate IsLine(l: string) {
    |l| > 0 && l[|l| - 1] == '\n' && '\n' !in l[..|l| - 1]
  }

  predicate AllLines(ls: seq<string>) {
    forall k :: 0 <= k < |ls| ==> IsLine(ls[k])
  }

  lemma AllLinesAppend(a: seq<string>, b: seq<string>)
    requires AllLines(a) && AllLines(b)
    ensures AllLines(a + b)
  {
    forall k | 0 <= k < |a + b|
      ensures IsLine((a + b)[k])
    {
      if k >= |a| {
        assert (a + b)[k] == b[k - |a|];
      }
    }
  }

  /** Pieces as `readlines` cuts them: none is empty, a newline can only be
      a piece's last character, and every piece but the last ends in one. */
  predicate LineCut(r: seq<string>) {
    && (forall k :: 0 <= k < |r| ==> |r[k]| > 0 && '\n' !in r[k][..|r[k]| - 1])
    && (forall k :: 0 <= k < |r| - 1 ==> r[k][|r[k]| - 1] == '\n')
  }

  lemma ConsParts<T>(x: T, s: seq<T>)
    ensures ([x] + s)[0] == x && ([x] + s)[1..] == s
  {
  }

  lemma LineCutNewline(rest: seq<string>)
    requires LineCut(rest)
    ensures LineCut(["\n"] + rest)
  {
    var r := ["\n"] + rest;
    assert forall k :: 1 <= k < |r| ==> r[k] == rest[k - 1];
  }

  lemma LineCutExtend(c: char, rest: seq<string>)
    requires c != '\n' && LineCut(rest) && |rest| > 0
    ensures LineCut([[c] + rest[0]] + rest[1..])
  {
    var first := [c] + rest[0];
    var r := [first] + rest[1..];
    assert first[..|first| - 1] == [c] + rest[0][..|rest[0]| - 1];
    assert forall k :: 1 <= k < |r| ==> r[k] == rest[k];
  }

  /** The lines Python yields when iterating over a text file whose
      contents are `t` (newlines already translated to '\n'): each line keeps
      its '\n', and the last one may lack it. */
  function ReadLines(t: string): (r: seq<string>)
    ensures Concat(r) == t
    ensures LineCut(r)
    decreases |t|
  {
    if |t| == 0 then []
    else if t[0] == '\n' then
      var rest := ReadLines(t[1..]);
      ConsParts("\n", rest);
      LineCutNewline(rest);
      ["\n"] + rest
    else
      var rest := ReadLines(t[1..]);
      if |rest| == 0 then [t[..1]]
      else
        var first := [t[0]] + rest[0];
        ConsParts(first, rest[1..]);
        ConsParts(rest[0], rest[1..]);
        LineCutExtend(t[0], rest);
        [first] + rest[1..]
  }

  lemma {:induction false} ReadLinesPrefix(a: string, rest: string)
    requires '\n' !in a
    ensures ReadLines(a + "\n" + rest) == [a + "\n"] + ReadLines(rest)
    decreases |a|
  {
    var t := a + "\n" + rest;
    if |a| == 0 {
      assert t[1..] == rest;
    } else {
      assert t[0] == a[0];
      assert t[1..] == a[1..] + "\n" + rest;
      ReadLinesPrefix(a[1..], rest);
      assert [t[0]] + (a[1..] + "\n") == a + "\n";
    }
  }

  /** Reading back a file written as newline-terminated lines yields exactly
      those lines. */
  lemma {:induction false} ReadLinesConcat(ls: seq<string>)
    requires AllLines(ls)
    ensures ReadLines(Concat(ls)) == ls
    decreases |ls|
  {
    if |ls| > 0 {
      var l := ls[0];
      assert IsLine(l);
      var body := l[..|l| - 1];
      assert l == body + "\n";
      ReadLinesConcat(ls[1..]);
      ReadLinesPrefix(body, Concat(ls[1..]));
      assert [l] + ls[1..] == ls;
    }
  }
}

=== FILE: sapbert_eval.dfy ===
/** The arithmetic and matching of the SapBERT evaluation: composite-code
    matching, the batch partition of the loss computation and the accuracy
    of the top-1 predictions. The embedding model, the miner and the loss
    are oracles. */
module SapbertEval {
  import opened Wrappers
  import opened PyStr
  import opened Seqs

  // ----------------------------------------------------------- check_label

  /** The codes of a possibly composite code: its '|'-separated parts. */
  function Parts(code: string): (r: set<string>)
    ensures forall p :: p in r <==> p in SplitOn(code, "|")
  {
    Elems(SplitOn(code, "|"))
  }

  /** `check_label`: 1 when the two codes share a part, else 0. */
  function CheckLabel(predicted: string, golden: string): (r: nat)
    ensures r == 0 || r == 1
    ensures r == 1 <==> exists p :: p in SplitOn(predicted, "|") && p in SplitOn(golden, "|")
  {
    var common := Parts(predicted) * Parts(golden);
    if |common| > 0 then
      var p :| p in common;
      assert p in SplitOn(predicted, "|") && p in SplitOn(golden, "|");
      1
    else
      assert forall p :: p in SplitOn(predicted, "|") && p in SplitOn(golden, "|") ==> p in common;
      0
  }

  /** Matching does not depend on which code is the prediction. */
  lemma CheckLabelSymmetric(a: string, b: string)
    ensures CheckLabel(a, b) == CheckLabel(b, a)
  {
    assert Parts(a) * Parts(b) == Parts(b) * Parts(a);
  }

  /** Every code matches itself, composite or not. */
  lemma CheckLabelReflexive(c: string)
    ensures CheckLabel(c, c) == 1
  {
    var ps := SplitOn(c, "|");
    assert ps[0] in ps;
  }

  /** A composite code written with its parts in another order, or with a
      part repeated, matches the same codes. */
  lemma CheckLabelOrderFree(ps: seq<string>, qs: seq<string>, golden: string)
    requires |ps| > 0 && |qs| > 0 && Elems(ps) == Elems(qs)
    requires forall p :: p in ps ==> '|' !in p
    ensures CheckLabel(JoinOn(ps, "|"), golden) == CheckLabel(JoinOn(qs, "|"), golden)
  {
    assert forall q :: q in qs ==> q in Elems(ps);
    SplitOnJoinOn(ps, "|");
    SplitOnJoinOn(qs, "|");
    assert Parts(JoinOn(ps, "|")) == Parts(JoinOn(qs, "|"));
  }

  /** A single code matches a composite one exactly when it is one of its
      parts. */
  lemma CheckLabelSingle(code: string, ps: seq<string>)
    requires |ps| > 0 && '|' !in code && forall p :: p in ps ==> '|' !in p
    ensures CheckLabel(code, JoinOn(ps, "|")) == 1 <==> code in ps
  {
    SplitOnJoinOn(ps, "|");
    SplitOnJoinOn([code], "|");
  }

  // ------------------------------------------------- calculate_loss_batch

  /** `(n + batch_size - 1) // batch_size`; a zero batch size raises. */
  function NumBatches(n: nat, size: nat): (r: Result<nat>)
    ensures r.Success? <==> size > 0
    ensures r.Success? ==> (r.value - 1) * size < n <= r.value * size || (n == 0 && r.value == 0)
  {
    if size == 0 then Failure("ZeroDivisionError: integer division by zero")
    else
      var k: nat := (n + size - 1) / size;
      DivBounds(n + size - 1, size);
      Success(k)
  }

  /** Batch `i`: `[i * size, min((i + 1) * size, n))`. */
  function Batch(i: nat, size: nat, n: nat): (b: (nat, nat)) {
    (i * size, if (i + 1) * size < n then (i + 1) * size else n)
  }

  function Batches(n: nat, size: nat): (bs: seq<(nat, nat)>)
    requires size > 0
  {
    var k := NumBatches(n, size).value;
    seq(k, i requires 0 <= i < k => Batch(i, size, n))
  }

  /** Floor division brackets its numerator. */
  lemma DivBounds(a: nat, b: nat)
    requires b > 0
    ensures (a / b) * b <= a < (a / b) * b + b
  {
  }

  lemma MulMono(a: nat, b: nat, s: nat)
    requires a <= b
    ensures a * s <= b * s
  {
    var d := b - a;
    assert b * s == a * s + d * s;
  }

  lemma MulSucc(a: nat, s: nat)
    ensures (a + 1) * s == a * s + s
  {
  }

  /** The facts about batch `i` the partition rests on. */
  lemma BatchFacts(n: nat, size: nat, i: nat)
    requires size > 0 && i < NumBatches(n, size).value
    ensures Batch(i, size, n).0 < Batch(i, size, n).1 <= n
    ensures Batch(i, size, n).1 == n || Batch(i, size, n).1 == Batch(i + 1, size, n).0
  {
    var k := NumBatches(n, size).value;
    MulMono(i, k - 1, size);
    MulSucc(i, size);
    MulSucc(k - 1, size);
  }

  /** The batches tile `[0, n)`: none is empty, each starts where the
      previous one ends, the first starts at 0 and the last ends at `n`; so
      they are pairwise disjoint and every index is in exactly one. */
  lemma BatchesPartition(n: nat, size: nat)
    requires size > 0
    ensures var bs := Batches(n, size);
      && (n == 0 <==> |bs| == 0)
      && (forall i :: 0 <= i < |bs| ==> bs[i].0 < bs[i].1 <= n)
      && (forall i :: 0 < i < |bs| ==> bs[i].0 == bs[i - 1].1)
      && (|bs| > 0 ==> bs[0].0 == 0 && bs[|bs| - 1].1 == n)
  {
    var bs := Batches(n, size);
    var k := |bs|;
    forall i | 0 <= i < k
      ensures bs[i].0 < bs[i].1 <= n
    {
      BatchFacts(n, size, i);
    }
    forall i | 0 < i < k
      ensures bs[i].0 == bs[i - 1].1
    {
      BatchFacts(n, size, i);
      BatchFacts(n, size, i - 1);
    }
    if k > 0 {
      MulSucc(k - 1, size);
    }
  }

  /** Each index below `n` lies in exactly one batch: the one numbered
      `x / size`. */
  lemma BatchOf(n: nat, size: nat, x: nat)
    requires size > 0 && x < n
    ensures var bs := Batches(n, size);
      && x / size < |bs| && bs[x / size].0 <= x < bs[x / size].1
      && forall i :: 0 <= i < |bs| && bs[i].0 <= x < bs[i].1 ==> i == x / size
  {
    var bs := Batches(n, size);
    var k := |bs|;
    var q := x / size;
    DivBounds(x, size);
    MulSucc(q, size);
    assert q < k by {
      if q >= k {
        MulMono(k, q, size);
      }
    }
    forall i | 0 <= i < k && bs[i].0 <= x < bs[i].1
      ensures i == q
    {
      MulSucc(i, size);
      if i < q {
        MulMono(i + 1, q, size);
      } else if i > q {
        MulMono(q + 1, i, size);
      }
    }
  }

  function SumReal(xs: seq<real>): (r: real) {
    if |xs| == 0 then 0.0 else xs[0] + SumReal(xs[1..])
  }

  /** The loss of every batch, in batch order. */
  function Losses(n: nat, size: nat, batchLoss: (nat, nat) -> real): (ls: seq<real>)
    requires size > 0
    ensures |ls| == |Batches(n, size)|
  {
    var bs := Batches(n, size);
    seq(|bs|, i requires 0 <= i < |bs| => batchLoss(bs[i].0, bs[i].1))
  }

  /** `calculate_loss_batch` with the mined loss of a batch given as
      `batchLoss(start, end)`: the mean over the batches; no batches (no
      embeddings) divides by zero. */
  function LossBatch(n: nat, size: nat, batchLoss: (nat, nat) -> real): (r: Result<real>)
    ensures r.Success? <==> size > 0 && n > 0
    ensures r.Success? ==> r.value * (|Batches(n, size)| as real) == SumReal(Losses(n, size, batchLoss))
  {
    var k :- NumBatches(n, size);
    if k == 0 then Failure("ZeroDivisionError: division by zero")
    else
      Success(SumReal(Losses(n, size, batchLoss)) / (k as real))
  }

  lemma {:induction false} SumRealConst(xs: seq<real>, c: real)
    requires forall i :: 0 <= i < |xs| ==> xs[i] == c
    ensures SumReal(xs) == (|xs| as real) * c
    decreases |xs|
  {
    if |xs| > 0 {
      SumRealConst(xs[1..], c);
    }
  }

  /** When every batch has the same loss, that is the mean. */
  lemma LossBatchConstant(n: nat, size: nat, batchLoss: (nat, nat) -> real, c: real)
    requires size > 0 && n > 0
    requires forall s, e :: batchLoss(s, e) == c
    ensures LossBatch(n, size, batchLoss) == Success(c)
  {
    var ls := Losses(n, size, batchLoss);
    LossesConstant(n, size, batchLoss, c);
    BatchesNonEmpty(n, size);
    var r := LossBatch(n, size, batchLoss);
    MulCancel(r.value, c, |ls| as real, SumReal(ls));
  }

  lemma LossesConstant(n: nat, size: nat, batchLoss: (nat, nat) -> real, c: real)
    requires size > 0
    requires forall s, e :: batchLoss(s, e) == c
    ensures SumReal(Losses(n, size, batchLoss)) == (|Losses(n, size, batchLoss)| as real) * c
  {
    var ls := Losses(n, size, batchLoss);
    forall i | 0 <= i < |ls|
      ensures ls[i] == c
    {
      var bs := Batches(n, size);
      assert ls[i] == batchLoss(bs[i].0, bs[i].1);
    }
    SumRealConst(ls, c);
  }

  lemma BatchesNonEmpty(n: nat, size: nat)
    requires size > 0 && n > 0
    ensures |Batches(n, size)| > 0
  {
    BatchesPartition(n, size);
  }

  lemma MulCancel(x: real, c: real, k: real, t: real)
    requires k > 0.0 && x * k == t && t == k * c
    ensures x == c
  {
    assert (x - c) * k == 0.0;
  }

  // --------------------------------------------------- predict_and_evaluate

  /** One prediction record. */
  datatype Prediction = Prediction(text: string, goldenCui: string, candidateName: string, candidateLabel: string, correct: nat)

  /** The prediction loop, with the top-1 retrieval over the complete
      dictionary given as `retrieve(text)`; an index past the dictionary
      raises. */
  function Predict(queries: seq<(string, string)>, dict: seq<(string, string)>, retrieve: string -> nat): (r: Result<seq<Prediction>>)
    ensures r.Success? <==> forall k :: 0 <= k < |queries| ==> retrieve(queries[k].0) < |dict|
    ensures r.Success? ==> |r.value| == |queries| && forall k :: 0 <= k < |queries| ==>
      var cand := dict[retrieve(queries[k].0)];
      r.value[k] == Prediction(queries[k].0, queries[k].1, cand.0, cand.1, CheckLabel(cand.1, queries[k].1))
  {
    if exists k :: 0 <= k < |queries| && retrieve(queries[k].0) >= |dict| then
      Failure("IndexError: index out of range")
    else
      Success(seq(|queries|, k requires 0 <= k < |queries| =>
        var cand := dict[retrieve(queries[k].0)];
        Prediction(queries[k].0, queries[k].1, cand.0, cand.1, CheckLabel(cand.1, queries[k].1))))
  }

  /** The number of correct predictions. */
  function Correct(ps: seq<Prediction>): (c: nat)
    ensures c <= |ps|
  {
    if |ps| == 0 then 0 else (if ps[0].correct == 1 then 1 else 0) + Correct(ps[1..])
  }

  /** `sum(correct) / len(predictions)`; no queries divides by zero. */
  function Accuracy(ps: seq<Prediction>): (r: Result<real>)
    requires forall k :: 0 <= k < |ps| ==> ps[k].correct <= 1
    ensures r.Success? <==> |ps| > 0
    ensures r.Success? ==> 0.0 <= r.value <= 1.0
    ensures r.Success? ==> r.value * (|ps| as real) == Correct(ps) as real
  {
    if |ps| == 0 then Failure("ZeroDivisionError: division by zero")
    else
      Fraction(Correct(ps) as real, |ps| as real);
      Success((Correct(ps) as real) / (|ps| as real))
  }

  /** A part over its whole lies in [0, 1] and multiplies back. */
  lemma Fraction(a: real, b: real)
    requires 0.0 <= a <= b && b > 0.0
    ensures 0.0 <= a / b <= 1.0 && (a / b) * b == a
  {
  }

  lemma {:induction false} CorrectAll(ps: seq<Prediction>)
    requires forall k :: 0 <= k < |ps| ==> ps[k].correct <= 1
    ensures Correct(ps) == |ps| <==> forall k :: 0 <= k < |ps| ==> ps[k].correct == 1
    decreases |ps|
  {
    if |ps| > 0 {
      CorrectAll(ps[1..]);
      assert forall k :: 1 <= k < |ps| ==> ps[1..][k - 1] == ps[k];
    }
  }

  /** The accuracy is 1 exactly when every prediction is correct. */
  lemma AccuracyOne(ps: seq<Prediction>)
    requires |ps| > 0 && forall k :: 0 <= k < |ps| ==> ps[k].correct <= 1
    ensures Accuracy(ps) == Success(1.0) <==> forall k :: 0 <= k < |ps| ==> ps[k].correct == 1
  {
    var n := |ps| as real;
    CorrectAll(ps);
    var acc := Accuracy(ps).value;
    if acc == 1.0 {
      assert Correct(ps) as real == n;
    }
    if Correct(ps) == |ps| {
      assert acc * n == 1.0 * n;
    }
  }

  /** The accuracy is 1 exactly when every retrieved code shares a part
      with the gold code; in particular when retrieval returns the gold
      code itself. */
  lemma PerfectAccuracy(queries: seq<(string, string)>, dict: seq<(string, string)>, retrieve: string -> nat)
    requires |queries| > 0 && Predict(queries, dict, retrieve).Success?
    ensures var ps := Predict(queries, dict, retrieve).value;
      Accuracy(ps) == Success(1.0) <==> forall k :: 0 <= k < |queries| ==> CheckLabel(dict[retrieve(queries[k].0)].1, queries[k].1) == 1
    ensures (forall k :: 0 <= k < |queries| ==> dict[retrieve(queries[k].0)].1 == queries[k].1) ==>
      Accuracy(Predict(queries, dict, retrieve).value) == Success(1.0)
  {
    var ps := Predict(queries, dict, retrieve).value;
    assert forall k :: 0 <= k < |queries| ==> ps[k].correct == CheckLabel(dict[retrieve(queries[k].0)].1, queries[k].1);
    AccuracyOne(ps);
    forall k | 0 <= k < |queries|
      ensures CheckLabel(queries[k].1, queries[k].1) == 1
    {
      CheckLabelReflexive(queries[k].1);
    }
  }
}

=== FILE: sapbert_parse.dfy ===
/** The SapBERT file builders for SympTEMIST: the pair training file, the
    `code||entity` validation/test file, and the two dictionary files
    (complete, and restricted to the codes of the test file), over the
    lines the input files yield. */
module SapbertParse {
  import opened Wrappers
  import opened PyStr
  import opened Seqs
  import opened CodeMaps
  import AugmentEl

  /** The code of mentions that have no normalisation; it gets no pairs. */
  const NoCode: string := "NO_CODE"

  /** The code column's header value. */
  const HeaderCode: string := "code"

  /** A code with one of its names. */
  datatype Entry = Entry(code: string, entity: string)

  /** `f'{code}||{entity}\n'`, the line of the simple training parsing, the
      test file and the dictionaries. */
  function EntryLine(e: Entry): string {
    e.code + "||" + e.entity + "\n"
  }

  function EntryLines(es: seq<Entry>): (r: seq<string>)
    ensures |r| == |es|
    ensures forall k :: 0 <= k < |es| ==> r[k] == EntryLine(es[k])
  {
    seq(|es|, k requires 0 <= k < |es| => EntryLine(es[k]))
  }

  function EntryCodes(es: seq<Entry>): (r: seq<string>)
    ensures |r| == |es|
    ensures forall k :: 0 <= k < |es| ==> r[k] == es[k].code
  {
    seq(|es|, k requires 0 <= k < |es| => es[k].code)
  }

  // --------------------------------------------------- build_training_file

  /** One line of the training TSV: the header, a mention, or a line with
      fewer than six fields, on which indexing raises. */
  datatype TrainLine = TrainHeader | TrainEntry(e: Entry) | TooShort

  /** `split_line = line.strip().split('\t')`, then entity = field 4
      lower-cased and code = field 5. */
  function ClassifyTrain(line: string): TrainLine {
    var f := SplitOn(Strip(line), "\t");
    if |f| < 6 then TooShort
    else if f[5] == HeaderCode then TrainHeader
    else TrainEntry(Entry(f[5], Lower(f[4])))
  }

  function ClassifyTrainLines(lines: seq<string>): (r: seq<TrainLine>)
    ensures |r| == |lines|
    ensures forall k :: 0 <= k < |lines| ==> r[k] == ClassifyTrain(lines[k])
  {
    seq(|lines|, k requires 0 <= k < |lines| => ClassifyTrain(lines[k]))
  }

  /** Reference: the mentions, in file order. */
  function TrainEntries(ks: seq<TrainLine>): seq<Entry> {
    if |ks| == 0 then []
    else (if ks[0].TrainEntry? then [ks[0].e] else []) + TrainEntries(ks[1..])
  }

  /** Reference: the names of code `c`, one per mention, in file order. */
  function EntitiesOf(es: seq<Entry>, c: string): seq<string> {
    if |es| == 0 then []
    else (if es[0].code == c then [es[0].entity] else []) + EntitiesOf(es[1..], c)
  }

  lemma {:induction false} EntitiesOfAppend(a: seq<Entry>, b: seq<Entry>, c: string)
    ensures EntitiesOf(a + b, c) == EntitiesOf(a, c) + EntitiesOf(b, c)
    decreases |a|
  {
    if |a| == 0 {
      assert a + b == b;
    } else {
      assert (a + b)[0] == a[0] && (a + b)[1..] == a[1..] + b;
      EntitiesOfAppend(a[1..], b, c);
    }
  }

  lemma {:induction false} EntitiesOfAbsent(es: seq<Entry>, c: string)
    requires c !in EntryCodes(es)
    ensures EntitiesOf(es, c) == []
    decreases |es|
  {
    if |es| > 0 {
      assert EntryCodes(es)[0] == es[0].code;
      assert forall k :: 0 <= k < |es| - 1 ==> EntryCodes(es[1..])[k] == EntryCodes(es)[k + 1];
      EntitiesOfAbsent(es[1..], c);
    }
  }

  /** The grouping loop: a code seen for the first time gets a new entry,
      otherwise the name is added to its entry. */
  function GroupEntries(es: seq<Entry>): CodeMap {
    if |es| == 0 then []
    else
      var x := es[|es| - 1];
      Extend(GroupEntries(es[..|es| - 1]), x.code, [x.entity])
  }

  lemma {:induction false} GroupEntriesKeys(es: seq<Entry>)
    ensures Keys(GroupEntries(es)) == FirstOccurrences(EntryCodes(es))
    decreases |es|
  {
    if |es| > 0 {
      var p := es[..|es| - 1];
      var x := es[|es| - 1];
      assert EntryCodes(es)[..|es| - 1] == EntryCodes(p);
      GroupEntriesKeys(p);
      GetSome(GroupEntries(p), x.code);
      ExtendFacts(GroupEntries(p), x.code, [x.entity]);
      assert x.code in EntryCodes(p) <==> x.code in Keys(GroupEntries(p)) by {
        DedupIsFirstOccurrences(EntryCodes(p));
        DedupFacts(EntryCodes(p));
        assert Elems(EntryCodes(p)) == Elems(Keys(GroupEntries(p)));
      }
    }
  }

  lemma {:induction false} GroupEntriesGet(es: seq<Entry>, c: string)
    ensures Get(GroupEntries(es), c) == if c in EntryCodes(es) then Some(EntitiesOf(es, c)) else None
    decreases |es|
  {
    if |es| > 0 {
      var p := es[..|es| - 1];
      var x := es[|es| - 1];
      var g := GroupEntries(p);
      LastSplit(es);
      GroupEntriesGet(p, c);
      ExtendFacts(g, x.code, [x.entity]);
      assert EntryCodes(es) == EntryCodes(p) + [x.code];
      EntitiesOfAppend(p, [x], c);
      if c == x.code {
        assert EntitiesOf([x], c) == [x.entity];
        if c !in EntryCodes(p) {
          EntitiesOfAbsent(p, c);
          assert GetOr(g, c) == [];
        } else {
          assert GetOr(g, c) == EntitiesOf(p, c);
        }
      } else {
        assert EntitiesOf([x], c) == [];
        assert EntitiesOf(es, c) == EntitiesOf(p, c) + [];
        assert EntitiesOf(p, c) + [] == EntitiesOf(p, c);
        assert c in EntryCodes(es) <==> c in EntryCodes(p);
      }
    }
  }

  /** The writing loop: the pairs of every code but NO_CODE, in dictionary
      order. */
  function PairRows(m: CodeMap): seq<AugmentEl.Row> {
    if |m| == 0 then []
    else (if m[0].0 == NoCode then [] else AugmentEl.PairsOf(m[0].0, m[0].1)) + PairRows(m[1..])
  }

  /** The rows of one code. */
  function RowsWithCode(rows: seq<AugmentEl.Row>, c: string): (r: seq<AugmentEl.Row>)
    ensures forall row :: row in r <==> row in rows && row.code == c
  {
    if |rows| == 0 then []
    else
      var rest := RowsWithCode(rows[1..], c);
      assert forall row :: row in rows <==> row == rows[0] || row in rows[1..];
      (if rows[0].code == c then [rows[0]] else []) + rest
  }

  lemma {:induction false} RowsWithCodeAppend(a: seq<AugmentEl.Row>, b: seq<AugmentEl.Row>, c: string)
    ensures RowsWithCode(a + b, c) == RowsWithCode(a, c) + RowsWithCode(b, c)
    decreases |a|
  {
    if |a| == 0 {
      assert a + b == b;
    } else {
      assert (a + b)[0] == a[0] && (a + b)[1..] == a[1..] + b;
      RowsWithCodeAppend(a[1..], b, c);
    }
  }

  lemma {:induction false} RowsWithCodeAll(rows: seq<AugmentEl.Row>, c: string, d: string)
    requires forall k :: 0 <= k < |rows| ==> rows[k].code == d
    ensures RowsWithCode(rows, c) == if c == d then rows else []
    decreases |rows|
  {
    if |rows| > 0 {
      RowsWithCodeAll(rows[1..], c, d);
      if c == d {
        assert [rows[0]] + rows[1..] == rows;
      }
    }
  }

  /** The rows of code `c` in the training file are exactly the pairs of
      its names, and NO_CODE has none. */
  lemma {:induction false} PairRowsFor(m: CodeMap, c: string)
    requires Distinct(Keys(m))
    ensures RowsWithCode(PairRows(m), c) == if c == NoCode then [] else AugmentEl.PairsOf(c, GetOr(m, c))
    decreases |m|
  {
    if |m| > 0 {
      var d := m[0].0;
      var own := if d == NoCode then [] else AugmentEl.PairsOf(d, m[0].1);
      KeysTail(m);
      PairRowsFor(m[1..], c);
      RowsWithCodeAppend(own, PairRows(m[1..]), c);
      RowsWithCodeAll(own, c, d);
      if c == d {
        assert GetOr(m[1..], c) == [];
        assert RowsWithCode(own, c) + [] == RowsWithCode(own, c);
      } else {
        assert GetOr(m, c) == GetOr(m[1..], c);
      }
    }
  }

  /** Every selected line has at least six fields. */
  predicate TrainReadable(lines: seq<string>) {
    forall k :: 0 <= k < |lines| ==> !ClassifyTrain(lines[k]).TooShort?
  }

  /** What `build_training_file` produces: the pair rows of the training
      file, the simple parsing lines, and the code-to-names dictionary. */
  datatype TrainingFiles = TrainingFiles(pairs: seq<AugmentEl.Row>, simple: seq<string>, groups: CodeMap)

  /** `build_training_file` over the selected lines: it raises unless every
      line has at least six fields; the simple parsing keeps one line per
      mention, in order, duplicates and NO_CODE included; the dictionary
      holds each code once, in order of first appearance, with its distinct
      names (the order of a Python set is fixed here to first appearance);
      the pair rows come from that dictionary. */
  function BuildTrainingFile(lines: seq<string>): (r: Result<TrainingFiles>)
    ensures r.Success? <==> TrainReadable(lines)
    ensures r.Success? ==>
      var es := TrainEntries(ClassifyTrainLines(lines));
      && r.value.simple == EntryLines(es)
      && Keys(r.value.groups) == FirstOccurrences(EntryCodes(es))
      && Distinct(Keys(r.value.groups))
      && (forall c :: Get(r.value.groups, c) == if c in EntryCodes(es) then Some(Dedup(EntitiesOf(es, c))) else None)
      && r.value.pairs == PairRows(r.value.groups)
  {
    if !TrainReadable(lines) then
      Failure("IndexError: a line has fewer than six fields")
    else
      var es := TrainEntries(ClassifyTrainLines(lines));
      var g := GroupEntries(es);
      GroupEntriesKeys(es);
      forall c
        ensures Get(g, c) == if c in EntryCodes(es) then Some(EntitiesOf(es, c)) else None
      {
        GroupEntriesGet(es, c);
      }
      DedupIsFirstOccurrences(EntryCodes(es));
      DedupFacts(EntryCodes(es));
      var groups := DedupValues(g);
      Success(TrainingFiles(PairRows(groups), EntryLines(es), groups))
  }

  /** The rows written for one code pair two different names of it. */
  lemma PairsOfDistinct(c: string, names: seq<string>)
    requires Distinct(names)
    ensures forall row :: row in AugmentEl.PairsOf(c, names) ==> row.code == c && row.e1 != row.e2 && row.e1 in names && row.e2 in names
  {
    AugmentEl.PairsOfExact(c, names);
    forall row | row in AugmentEl.PairsOf(c, names)
      ensures row.code == c && row.e1 != row.e2 && row.e1 in names && row.e2 in names
    {
      var i, j :| 0 <= i < j < |names| && row == AugmentEl.Row(c, names[i], names[j]);
    }
  }

  /** Every two different names of a code are paired, in one order. */
  lemma PairsOfCover(c: string, names: seq<string>)
    ensures forall a, b :: a in names && b in names && a != b ==>
      AugmentEl.Row(c, a, b) in AugmentEl.PairsOf(c, names) || AugmentEl.Row(c, b, a) in AugmentEl.PairsOf(c, names)
  {
    AugmentEl.PairsOfExact(c, names);
    forall a, b | a in names && b in names && a != b
      ensures AugmentEl.Row(c, a, b) in AugmentEl.PairsOf(c, names) || AugmentEl.Row(c, b, a) in AugmentEl.PairsOf(c, names)
    {
      var i :| 0 <= i < |names| && names[i] == a;
      var j :| 0 <= j < |names| && names[j] == b;
      if j < i {
        assert AugmentEl.Row(c, names[j], names[i]) in AugmentEl.PairsOf(c, names);
      }
    }
  }

  /** In the pair rows of a dictionary holding, for each code, the distinct
      names of its mentions, the rows of code `c` are the pairs of its
      distinct names. */
  lemma GroupPairsOwn(es: seq<Entry>, groups: CodeMap, c: string)
    requires Distinct(Keys(groups))
    requires forall c :: Get(groups, c) == if c in EntryCodes(es) then Some(Dedup(EntitiesOf(es, c))) else None
    ensures RowsWithCode(PairRows(groups), c) == if c == NoCode then [] else AugmentEl.PairsOf(c, Dedup(EntitiesOf(es, c)))
    ensures Distinct(Dedup(EntitiesOf(es, c)))
    ensures |Dedup(EntitiesOf(es, c))| == |Elems(EntitiesOf(es, c))|
    ensures forall x :: x in Dedup(EntitiesOf(es, c)) <==> x in EntitiesOf(es, c)
  {
    var names := Dedup(EntitiesOf(es, c));
    DedupFacts(EntitiesOf(es, c));
    DistinctCard(names);
    assert forall x :: x in names <==> x in EntitiesOf(es, c) by {
      assert forall x :: x in names <==> x in Elems(names);
      assert forall x :: x in EntitiesOf(es, c) <==> x in Elems(EntitiesOf(es, c));
    }
    PairRowsFor(groups, c);
    assert GetOr(groups, c) == names by {
      if c !in EntryCodes(es) {
        EntitiesOfAbsent(es, c);
      }
    }
  }

  lemma GroupPairsCount(es: seq<Entry>, groups: CodeMap, c: string)
    requires Distinct(Keys(groups))
    requires forall c :: Get(groups, c) == if c in EntryCodes(es) then Some(Dedup(EntitiesOf(es, c))) else None
    ensures 2 * |RowsWithCode(PairRows(groups), c)| ==
      (if c == NoCode then 0 else |Elems(EntitiesOf(es, c))| * (|Elems(EntitiesOf(es, c))| - 1))
  {
    GroupPairsOwn(es, groups, c);
    if c != NoCode {
      AugmentEl.PairsOfCount(c, Dedup(EntitiesOf(es, c)));
    }
  }

  lemma GroupPairsSound(es: seq<Entry>, groups: CodeMap, c: string)
    requires Distinct(Keys(groups))
    requires forall c :: Get(groups, c) == if c in EntryCodes(es) then Some(Dedup(EntitiesOf(es, c))) else None
    ensures forall row :: row in PairRows(groups) && row.code == c ==>
      row.e1 != row.e2 && row.e1 in EntitiesOf(es, c) && row.e2 in EntitiesOf(es, c)
  {
    GroupPairsOwn(es, groups, c);
    PairsOfDistinct(c, Dedup(EntitiesOf(es, c)));
    forall row | row in PairRows(groups) && row.code == c
      ensures row in RowsWithCode(PairRows(groups), c)
    {
    }
  }

  lemma GroupPairsComplete(es: seq<Entry>, groups: CodeMap, c: string)
    requires Distinct(Keys(groups))
    requires forall c :: Get(groups, c) == if c in EntryCodes(es) then Some(Dedup(EntitiesOf(es, c))) else None
    ensures forall a, b :: c != NoCode && a in EntitiesOf(es, c) && b in EntitiesOf(es, c) && a != b ==>
      AugmentEl.Row(c, a, b) in PairRows(groups) || AugmentEl.Row(c, b, a) in PairRows(groups)
  {
    GroupPairsOwn(es, groups, c);
    PairsOfCover(c, Dedup(EntitiesOf(es, c)));
  }

  lemma GroupPairs(es: seq<Entry>, groups: CodeMap, c: string)
    requires Distinct(Keys(groups))
    requires forall c :: Get(groups, c) == if c in EntryCodes(es) then Some(Dedup(EntitiesOf(es, c))) else None
    ensures var pairs := PairRows(groups);
      var n := |Elems(EntitiesOf(es, c))|;
      && 2 * |RowsWithCode(pairs, c)| == (if c == NoCode then 0 else n * (n - 1))
      && (forall row :: row in pairs && row.code == c ==>
            row.e1 != row.e2 && row.e1 in EntitiesOf(es, c) && row.e2 in EntitiesOf(es, c))
      && (forall a, b :: c != NoCode && a in EntitiesOf(es, c) && b in EntitiesOf(es, c) && a != b ==>
            AugmentEl.Row(c, a, b) in pairs || AugmentEl.Row(c, b, a) in pairs)
  {
    GroupPairsCount(es, groups, c);
    GroupPairsSound(es, groups, c);
    GroupPairsComplete(es, groups, c);
  }

  /** Every code but NO_CODE with n distinct names gets exactly n(n-1)/2
      rows; each row pairs two different names of its code; every two
      different names of a code are paired in one order or the other. */
  lemma TrainingPairs(lines: seq<string>, c: string)
    requires BuildTrainingFile(lines).Success?
    ensures var out := BuildTrainingFile(lines).value;
      var es := TrainEntries(ClassifyTrainLines(lines));
      var n := |Elems(EntitiesOf(es, c))|;
      && 2 * |RowsWithCode(out.pairs, c)| == (if c == NoCode then 0 else n * (n - 1))
      && (forall row :: row in out.pairs && row.code == c ==>
            row.e1 != row.e2 && row.e1 in EntitiesOf(es, c) && row.e2 in EntitiesOf(es, c))
      && (forall a, b :: c != NoCode && a in EntitiesOf(es, c) && b in EntitiesOf(es, c) && a != b ==>
            AugmentEl.Row(c, a, b) in out.pairs || AugmentEl.Row(c, b, a) in out.pairs)
  {
    var out := BuildTrainingFile(lines).value;
    GroupPairs(TrainEntries(ClassifyTrainLines(lines)), out.groups, c);
  }

  /** `int(num_lines * 0.8)`: the product with the double nearest to 0.8
      never falls below an integer it should reach, so this is 4n/5 rounded
      down. */
  function SampleSize(n: nat): (k: nat)
    ensures k <= n && 5 * k <= 4 * n < 5 * k + 5
  {
    4 * n / 5
  }

  // ------------------------------------------------------- build_test_file

  /** One parsed line of the test TSV, as kept in the detailed JSON (the
      `label` column as `kind`). */
  datatype TestRow = TestRow(filename: string, kind: string, startSpan: string, endSpan: string, entity: string, code: string)

  /** The header, a mention, or a line whose field count is not ten, on
      which the unpacking raises. */
  datatype TestLine = TestHeader | TestEntry(row: TestRow) | NotTen

  function ClassifyTest(line: string): TestLine {
    var f := SplitOn(Strip(line), "\t");
    if |f| != 10 then NotTen
    else if f[5] == HeaderCode then TestHeader
    else TestEntry(TestRow(f[0], f[1], f[2], f[3], f[4], f[5]))
  }

  function ClassifyTestLines(lines: seq<string>): (r: seq<TestLine>)
    ensures |r| == |lines|
    ensures forall k :: 0 <= k < |lines| ==> r[k] == ClassifyTest(lines[k])
  {
    seq(|lines|, k requires 0 <= k < |lines| => ClassifyTest(lines[k]))
  }

  /** Reference: the mentions, in file order. */
  function TestRows(ks: seq<TestLine>): seq<TestRow> {
    if |ks| == 0 then []
    else (if ks[0].TestEntry? then [ks[0].row] else []) + TestRows(ks[1..])
  }

  function TestEntries(rows: seq<TestRow>): (r: seq<Entry>)
    ensures |r| == |rows|
    ensures forall k :: 0 <= k < |rows| ==> r[k] == Entry(rows[k].code, rows[k].entity)
  {
    seq(|rows|, k requires 0 <= k < |rows| => Entry(rows[k].code, rows[k].entity))
  }

  /** What `build_test_file` produces: the detailed rows, the lines of the
      validation/test file and the set of codes it returns. */
  datatype TestFiles = TestFiles(info: seq<TestRow>, lines: seq<string>, codes: set<string>)

  /** Every selected line has exactly ten fields. */
  predicate TestReadable(lines: seq<string>) {
    forall k :: 0 <= k < |lines| ==> !ClassifyTest(lines[k]).NotTen?
  }

  /** `build_test_file` over the selected lines: it raises unless every
      line has exactly ten fields; the header row is skipped; each mention
      gives one `code||entity` line with the name as written (not
      lower-cased); the returned set is the set of codes written. */
  function BuildTestFile(lines: seq<string>): (r: Result<TestFiles>)
    ensures r.Success? <==> TestReadable(lines)
    ensures r.Success? ==>
      && r.value.info == TestRows(ClassifyTestLines(lines))
      && |r.value.lines| == |r.value.info|
      && (forall k :: 0 <= k < |r.value.info| ==>
            r.value.lines[k] == EntryLine(Entry(r.value.info[k].code, r.value.info[k].entity)))
      && (forall c :: c in r.value.codes <==> exists k :: 0 <= k < |r.value.info| && r.value.info[k].code == c)
  {
    if !TestReadable(lines) then
      Failure("ValueError: a line does not have ten fields")
    else
      var rows := TestRows(ClassifyTestLines(lines));
      var es := TestEntries(rows);
      var codes := set k | 0 <= k < |rows| :: rows[k].code;
      Success(TestFiles(rows, EntryLines(es), codes))
  }

  /** The validation lines of the hyper-parameter search: the lines of the
      file not drawn into the training sample (`random.sample` is given as
      `sampled`); a line equal to a sampled one is left out even when that
      copy was not drawn. */
  function ValidationLines(lines: seq<string>, sampled: seq<string>): (r: seq<string>)
    ensures forall l :: l in r <==> l in lines && l !in sampled
    ensures forall l :: multiset(r)[l] == if l in sampled then 0 else multiset(lines)[l]
    ensures IsSubseq(r, lines)
    ensures |r| <= |lines|
  {
    if |lines| == 0 then []
    else
      var rest := ValidationLines(lines[1..], sampled);
      assert lines == [lines[0]] + lines[1..];
      assert multiset(lines) == multiset{lines[0]} + multiset(lines[1..]);
      if lines[0] in sampled then
        SubseqExtend(rest, lines);
        rest
      else
        assert multiset([lines[0]] + rest) == multiset{lines[0]} + multiset(rest);
        [lines[0]] + rest
  }

  // ------------------------------------------------------------ dictionaries

  /** `code, _ = line.split('||')`: exactly two pieces, or it raises. */
  function DictCode(line: string): Option<string> {
    var p := SplitOn(line, "||");
    if |p| == 2 then Some(p[0]) else None
  }

  /** A dictionary line whose code is one of the test codes. */
  predicate IsTestLine(line: string, codes: set<string>) {
    DictCode(line).Some? && DictCode(line).value in codes
  }

  /** The lines whose code is a test code, in order. */
  function KeepTestLines(lines: seq<string>, codes: set<string>): (r: seq<string>)
    requires forall k :: 0 <= k < |lines| ==> DictCode(lines[k]).Some?
    ensures IsSubseq(r, lines)
    ensures forall l :: multiset(r)[l] == if IsTestLine(l, codes) then multiset(lines)[l] else 0
    ensures forall l :: l in r <==> l in lines && IsTestLine(l, codes)
  {
    if |lines| == 0 then []
    else
      assert forall k :: 1 <= k < |lines| ==> lines[1..][k - 1] == lines[k];
      var rest := KeepTestLines(lines[1..], codes);
      assert lines == [lines[0]] + lines[1..];
      assert multiset(lines) == multiset{lines[0]} + multiset(lines[1..]);
      if IsTestLine(lines[0], codes) then
        assert multiset([lines[0]] + rest) == multiset{lines[0]} + multiset(rest);
        [lines[0]] + rest
      else
        SubseqExtend(rest, lines);
        rest
  }

  /** Both dictionary files: the complete one and the one restricted to the
      test codes. */
  datatype Dictionaries = Dictionaries(complete: seq<string>, onlyTest: seq<string>)

  /** Every line of the simple training parsing splits into two pieces at
      '||'. */
  predicate SimpleReadable(simple: seq<string>) {
    forall k :: 0 <= k < |simple| ==> DictCode(simple[k]).Some?
  }

  /** `__build_dictionary_files_not_spanish`: the complete file is the
      simple training parsing as read; the other keeps the lines whose code
      is a test code. A line that does not split into two pieces at '||'
      raises. */
  function DictionariesNotSpanish(simple: seq<string>, codes: set<string>): (r: Result<Dictionaries>)
    ensures r.Success? <==> SimpleReadable(simple)
    ensures r.Success? ==>
      && r.value.complete == simple
      && IsSubseq(r.value.onlyTest, r.value.complete)
      && (forall l :: multiset(r.value.onlyTest)[l] == if IsTestLine(l, codes) then multiset(simple)[l] else 0)
      && (forall l :: l in r.value.onlyTest <==> l in simple && IsTestLine(l, codes))
  {
    if !SimpleReadable(simple) then
      Failure("ValueError: a line does not split into two pieces at '||'")
    else
      Success(Dictionaries(simple, KeepTestLines(simple, codes)))
  }

  /** One gazetteer line: code and term, or a field count other than five,
      on which the unpacking raises. */
  datatype GazLine = GazEntry(e: Entry) | NotFive

  function ClassifyGaz(line: string): GazLine {
    var f := SplitOn(Strip(line), "\t");
    if |f| == 5 then GazEntry(Entry(f[0], f[2])) else NotFive
  }

  function ClassifyGazLines(lines: seq<string>): (r: seq<GazLine>)
    ensures |r| == |lines|
    ensures forall k :: 0 <= k < |lines| ==> r[k] == ClassifyGaz(lines[k])
  {
    seq(|lines|, k requires 0 <= k < |lines| => ClassifyGaz(lines[k]))
  }

  function GazEntries(ks: seq<GazLine>): (r: seq<Entry>)
    requires forall k :: 0 <= k < |ks| ==> ks[k].GazEntry?
    ensures |r| == |ks|
    ensures forall k :: 0 <= k < |ks| ==> r[k] == ks[k].e
  {
    seq(|ks|, k requires 0 <= k < |ks| => ks[k].e)
  }

  /** The lines written for a code-to-terms dictionary: per code, in
      dictionary order, one line per term. */
  function MapLines(m: CodeMap): seq<string> {
    if |m| == 0 then []
    else EntryLines(NamesAsEntries(m[0].0, m[0].1)) + MapLines(m[1..])
  }

  function NamesAsEntries(code: string, names: seq<string>): (r: seq<Entry>)
    ensures |r| == |names|
    ensures forall k :: 0 <= k < |names| ==> r[k] == Entry(code, names[k])
  {
    seq(|names|, k requires 0 <= k < |names| => Entry(code, names[k]))
  }

  /** The entries of the dictionary whose code is a test code. */
  function KeepCodes(m: CodeMap, codes: set<string>): CodeMap {
    if |m| == 0 then []
    else (if m[0].0 in codes then [m[0]] else []) + KeepCodes(m[1..], codes)
  }

  /** The gazetteer has its header line, and every line after it has five
      fields. */
  predicate GazetteerReadable(gazetteer: seq<string>) {
    |gazetteer| > 0 && forall k :: 1 <= k < |gazetteer| ==> ClassifyGaz(gazetteer[k]).GazEntry?
  }

  /** The gazetteer's entries after its header line, in file order. */
  function GazetteerEntries(gazetteer: seq<string>): (r: seq<Entry>)
    requires GazetteerReadable(gazetteer)
    ensures |r| == |gazetteer| - 1
  {
    var ks := ClassifyGazLines(gazetteer[1..]);
    assert forall k :: 0 <= k < |ks| ==> ks[k] == ClassifyGaz(gazetteer[k + 1]);
    GazEntries(ks)
  }

  /** The gazetteer's terms grouped by code, in order of first appearance. */
  function GazetteerMap(gazetteer: seq<string>): CodeMap
    requires GazetteerReadable(gazetteer)
  {
    GroupEntries(GazetteerEntries(gazetteer))
  }

  /** `__build_dictionary_files_spanish`: the gazetteer's header line is
      skipped (an empty gazetteer raises StopIteration), every other line
      must have five fields; both files start like the non-Spanish ones and
      go on with the gazetteer's terms grouped by code, all of them in the
      complete file and those of test codes in the other. */
  function DictionariesSpanish(simple: seq<string>, gazetteer: seq<string>, codes: set<string>): (r: Result<Dictionaries>)
    ensures r.Success? <==> GazetteerReadable(gazetteer) && SimpleReadable(simple)
    ensures r.Success? ==>
      var g := GazetteerMap(gazetteer);
      && r.value.complete == simple + MapLines(g)
      && r.value.onlyTest == DictionariesNotSpanish(simple, codes).value.onlyTest + MapLines(KeepCodes(g, codes))
  {
    if |gazetteer| == 0 then Failure("StopIteration: the gazetteer is empty")
    else if !GazetteerReadable(gazetteer) then Failure("ValueError: a gazetteer line does not have five fields")
    else
      var g := GazetteerMap(gazetteer);
      var plain :- DictionariesNotSpanish(simple, codes);
      Success(Dictionaries(simple + MapLines(g), plain.onlyTest + MapLines(KeepCodes(g, codes))))
  }

  /** `build_dictionary_files`: the Spanish builder for 'es', the other one
      for every other language. */
  function BuildDictionaryFiles(lang: string, simple: seq<string>, gazetteer: seq<string>, codes: set<string>): (r: Result<Dictionaries>)
    ensures lang != "es" ==> r == DictionariesNotSpanish(simple, codes)
    ensures lang == "es" ==> r == DictionariesSpanish(simple, gazetteer, codes)
  {
    if lang == "es" then DictionariesSpanish(simple, gazetteer, codes)
    else DictionariesNotSpanish(simple, codes)
  }

  // ----------------------------------------------------------- properties

  lemma {:induction false} KeepCodesSubseq(m: CodeMap, codes: set<string>)
    ensures IsSubseq(MapLines(KeepCodes(m, codes)), MapLines(m))
    decreases |m|
  {
    if |m| > 0 {
      KeepCodesSubseq(m[1..], codes);
      var own := EntryLines(NamesAsEntries(m[0].0, m[0].1));
      assert MapLines(m) == own + MapLines(m[1..]);
      if m[0].0 in codes {
        var k := [m[0]] + KeepCodes(m[1..], codes);
        assert KeepCodes(m, codes) == k;
        assert k[0] == m[0] && k[1..] == KeepCodes(m[1..], codes);
        assert MapLines(k) == own + MapLines(KeepCodes(m[1..], codes));
        SubseqRefl(own);
        SubseqConcat(own, own, MapLines(KeepCodes(m[1..], codes)), MapLines(m[1..]));
      } else {
        assert KeepCodes(m, codes) == [] + KeepCodes(m[1..], codes);
        assert [] + KeepCodes(m[1..], codes) == KeepCodes(m[1..], codes);
        SubseqPrependRight(MapLines(KeepCodes(m[1..], codes)), own, MapLines(m[1..]));
      }
    }
  }

  /** In both languages the restricted dictionary is a subsequence of the
      complete one. */
  lemma OnlyTestWithinComplete(lang: string, simple: seq<string>, gazetteer: seq<string>, codes: set<string>)
    requires BuildDictionaryFiles(lang, simple, gazetteer, codes).Success?
    ensures var d := BuildDictionaryFiles(lang, simple, gazetteer, codes).value;
      IsSubseq(d.onlyTest, d.complete)
  {
    if lang == "es" {
      var g := GazetteerMap(gazetteer);
      KeepCodesSubseq(g, codes);
      SubseqConcat(DictionariesNotSpanish(simple, codes).value.onlyTest, simple, MapLines(KeepCodes(g, codes)), MapLines(g));
    }
  }

  /** The dictionary lines of two code maps written one after the other are
      the lines of the first followed by those of the second. */
  lemma {:induction false} MapLinesAppend(a: CodeMap, b: CodeMap)
    ensures MapLines(a + b) == MapLines(a) + MapLines(b)
    decreases |a|
  {
    if |a| == 0 {
      assert a + b == b;
    } else {
      assert (a + b)[0] == a[0] && (a + b)[1..] == a[1..] + b;
      MapLinesAppend(a[1..], b);
    }
  }

  lemma NamesAsEntriesAppend(code: string, a: seq<string>, b: seq<string>)
    ensures EntryLines(NamesAsEntries(code, a + b)) == EntryLines(NamesAsEntries(code, a)) + EntryLines(NamesAsEntries(code, b))
  {
  }

  /** Adding a term to the dictionary adds its line to the written lines,
      wherever it lands. */
  lemma {:induction false} ExtendMapLines(m: CodeMap, x: Entry)
    ensures multiset(MapLines(Extend(m, x.code, [x.entity]))) == multiset(MapLines(m)) + multiset{EntryLine(x)}
    decreases |m|
  {
    if |m| == 0 {
      assert Extend(m, x.code, [x.entity]) == [(x.code, [x.entity])];
      assert MapLines([(x.code, [x.entity])]) == EntryLines(NamesAsEntries(x.code, [x.entity])) + MapLines([]);
      assert EntryLines(NamesAsEntries(x.code, [x.entity])) == [EntryLine(x)];
    } else if m[0].0 == x.code {
      var e := Extend(m, x.code, [x.entity]);
      assert e[0] == (x.code, m[0].1 + [x.entity]) && e[1..] == m[1..];
      NamesAsEntriesAppend(x.code, m[0].1, [x.entity]);
      assert EntryLines(NamesAsEntries(x.code, [x.entity])) == [EntryLine(x)];
      assert MapLines(e) == EntryLines(NamesAsEntries(x.code, m[0].1)) + [EntryLine(x)] + MapLines(m[1..]);
    } else {
      var e := Extend(m, x.code, [x.entity]);
      assert e[0] == m[0] && e[1..] == Extend(m[1..], x.code, [x.entity]);
      ExtendMapLines(m[1..], x);
    }
  }

  /** The grouped gazetteer lines are a reordering of one `code||term` line
      per gazetteer entry: nothing is lost or duplicated by the grouping. */
  lemma {:induction false} GroupedLinesPermute(es: seq<Entry>)
    ensures multiset(MapLines(GroupEntries(es))) == multiset(EntryLines(es))
    decreases |es|
  {
    if |es| > 0 {
      var p := es[..|es| - 1];
      var x := es[|es| - 1];
      GroupedLinesPermute(p);
      ExtendMapLines(GroupEntries(p), x);
      assert EntryLines(es) == EntryLines(p) + [EntryLine(x)];
    }
  }

  /** Keeping the test codes commutes with the grouping: the restricted
      dictionary groups exactly the entries of test codes. */
  lemma {:induction false} KeepCodesExtend(m: CodeMap, x: Entry, codes: set<string>)
    ensures KeepCodes(Extend(m, x.code, [x.entity]), codes)
      == if x.code in codes then Extend(KeepCodes(m, codes), x.code, [x.entity]) else KeepCodes(m, codes)
    decreases |m|
  {
    var v := [x.entity];
    if |m| == 0 {
      assert Extend(m, x.code, v) == [(x.code, v)];
      assert KeepCodes([(x.code, v)], codes) == (if x.code in codes then [(x.code, v)] else []) + KeepCodes([], codes);
    } else {
      var rest := KeepCodes(m[1..], codes);
      var head: CodeMap := if m[0].0 in codes then [m[0]] else [];
      assert KeepCodes(m, codes) == head + rest;
      if m[0].0 == x.code {
        var e := [(x.code, m[0].1 + v)] + m[1..];
        assert Extend(m, x.code, v) == e;
        assert e[0] == (x.code, m[0].1 + v) && e[1..] == m[1..];
        assert KeepCodes(e, codes) == (if x.code in codes then [e[0]] else []) + rest;
        if x.code in codes {
          assert (head + rest)[0] == m[0] && (head + rest)[1..] == rest;
        }
      } else {
        var e := [m[0]] + Extend(m[1..], x.code, v);
        assert Extend(m, x.code, v) == e;
        assert e[0] == m[0] && e[1..] == Extend(m[1..], x.code, v);
        KeepCodesExtend(m[1..], x, codes);
        assert KeepCodes(e, codes) == head + KeepCodes(Extend(m[1..], x.code, v), codes);
        if x.code in codes && m[0].0 in codes {
          assert (head + rest)[0] == m[0] && (head + rest)[1..] == rest;
        } else if x.code in codes {
          assert head + rest == rest;
          assert head + Extend(rest, x.code, v) == Extend(rest, x.code, v);
        }
      }
    }
  }

  function EntriesIn(es: seq<Entry>, codes: set<string>): seq<Entry> {
    if |es| == 0 then []
    else
      var p := es[..|es| - 1];
      var x := es[|es| - 1];
      EntriesIn(p, codes) + (if x.code in codes then [x] else [])
  }

  lemma {:induction false} KeepCodesGroup(es: seq<Entry>, codes: set<string>)
    ensures KeepCodes(GroupEntries(es), codes) == GroupEntries(EntriesIn(es, codes))
    decreases |es|
  {
    if |es| > 0 {
      var p := es[..|es| - 1];
      var x := es[|es| - 1];
      KeepCodesGroup(p, codes);
      KeepCodesExtend(GroupEntries(p), x, codes);
      var q := EntriesIn(p, codes);
      if x.code in codes {
        assert EntriesIn(es, codes) == q + [x];
        assert (q + [x])[..|q + [x]| - 1] == q;
      } else {
        assert EntriesIn(es, codes) == q + [];
        assert q + [] == q;
      }
    }
  }

  /** The gazetteer part of the Spanish dictionaries: the complete file gets
      one line per gazetteer entry and the restricted file one per entry of a
      test code, each grouped by code. */
  lemma SpanishGazetteerLines(simple: seq<string>, gazetteer: seq<string>, codes: set<string>)
    requires DictionariesSpanish(simple, gazetteer, codes).Success?
    ensures var d := DictionariesSpanish(simple, gazetteer, codes).value;
      var es := GazetteerEntries(gazetteer);
      && multiset(d.complete) == multiset(simple) + multiset(EntryLines(es))
      && multiset(d.onlyTest) == multiset(DictionariesNotSpanish(simple, codes).value.onlyTest) + multiset(EntryLines(EntriesIn(es, codes)))
  {
    var es := GazetteerEntries(gazetteer);
    GroupedLinesPermute(es);
    KeepCodesGroup(es, codes);
    GroupedLinesPermute(EntriesIn(es, codes));
  }

  /** A training line `code||entity`, read back by the dictionary builder,
      yields the mention's code, provided neither field contains '|'. */
  lemma EntryLineCode(e: Entry)
    requires '|' !in e.code && '|' !in e.entity
    ensures DictCode(EntryLine(e)) == Some(e.code)
  {
    var parts := [e.code, e.entity + "\n"];
    assert parts[1..] == [e.entity + "\n"];
    assert JoinOn(parts, "||") == EntryLine(e);
    assert forall p :: p in parts ==> '|' !in p;
    SplitOnJoinOn(parts, "||");
  }

  lemma DictionaryOfTrainingLines(es: seq<Entry>, codes: set<string>)
    requires forall k :: 0 <= k < |es| ==> '|' !in es[k].code && '|' !in es[k].entity
    ensures DictionariesNotSpanish(EntryLines(es), codes).Success?
    ensures forall k :: 0 <= k < |es| ==>
      multiset(DictionariesNotSpanish(EntryLines(es), codes).value.onlyTest)[EntryLine(es[k])]
        == if es[k].code in codes then multiset(EntryLines(es))[EntryLine(es[k])] else 0
    ensures forall l :: l in DictionariesNotSpanish(EntryLines(es), codes).value.onlyTest ==>
      exists k :: 0 <= k < |es| && l == EntryLine(es[k]) && es[k].code in codes
  {
    var lines := EntryLines(es);
    forall k | 0 <= k < |es|
      ensures DictCode(lines[k]) == Some(es[k].code)
    {
      EntryLineCode(es[k]);
    }
  }
}

=== FILE: seqs.dfy ===
/** Sequence utilities shared by the model: first-occurrence deduplication,
    subsequences, filtering and flattening. */
module Seqs {

  predicate Distinct<T(==)>(xs: seq<T>) {
    forall i, j :: 0 <= i < j < |xs| ==> xs[i] != xs[j]
  }

  function Elems<T>(xs: seq<T>): set<T> {
    set x | x in xs
  }

  lemma ElemsAppend<T>(a: seq<T>, b: seq<T>)
    ensures Elems(a + b) == Elems(a) + Elems(b)
  {
    assert forall x :: x in a + b <==> x in a || x in b;
  }

  /** Two steps that each add the elements of one sequence add those of
      their concatenation. */
  lemma ElemsChain<T>(s0: seq<T>, s1: seq<T>, s2: seq<T>, a: seq<T>, b: seq<T>)
    requires Elems(s1) == Elems(s0) + Elems(a)
    requires Elems(s2) == Elems(s1) + Elems(b)
    ensures Elems(s2) == Elems(s0) + Elems(a + b)
  {
    ElemsAppend(a, b);
  }

  /** `a` can be obtained from `b` by deleting elements (greedy matching). */
  predicate IsSubseq<T(==)>(a: seq<T>, b: seq<T>)
    decreases |b|
  {
    if |a| == 0 then true
    else if |b| == 0 then false
    else if a[0] == b[0] then IsSubseq(a[1..], b[1..])
    else IsSubseq(a, b[1..])
  }

  lemma {:induction false} SubseqDropFirst<T>(a: seq<T>, b: seq<T>)
    requires |a| > 0 && IsSubseq(a, b)
    ensures IsSubseq(a[1..], b)
    decreases |b|, |a|
  {
    if a[0] == b[0] {
      SubseqExtend(a[1..], b);
    } else {
      SubseqDropFirst(a, b[1..]);
      SubseqExtend(a[1..], b);
    }
  }

  lemma {:induction false} SubseqExtend<T>(a: seq<T>, b: seq<T>)
    requires |b| > 0 && IsSubseq(a, b[1..])
    ensures IsSubseq(a, b)
    decreases |b|, |a|
  {
    if |a| > 0 && a[0] == b[0] {
      SubseqDropFirst(a, b[1..]);
    }
  }

  lemma {:induction false} SubseqRefl<T>(a: seq<T>)
    ensures IsSubseq(a, a)
    decreases |a|
  {
    if |a| > 0 {
      SubseqRefl(a[1..]);
    }
  }

  /** The same statement with a growing prefix: prepending to both keeps the
      relation. */
  lemma {:induction false} SubseqPrepend<T>(p: seq<T>, a: seq<T>, b: seq<T>)
    requires IsSubseq(a, b)
    ensures IsSubseq(p + a, p + b)
    decreases |p|
  {
    if |p| > 0 {
      SubseqPrepend(p[1..], a, b);
      assert (p + a)[0] == (p + b)[0];
      assert (p + a)[1..] == p[1..] + a;
      assert (p + b)[1..] == p[1..] + b;
    } else {
      assert p + a == a && p + b == b;
    }
  }

  lemma {:induction false} SubseqPrependRight<T>(a: seq<T>, p: seq<T>, c: seq<T>)
    requires IsSubseq(a, c)
    ensures IsSubseq(a, p + c)
    decreases |p|
  {
    if |p| > 0 {
      SubseqPrependRight(a, p[1..], c);
      assert (p + c)[1..] == p[1..] + c;
      SubseqExtend(a, p + c);
    } else {
      assert p + c == c;
    }
  }

  /** Appending the same element to both keeps the relation. */
  lemma {:induction false} SubseqSnoc<T>(a: seq<T>, b: seq<T>, x: T)
    requires IsSubseq(a, b)
    ensures IsSubseq(a + [x], b + [x])
    decreases |b|
  {
    if |a| == 0 {
      assert a + [x] == [x];
      SubseqRefl([x]);
      SubseqPrependRight([x], b, [x]);
    } else {
      assert (a + [x])[0] == a[0] && (a + [x])[1..] == a[1..] + [x];
      assert (b + [x])[0] == b[0] && (b + [x])[1..] == b[1..] + [x];
      if a[0] == b[0] {
        SubseqSnoc(a[1..], b[1..], x);
      } else {
        SubseqSnoc(a, b[1..], x);
      }
    }
  }

  lemma {:induction false} SubseqAppendRight<T>(a: seq<T>, b: seq<T>, c: seq<T>)
    requires IsSubseq(a, b)
    ensures IsSubseq(a, b + c)
    decreases |b|
  {
    if |a| > 0 && |b| > 0 {
      assert (b + c)[1..] == b[1..] + c;
      if a[0] == b[0] {
        SubseqAppendRight(a[1..], b[1..], c);
      } else {
        SubseqAppendRight(a, b[1..], c);
      }
    }
  }

  /** Subsequences concatenate. */
  lemma {:induction false} SubseqConcat<T>(a: seq<T>, b: seq<T>, c: seq<T>, d: seq<T>)
    requires IsSubseq(a, b) && IsSubseq(c, d)
    ensures IsSubseq(a + c, b + d)
    decreases |b|
  {
    if |a| == 0 {
      assert a + c == c;
      SubseqPrependRight(c, b, d);
    } else {
      assert (a + c)[0] == a[0] && (a + c)[1..] == a[1..] + c;
      assert (b + d)[0] == b[0] && (b + d)[1..] == b[1..] + d;
      if a[0] == b[0] {
        SubseqConcat(a[1..], b[1..], c, d);
      } else {
        SubseqConcat(a, b[1..], c, d);
      }
    }
  }

  // --------------------------------------------------------- deduplication

  /** First-occurrence deduplication in the streaming form of
      `remove_duplicates_and_preserve_order`:
      `seen` holds what has already been kept. */
  function DedupFrom<T(==)>(xs: seq<T>, seen: set<T>): (r: seq<T>)
    ensures forall x :: x in r ==> x in xs && x !in seen
    ensures forall x :: x in xs && x !in seen ==> x in r
    ensures Distinct(r)
  {
    if |xs| == 0 then []
    else if xs[0] in seen then DedupFrom(xs[1..], seen)
    else
      var rest := DedupFrom(xs[1..], seen + {xs[0]});
      assert forall x :: x in xs[1..] ==> x in xs;
      assert forall x :: x in xs ==> x == xs[0] || x in xs[1..];
      [xs[0]] + rest
  }

  function Dedup<T(==)>(xs: seq<T>): (r: seq<T>)
    ensures forall x :: x in r ==> x in xs
    ensures forall x :: x in xs ==> x in r
    ensures Distinct(r)
  {
    DedupFrom(xs, {})
  }

  /** Reference definition: the elements of `xs` at the positions where they
      occur for the first time, in order. */
  function FirstOccurrences<T(==)>(xs: seq<T>): seq<T> {
    if |xs| == 0 then []
    else
      var p := xs[..|xs| - 1];
      var x := xs[|xs| - 1];
      FirstOccurrences(p) + (if x in p then [] else [x])
  }

  lemma {:induction false} FirstOccurrencesElems<T>(xs: seq<T>)
    ensures forall y :: y in FirstOccurrences(xs) <==> y in xs
    decreases |xs|
  {
    if |xs| > 0 {
      var p := xs[..|xs| - 1];
      FirstOccurrencesElems(p);
      assert xs == p + [xs[|xs| - 1]];
    }
  }

  /** One more element: it is kept exactly when it is new. */
  lemma FirstOccurrencesSnoc<T>(xs: seq<T>, x: T)
    ensures FirstOccurrences(xs + [x]) == FirstOccurrences(xs) + (if x in xs then [] else [x])
    ensures x in FirstOccurrences(xs) <==> x in xs
  {
    assert (xs + [x])[..|xs|] == xs;
    FirstOccurrencesElems(xs);
  }

  lemma {:induction false} DedupFromAfterPrefix<T>(p: seq<T>, ys: seq<T>)
    ensures FirstOccurrences(p + ys) == FirstOccurrences(p) + DedupFrom(ys, Elems(p))
    decreases |ys|
  {
    if |ys| == 0 {
      assert p + ys == p;
    } else {
      var y := ys[0];
      var p' := p + [y];
      assert p + ys == p' + ys[1..];
      DedupFromAfterPrefix(p', ys[1..]);
      assert p'[..|p'| - 1] == p;
      assert Elems(p') == Elems(p) + {y};
      if y in p {
        assert Elems(p) + {y} == Elems(p);
      }
    }
  }

  /** The loop of `remove_duplicates_and_preserve_order` keeps exactly the first occurrences, in order. */
  lemma DedupIsFirstOccurrences<T>(xs: seq<T>)
    ensures Dedup(xs) == FirstOccurrences(xs)
  {
    DedupFromAfterPrefix([], xs);
    assert [] + xs == xs;
    assert Elems<T>([]) == {};
  }

  lemma {:induction false} DedupFromSubseq<T>(xs: seq<T>, seen: set<T>)
    ensures IsSubseq(DedupFrom(xs, seen), xs)
    decreases |xs|
  {
    if |xs| > 0 {
      if xs[0] in seen {
        DedupFromSubseq(xs[1..], seen);
        SubseqExtend(DedupFrom(xs[1..], seen), xs);
      } else {
        DedupFromSubseq(xs[1..], seen + {xs[0]});
      }
    }
  }

  lemma {:induction false} DedupFromDistinct<T>(xs: seq<T>, seen: set<T>)
    requires Distinct(xs) && forall x :: x in xs ==> x !in seen
    ensures DedupFrom(xs, seen) == xs
    decreases |xs|
  {
    if |xs| > 0 {
      assert xs[0] in xs;
      assert forall x :: x in xs[1..] ==> x in xs && x != xs[0];
      DedupFromDistinct(xs[1..], seen + {xs[0]});
      assert [xs[0]] + xs[1..] == xs;
    }
  }

  lemma {:induction false} DedupFromSeen<T>(xs: seq<T>, seen: set<T>)
    requires forall x :: x in xs ==> x in seen
    ensures DedupFrom(xs, seen) == []
    decreases |xs|
  {
    if |xs| > 0 {
      assert xs[0] in xs;
      assert forall x :: x in xs[1..] ==> x in xs;
      DedupFromSeen(xs[1..], seen);
    }
  }

  lemma {:induction false} DedupFromAppend<T>(a: seq<T>, b: seq<T>, seen: set<T>)
    ensures DedupFrom(a + b, seen) == DedupFrom(a, seen) + DedupFrom(b, seen + Elems(a))
    decreases |a|
  {
    if |a| == 0 {
      assert a + b == b;
      assert Elems(a) == {};
      assert seen + Elems(a) == seen;
    } else {
      assert (a + b)[1..] == a[1..] + b;
      assert (a + b)[0] == a[0];
      assert Elems(a) == {a[0]} + Elems(a[1..]);
      if a[0] in seen {
        DedupFromAppend(a[1..], b, seen);
        assert seen + Elems(a) == seen + Elems(a[1..]);
      } else {
        DedupFromAppend(a[1..], b, seen + {a[0]});
        assert seen + {a[0]} + Elems(a[1..]) == seen + Elems(a);
      }
    }
  }

  /** Facts promised for `remove_duplicates_and_preserve_order`: duplicate
      free, same elements, a subsequence of the input, and idempotent. */
  lemma DedupFacts<T>(xs: seq<T>)
    ensures Distinct(Dedup(xs))
    ensures Elems(Dedup(xs)) == Elems(xs)
    ensures IsSubseq(Dedup(xs), xs)
    ensures Dedup(Dedup(xs)) == Dedup(xs)
  {
    DedupFromSubseq(xs, {});
    DedupFromDistinct(Dedup(xs), {});
  }

  /** Appending elements that were all seen already changes nothing. */
  lemma DedupAppendSeen<T>(a: seq<T>, b: seq<T>)
    requires forall x :: x in b ==> x in a
    ensures Dedup(a + b) == Dedup(a)
  {
    DedupFromAppend(a, b, {});
    DedupFromSeen(b, {} + Elems(a));
  }

  lemma DistinctTail<T>(xs: seq<T>)
    requires Distinct(xs) && |xs| > 0
    ensures Distinct(xs[1..]) && xs[0] !in xs[1..]
  {
    assert forall j :: 0 <= j < |xs| - 1 ==> xs[1..][j] == xs[j + 1];
  }

  lemma DistinctSnoc<T>(xs: seq<T>, x: T)
    requires Distinct(xs) && x !in xs
    ensures Distinct(xs + [x])
  {
    assert forall j :: 0 <= j < |xs| ==> (xs + [x])[j] == xs[j];
  }

  /** A duplicate-free list has as many elements as its set. */
  lemma {:induction false} DistinctCard<T>(xs: seq<T>)
    requires Distinct(xs)
    ensures |Elems(xs)| == |xs|
    decreases |xs|
  {
    if |xs| > 0 {
      assert Distinct(xs[1..]) by {
        assert forall i, j :: 0 <= i < j < |xs| - 1 ==> xs[1..][i] == xs[i + 1] && xs[1..][j] == xs[j + 1];
      }
      DistinctCard(xs[1..]);
      assert xs[0] !in xs[1..] by {
        assert forall j :: 0 <= j < |xs| - 1 ==> xs[1..][j] == xs[j + 1];
      }
      assert Elems(xs) == Elems(xs[1..]) + {xs[0]};
    }
  }

  // ------------------------------------------------------------ list.remove

  /** Python's `xs.remove(x)`: deletes the first element equal to `x`; it
      raises ValueError when there is none, and `calculate_fscore` only
      removes elements it has just found. */
  function RemoveFirst<T(==)>(xs: seq<T>, x: T): (r: seq<T>)
    requires x in xs
    ensures multiset(r) == multiset(xs) - multiset{x}
    ensures |r| == |xs| - 1
  {
    if xs[0] == x then
      assert xs == [xs[0]] + xs[1..];
      xs[1..]
    else
      assert xs == [xs[0]] + xs[1..];
      [xs[0]] + RemoveFirst(xs[1..], x)
  }

  /** Removing the value at a position where it occurs first removes exactly
      that position. */
  lemma {:induction false} RemoveFirstAt<T>(xs: seq<T>, k: nat)
    requires k < |xs| && xs[k] !in xs[..k]
    ensures RemoveFirst(xs, xs[k]) == xs[..k] + xs[k + 1..]
    decreases k
  {
    if k == 0 {
      assert xs[..0] + xs[1..] == xs[1..];
    } else {
      var t := xs[1..];
      var x := xs[k];
      assert xs[..k] + xs[k + 1..] == [xs[0]] + (t[..k - 1] + t[k..]);
      assert xs[..k] == [xs[0]] + t[..k - 1];
      assert t[k - 1] == x;
      RemoveFirstAt(t, k - 1);
      assert RemoveFirst(xs, x) == [xs[0]] + RemoveFirst(t, x);
    }
  }

  // ----------------------------------------------------------------- others

  /** Associativity of concatenation, at a generic element type so that
      callers over nested sequences do not compare elements. */
  lemma AppendAssoc<T>(a: seq<T>, b: seq<T>, c: seq<T>)
    ensures (a + b) + c == a + (b + c)
  {
  }

  /** A non-empty sequence is its prefix followed by its last element. */
  lemma LastSplit<T>(xs: seq<T>)
    requires |xs| > 0
    ensures xs == xs[..|xs| - 1] + [xs[|xs| - 1]]
  {
  }

  /** A position at which a member of `xs` occurs. */
  lemma IndexOf<T>(xs: seq<T>, x: T) returns (j: nat)
    requires x in xs
    ensures j < |xs| && xs[j] == x
  {
    j :| 0 <= j < |xs| && xs[j] == x;
  }

  /** `f` applied to every element, in order. */
  function Map<A, B>(f: A -> B, xs: seq<A>): (r: seq<B>)
    ensures |r| == |xs|
    ensures forall k :: 0 <= k < |xs| ==> r[k] == f(xs[k])
  {
    if |xs| == 0 then [] else
      assert forall k :: 1 <= k < |xs| ==> xs[1..][k - 1] == xs[k];
      [f(xs[0])] + Map(f, xs[1..])
  }

  lemma {:induction false} MapAppend<A, B>(f: A -> B, a: seq<A>, b: seq<A>)
    ensures Map(f, a + b) == Map(f, a) + Map(f, b)
    decreases |a|
  {
    if |a| == 0 {
      assert a + b == b;
    } else {
      assert (a + b)[1..] == a[1..] + b;
      MapAppend(f, a[1..], b);
    }
  }

  lemma MapSnoc<A, B>(f: A -> B, xs: seq<A>, x: A)
    ensures Map(f, xs + [x]) == Map(f, xs) + [f(x)]
  {
    MapAppend(f, xs, [x]);
    assert Map(f, [x]) == [f(x)] + Map(f, []);
  }

  /** A sequence that agrees with `b` and then holds `x` is `b + [x]`. */
  lemma SnocExt<T>(a: seq<T>, b: seq<T>, x: T)
    requires |a| == |b| + 1 && a[|b|] == x
    requires forall i :: 0 <= i < |b| ==> a[i] == b[i]
    ensures a == b + [x]
  {
  }

  /** Dropping the last element of `a + b` drops the last element of `b`. */
  lemma AppendInit<T>(a: seq<T>, b: seq<T>)
    requires |b| > 0
    ensures (a + b)[..|a + b| - 1] == a + b[..|b| - 1]
    ensures (a + b)[|a + b| - 1] == b[|b| - 1]
  {
  }

  function Flatten<T>(xss: seq<seq<T>>): (r: seq<T>) {
    if |xss| == 0 then [] else xss[0] + Flatten(xss[1..])
  }

  lemma {:induction false} FlattenAppend<T>(a: seq<seq<T>>, b: seq<seq<T>>)
    ensures Flatten(a + b) == Flatten(a) + Flatten(b)
    decreases |a|
  {
    if |a| == 0 {
      assert a + b == b;
    } else {
      assert (a + b)[1..] == a[1..] + b;
      FlattenAppend(a[1..], b);
    }
  }

  lemma FlattenSnoc<T>(a: seq<seq<T>>, g: seq<T>)
    ensures Flatten(a + [g]) == Flatten(a) + g
  {
    FlattenAppend(a, [g]);
    assert Flatten([g]) == g + Flatten([]);
  }

  /** Moving an element across a concatenation: the prefix of `xs` one
      longer than a prefix of its tail. */
  lemma ConsPrefix<T>(a: seq<T>, b: seq<T>, xs: seq<T>, d: nat)
    requires d < |xs|
    ensures xs[..d + 1] == [xs[0]] + xs[1..][..d]
    ensures (a + (b + [xs[0]])) + xs[1..][..d] == a + (b + xs[..d + 1])
  {
    assert xs[..d + 1] == [xs[0]] + xs[1..][..d];
  }

  function Sum(xs: seq<int>): (r: int) {
    if |xs| == 0 then 0 else xs[0] + Sum(xs[1..])
  }

  lemma {:induction false} SumAppend(a: seq<int>, b: seq<int>)
    ensures Sum(a + b) == Sum(a) + Sum(b)
    decreases |a|
  {
    if |a| == 0 {
      assert a + b == b;
    } else {
      assert (a + b)[1..] == a[1..] + b;
      SumAppend(a[1..], b);
    }
  }
}

=== FILE: sorting.dfy ===
/** Python's `sorted` with a key, modelled as a stable insertion sort driven
    by a strict "comes strictly before" relation on the elements, and
    Python's `<` on strings. */
module Sorting {

  /** Irreflexive, transitive, and "incomparable" is transitive (stated as
      negative transitivity): the orders Python's key-based sort assumes. */
  ghost predicate StrictWeakOrder<T(!new)>(lt: (T, T) -> bool) {
    && (forall a :: !lt(a, a))
    && (forall a, b, c :: lt(a, b) && lt(b, c) ==> lt(a, c))
    && (forall a, b, c :: lt(a, b) ==> lt(a, c) || lt(c, b))
  }

  predicate SortedBy<T>(s: seq<T>, lt: (T, T) -> bool) {
    forall i, j :: 0 <= i < j < |s| ==> !lt(s[j], s[i])
  }

  /** Equal-key elements appear in increasing `rank`. */
  predicate TiesByRank<T>(s: seq<T>, lt: (T, T) -> bool, rank: T -> int) {
    forall i, j :: 0 <= i < j < |s| && !lt(s[i], s[j]) && !lt(s[j], s[i]) ==> rank(s[i]) < rank(s[j])
  }

  /** Inserts `x` in front of the first element it strictly precedes, hence
      after every element with an equal key. */
  function InsertBy<T>(x: T, s: seq<T>, lt: (T, T) -> bool): (r: seq<T>)
    ensures multiset(r) == multiset(s) + multiset{x}
    ensures |r| == |s| + 1
  {
    if |s| == 0 then [x]
    else if lt(x, s[0]) then [x] + s
    else
      assert s == [s[0]] + s[1..];
      [s[0]] + InsertBy(x, s[1..], lt)
  }

  /** `sorted(xs, key=...)`: every element is inserted in input order. */
  function SortBy<T>(xs: seq<T>, lt: (T, T) -> bool): (r: seq<T>)
    ensures multiset(r) == multiset(xs)
  {
    if |xs| == 0 then []
    else
      assert xs == xs[..|xs| - 1] + [xs[|xs| - 1]];
      InsertBy(xs[|xs| - 1], SortBy(xs[..|xs| - 1], lt), lt)
  }

  lemma {:induction false} InsertBySorted<T(!new)>(x: T, s: seq<T>, lt: (T, T) -> bool)
    requires StrictWeakOrder(lt) && SortedBy(s, lt)
    ensures SortedBy(InsertBy(x, s, lt), lt)
    decreases |s|
  {
    if |s| > 0 {
      if lt(x, s[0]) {
        var r := [x] + s;
        forall j | 0 < j < |r|
          ensures !lt(r[j], x)
        {
          if j > 1 {
            assert !lt(s[j - 1], s[0]);
          }
        }
      } else {
        var t := InsertBy(x, s[1..], lt);
        InsertBySorted(x, s[1..], lt);
        forall k | 0 <= k < |t|
          ensures !lt(t[k], s[0])
        {
          assert t[k] in multiset(t);
          if t[k] != x {
            assert t[k] in s[1..];
          }
        }
      }
    }
  }

  /** When `x` goes in front, it strictly precedes every element of `s`. */
  lemma PrecedesAll<T(!new)>(x: T, s: seq<T>, lt: (T, T) -> bool)
    requires StrictWeakOrder(lt) && SortedBy(s, lt)
    requires |s| > 0 && lt(x, s[0])
    ensures forall j :: 0 <= j < |s| ==> lt(x, s[j])
  {
    forall j | 0 < j < |s|
      ensures lt(x, s[j])
    {
      assert !lt(s[j], s[0]);
    }
  }

  /** A tie between `h` and an element of `InsertBy(x, s)` is ranked below it. */
  lemma HeadTiesBelow<T(!new)>(h: T, x: T, s: seq<T>, lt: (T, T) -> bool, rank: T -> int)
    requires rank(h) < rank(x)
    requires forall k :: 0 <= k < |s| && !lt(h, s[k]) && !lt(s[k], h) ==> rank(h) < rank(s[k])
    ensures forall e :: e in InsertBy(x, s, lt) && !lt(h, e) && !lt(e, h) ==> rank(h) < rank(e)
  {
    var t := InsertBy(x, s, lt);
    forall e | e in t && !lt(h, e) && !lt(e, h)
      ensures rank(h) < rank(e)
    {
      assert e in multiset(t);
      if e != x {
        assert e in multiset(s);
        var m :| 0 <= m < |s| && s[m] == e;
      }
    }
  }

  /** Putting `h` in front keeps ties in rank order when every element
      tied with `h` is ranked above it. */
  lemma ConsTies<T>(h: T, t: seq<T>, lt: (T, T) -> bool, rank: T -> int)
    requires TiesByRank(t, lt, rank)
    requires forall e :: e in t && !lt(h, e) && !lt(e, h) ==> rank(h) < rank(e)
    ensures TiesByRank([h] + t, lt, rank)
  {
    var r := [h] + t;
    forall i, j | 0 <= i < j < |r| && !lt(r[i], r[j]) && !lt(r[j], r[i])
      ensures rank(r[i]) < rank(r[j])
    {
      assert r[j] == t[j - 1];
      if i > 0 {
        assert r[i] == t[i - 1];
      } else {
        assert r[j] in t;
      }
    }
  }

  lemma {:induction false} InsertByTies<T(!new)>(x: T, s: seq<T>, lt: (T, T) -> bool, rank: T -> int)
    requires StrictWeakOrder(lt) && SortedBy(s, lt) && TiesByRank(s, lt, rank)
    requires forall e :: e in s ==> rank(e) < rank(x)
    ensures TiesByRank(InsertBy(x, s, lt), lt, rank)
    decreases |s|
  {
    if |s| > 0 {
      if lt(x, s[0]) {
        PrecedesAll(x, s, lt);
        forall e | e in s
          ensures lt(x, e)
        {
          var m :| 0 <= m < |s| && s[m] == e;
        }
        ConsTies(x, s, lt, rank);
      } else {
        var s' := s[1..];
        assert forall e :: e in s' ==> e in s;
        assert forall k :: 0 <= k < |s'| ==> s'[k] == s[k + 1];
        InsertByTies(x, s', lt, rank);
        assert s[0] in s;
        HeadTiesBelow(s[0], x, s', lt, rank);
        ConsTies(s[0], InsertBy(x, s', lt), lt, rank);
      }
    }
  }

  /** The sort's output is ordered. */
  lemma {:induction false} SortBySorted<T(!new)>(xs: seq<T>, lt: (T, T) -> bool)
    requires StrictWeakOrder(lt)
    ensures SortedBy(SortBy(xs, lt), lt)
    decreases |xs|
  {
    if |xs| > 0 {
      SortBySorted(xs[..|xs| - 1], lt);
      InsertBySorted(xs[|xs| - 1], SortBy(xs[..|xs| - 1], lt), lt);
    }
  }

  /** The sort is stable: when the input is listed in increasing `rank`,
      elements with equal keys come out in increasing `rank`. */
  lemma {:induction false} SortByStable<T(!new)>(xs: seq<T>, lt: (T, T) -> bool, rank: T -> int)
    requires StrictWeakOrder(lt)
    requires forall i, j :: 0 <= i < j < |xs| ==> rank(xs[i]) < rank(xs[j])
    ensures TiesByRank(SortBy(xs, lt), lt, rank)
    decreases |xs|
  {
    if |xs| > 0 {
      var p := xs[..|xs| - 1];
      var x := xs[|xs| - 1];
      var s := SortBy(p, lt);
      SortByStable(p, lt, rank);
      SortBySorted(p, lt);
      forall e | e in s
        ensures rank(e) < rank(x)
      {
        assert e in multiset(p);
        var m :| 0 <= m < |p| && p[m] == e;
      }
      InsertByTies(x, s, lt, rank);
    }
  }

  // ------------------------------------------------------- strings in order

  /** Python's `a < b` on strings: lexicographic by code point. */
  predicate StrLess(a: string, b: string)
    decreases |a|
  {
    |b| > 0 && (|a| == 0 || a[0] < b[0] || (a[0] == b[0] && StrLess(a[1..], b[1..])))
  }

  lemma {:induction false} StrLessIrreflexive(a: string)
    ensures !StrLess(a, a)
    decreases |a|
  {
    if |a| > 0 {
      StrLessIrreflexive(a[1..]);
    }
  }

  lemma {:induction false} StrLessTransitive(a: string, b: string, c: string)
    requires StrLess(a, b) && StrLess(b, c)
    ensures StrLess(a, c)
    decreases |a|
  {
    if |a| > 0 && a[0] == b[0] && b[0] == c[0] {
      StrLessTransitive(a[1..], b[1..], c[1..]);
    }
  }

  lemma {:induction false} StrLessTotal(a: string, b: string)
    ensures StrLess(a, b) || a == b || StrLess(b, a)
    decreases |a|
  {
    if |a| > 0 && |b| > 0 && a[0] == b[0] {
      StrLessTotal(a[1..], b[1..]);
      if a[1..] == b[1..] {
        assert a == [a[0]] + a[1..] && b == [b[0]] + b[1..];
      }
    }
  }
}

=== FILE: wrappers.dfy ===
/** Failure-compatible result types shared by every module of the model.
    A Python exception raised by the modelled code becomes a `Failure`. */
module Wrappers {

  datatype Option<+T> = None | Some(value: T)

  datatype Result<+T> = Success(value: T) | Failure(error: string) {
    predicate IsFailure() {
      Failure?
    }

    function PropagateFailure<U>(): Result<U>
      requires Failure?
    {
      Failure(error)
    }

    function Extract(): T
      requires Success?
    {
      value
    }
  }

  /** `f` applied to every element in order, stopping at the first failure
      the way a Python loop stops at the first exception. */
  function MapAll<A, B>(f: A -> Result<B>, xs: seq<A>): (r: Result<seq<B>>)
    ensures r.Success? <==> forall k :: 0 <= k < |xs| ==> f(xs[k]).Success?
    ensures r.Success? ==> |r.value| == |xs|
    ensures r.Success? ==> forall k :: 0 <= k < |xs| ==> r.value[k] == f(xs[k]).value
  {
    if |xs| == 0 then Success([])
    else
      assert forall k :: 1 <= k < |xs| ==> xs[1..][k - 1] == xs[k];
      var head :- f(xs[0]);
      var rest :- MapAll(f, xs[1..]);
      Success([head] + rest)
  }
}
